=== FILE: README.md ===
# Smart task manager: business rules in Dafny

This project models the business rules of a small task-management system.
The system has a Vue front end and Flask microservices. Each module below
follows one source file and states, as contracts and lemmas, what that file
promises.

Front end (stores, composables, utilities):

- `AuthStore`: the client session store. It covers login, logout, session validation, start-up, and the single 15-minute inactivity timer, modelled as a state machine.
- `NotificationStore`: the notification list. It covers the unread count, the ten most recent entries, the newest-first insert, mark-read and mark-all-read, and the outcomes of the fetch with its fallback.
- `TaskTimeline`: week arithmetic on day numbers (day 0 is 1970-01-01, a Thursday). It covers week navigation, the weekly filter, the per-day buckets and counts, lookup by date, and the week summary.
- `ProjectEvents`: the shared project-created listener list, its cleanup, and emission.
- `NotificationPanel` and `Theme`: the panel's open flag, and the dark-mode preference with its storage and document class held as state.
- `ProfileValidation`, `PasswordValidation` and `EmailFormat`: the form validators and the email pattern they share.
- `MentionUtils`: @mention extraction, rendering, suggestions, keyboard selection, and insertion as a pure function of the text, the selection and the name.
- `DateUtils`: the elapsed-time breakdown and its "time taken" text, on an integer millisecond difference.

Microservices:

- `UserAuthentication` and `UserService`: failed-attempt counting, lockout and auto-unlock, the order of the login checks, sessions with absolute and idle expiry, bearer-token parsing, and the user API mapping.
- `NotificationService`: due-date reminder selection with de-duplication, notification creation, the list with its unread count, the connected-user registry, and mark-read.
- `EmailService`: email-template dispatch by type, priority bucketing, the skip rule, and the SMTP result rules.
- `ReportService`: the report filters, statistics, five-way grouping with the overdue rule, per-member tallies, and the duration and date-range texts.
- `TaskService`, `ProjectService` and `TaskCache`: CRUD payload rules, id and name validation, the 400/404 ordering, the row-to-API mappings, and the TTL user/project cache with task enrichment.

Foundation modules:

- `Common` holds `Option`.
- `Json` models the Python dict / JSON value, with `get`, truthiness and `str()`.
- `Text` models JavaScript and Python whitespace, trimming, ASCII lower case, UTF-16 length, splitting and decimal text.
- `Sorting` is a stable descending sort. It stands for JavaScript's `sort` with a `b - a` comparator and Python's `sorted(reverse=True)`.
- `Tally` holds counts in order of first appearance.

Modelling conventions:

- Time is an integer: milliseconds, or day numbers for calendar dates.
- Database calls, HTTP responses, clocks, token generation, password hashing and date parsing enter as parameters or outcome datatypes. A call that may fail is `Ok | NotOk | Throws`, or a fault flag.
- A JavaScript `null`/`undefined` field is `None` in an `Option`.
- Where the password checklist and the strength check disagree, the model follows the code: `checkPasswordRequirements` tests length with `/.{15,}/`, which stops at line terminators. `validatePasswordStrength` tests `length < 15`. `PasswordValidation.LineBreakSplitsLengthRun` exhibits a password that one accepts and the other does not.
- The client store has a single timer. It has no warning stage, session extension or audit call, so none is modelled.

## Model

| member | source | states |
|---|---|---|
| AuthStore.Initial | src/stores/auth.js:7-11 | a fresh store takes its token from local storage, is not authenticated and satisfies the store invariant |
| AuthStore.StartSessionTimer | src/stores/auth.js:16-25 | the held timeout is cleared and exactly one new one is pending, due SESSION_DURATION (15 minutes) after now; user and token are untouched |
| AuthStore.ResetSessionTimer | src/stores/auth.js:16-31 | a no-op unless authenticated; when authenticated, exactly one timeout is pending, due 15 minutes from now, no timeout fires any earlier, and the armed one logs the user out from its deadline on; the invariant is kept |
| AuthStore.Login | src/stores/auth.js:33-62 | a non-OK answer or a thrown error rethrows with the store unchanged; success sets user, token and stored token together and arms the timer |
| AuthStore.Logout | src/stores/auth.js:64-87 | user, token, stored token and timer all end cleared and no timeout is pending; the remote call is made exactly when a token is held |
| AuthStore.ValidateSession | src/stores/auth.js:89-116 | no token: false and no change; OK: true, user replaced, timer re-armed; non-OK or thrown: the result of Logout and false |
| AuthStore.InitializeAuth | src/stores/auth.js:118-125 | without a token nothing changes; a valid token leaves the user signed in with a pending timer; an invalid one leaves the store signed out |
| AuthStore.Fire | src/stores/auth.js:21-24 | a timeout that is not pending or not yet due changes nothing; a due one logs out |
| UserAuthentication.FindUserByEmail | src/microservices/users/userAuthentication.py:177-182 | the index of the first user row with that email, or -1 when no row has it |
| UserAuthentication.DeleteSessions | src/microservices/users/userAuthentication.py:140 | no row with the token is left, every other row stays, and nothing new appears |
| UserAuthentication.IsAccountLocked | src/microservices/users/userAuthentication.py:48-61 | a set flag with a future lock time is locked with no write; with a past lock time the row is unlocked (flag cleared, time NULL) and false is reported; otherwise the stored flag |
| UserAuthentication.FailedAttemptPatch | src/microservices/users/userAuthentication.py:64-80 | the new count is the old one plus one, and the account is locked until now + 15 minutes exactly when the new count reaches MAX_FAILED_ATTEMPTS (5) |
| UserAuthentication.IncrementFailedAttempts | src/microservices/users/userAuthentication.py:64-80 | every row of the user gets count + 1, is locked exactly when it was or the count reaches 5, with lock time now + 15 minutes in that case; other rows, sessions and audit log are unchanged |
| UserAuthentication.ResetFailedAttempts | src/microservices/users/userAuthentication.py:83-90 | every row of the user ends with no failed attempts, no lock and the login time; other rows are unchanged |
| UserAuthentication.CreateSession | src/microservices/users/userAuthentication.py:93-115 | the session list grows by one row at the end and keeps every earlier row; the new row carries the user, token and id, was last active now and expires SESSION_TIMEOUT after that; users and audit log are unchanged |
| UserAuthentication.ValidateSession | src/microservices/users/userAuthentication.py:118-161 | an unknown token gives None and no write; an expired or idle session is deleted and gives None; a live session has its activity time refreshed and gives exactly its user, with the session id, when that user exists, and None otherwise |
| UserAuthentication.CreateThenValidate | src/microservices/users/userAuthentication.py:93-161 | a session created for an existing user validates to that user and the new session id exactly until SESSION_TIMEOUT after its creation |
| UserAuthentication.InactivityNeverDecides | src/microservices/users/userAuthentication.py:93-107 | when the activity time is never earlier than creation, a session is live exactly until its absolute expiry, because both limits are 15 minutes |
| UserAuthentication.ValidationKeepsActivityBound | src/microservices/users/userAuthentication.py:132-146 | validation keeps every session's activity time between creation and now, so the bound above holds for all rows the service writes |
| UserAuthentication.BearerToken | src/microservices/users/userAuthentication.py:253-256 | a token is found exactly when the header starts with "Bearer " |
| UserAuthentication.BearerRoundTrip | src/microservices/users/userAuthentication.py:234-235 | extraction undoes "Bearer " + token, and only that header yields that token |
| UserAuthentication.NormalizeEmail | src/microservices/users/userAuthentication.py:173 | the lookup key is the lower-cased input with exactly its leading and trailing Python whitespace removed: it sits in the lower-cased input with only whitespace before and after it, has no upper-case ASCII letter, and is empty exactly when the input is all whitespace |
| UserAuthentication.NormalizeEmailKeepsNormal | src/microservices/users/userAuthentication.py:173 | an email already in lower case and without surrounding whitespace is its own key |
| UserAuthentication.NormalizeEmailIdempotent | src/microservices/users/userAuthentication.py:350 | normalising a normalised email changes nothing, so register and login agree on the key |
| UserAuthentication.Login | src/microservices/users/userAuthentication.py:164-225 | a missing email or password is 400 with no write; an email no row holds is 401 "Invalid email or password" with no write; otherwise the answer is exactly the credential check on the found user; only OK hands out the new token; a refusal creates no session; the audit log is never touched |
| UserAuthentication.CheckCredentials | src/microservices/users/userAuthentication.py:184-221 | a current lock is 423 with no write whatever the password; an unlocked but deactivated account is 401 with every failed-attempt counter and session untouched; OK exactly when the lock is absent or expired, the account is active and the string password verifies, and then exactly the new session is appended |
| UserAuthentication.LoginThenValidate | src/microservices/users/userAuthentication.py:164-225 | after a successful login, the token it hands out validates later exactly until the session timeout has passed, naming the logged-in user and the new session |
| UserAuthentication.LockedRefusesAnyPassword | src/microservices/users/userAuthentication.py:184-188 | through the whole login, a locked account is refused with 423 and nothing is written |
| UserAuthentication.WrongPasswordCounts | src/microservices/users/userAuthentication.py:194-198 | a wrong password on an active unlocked account answers 401, adds one failed attempt and locks for 15 minutes when the count reaches 5 |
| UserAuthentication.RelockAfterExpiry | src/microservices/users/userAuthentication.py:50-80 | after a lock runs out the counter is still at least 4, so the next wrong password locks the account again for a full period |
| UserAuthentication.SuccessResetsCounters | src/microservices/users/userAuthentication.py:200-201 | a successful login leaves the user's row with no failed attempts, no lock and the login time |
| UserAuthentication.Logout | src/microservices/users/userAuthentication.py:228-244 | 500 with no write exactly when a bearer token is given and the delete fails, 200 otherwise; on 200 every session with that token is deleted and every other session kept; without a token nothing changes |
| UserAuthentication.UserInfo | src/microservices/users/userAuthentication.py:264-272 | exactly the seven public keys, with the user id and the session id of the session |
| UserAuthentication.ValidateEndpoint | src/microservices/users/userAuthentication.py:247-278 | 401 without a bearer token; with one, 200 exactly when the token names a live session whose user exists, and then the reply carries that user and session id |
| UserAuthentication.AuditLog | src/microservices/users/userAuthentication.py:281-327 | 201 exactly when the token is valid and event_type is truthy, and then exactly one audit row carrying that event type is appended; otherwise the log is unchanged |
| UserAuthentication.Register | src/microservices/users/userAuthentication.py:340-381 | no body is 500 and missing fields 400, both with no write; 409 exactly when the string email is already taken, whatever the password; 201 exactly when the fields are present, email and password are strings and the normalised email is free, and the new user is active with role "user" unless given |
| UserAuthentication.RegisterThenLogin | src/microservices/users/userAuthentication.py:350-372 | registering an email no row claims succeeds, and logging in afterwards with the same body succeeds when the stored hash verifies |
| UserService.MapDbRowToApi | src/microservices/users/user_service.py:73-83 | exactly the eight API keys, each the row's value or None when the column is absent |
| UserService.ValidateSession | src/microservices/users/user_service.py:30-70 | an error or an unknown token gives None and no write; an expired or idle session is deleted and every other row kept; a live session has exactly its rows refreshed to now and gives the session's user whenever that user exists |
| UserService.SessionFromLoginValidates | src/microservices/users/user_service.py:30-70 | a session the authentication service stores for an existing user is accepted here for that user exactly until SESSION_TIMEOUT after its creation |
| UserService.GetCurrentUser | src/microservices/users/user_service.py:86-121 | without a bearer token: 401 with no fallback id, else 500 exactly on a database fault, 404 exactly when the fallback user is missing, and 200 with that user's API row; with one: 200 exactly when the token names a live session of an existing, non-empty user row, and then the body is that user's API row; 401 otherwise |
| NotificationService.Assign | src/microservices/notifications/notification_service.py:59 | the user now maps to the new socket id, every other user keeps their entry, and user ids stay distinct |
| NotificationService.Join | src/microservices/notifications/notification_service.py:54-61 | a missing or empty user id leaves the registry alone; otherwise that user maps to the caller's socket id and nobody else changes |
| NotificationService.FirstWithSid | src/microservices/notifications/notification_service.py:44-48 | the first entry in insertion order holding the socket id, or -1 when none holds it |
| NotificationService.Disconnect | src/microservices/notifications/notification_service.py:41-52 | the first user holding the socket id is removed (when that user id is truthy), and an unknown socket changes nothing |
| NotificationService.JoinThenDisconnect | src/microservices/notifications/notification_service.py:41-61 | a user who joins with a socket id no other user holds is gone once that socket disconnects, and every other user keeps their socket |
| NotificationService.RemoveAt | src/microservices/notifications/notification_service.py:51 | deleting one entry keeps user ids distinct, drops that user, and leaves every other user's socket as it was |
| NotificationService.CreateNotification | src/microservices/notifications/notification_service.py:130-140 | the stored row has created_at = now, is_read = false and an id, keeps every other payload field, and is appended to the table |
| NotificationService.ReminderDays | src/microservices/notifications/notification_service.py:172-181 | a stored list is used as is; no row, a failed lookup or a row without the key give [7, 3, 1]; a NULL list means the task is skipped |
| NotificationService.ReminderTitle | src/microservices/notifications/notification_service.py:203 | "Task Due in d Day", ending in "s" exactly when d > 1, and nothing else after it |
| NotificationService.ReminderData | src/microservices/notifications/notification_service.py:201-208 | the payload carries exactly the six keys, type reminder_d_days, the task id, the owner as recipient and the reminder title |
| NotificationService.RemindOnce | src/microservices/notifications/notification_service.py:194-229 | nothing happens unless the task is due in exactly d days; then a raising reminder lookup gives None and writes nothing; otherwise, when no reminder of that type is stored for the task, exactly one such row is appended, it is emitted in real time to the owner exactly when the owner is connected, and it is then published under task.reminder.<d>_days with the stored id; earlier effects are kept |
| NotificationService.RemindDays | src/microservices/notifications/notification_service.py:193-233 | the days are tried in order; a task whose reminder lookup raises ends its pass with nothing stored, emitted or published for it, and otherwise the table is only appended to |
| NotificationService.RoutingKey | src/microservices/notifications/notification_service.py:218-219 | the topic starts with "task.reminder.", ends with the reminder type's "<d>_days" part and has no further dot, so the queue binding task.reminder.* matches it |
| NotificationService.RemindTask | src/microservices/notifications/notification_service.py:171-233 | a task's pass only appends to the notifications table, and a task with a due date whose reminder lookup raises is left exactly as it was |
| NotificationService.CheckDueDateReminders | src/microservices/notifications/notification_service.py:161-236 | a raising task fetch ends the run with nothing changed; otherwise the table is only appended to, and every fetched task whose reminder lookup succeeded has each reminder it is due for today stored |
| NotificationService.RunCovers | src/microservices/notifications/notification_service.py:171-233 | after the loop over the tasks, every task whose reminder lookup succeeded and that is due today on one of its reminder days has that reminder stored |
| NotificationService.RunStable | src/microservices/notifications/notification_service.py:194-199 | when every due reminder is already stored, the loop changes nothing and publishes nothing, whether or not lookups raise |
| NotificationService.ReminderRunIdempotent | src/microservices/notifications/notification_service.py:161-236 | after a first run whose reminder lookups all succeeded, a second run on the same day stores, emits and publishes nothing, whether its own fetch or lookups fail or not |
| NotificationService.RemindOnceOnlyWhenDue | src/microservices/notifications/notification_service.py:195-199 | a reminder is stored only on a reminder day the task is due in, only when the lookup succeeded, and only when none was stored before |
| NotificationService.CountUnread | src/microservices/notifications/notification_service.py:261 | exactly the number of rows whose is_read is present and falsy; zero exactly when no row is unread |
| NotificationService.NewestForUser | src/microservices/notifications/notification_service.py:142-149 | min(limit, number of the user's rows) of the user's own rows, newest first, and every row of the user left off the page is no newer than any row on it |
| NotificationService.GetNotifications | src/microservices/notifications/notification_service.py:249-270 | 400 exactly without a truthy user id, 200 otherwise; the list is the user's newest rows, or empty when the query raises (the helper answers []), total = its length, and unread_count = the exact number of its rows that are unread |
| NotificationService.AbsentReadFlagCountsAsRead | src/microservices/notifications/notification_service.py:261 | a row without is_read is never counted as unread |
| NotificationService.CreatedIsUnread | src/microservices/notifications/notification_service.py:134 | a freshly stored notification counts as unread |
| NotificationService.MarkRows | src/microservices/notifications/notification_service.py:154 | the matching rows get is_read = true and every other row is unchanged |
| NotificationService.MarkRead | src/microservices/notifications/notification_service.py:272-287 | 400 without a user id; a raising update is the same 400 with nothing written; otherwise only the user's row with that id is marked read, and 200 exactly when such a row existed |
| NotificationService.MarkAllRead | src/microservices/notifications/notification_service.py:289-302 | 400 without a truthy user id; with one, 500 with nothing written when the update raises and 200 otherwise; on 200 exactly the user's rows holding is_read = false are marked read |
| NotificationService.MarkAllReadIdempotent | src/microservices/notifications/notification_service.py:289-302 | marking all read a second time changes nothing and gives the same answer, failing or not |
| NotificationService.MarkAllClearsUnread | src/microservices/notifications/notification_service.py:289-302 | after a successful update none of the user's rows counts as unread, as long as no row of theirs holds a NULL is_read |
| NotificationService.ParseNotificationCreate | src/microservices/notifications/notification_service.py:71-77 | accepted exactly when user_id, title and message are strings, type is absent or a string, and task_id and due_date are absent, null or strings; each accepted field is the body's value under its key; type defaults to "reminder" |
| NotificationService.ParseNotificationCreateIdempotent | src/microservices/notifications/notification_service.py:71-77 | an accepted body parses again to the same notification |
| NotificationService.CreateEndpoint | src/microservices/notifications/notification_service.py:304-337 | an invalid body is 400 with no write; a raising insert is 500 with no write and no effects; otherwise 201, an unread row holding every validated field is stored, it is emitted in real time exactly when the user is connected, and it is published last under notification.<type> with the stored id |
| EmailService.FrontendUrl | src/microservices/notifications/email_service.py:27 | a set FRONTEND_URL is used as is, even when empty; an unset one gives http://localhost:3000 |
| EmailService.PriorityValue | src/microservices/notifications/email_service.py:35-41 | a string of digits becomes its number, any other string 5; numbers and booleans pass through; None, lists and dicts cannot be compared and raise |
| EmailService.LevelOf | src/microservices/notifications/email_service.py:47-55 | high exactly from 8 up, medium exactly from 5 to 7, low exactly below 5 |
| EmailService.Link | src/microservices/notifications/email_service.py:37 | a truthy id gives the base followed by the path and the id; a falsy one gives the bare base |
| EmailService.Dispatch | src/microservices/notifications/email_service.py:72-331 | reminder types get the reminder subject; due_date_change, task_comment, project_created and project_assigned each get their own subject with the task title; all of these get the task link; project comments get the project's name and link; any other type is skipped when its message is falsy or blank, raises when it is a truthy non-string, and otherwise gets the generic subject |
| EmailService.KnownTypesAreNotReminders | src/microservices/notifications/email_service.py:72-285 | no type with its own template starts with "reminder_", so the order of the checks does not matter |
| EmailService.CreateEmailTemplate | src/microservices/notifications/email_service.py:30-363 | an incomparable priority raises whatever the type; an email exactly when the priority is comparable and the type dispatches to one, a raise exactly when either fails; every email carries the subject and link its type dispatches to (the task link except for project comments), the colour and label of the priority's level, and a day count exactly for reminders, which is the second "_"-separated part of the type; a reminder's subject names the task title; no email exactly for an unknown type with a falsy or blank message |
| EmailService.ReminderDaysRoundTrip | src/microservices/notifications/email_service.py:73 | for the reminder type the reminder run writes for d days, the email reads back exactly d |
| EmailService.PriorityBuckets | src/microservices/notifications/email_service.py:39-52 | a non-numeric priority string is read as 5, so a comment email shows "Priority: 5/10 (Medium)" in orange |
| EmailService.SendEmail | src/microservices/notifications/email_service.py:366-395 | without both an SMTP user and a password nothing is sent and false is returned; with both the server is contacted and the answer is whether the exchange succeeded |
| EmailService.NotificationData | src/microservices/notifications/email_service.py:436-448 | exactly the eleven keys of the data dict are present; priority is the given one and every other key holds its argument, None when not passed |
| EmailService.NotificationDataWithDefaults | src/microservices/notifications/email_service.py:436-448 | the same entries with the unpassed ones left out, so the template's own defaults apply: task title, project name, commenter name and message are absent exactly when not passed |
| EmailService.SendNotificationEmail | src/microservices/notifications/email_service.py:398-459 | no template means false without contacting the server; a template error propagates; with a template the answer is the mail sender's |
| EmailService.UntitledReminderAsWritten | src/microservices/notifications/email_service.py:33-74 | as written, a reminder sent without a task title gets the subject "Task Reminder: None" |
| EmailService.UntitledReminderWithDefaults | src/microservices/notifications/email_service.py:33-74 | with the unpassed entries left out, the same reminder gets "Task Reminder: Untitled Task" |
| EmailService.MissingMessageStillSkipped | src/microservices/notifications/email_service.py:324-329 | leaving out the unpassed entries still skips a generic notification that has no message |
| NotificationStore.UnreadCount | src/stores/notifications.js:9-11 | exactly the number of entries whose is_read is falsy; zero exactly when every entry is read, and the full length exactly when none is |
| NotificationStore.Recent | src/stores/notifications.js:13-15 | the first ten entries, or the whole list when it is shorter |
| NotificationStore.AddNotification | src/stores/notifications.js:129-136 | the list gains exactly the new entry and stays newest first |
| NotificationStore.AddNotificationPosition | src/stores/notifications.js:131-134 | on a list already newest first, the new entry lands right before the first entry that is not newer, and the others keep their order |
| NotificationStore.FirstWithId | src/stores/notifications.js:74 | the first entry with that id, or -1 when there is none |
| NotificationStore.MarkFirst | src/stores/notifications.js:74-77 | only the first entry with that id becomes read; with no match nothing changes |
| NotificationStore.MarkAsRead | src/stores/notifications.js:62-99 | whether the request succeeds, fails or throws, only the first local entry with that id is marked read |
| NotificationStore.MarkAsReadCount | src/stores/notifications.js:62-99 | the unread count drops by one exactly when the first entry with that id was unread, and otherwise stays |
| NotificationStore.MarkAll | src/stores/notifications.js:113 | every entry becomes read and nothing else about it changes |
| NotificationStore.MarkAllAsRead | src/stores/notifications.js:101-127 | in every outcome of the request the unread count becomes zero, and the entries keep their ids and times |
| NotificationStore.Sorted | src/stores/notifications.js:30-32 | the response's entries, none lost or added, newest first |
| NotificationStore.FetchNotifications | src/stores/notifications.js:18-60 | a user id that is falsy in JavaScript (null, false, 0, "") changes nothing, while an array or object id does fetch; otherwise the primary list, else on an error answer the fallback list, else the old list; a throw empties the list; loading always ends false and the list stays newest first |
| ReportService.StatusText | src/microservices/reports/report_service.py:72 | an absent status reads as the empty text; a present one is readable exactly when it is a string |
| ReportService.BoundsDecision | src/microservices/reports/report_service.py:87-98 | never raises; keeps the task exactly when each given bound parses and the day lies within it, bounds included |
| ReportService.DateDecision | src/microservices/reports/report_service.py:77-98 | without bounds or without a truthy created_at the task passes; a string date is kept exactly when it parses to a day within the bounds |
| ReportService.Decide | src/microservices/reports/report_service.py:69-100 | with the status filter in force a kept task's status matches some filter entry ignoring case; without it only the date test decides; a kept task always passes the date test |
| ReportService.FilterTasks | src/microservices/reports/report_service.py:68-103 | fails exactly when some task raises; otherwise the kept tasks are a subsequence of the input holding exactly the tasks that pass, as many as the input has passing tasks, in their original order |
| ReportService.NoFiltersKeepAll | src/microservices/reports/report_service.py:71-100 | with no status filter in force and no date bound every task is kept, in order |
| ReportService.AllMeansNoStatusFilter | src/microservices/reports/report_service.py:71 | a filter containing "All" gives the same result as no status filter |
| ReportService.FetchTasksForUser | src/microservices/reports/report_service.py:41-110 | a failed call is a request error; fails exactly when the call succeeds and some task raises; otherwise exactly the passing tasks are returned, each as often as in the answer, in their original order |
| ReportService.CountStatus | src/microservices/reports/report_service.py:154-156 | the number of positions whose task has a readable status equal to the name once lowercased, never more than the number of tasks |
| ReportService.CountStatusOrderFree | src/microservices/reports/report_service.py:154-156 | reordering the tasks leaves every status count unchanged |
| ReportService.Rate | src/microservices/reports/report_service.py:157 | 0 without tasks; otherwise rate times total is 100 times completed; always between 0 and 100 |
| ReportService.StatusCountsDisjoint | src/microservices/reports/report_service.py:154-156 | the completed, ongoing and under-review counts together never exceed the number of tasks |
| ReportService.Summarize | src/microservices/reports/report_service.py:153-157 | the total is the number of tasks; completed, ongoing and under-review are the numbers of tasks with that status; the three fit within the total; the rate is the completion rate of those counts |
| ReportService.SummaryOrderFree | src/microservices/reports/report_service.py:153-157 | the summary is the same whatever order the task service lists the tasks in |
| ReportService.CompletedMembers | src/microservices/reports/report_service.py:167-168 | each member appears exactly as often as it has completed tasks |
| ReportService.CompletedWithinTotal | src/microservices/reports/report_service.py:163-168 | no member has more completed tasks than tasks |
| ReportService.PerfRows | src/microservices/reports/report_service.py:237-246 | one row per tallied member, with its count as total and its completed count looked up |
| ReportService.TotalOfPerfRows | src/microservices/reports/report_service.py:237-246 | the rows' totals add up to the tally's sum |
| ReportService.RowsAreMembers | src/microservices/reports/report_service.py:238-239 | every row of a reordered tally has its member's number of tasks (more than zero) and of completed tasks |
| ReportService.MembersHaveRows | src/microservices/reports/report_service.py:238 | every member appears in a row |
| ReportService.TeamRows | src/microservices/reports/report_service.py:160-246 | rows ordered by total, largest first; each total is the member's number of tasks and each completed count the member's completed tasks; exactly the members appear |
| ReportService.TeamPerformance | src/microservices/reports/report_service.py:236-246 | rows ordered by total, largest first, naming exactly the members, with their task and completed counts |
| ReportService.TeamTotals | src/microservices/reports/report_service.py:160-246 | the members' totals add up to the number of tasks, and nobody completed more than they have |
| ReportService.GroupingStatus | src/microservices/reports/report_service.py:181 | an absent status reads as "Unassigned" and a string status as itself |
| ReportService.GroupOf | src/microservices/reports/report_service.py:184-212 | overdue exactly when the task is overdue or its status is "Overdue"; otherwise an exact group name picks its group |
| ReportService.CompletedNeverOverdue | src/microservices/reports/report_service.py:186-210 | a status that reads "completed" in any letter case always lands in Completed, never in Overdue |
| ReportService.InGroup | src/microservices/reports/report_service.py:198-212 | a group's list holds exactly the tasks that belong to it, in task order |
| ReportService.GroupsPartition | src/microservices/reports/report_service.py:172-212 | every task lands in exactly one group: the five sizes add up to the number of tasks |
| ReportService.FindProject | src/microservices/reports/report_service.py:133-137 | the first project with that id, or -1 when none has it |
| ReportService.DisplayDate | src/microservices/reports/report_service.py:215-234 | falsy values and "N/A" are shown as they are; other values become a formatted date, or "N/A" when formatting fails |
| ReportService.ProjectInfo | src/microservices/reports/report_service.py:250-259 | exactly the eight keys, with "Untitled Project" for a missing name and "N/A" for a missing creation date |
| ReportService.BuildReport | src/microservices/reports/report_service.py:150-267 | the report names the found project; its summary is the tasks' summary, and both the groups and the team totals account for every task |
| ReportService.FetchProjectReportData | src/microservices/reports/report_service.py:113-283 | a failed project call is a request error; a missing project fails before the tasks are fetched; once found, a failed task call is a request error and otherwise a report comes back exactly when every status is readable and every member hashable; the report names the requested project and its summary, groups and team totals account for every task |
| ReportService.PreviewProjectReport | src/microservices/reports/report_service.py:1189-1220 | 400 without a project id; with one, 503 exactly when a service call raises a request error (a failed project call always does); 500 for any other error; 200 exactly when a report is returned, and that report names the requested project |
| ReportService.CalculateDuration | src/microservices/reports/report_service.py:286-315 | "Ongoing" when a date is falsy; "N/A" exactly when a date read fails with ValueError or AttributeError; an escaping TypeError exactly for a wrongly typed value or for mixing offset-aware and offset-naive instants; otherwise the whole days elapsed, rounded down, as "< 1 day", "1 day" or "N days" |
| ReportService.DateRangeText | src/microservices/reports/report_service.py:547-554 | "S to E", "From S", "Until E" or "All time", by which bounds are given |
| ReportService.StatusFilterLine | src/microservices/reports/report_service.py:556-557 | present exactly when the filter is in force, listing the entries joined by ", " |
| ReportService.FilterList | src/microservices/reports/report_service.py:1142-1146 | a string (even empty) becomes a one-entry list; a falsy value and a list or dict holding "All" mean no filter; a list without "All" is usable exactly when every entry is a string, entry by entry; a truthy number or boolean raises |
| ReportService.Bound | src/microservices/reports/report_service.py:1140-1141 | a falsy value is no bound; a truthy string is that bound |
| ReportService.GenerateReport | src/microservices/reports/report_service.py:1112-1186 | 400 without a user id or with a start date that does not parse; 503 exactly when the checks pass and the task call fails; 200 exactly when the checks pass, the call succeeds, the filter is usable, no task raises, every kept task renders in the PDF and the user name is a string; on success the tasks are exactly the filtered ones in order and the date range text matches the bounds |
| ReportService.UnrenderableTaskFailsReport | src/microservices/reports/report_service.py:578-693 | with no bounds and no status filter, one task whose status is not a string, whose completed duration raises, or whose title cannot be sliced makes the report 500 |
| ReportService.UnfilteredReportKeepsEveryTask | src/microservices/reports/report_service.py:1134-1166 | with no bounds, no status filter, a usable name and tasks that all render, the report is 200, lists every task in order, reads "All time" and has no status line |
| ReportService.ValidatedBoundsDecideByDay | src/microservices/reports/report_service.py:1148-1159 | once both bounds have been validated, a dated task is kept exactly when its day lies within them |
| TaskService.MapDbRowToApi | src/microservices/tasks/task_service.py:39-50 | exactly the eight API keys; id is task_id when truthy, else the row's id; dueDate comes from due_date; description and updated_at take their defaults only when the key is absent |
| TaskService.ValidTaskIdIffNotBlank | src/microservices/tasks/task_service.py:52-54 | an id is valid exactly when it is not all whitespace, the empty id included |
| TaskService.FindTask | src/microservices/tasks/task_service.py:59-61 | the first row with that task_id, or -1 when no row has it |
| TaskService.GetTaskById | src/microservices/tasks/task_service.py:56-64 | None exactly on a database error or a missing task; a found task has exactly the six selected columns and the requested id |
| TaskService.GetTask | src/microservices/tasks/task_service.py:121-138 | 400 for a blank id before any lookup, 404 when the lookup finds nothing, otherwise 200 with the task in API form; nothing is written |
| TaskService.FetchedTaskUsesDefaults | src/microservices/tasks/task_service.py:44-59 | since the query selects neither description nor updated_at, a fetched task always shows the default description and updated_at equal to created_at |
| TaskService.TaskCreate | src/microservices/tasks/task_service.py:26-30 | valid exactly when title is a string and due_date, status and owner_id are absent, null or strings; status defaults to "Unassigned" and the others to None |
| TaskService.UpdateData | src/microservices/tasks/task_service.py:195-196 | exactly the TaskUpdate fields that are present and not None, with their values |
| TaskService.ApplyUpdate | src/microservices/tasks/task_service.py:199 | the rows of the task take the payload's values and every other row is untouched |
| TaskService.StoredRow | src/microservices/tasks/task_service.py:156-160 | the validated fields plus created_at and the assigned task_id, every field kept |
| TaskService.CreateTask | src/microservices/tasks/task_service.py:141-170 | an invalid body is 400 and a non-object body 500, with nothing written; 201 exactly when the body is valid and the insert succeeds, appending one row with the fields, created_at and the new id |
| TaskService.UpdateTask | src/microservices/tasks/task_service.py:173-209 | 400 for a blank id, then 404 for a missing task, then 400 for an object body failing the update schema; 200 exactly when the task is found, the body is a valid object and the write succeeds, and then exactly the non-None fields are written to the task's rows and the body is the updated task; on failure nothing is written |
| TaskService.UpdateTouchesOnlyGivenFields | src/microservices/tasks/task_service.py:195-199 | an update of an existing task with a valid body succeeds and leaves every column it does not name with a non-None value as it was |
| TaskService.DeleteRows | src/microservices/tasks/task_service.py:227 | exactly the rows of other tasks remain, in order |
| TaskService.DeleteTask | src/microservices/tasks/task_service.py:212-235 | 400 for a blank id, then 404 for a missing task; 200 exactly when the task exists and the delete succeeds, naming the id and removing all its rows |
| TaskService.DeleteShrinks | src/microservices/tasks/task_service.py:227 | deleting an existing task leaves fewer rows |
| ProjectService.StrippedField | src/microservices/projects/project_service.py:39 | an absent key reads as the empty text, a string is stripped, and any other value raises |
| ProjectService.CreatedBy | src/microservices/projects/project_service.py:48 | a truthy owner_id is used as given; otherwise the stripped created_by, or "Unknown" when that is empty; the result is never the empty text |
| ProjectService.ProjectData | src/microservices/projects/project_service.py:45-50 | built exactly when the stripped fields are strings; exactly the four keys, with the stripped name and description, the created_by fallback and due_date as given |
| ProjectService.CreateProject | src/microservices/projects/project_service.py:33-61 | a blank stripped name is 400; 201 exactly for an object body with a non-blank name and strippable fields when the insert succeeds, appending the payload with its id and timestamp and returning it; otherwise nothing is written |
| ProjectService.UpdateData | src/microservices/projects/project_service.py:113-126 | built exactly when the stripped fields are strings; holds exactly the editable fields present in the body, stripped except due_date, which is copied as given |
| ProjectService.ApplyUpdate | src/microservices/projects/project_service.py:132 | the project's rows take the payload's values and every other row is untouched |
| ProjectService.FindProject | src/microservices/projects/project_service.py:132-135 | the first row of the project, or -1 when there is none |
| ProjectService.UpdateProject | src/microservices/projects/project_service.py:104-140 | a blank stripped name is 400; 200 exactly when the body is valid and the project has a row, writing the payload (which always holds project_name) to its rows; a valid body with no matching row is 404; on failure nothing is written |
| ProjectService.NameAlwaysUpdated | src/microservices/projects/project_service.py:110-129 | a body that passes the name check and whose other stripped fields are strings yields a payload holding project_name, so "No valid fields to update" is never answered |
| ProjectService.DeleteRows | src/microservices/projects/project_service.py:147 | exactly the rows of other projects remain, in order, and the table shrinks exactly when the project had a row |
| ProjectService.DeleteProject | src/microservices/projects/project_service.py:143-155 | 200 exactly when the project has a row and the call succeeds, removing all its rows; 404 when it has none; otherwise nothing is written |
| ProjectService.MapDbRowToApi | src/microservices/projects/project_service.py:63-71 | exactly the six project columns, each the row's value or None |
| ProjectService.Filter | src/microservices/projects/project_service.py:90-93 | exactly the rows matching the given created_by and project_id filters, in order |
| ProjectService.GetProjects | src/microservices/projects/project_service.py:74-101 | the matching rows newest first in API form, cut to a positive limit; a zero limit means no limit; a database error or a negative limit is 500 |
| ProjectService.SortedRows | src/microservices/projects/project_service.py:85 | the same rows, newest created_at first |
| TaskCache.FirstUser | src/microservices/tasks/optimizations.py:26-28 | None exactly when no row has the id; otherwise the selected columns of a row with that id |
| TaskCache.GetCachedUser | src/microservices/tasks/optimizations.py:14-34 | an entry younger than CACHE_TTL (300 s) is returned without a query; otherwise a found user is returned and cached with the current time, and a missing user or a failing query gives None with the cache untouched |
| TaskCache.HitIgnoresDatabase | src/microservices/tasks/optimizations.py:19-22 | a fresh hit gives the same answer whatever the database holds or whether it fails, and leaves the cache as it was |
| TaskCache.FetchedUserServedWhileFresh | src/microservices/tasks/optimizations.py:21-29 | a user fetched at time t is served from the cache by any call before t + 300, whatever the database then holds |
| TaskCache.UnboundClientAnswersHits | src/microservices/tasks/optimizations.py:4-31 | with the database client never bound, a stale or missing entry gives None even for a user the table holds, and a batch answers only its cache hits |
| TaskCache.GetCachedProject | src/microservices/tasks/optimizations.py:36-48 | a value exactly for a fresh entry, and then the cached one; a miss never reaches a database |
| TaskCache.Missing | src/microservices/tasks/optimizations.py:60-67 | exactly the requested ids without a fresh entry, in request order |
| TaskCache.Hits | src/microservices/tasks/optimizations.py:60-66 | exactly the requested ids with a fresh entry, each mapped to its cached row |
| TaskCache.QueryUsers | src/microservices/tasks/optimizations.py:72 | the selected rows of exactly the users whose id is among the missing ones |
| TaskCache.StoreFetched | src/microservices/tasks/optimizations.py:73-77 | every fetched row is added to the result under its user_id and cached with the current time; entries no fetched row names keep their values |
| TaskCache.BatchFetchUsers | src/microservices/tasks/optimizations.py:50-81 | an empty request is {} with nothing fetched; fresh entries answer their ids; every requested user found in the table is in the result and cached at the current time; a failing query leaves only the hits; every answer is a hit or a fetched row; the cache gains exactly the fetched users' keys and every entry no fetched row names is unchanged |
| TaskCache.BatchHitsKept | src/microservices/tasks/optimizations.py:60-77 | no fetched row overwrites a cache hit |
| TaskCache.BatchAgreesWithSingle | src/microservices/tasks/optimizations.py:14-81 | with unique string user ids, the batch answer for a requested id equals what a single cached lookup gives |
| TaskCache.CacheGet | src/microservices/tasks/optimizations.py:89 | an unhashable key raises; otherwise the cached row when the key is present |
| TaskCache.Collaborators | src/microservices/tasks/optimizations.py:95-100 | an absent value reads as []; a JSON string is decoded, bad JSON giving []; any other value is kept |
| TaskCache.CollaboratorDetails | src/microservices/tasks/optimizations.py:102-111 | fails exactly when some id is unhashable; otherwise one detail per collaborator with a non-empty cached row, in order |
| TaskCache.CachedIds | src/microservices/tasks/optimizations.py:104-106 | exactly the ids with a non-empty cached row, in order |
| TaskCache.Detail | src/microservices/tasks/optimizations.py:107-111 | exactly user_id, name and email, with "Unknown User" and "" when the cached row lacks them |
| TaskCache.OptimizeTaskWithMetadata | src/microservices/tasks/optimizations.py:83-114 | a copy that keeps every field of the task and adds only owner_name, owner_email and collaborator_details; the owner fields appear exactly when the owner is in a non-empty cache with a non-empty row; details appear whenever there are collaborators and the cache is non-empty |
| TaskTimeline.DayOfWeek | src/composables/useTaskTimeline.js:35 | a weekday number from 0 (Sunday) to 6 |
| TaskTimeline.WeekStart | src/composables/useTaskTimeline.js:33-38 | a Sunday, at most six days before the day and never after it |
| TaskTimeline.WeekStartUnique | src/composables/useTaskTimeline.js:33-38 | the only Sunday among the day and the six days before it is its week start |
| TaskTimeline.WeekStartOfWeekDay | src/composables/useTaskTimeline.js:33-38 | every day of a week has that week's Sunday as its week start |
| TaskTimeline.WeekRange | src/composables/useTaskTimeline.js:43-63 | a week from a Sunday to the Saturday six days later, with the seven days in order, moved from today's week by whole weeks; offset 0 contains today |
| TaskTimeline.NextWeekFollows | src/composables/useTaskTimeline.js:47-52 | the next offset's week begins the day after this week ends |
| TaskTimeline.NavigationRoundTrip | src/composables/useTaskTimeline.js:176-191 | back then forward (or forward then back) returns to the same offset; "current" selects the week containing today, and only offset 0 counts as the current week |
| TaskTimeline.WeeklyTasks | src/composables/useTaskTimeline.js:80-103 | [] unless the tasks are an array; otherwise exactly the tasks that are not Completed and have a truthy due date whose day falls in the week, in order |
| TaskTimeline.Bucket | src/composables/useTaskTimeline.js:123-131 | exactly the tasks whose due day is the key, in order |
| TaskTimeline.DateKeys | src/composables/useTaskTimeline.js:116-120 | one key per day of the week, each moved by the same whole-day shift |
| TaskTimeline.MaxCount | src/composables/useTaskTimeline.js:142 | at least 1, no smaller than any count, and either 1 or one of the counts |
| TaskTimeline.TimelineData | src/composables/useTaskTimeline.js:108-144 | seven keys, each with its bucket of the week's tasks and that bucket's size as its count; the peak is at least 1 and no smaller than any count |
| TaskTimeline.GetTasksForDate | src/composables/useTaskTimeline.js:196-198 | the bucket of a key of the week, and [] for any other key |
| TaskTimeline.BucketsPartition | src/composables/useTaskTimeline.js:122-136 | over distinct keys, the bucket sizes add up to the number of tasks whose due day is one of the keys |
| TaskTimeline.TimelineCountsWeekly | src/composables/useTaskTimeline.js:108-144 | the daily counts never add up to more than the week's tasks, and on Singapore time they add up to exactly that number |
| TaskTimeline.WeekSummary | src/composables/useTaskTimeline.js:203-216 | total is the number of the week's tasks; the tally by status property name (the number 1 and the text "1" share one) adds up to it and counts each name exactly; the peak is the timeline's; days with tasks is exactly the number of days whose count is positive |
| TaskTimeline.DaysWithTasksAtMostTasks | src/composables/useTaskTimeline.js:203-216 | in the summary of any week, the days with tasks are at most seven and at most the number of the week's tasks |
| DateUtils.GetTimeBreakdown | src/utils/dateUtils.js:54-81 | all zero with no running totals exactly for a non-positive difference; otherwise hours below 24 and minutes below 60 that, with the days, make up exactly the whole minutes of the difference, with the running totals nested (hours = minutes / 60, days = hours / 24) |
| Counting.Count | src/stores/notifications.js:8-10 | the number of elements passing the test is the size of the set of positions whose element passes, never more than the length |
| Counting.CountExtremes | src/composables/useTaskTimeline.js:214 | the count is zero exactly when no element passes and the length exactly when every element passes |
| Counting.CountAppend | src/stores/notifications.js:8-10 | the count of a concatenation is the sum of the counts |
| Counting.CountPermutation | src/microservices/reports/report_service.py:154-156 | reordering a sequence leaves every count unchanged |
| DateUtils.CalculateTimeTaken | src/utils/dateUtils.js:11-46 | "Just started" for an unknown, non-positive or under-a-minute difference |
| DateUtils.TimeTakenFromBreakdown | src/utils/dateUtils.js:28-45 | above a minute, the text names the breakdown's largest non-zero unit (singular for one), followed by the next unit's leftover only when it is not zero |
| DateUtils.DaysShown | src/utils/dateUtils.js:29-34 | a difference of a day or more reads as its whole days and leftover hours |
| DateUtils.HoursShown | src/utils/dateUtils.js:35-40 | between an hour and a day the text reads as whole hours and leftover minutes |
| DateUtils.MinutesShown | src/utils/dateUtils.js:41-42 | between a minute and an hour the text reads as whole minutes |
| DateUtils.ShapeIsAmount | src/utils/dateUtils.js:31-34 | each unit's four branches are "N unit(s)" plus the leftover when it is not zero |
| DateUtils.LeadingNumberReadsBack | src/utils/dateUtils.js:28-45 | the first word of the text is all digits and reads back as the days, else the hours, else the minutes of the breakdown |
| DateUtils.LeadsWithNumber | src/utils/dateUtils.js:32-42 | "N unit..." splits on spaces into the digits of N first |
| ProfileValidation.ValidateDisplayName | src/utils/profileValidation.js:16-59 | valid exactly when the name is present and its trimmed text is non-empty and at most 20 long; the error is absent exactly when valid and names the failing rule (required, only whitespace, too long) |
| ProfileValidation.SanitizeDisplayName | src/utils/profileValidation.js:66-69 | '' for a missing name, otherwise the trimmed name |
| ProfileValidation.SanitizeIdempotent | src/utils/profileValidation.js:66-69 | sanitising a sanitised name changes nothing |
| ProfileValidation.SanitizeKeepsValidity | src/utils/profileValidation.js:16-69 | a name and its sanitised form get the same verdict |
| ProfileValidation.ValidateEmail | src/utils/profileValidation.js:76-96 | "required" for missing or blank input; otherwise valid exactly when the trimmed text has the shape local@domain.tld with no spaces or extra @, and "invalid" otherwise |
| ProfileValidation.ValidateProfileData | src/utils/profileValidation.js:103-119 | the only possible error is displayName, present exactly when the display name fails and carrying its message; valid exactly when there are no errors |
| ProfileValidation.SanitizeProfileData | src/utils/profileValidation.js:126-132 | every other field is kept and the display name becomes its sanitised form |
| ProfileValidation.SanitizedProfileSameVerdict | src/utils/profileValidation.js:103-132 | a sanitised profile is valid exactly when the original is |
| ProjectEvents.Initial | src/composables/useProjectEvents.js:4 | the shared list starts empty |
| ProjectEvents.OnProjectCreated | src/composables/useProjectEvents.js:7-8 | the callback is added at the end and every earlier listener keeps its place |
| ProjectEvents.IndexOf | src/composables/useProjectEvents.js:12 | the first position holding the callback, or -1 exactly when it is absent |
| ProjectEvents.Cleanup | src/composables/useProjectEvents.js:11-16 | does nothing when the callback is gone; otherwise removes exactly one occurrence of it |
| ProjectEvents.CleanupKeepsOrder | src/composables/useProjectEvents.js:12-14 | the removed occurrence is the first one, and the other listeners keep their order |
| ProjectEvents.RegisterThenCleanup | src/composables/useProjectEvents.js:7-16 | registering and cleaning up at once restores the list when the callback was new; otherwise its oldest registration goes and the new one stays at the end |
| ProjectEvents.IndexOfPrefix | src/composables/useProjectEvents.js:12 | listeners added after an occurrence do not change the position found |
| ProjectEvents.EmitProjectCreated | src/composables/useProjectEvents.js:19-21 | one call per listener, in registration order, each with the project |
| ProjectEvents.EmitCounts | src/composables/useProjectEvents.js:19-21 | each listener is called as many times as it is registered |
| ProjectEvents.CleanupSilences | src/composables/useProjectEvents.js:7-21 | a registered callback hears the next emission, and after its cleanup it hears it one time fewer |
| PasswordValidation.MessagesDistinct | src/utils/passwordValidation.js:26-48 | no two rules share a message, so a message names the rule that failed |
| PasswordValidation.Messages | src/utils/passwordValidation.js:26-48 | one message per rule, in the rules' order |
| PasswordValidation.Failures | src/utils/passwordValidation.js:25-48 | the failed rules' messages in rule order: every failed rule's message is present, and every message present belongs to a failed rule |
| PasswordValidation.FailuresNameRules | src/utils/passwordValidation.js:25-53 | a rule's message is among the failures exactly when the rule fails, and there are no failures exactly when all five rules pass |
| PasswordValidation.FailureOfRule | src/utils/passwordValidation.js:25-48 | a single rule's message is present exactly when that rule fails |
| PasswordValidation.ValidatePasswordStrength | src/utils/passwordValidation.js:15-54 | only "required" for an empty password; otherwise the failed rules' messages in rule order, each present exactly when its rule fails; valid exactly when there are no errors, that is when a non-empty password meets all five rules (at least 15 long, upper, lower, digit, special) |
| PasswordValidation.ValidatePasswordMatch | src/utils/passwordValidation.js:62-81 | valid exactly when both are non-empty and equal; "both required" when either is empty, "do not match" when both are given and differ; the error is absent exactly when valid |
| PasswordValidation.RawScore | src/utils/passwordValidation.js:91-102 | the length points plus 15 for each of the four character classes the password contains, counted over the classes; never more than 100 |
| PasswordValidation.LengthPoints | src/utils/passwordValidation.js:94-96 | at most 40; at least 20 exactly when the 15-unit length rule is met; 40 exactly from 25 code units |
| PasswordValidation.GetPasswordStrength | src/utils/passwordValidation.js:88-105 | 0 for an empty password; otherwise the points, which never exceed 100 |
| PasswordValidation.Band | src/utils/passwordValidation.js:112-123 | band 4 exactly from 80, 3 exactly for 60 to 79, 2 exactly for 40 to 59, 1 exactly for 1 to 39, 0 exactly at 0 or below |
| PasswordValidation.GetPasswordStrengthLabel | src/utils/passwordValidation.js:112-123 | one of the five labels: Strong exactly from 80, Good exactly below 80 from 60, Fair exactly below 60 from 40, Weak exactly above 0 below 40, Very Weak exactly at 0 or below |
| PasswordValidation.LabelMonotone | src/utils/passwordValidation.js:112-123 | a higher score never gets a weaker band |
| PasswordValidation.ValidIsStrong | src/utils/passwordValidation.js:15-123 | a password that passes the strength check scores at least 80 and is labelled Strong |
| PasswordValidation.TrailingRun | src/utils/passwordValidation.js:131 | the run of code units without a line terminator that ends the text is no longer than the text |
| PasswordValidation.LongestRun | src/utils/passwordValidation.js:131 | the longest such run is no longer than the text and no shorter than the trailing one |
| PasswordValidation.LongestRunWhole | src/utils/passwordValidation.js:131 | without line terminators, /.{15,}/ sees the whole text as one run |
| PasswordValidation.TrailingRunWhole | src/utils/passwordValidation.js:131 | without line terminators the trailing run is the whole text |
| PasswordValidation.CheckPasswordRequirements | src/utils/passwordValidation.js:129-150 | five entries with the requirement texts in order, entry i met exactly when the password is non-empty and matches rule i's pattern |
| PasswordValidation.ChecklistAgreesWithStrength | src/utils/passwordValidation.js:26-150 | a met checklist entry never has its rule's message among the strength errors, and on a password without line breaks entry i is met exactly when rule i's message is absent |
| PasswordValidation.LineBreakSplitsLengthRun | src/utils/passwordValidation.js:26-131 | "abcdefgh\nabcdefg" is long enough for the strength check but leaves the length entry of the checklist unmet |
| PasswordValidation.RunsAcrossBreak | src/utils/passwordValidation.js:131 | a line terminator splits the runs: the longest run is the longer of the two sides' |
| PasswordValidation.RunStep | src/utils/passwordValidation.js:131 | appending a character extends the trailing run, or resets it at a line terminator |
| PasswordValidation.ValidateEmail | src/utils/passwordValidation.js:157-161 | true exactly when the trimmed text has the local@domain.tld shape, the same verdict as the profile form's email check |
| MentionUtils.RunEnd | src/utils/mentionUtils.js:13 | the end of the run of word characters (\w) starting at a position: every character before it is a word character and the one at it is not |
| MentionUtils.ScanMembers | src/utils/mentionUtils.js:13-19 | the global pattern /@(\w+)/g captures a name exactly when some '@' followed by word characters carries that whole word run |
| MentionUtils.ScanOrder | src/utils/mentionUtils.js:13-19 | a name the global scan captures before another is mentioned in the text before any mention of the other |
| MentionUtils.ScanWords | src/utils/mentionUtils.js:13-19 | every capture is a non-empty run of word characters |
| MentionUtils.Position | src/utils/mentionUtils.js:21 | the position of the first occurrence |
| MentionUtils.Dedup | src/utils/mentionUtils.js:21 | [...new Set(s)]: the same values without repeats, in order of first occurrence |
| MentionUtils.PositionExtend | src/utils/mentionUtils.js:21 | appending a value keeps the first occurrence of every earlier value |
| MentionUtils.ExtractMentions | src/utils/mentionUtils.js:10-22 | [] for empty text; otherwise each name that follows an '@', once, every one a non-empty word, and nothing else, listed in order of first mention |
| MentionUtils.FindUserIdByUsername | src/utils/mentionUtils.js:49-53 | never finds a user |
| MentionUtils.RenderUnchanged | src/utils/mentionUtils.js:33-40 | when no user is found every match is put back as it was, so the replacement reproduces the text |
| MentionUtils.ParseMentions | src/utils/mentionUtils.js:30-41 | '' for empty text; otherwise the text unchanged |
| MentionUtils.Matching | src/utils/mentionUtils.js:66-72 | the users passing the filter (not the current user, query found in name, email or username ignoring case), in their given order |
| MentionUtils.SubsequencePrefix | src/utils/mentionUtils.js:73 | the first entries of a filtered list are still in the users' order |
| MentionUtils.GetMentionSuggestions | src/utils/mentionUtils.js:62-74 | [] for an empty query; otherwise the first min(5, n) of the n users that pass the filter, in their given order |
| MentionUtils.HandleMentionKeydown | src/utils/mentionUtils.js:84-108 | unhandled with no suggestions; handled exactly for the four keys; ArrowUp highlights the entry above, stopping at the first; ArrowDown the entry below, stopping at the last; Enter chooses the highlighted suggestion when there is one; Escape and other keys choose nothing |
| MentionUtils.ArrowKeysInverse | src/utils/mentionUtils.js:88-95 | away from the ends of the list, ArrowDown then ArrowUp (or the reverse) returns to the same entry |
| MentionUtils.InsertMention | src/utils/mentionUtils.js:115-140 | "@username " replaces the text from the last '@' before the cursor (or the selection when there is none) up to the selection end; the cursor lands right after it and the text after the selection is kept |
| NotificationPanel.OpenPanel | src/composables/useNotificationPanel.js:7-9 | the panel is open afterwards |
| NotificationPanel.ClosePanel | src/composables/useNotificationPanel.js:11-13 | the panel is closed afterwards |
| NotificationPanel.TogglePanel | src/composables/useNotificationPanel.js:15-17 | the open flag is flipped |
| NotificationPanel.PanelLaws | src/composables/useNotificationPanel.js:7-17 | opening or closing twice is the same as once; a toggle undoes a toggle |
| NotificationPanel.TogglesParity | src/composables/useNotificationPanel.js:4-17 | after n toggles the panel is open exactly when it started open and n is even, or started closed and n is odd |
| Theme.Initial | src/composables/useTheme.js:7 | light on load, with the storage as found |
| Theme.ApplyTheme | src/composables/useTheme.js:25-31 | the document's dark class follows the mode; nothing else changes |
| Theme.InitializeTheme | src/composables/useTheme.js:11-22 | a non-empty stored preference decides, dark exactly when it is "dark"; otherwise the system preference; the document follows |
| Theme.ToggleTheme | src/composables/useTheme.js:34-38 | the mode flips and the new mode's name is stored; the document follows |
| Theme.SetTheme | src/composables/useTheme.js:41-45 | dark exactly for "dark"; the given name is stored; the document follows |
| Theme.SystemThemeChanged | src/composables/useTheme.js:51-57 | with a stored preference nothing changes; otherwise the mode follows the system and the document follows |
| Theme.ToggleSurvivesReload | src/composables/useTheme.js:11-38 | initialising after a toggle gives the toggled mode, whatever the system prefers |
| Theme.SetThemeSurvivesReload | src/composables/useTheme.js:11-45 | initialising after setTheme(t) gives the mode t names, except that an empty name leaves the system in charge |
| Theme.AppliedPreserved | src/composables/useTheme.js:11-72 | every operation leaves the document showing the mode in force |
| EmailFormat.MatchesIffShape | src/utils/profileValidation.js:84-85 | the pattern /^[^\s@]+@[^\s@]+\.[^\s@]+$/ matches exactly the texts with one '@' that is not first, no whitespace or other '@', and a '.' with at least one character between it and the '@' and at least one after it |
| Sorting.Insert | src/stores/notifications.js:131-134 | adding one entry to a newest-first list gives a newest-first list holding exactly the old entries and the new one |
| Sorting.SortDesc | src/stores/notifications.js:30-32 | a reordering of the list, no entry lost or added, newest first |
| Sorting.SortOfSorted | src/stores/notifications.js:132-134 | sorting a list already newest first leaves it unchanged |
| Sorting.SortDescStable | src/stores/notifications.js:30-32 | sorting is stable: the entries sharing a created_at time come out in their input order |
| Sorting.PrefixIsTop | src/microservices/notifications/notification_service.py:145 | the first k entries of a newest-first list are its newest k: every entry after them is no newer than any of them |
| Tally.Bump | src/microservices/reports/report_service.py:165 | one more for the key, every other count unchanged, the total one higher |
| Tally.Count | src/microservices/reports/report_service.py:323 | one entry per distinct value, each value's entry its number of occurrences, the entries adding up to the number of values |

## Left out

- Rendering is not modelled: HTML email bodies, PDF report rendering, the `dark` class's effect on the page, `weekRangeText` and `dayLabels`.
- Date parsing and date formatting are oracles: functions from text to an optional day or instant, passed in as parameters.
- Real-time delivery (`send_realtime`, socket emits) and the reminder scheduler thread are recorded as effects, not performed.
- `console`/`print` logging is not modelled.
- The legacy duplicate endpoints are not part of this model: `getProject.py`, `createProject.py`, `getTask.py` and `createTask.py`. Neither are the test and debug scripts.
- The GET /tasks list endpoint (task_service.py:69-118) is not modelled. Its filtering is a database query with no rule of its own beyond the ones stated for single tasks.
- Text uses ASCII case folding only. Python's `lower()` and JavaScript's `toLowerCase()` also fold other Unicode letters.
- MentionUtils.InsertMention: positions are character indices. JavaScript counts UTF-16 code units, so the two differ for characters outside the Basic Multilingual Plane.
- ProfileValidation.ValidateDisplayName: only string or missing names are modelled. The source's `String(displayName)` on numbers and objects is left out.
- DateUtils.GetTimeBreakdown: a NaN difference (an unparsable date) is not modelled; `CalculateTimeTaken` takes it as None.
- ProjectEvents.EmitProjectCreated: a listener that throws would stop the remaining calls. Listeners are modelled as never throwing.
- Theme.SetTheme: the theme is a string. `localStorage` would store the text of any other value.
- ReportService.Rate: the completion rate is kept unrounded; `round(x, 1)` is not modelled.
- Json: Python's `1 == True` is not modelled. A boolean used as a dict key, or compared, is a different value from the number.
- TaskService: pydantic's type coercion of request fields is left out. A field of the wrong type is a validation failure.
- NotificationStore: sorting by an Invalid Date (NaN comparator) is left out. Every `created_at` is taken to have a timestamp.
- UserAuthentication.Register: a failed insert after the checks is not modelled.
- UserService: a fault after a database write is modelled as if the write did not happen.
- UserAuthentication: a database error (500) is modelled only for the logout delete. In login, validation, the audit log and registration the database calls are taken to succeed.
- UserService.GetCurrentUser: the 500 body carries the exception's text in the source; the model answers a fixed message.
- NotificationService.CreateNotification: the insert is taken to succeed here and in the reminder run. In the run a failing insert would leave that day without a reminder while the task's other days carry on. CreateEndpoint does take a failing insert (500) as a parameter.
- TaskCache.OptimizeTaskWithMetadata: a collaborators value other than a list or a falsy value is modelled as a failure (None).
- ProjectService.GetProjects: a negative limit is modelled as a 500 from the database.
- Concurrency between requests and the atomicity of database calls are not modelled. Each handler runs alone against a snapshot.
- NotificationService.ParseNotificationCreate: pydantic's coercion of other values to text (version 1 turns a number into its decimal text) is left out. A non-string user_id, title or message is a validation failure (400) in the model.
- TaskTimeline.WeekSummary: the tally keeps status names in first-appearance order. A JavaScript object lists integer-like names first, in ascending order. The count per name is exact.
- Json.JsTruthy: NaN and -0 are not values of the model. JavaScript also treats them as falsy.
- ReportService.FilterList: a non-empty dict `status_filter` without an "All" key filters by its keys in the source and lists them in insertion order. The model's JSON object keeps no key order, so it answers this one shape as a 500.
- AuthStore.Fire: the `alert()` shown after the timed-out logout is not modelled. It changes no state.
- EmailService.PriorityValue: Python's `isdigit` also accepts non-ASCII digits. `int` then converts other scripts' decimal digits, and raises on superscripts. The model takes only ASCII digits as a number and reads any other string as 5.
- ReportService.Renders: a title that is a list is taken to render; how the table drawing treats a list cell is not modelled.

## Findings

| source | as written | input that shows it | evidently intended | confidence | as-written member | corrected member |
|---|---|---|---|---|---|---|
| src/microservices/notifications/email_service.py:436-448 | `send_notification_email` puts every argument into the template data, `None` included. The template's `data.get("task_title", "Untitled Task")` then returns `None`, and the subject reads "Task Reminder: None". | a `reminder_1_days` email sent without a task title | arguments that were not passed are left out, so the subject reads "Task Reminder: Untitled Task" | not executed | EmailService.UntitledReminderAsWritten | EmailService.UntitledReminderWithDefaults |
| src/microservices/tasks/optimizations.py:4-7 | The module imports only `lru_cache`, `typing`, `time` and `json` and never binds `supabase`. The queries at lines 26 and 72 therefore raise NameError, and the `except` at lines 31 and 78 swallows it. | `get_cached_user` for a user the table holds with no fresh cache entry | the client is bound, so a cache miss reaches the table and a found user is returned and cached | not executed | TaskCache.UnboundClientAnswersHits | TaskCache.BatchAgreesWithSingle |

=== FILE: auth_store.dfy ===
/** The browser-side session store: the signed-in user, the session token
    and its copy in local storage, and the one inactivity timer that logs the
    user out fifteen minutes after it was last armed. Timers are modelled as
    a table of pending deadlines keyed by the handle `setTimeout` returned;
    each remote call is an input outcome and each operation runs to
    completion before the next begins. */
module AuthStore {
  import opened Common
  import Json

  /** Fifteen minutes, in milliseconds. */
  const SESSION_DURATION: int := 15 * 60 * 1000

  datatype Store = Store(
    user: Option<Json.Row>,
    token: Option<string>,
    stored: Option<string>,        // the `sessionToken` entry of local storage
    timer: Option<nat>,            // the handle held in `sessionTimeout`
    pending: map<nat, int>,        // armed timeouts: handle -> deadline
    nextHandle: nat)

  /** The body of a successful login response. */
  datatype LoginData = LoginData(user: Json.Row, sessionToken: string)

  datatype LoginOutcome = Returned(data: LoginData) | Threw

  /** JavaScript truthiness of the token: neither null nor the empty string. */
  predicate HasToken(s: Store) {
    s.token.Some? && s.token.value != ""
  }

  predicate IsAuthenticated(s: Store) {
    s.user.Some? && HasToken(s)
  }

  /** The store as a fresh page load creates it from local storage. */
  function Initial(stored: Option<string>): (s: Store)
    ensures Inv(s)
    ensures !IsAuthenticated(s) && s.token == stored
  {
    Store(None, stored, stored, None, map[], 1)
  }

  /** The state the store keeps: local storage mirrors the token, at most one
      timeout is pending and it is the one `sessionTimeout` holds, and a
      timer is armed exactly while a user is signed in. */
  predicate Inv(s: Store) {
    && s.nextHandle >= 1
    && s.stored == s.token
    && (s.timer.Some? ==> 1 <= s.timer.value < s.nextHandle)
    && s.pending.Keys == (if s.timer.Some? then {s.timer.value} else {})
    && (s.timer.Some? <==> s.user.Some?)
  }

  /** Clears the timeout held in `sessionTimeout`, if any, and arms a new
      one that expires SESSION_DURATION after `now`. */
  function StartSessionTimer(s: Store, now: int): (r: Store)
    ensures r.timer == Some(s.nextHandle) && r.nextHandle == s.nextHandle + 1
    ensures r.user == s.user && r.token == s.token && r.stored == s.stored
    ensures Inv(s) ==> r.pending == map[s.nextHandle := now + SESSION_DURATION]
  {
    var cleared := if s.timer.Some? then s.pending - {s.timer.value} else s.pending;
    s.(timer := Some(s.nextHandle),
       pending := cleared[s.nextHandle := now + SESSION_DURATION],
       nextHandle := s.nextHandle + 1)
  }

  /** Re-arms the timer when signed in; otherwise does nothing. Once
      re-armed, no timeout fires before SESSION_DURATION has passed, and
      the armed one logs the user out from then on. */
  function ResetSessionTimer(s: Store, now: int): (r: Store)
    ensures !IsAuthenticated(s) ==> r == s
    ensures IsAuthenticated(s) && Inv(s) ==>
              r.timer.Some? && r.pending == map[r.timer.value := now + SESSION_DURATION]
    ensures IsAuthenticated(s) && Inv(s) ==>
              forall handle: nat, later :: later < now + SESSION_DURATION ==> Fire(r, handle, later) == r
    ensures IsAuthenticated(s) && Inv(s) ==>
              forall later :: later >= now + SESSION_DURATION ==> !IsAuthenticated(Fire(r, r.timer.value, later))
    ensures Inv(s) ==> Inv(r)
  {
    if IsAuthenticated(s) then StartSessionTimer(s, now) else s
  }

  /** Logs out. The remote call is made only when a token is held; whatever
      it returns or throws, user, token, stored token and timer are all
      cleared. The second component says whether the remote call was made. */
  function Logout(s: Store): (res: (Store, bool))
    ensures var r := res.0;
            r.user.None? && r.token.None? && r.stored.None? && r.timer.None?
    ensures res.1 <==> HasToken(s)
    ensures Inv(s) ==> res.0.pending == map[] && Inv(res.0)
  {
    var cleared := if s.timer.Some? then s.pending - {s.timer.value} else s.pending;
    (Store(None, None, None, None, cleared, s.nextHandle), HasToken(s))
  }

  /** Logs in with the server's answer. A non-OK answer or a thrown error
      rethrows and leaves the store as it was; success stores user, token and
      its persisted copy together and arms the timer. */
  function Login(s: Store, response: Remote<LoginData>, now: int): (res: (Store, LoginOutcome))
    ensures !response.RespOk? ==> res == (s, Threw)
    ensures response.RespOk? ==>
              var r := res.0;
              && res.1 == Returned(response.data)
              && r.user == Some(response.data.user)
              && r.token == Some(response.data.sessionToken)
              && r.stored == r.token
              && r.timer.Some? && r.timer.value in r.pending
              && r.pending[r.timer.value] == now + SESSION_DURATION
    ensures Inv(s) ==> Inv(res.0)
  {
    match response
    case RespOk(data) =>
      var signedIn := s.(user := Some(data.user), token := Some(data.sessionToken),
                         stored := Some(data.sessionToken));
      (StartSessionTimer(signedIn, now), Returned(data))
    case _ => (s, Threw)
  }

  /** Asks the server whether the held token is still valid. Without a
      token it answers false and changes nothing; an OK answer replaces the
      user and re-arms the timer; anything else logs out. */
  function ValidateSession(s: Store, response: Remote<Json.Row>, now: int): (res: (Store, bool))
    ensures !HasToken(s) ==> res == (s, false)
    ensures HasToken(s) && response.RespOk? ==>
              && res.1
              && res.0.user == Some(response.data)
              && res.0.token == s.token
              && res.0.timer.Some? && res.0.timer.value in res.0.pending
              && res.0.pending[res.0.timer.value] == now + SESSION_DURATION
    ensures HasToken(s) && !response.RespOk? ==> res == (Logout(s).0, false)
    ensures Inv(s) ==> Inv(res.0)
  {
    if !HasToken(s) then (s, false)
    else match response
      case RespOk(user) => (ResetSessionTimer(s.(user := Some(user)), now), true)
      case _ => (Logout(s).0, false)
  }

  /** On start-up, validates a stored token and, when it is valid, arms the
      timer once more. Without a token nothing happens. */
  function InitializeAuth(s: Store, response: Remote<Json.Row>, now: int): (r: Store)
    ensures !HasToken(s) ==> r == s
    ensures HasToken(s) && response.RespOk? ==>
              IsAuthenticated(r) && r.timer.Some? && r.timer.value in r.pending
    ensures HasToken(s) && !response.RespOk? ==> !IsAuthenticated(r) && r.timer.None?
    ensures Inv(s) ==> Inv(r)
  {
    if HasToken(s) then
      var (v, valid) := ValidateSession(s, response, now);
      if valid then StartSessionTimer(v, now) else v
    else s
  }

  /** The timeout `handle` fires at time `now` if it is pending and due; its
      callback logs out. */
  function Fire(s: Store, handle: nat, now: int): (r: Store)
    ensures handle !in s.pending || now < s.pending[handle] ==> r == s
    ensures handle in s.pending && s.pending[handle] <= now ==>
              r.user.None? && r.token.None? && r.stored.None? && r.timer.None?
    ensures Inv(s) ==> Inv(r)
  {
    if handle in s.pending && s.pending[handle] <= now then
      Logout(s.(pending := s.pending - {handle})).0
    else s
  }
}

=== FILE: common.dfy ===
/** Small shared types and searches: the optional value used wherever the
    source has `null`, `None`, `undefined` or an absent key, HTTP statuses,
    and the first-index search. */
module Common {

  datatype Option<+T> = None | Some(value: T) {

    /** Returns the value held in Some, or the given default. */
    function GetOr(default: T): T {
      match this
      case Some(v) => v
      case None => default
    }
  }

  /** An HTTP status code as returned by the Flask services. */
  type Status = int

  const OK: Status := 200
  const CREATED: Status := 201
  const BAD_REQUEST: Status := 400
  const UNAUTHORIZED: Status := 401
  const NOT_FOUND: Status := 404
  const CONFLICT: Status := 409
  const LOCKED: Status := 423
  const SERVER_ERROR: Status := 500
  const UNAVAILABLE: Status := 503

  /** The outcome of a remote call the code awaits: an OK response with a
      payload, a non-OK response, or a thrown error (network failure,
      unparsable body). */
  datatype Remote<+T> = RespOk(data: T) | RespNotOk | Throws

  /** Index of the first element satisfying `p`, or -1 when none does: the
      linear search behind `find`, `indexOf` and a `.eq(...).limit(1)`
      lookup. */
  function FirstIndex<T>(s: seq<T>, p: T -> bool): (i: int)
    ensures -1 <= i < |s|
    ensures i >= 0 ==> p(s[i])
    ensures forall j :: 0 <= j < |s| && (i == -1 || j < i) ==> !p(s[j])
  {
    if |s| == 0 then -1
    else if p(s[0]) then 0
    else
      var k := FirstIndex(s[1..], p);
      if k == -1 then -1 else k + 1
  }

  /** `a` is `b` with some elements left out and the rest in their original
      order: what a filtering loop that appends the elements it keeps
      produces. */
  predicate Subsequence<T(==)>(a: seq<T>, b: seq<T>)
    decreases |b|
  {
    if |a| == 0 then true
    else if |b| == 0 then false
    else (a[0] == b[0] && Subsequence(a[1..], b[1..])) || Subsequence(a, b[1..])
  }
}

=== FILE: counting.dfy ===
/** Counting the elements of a sequence that satisfy a test, as
    `filter(...).length` in JavaScript and `sum(1 for x in xs if ...)` or a
    counting loop in Python compute it. The count is tied to its reference
    meaning, the number of positions whose element passes. */
module Counting {

  /** The positions of `s` whose element satisfies `p`. */
  ghost function Positions<T>(s: seq<T>, p: T -> bool): set<int> {
    set i | 0 <= i < |s| && p(s[i])
  }

  /** How many elements of `s` satisfy `p`, counted from the back. */
  function Count<T>(s: seq<T>, p: T -> bool): (n: nat)
    ensures n == |Positions(s, p)|
    ensures n <= |s|
  {
    if |s| == 0 then 0
    else
      var init := s[..|s| - 1];
      var n := Count(init, p) + (if p(s[|s| - 1]) then 1 else 0);
      assert Positions(s, p) == Positions(init, p) + (if p(s[|s| - 1]) then {|s| - 1} else {});
      n
  }

  /** No element passes exactly when the count is zero; every element
      passes exactly when the count is the length. */
  lemma {:induction false} CountExtremes<T>(s: seq<T>, p: T -> bool)
    ensures Count(s, p) == 0 <==> forall i :: 0 <= i < |s| ==> !p(s[i])
    ensures Count(s, p) == |s| <==> forall i :: 0 <= i < |s| ==> p(s[i])
  {
    if |s| > 0 {
      var init := s[..|s| - 1];
      CountExtremes(init, p);
      assert forall i :: 0 <= i < |init| ==> init[i] == s[i];
    }
  }

  /** The count splits over a concatenation. */
  lemma {:induction false} CountAppend<T>(a: seq<T>, b: seq<T>, p: T -> bool)
    ensures Count(a + b, p) == Count(a, p) + Count(b, p)
    decreases |b|
  {
    if |b| > 0 {
      var b0 := b[..|b| - 1];
      assert (a + b)[..|a + b| - 1] == a + b0;
      CountAppend(a, b0, p);
    } else {
      assert a + b == a;
    }
  }

  /** Counting from the front gives the same number. */
  lemma CountFront<T>(s: seq<T>, p: T -> bool)
    requires |s| > 0
    ensures Count(s, p) == (if p(s[0]) then 1 else 0) + Count(s[1..], p)
  {
    assert s == [s[0]] + s[1..];
    CountAppend([s[0]], s[1..], p);
    assert [s[0]][..0] == [];
  }

  /** Reordering a sequence does not change the count. */
  lemma {:induction false} CountPermutation<T>(a: seq<T>, b: seq<T>, p: T -> bool)
    requires multiset(a) == multiset(b)
    ensures Count(a, p) == Count(b, p)
    decreases |a|
  {
    if |a| == 0 {
      assert |b| == |multiset(b)| == 0;
    } else {
      var x := a[|a| - 1];
      var init := a[..|a| - 1];
      assert a == init + [x];
      assert x in multiset(b);
      var j :| 0 <= j < |b| && b[j] == x;
      var rest := b[..j] + b[j + 1..];
      assert b == b[..j] + [x] + b[j + 1..];
      calc {
        multiset(b);
        multiset(b[..j]) + multiset{x} + multiset(b[j + 1..]);
        multiset(rest) + multiset{x};
      }
      assert multiset(a) == multiset(init) + multiset{x};
      assert multiset(init) == multiset(a) - multiset{x};
      assert multiset(rest) == multiset(b) - multiset{x};
      CountPermutation(init, rest, p);
      CountAppend(b[..j] + [x], b[j + 1..], p);
      CountAppend(b[..j], [x], p);
      CountAppend(b[..j], b[j + 1..], p);
      CountAppend(init, [x], p);
    }
  }
}

=== FILE: date_utils.dfy ===
/** Elapsed-time helpers: the human-readable "time taken" text and the
    days/hours/minutes breakdown. Dates enter as the millisecond
    difference `end - start`, None standing for NaN (an unparsable date). */
module DateUtils {
  import opened Common
  import Text

  const MS_PER_MINUTE: nat := 60000
  const MS_PER_HOUR: nat := 3600000
  const MS_PER_DAY: nat := 86400000

  const JUST_STARTED := "Just started"

  /** The object `getTimeBreakdown` returns: without elapsed time it has
      no running totals at all (they read as `undefined`). */
  datatype Breakdown =
    | NoTime(days: nat, hours: nat, minutes: nat, total: nat)
    | Elapsed(days: nat, hours: nat, minutes: nat,
              totalDays: nat, totalHours: nat, totalMinutes: nat, total: nat)

  /** `getTimeBreakdown`: all zero and no running totals for a
      non-positive difference; otherwise whole days, the hours and minutes
      left over, and the running totals. */
  function GetTimeBreakdown(diffMs: int): (b: Breakdown)
    ensures b.NoTime? <==> diffMs <= 0
    ensures diffMs <= 0 ==> b.days == 0 && b.hours == 0 && b.minutes == 0 && b.total == 0
    ensures diffMs > 0 ==> b.total == diffMs
    ensures b.hours < 24 && b.minutes < 60
    ensures b.Elapsed? ==>
              && b.days * 1440 + b.hours * 60 + b.minutes == b.totalMinutes
              && b.totalMinutes * MS_PER_MINUTE <= b.total < (b.totalMinutes + 1) * MS_PER_MINUTE
              && b.days == b.totalDays && b.totalHours == b.totalMinutes / 60 && b.totalDays == b.totalHours / 24
  {
    if diffMs <= 0 then NoTime(0, 0, 0, 0)
    else
      var totalMinutes := diffMs / MS_PER_MINUTE;
      var totalHours := diffMs / MS_PER_HOUR;
      var totalDays := diffMs / MS_PER_DAY;
      NestedDivision(diffMs);
      Elapsed(totalDays, totalHours % 24, totalMinutes % 60, totalDays, totalHours, totalMinutes, diffMs)
  }

  /** Whole hours are whole minutes over 60, whole days whole hours over
      24; a hint the breakdown and the "time taken" text both need. */
  lemma NestedDivision(ms: nat)
    ensures ms / MS_PER_HOUR == (ms / MS_PER_MINUTE) / 60
    ensures ms / MS_PER_DAY == (ms / MS_PER_HOUR) / 24
  {
  }

  /** "N unit" with the plural `s` for anything but one. */
  function Amount(n: nat, unit: string): string {
    Text.NatToString(n) + " " + unit + (if n == 1 then "" else "s")
  }

  /** `calculateTimeTaken`: "Just started" for a non-positive, unknown or
      under-a-minute difference; otherwise the largest whole unit with the
      next one's remainder when it is not zero. */
  function CalculateTimeTaken(diffMs: Option<int>): (r: string)
    ensures diffMs.None? || diffMs.value < MS_PER_MINUTE ==> r == JUST_STARTED
  {
    if diffMs.None? || diffMs.value <= 0 then JUST_STARTED
    else
      var ms := diffMs.value;
      var minutes := ms / MS_PER_MINUTE;
      var hours := ms / MS_PER_HOUR;
      var days := ms / MS_PER_DAY;
      NestedDivision(ms);
      if days > 0 then
        var rest := hours % 24;
        if days == 1 then (if rest > 0 then "1 day " + Text.NatToString(rest) + "h" else "1 day")
        else if rest > 0 then Text.NatToString(days) + " days " + Text.NatToString(rest) + "h"
        else Text.NatToString(days) + " days"
      else if hours > 0 then
        var rest := minutes % 60;
        if hours == 1 then (if rest > 0 then "1 hour " + Text.NatToString(rest) + "m" else "1 hour")
        else if rest > 0 then Text.NatToString(hours) + " hours " + Text.NatToString(rest) + "m"
        else Text.NatToString(hours) + " hours"
      else if minutes > 0 then
        if minutes == 1 then "1 minute" else Text.NatToString(minutes) + " minutes"
      else JUST_STARTED
  }

  /** Above a minute, the text names the breakdown's largest non-zero
      unit: whole days with the leftover hours, else whole hours with the
      leftover minutes, else minutes; a zero leftover is not shown and one
      of a unit is singular. */
  lemma TimeTakenFromBreakdown(diffMs: int)
    requires diffMs >= MS_PER_MINUTE
    ensures var b := GetTimeBreakdown(diffMs);
            CalculateTimeTaken(Some(diffMs)) ==
              if b.days > 0 then Amount(b.days, "day") + (if b.hours > 0 then " " + Text.NatToString(b.hours) + "h" else "")
              else if b.totalHours > 0 then Amount(b.totalHours, "hour") + (if b.minutes > 0 then " " + Text.NatToString(b.minutes) + "m" else "")
              else Amount(b.totalMinutes, "minute")
  {
    var b := GetTimeBreakdown(diffMs);
    if b.days > 0 {
      DaysShown(diffMs);
    } else if b.totalHours > 0 {
      HoursShown(diffMs);
    } else {
      MinutesShown(diffMs);
    }
  }

  lemma DaysShown(ms: int)
    requires ms >= MS_PER_DAY
    ensures var b := GetTimeBreakdown(ms);
            CalculateTimeTaken(Some(ms)) == Amount(b.days, "day") + (if b.hours > 0 then " " + Text.NatToString(b.hours) + "h" else "")
  {
    var b := GetTimeBreakdown(ms);
    assert CalculateTimeTaken(Some(ms)) == SourceShape(b.days, "day", b.hours, "h");
    ShapeIsAmount(b.days, "day", b.hours, "h");
  }

  lemma HoursShown(ms: int)
    requires MS_PER_HOUR <= ms < MS_PER_DAY
    ensures var b := GetTimeBreakdown(ms);
            CalculateTimeTaken(Some(ms)) == Amount(b.totalHours, "hour") + (if b.minutes > 0 then " " + Text.NatToString(b.minutes) + "m" else "")
  {
    var b := GetTimeBreakdown(ms);
    assert CalculateTimeTaken(Some(ms)) == SourceShape(b.totalHours, "hour", b.minutes, "m");
    ShapeIsAmount(b.totalHours, "hour", b.minutes, "m");
  }

  lemma MinutesShown(ms: int)
    requires MS_PER_MINUTE <= ms < MS_PER_HOUR
    ensures CalculateTimeTaken(Some(ms)) == Amount(GetTimeBreakdown(ms).totalMinutes, "minute")
  {
    var b := GetTimeBreakdown(ms);
    assert CalculateTimeTaken(Some(ms)) == SourceShape(b.totalMinutes, "minute", 0, "");
    ShapeIsAmount(b.totalMinutes, "minute", 0, "");
  }

  /** The branches of `calculateTimeTaken` for one unit, written as the
      source writes them. */
  function SourceShape(n: nat, unit: string, rest: nat, suffix: string): string {
    if n == 1 then
      (if rest > 0 then "1 " + unit + " " + Text.NatToString(rest) + suffix else "1 " + unit)
    else if rest > 0 then Text.NatToString(n) + " " + unit + "s " + Text.NatToString(rest) + suffix
    else Text.NatToString(n) + " " + unit + "s"
  }

  lemma ShapeIsAmount(n: nat, unit: string, rest: nat, suffix: string)
    ensures SourceShape(n, unit, rest, suffix)
            == Amount(n, unit) + (if rest > 0 then " " + Text.NatToString(rest) + suffix else "")
  {
    assert Text.NatToString(1) == "1";
  }

  /** The text leads with the number of its largest unit, readable back:
      the days when there is at least one, else the hours, else the
      minutes. */
  lemma {:induction false} LeadingNumberReadsBack(diffMs: int)
    requires diffMs >= MS_PER_MINUTE
    ensures var b := GetTimeBreakdown(diffMs);
            var first := Text.Split(CalculateTimeTaken(Some(diffMs)), ' ')[0];
            && Text.AllDigits(first)
            && Text.ParseNat(first) == if b.days > 0 then b.days else if b.totalHours > 0 then b.totalHours else b.totalMinutes
  {
    var b := GetTimeBreakdown(diffMs);
    var r := CalculateTimeTaken(Some(diffMs));
    TimeTakenFromBreakdown(diffMs);
    var n, unit, tail;
    if b.days > 0 {
      n, unit, tail := b.days, "day", if b.hours > 0 then " " + Text.NatToString(b.hours) + "h" else "";
    } else if b.totalHours > 0 {
      n, unit, tail := b.totalHours, "hour", if b.minutes > 0 then " " + Text.NatToString(b.minutes) + "m" else "";
    } else {
      n, unit, tail := b.totalMinutes, "minute", "";
    }
    assert r == Amount(n, unit) + tail;
    LeadsWithNumber(n, unit, tail);
  }

  /** "N unit..." splits on spaces into the digits of N first. */
  lemma LeadsWithNumber(n: nat, unit: string, tail: string)
    ensures var first := Text.Split(Amount(n, unit) + tail, ' ')[0];
            Text.AllDigits(first) && Text.ParseNat(first) == n
  {
    var digits := Text.NatToString(n);
    var after := unit + (if n == 1 then "" else "s") + tail;
    assert ' ' !in digits by {
      forall i | 0 <= i < |digits| ensures digits[i] != ' ' {
        assert Text.IsAsciiDigit(digits[i]);
      }
    }
    assert Amount(n, unit) + tail == digits + [' '] + after;
    Text.SplitAt(digits, after, ' ');
    Text.ParseNatToString(n);
  }
}

=== FILE: email_format.dfy ===
/** The email pattern both front-end validators test:
    `/^[^\s@]+@[^\s@]+\.[^\s@]+$/`. */
module EmailFormat {
  import Text

  /** `[^\s@]`: neither whitespace nor '@'. */
  predicate InClass(c: char) {
    !Text.IsJsSpace(c) && c != '@'
  }

  predicate IsDot(c: char) { c == '.' }

  /** What the pattern accepts, stated on positions: a single '@' that is
      not the first character, every other character in `[^\s@]`, and a
      '.' with at least one character between it and the '@' and at least
      one after it. */
  predicate EmailShape(s: string) {
    exists k, i :: && 0 < k && k + 1 < i < |s| - 1
                   && s[k] == '@' && s[i] == '.'
                   && (forall j :: 0 <= j < |s| && j != k ==> InClass(s[j]))
  }

  /** The pattern as a check: the first '@' is not at the start, no other
      character is whitespace or '@', and a '.' lies strictly inside the
      part after the '@'. */
  predicate Matches(s: string) {
    var k := Text.IndexOf(s, '@');
    && 0 < k
    && k + 4 <= |s|
    && (forall j :: 0 <= j < |s| && j != k ==> InClass(s[j]))
    && Text.HasChar(s[k + 2..|s| - 1], IsDot)
  }

  /** The check accepts exactly the strings of the pattern's shape. */
  lemma MatchesIffShape(s: string)
    ensures Matches(s) <==> EmailShape(s)
  {
    var k := Text.IndexOf(s, '@');
    if Matches(s) {
      var m :| 0 <= m < |s[k + 2..|s| - 1]| && IsDot(s[k + 2..|s| - 1][m]);
      assert s[k + 2 + m] == '.';
      assert 0 < k && k + 1 < k + 2 + m < |s| - 1;
    }
    if EmailShape(s) {
      var k', i :| && 0 < k' && k' + 1 < i < |s| - 1
                   && s[k'] == '@' && s[i] == '.'
                   && (forall j :: 0 <= j < |s| && j != k' ==> InClass(s[j]));
      assert s[k'] == '@';
      assert '@' in s;
      assert k == k';
      assert s[k + 2..|s| - 1][i - k - 2] == '.';
    }
  }
}

=== FILE: email_service.dfy ===
/** The email side of notifications: choosing subject, link and priority
    badge by notification type, skipping empty generic notifications, and
    the rules that decide whether an email is handed to the mail server. The
    HTML bodies are left out; the template is reduced to the parts a
    recipient acts on. */
module EmailService {
  import opened Common
  import Json
  import Text
  import NotificationService

  /** The link base used when `FRONTEND_URL` is not set. */
  const DEFAULT_FRONTEND_URL: string := "http://localhost:3000"

  /** `os.getenv("FRONTEND_URL", default)`: a set but empty variable stays
      empty. */
  function FrontendUrl(env: Option<string>): (r: string)
    ensures env.Some? ==> r == env.value
    ensures env.None? ==> r == DEFAULT_FRONTEND_URL
  {
    env.GetOr(DEFAULT_FRONTEND_URL)
  }

  // ----- priority -----

  /** The priority after the string conversion: a string of ASCII digits
      becomes its number, any other string 5; numbers and booleans are kept.
      None means the value cannot be compared with a number and the template
      raises. */
  function PriorityValue(v: Json.Value): (r: Option<Json.Value>)
    ensures v.Str? && |v.s| > 0 && Text.AllDigits(v.s) ==> r == Some(Json.Int(Text.ParseNat(v.s)))
    ensures v.Str? && !(|v.s| > 0 && Text.AllDigits(v.s)) ==> r == Some(Json.Int(5))
    ensures v.Int? || v.Bool? ==> r == Some(v)
    ensures r.None? <==> v.Null? || v.Arr? || v.Obj?
  {
    match v
    case Str(s) => if |s| > 0 && Text.AllDigits(s) then Some(Json.Int(Text.ParseNat(s))) else Some(Json.Int(5))
    case Int(_) => Some(v)
    case Bool(_) => Some(v)
    case _ => None
  }

  /** The number Python compares: a boolean counts as 0 or 1. */
  function Rank(v: Json.Value): int
    requires v.Int? || v.Bool?
  {
    if v.Int? then v.i else if v.b then 1 else 0
  }

  datatype Level = High | Medium | Low

  /** 8 and above is high, 5 to 7 medium, the rest low. */
  function LevelOf(p: int): (l: Level)
    ensures l == High <==> p >= 8
    ensures l == Medium <==> 5 <= p < 8
    ensures l == Low <==> p < 5
  {
    if p >= 8 then High else if p >= 5 then Medium else Low
  }

  function LevelName(l: Level): string {
    match l
    case High => "High"
    case Medium => "Medium"
    case Low => "Low"
  }

  function LevelColor(l: Level): string {
    match l
    case High => "#cf1322"
    case Medium => "#d46b08"
    case Low => "#389e0d"
  }

  /** "Priority: <p>/10 (<level>)". */
  function PriorityLabel(p: Json.Value, l: Level): string {
    "Priority: " + Json.PyStr(p) + "/10 (" + LevelName(l) + ")"
  }

  // ----- templates -----

  datatype Template = Template(subject: string, link: string, priorityLabel: string,
                               priorityColor: string, reminderDays: Option<string>)

  /** The template outcome: an email, no email (`(None, None)`), or an
      exception. */
  datatype TemplateResult = Email(t: Template) | NoEmail | Raises

  const REMINDER_ICON: string := "\U{23F0}"
  const CALENDAR_ICON: string := "\U{1F4C5}"
  const COMMENT_ICON: string := "\U{1F4AC}"
  const FOLDER_ICON: string := "\U{1F4C1}"
  const MAILBOX_ICON: string := "\U{1F4EC}"

  /** `FRONTEND_URL/<path>?<param>=<id>` when the id is truthy, else the
      bare base. */
  function Link(base: string, path: string, id: Json.Value): (r: string)
    ensures Json.Truthy(id) ==> r == base + path + Json.PyStr(id)
    ensures !Json.Truthy(id) ==> r == base
  {
    if Json.Truthy(id) then base + path + Json.PyStr(id) else base
  }

  /** The subject and link for a notification type, given the task title
      and task link already computed; None for a generic notification whose
      message is missing, empty or blank, and `Raises` for a truthy
      non-string message. */
  function Dispatch(ntype: string, data: Json.Row, title: string, taskLink: string, base: string)
    : (r: Result3)
    ensures Text.StartsWith(ntype, "reminder_") ==>
              r == Ok3(REMINDER_ICON + " Task Reminder: " + title, taskLink)
    ensures ntype == "due_date_change" ==> r == Ok3(CALENDAR_ICON + " Due Date Changed: " + title, taskLink)
    ensures ntype == "task_comment" ==> r == Ok3(COMMENT_ICON + " New Comment: " + title, taskLink)
    ensures ntype == "project_created" ==> r == Ok3(FOLDER_ICON + " New Project Created: " + title, taskLink)
    ensures ntype == "project_assigned" ==> r == Ok3(FOLDER_ICON + " New Project Assigned: " + title, taskLink)
    ensures ntype == "project_comment" ==>
              r == Ok3(COMMENT_ICON + " New Comment on Project: "
                         + Json.PyStr(Json.GetOr(data, "project_name", Json.Str("Untitled Project"))),
                       Link(base, "/projects?projectId=", Json.GetOr(data, "project_id", Json.Str(""))))
    ensures !Text.StartsWith(ntype, "reminder_") && !(ntype in KNOWN_TYPES) ==>
              var m := Json.GetOr(data, "message", Json.Str(""));
              && (!Json.Truthy(m) || (m.Str? && Text.PyStrip(m.s) == "") ==> r == Skip3)
              && (Json.Truthy(m) && m.Str? && Text.PyStrip(m.s) != "" ==>
                    r == Ok3(MAILBOX_ICON + " Notification: " + title, taskLink))
              && (Json.Truthy(m) && !m.Str? ==> r == Raise3)
  {
    KnownTypesAreNotReminders();
    if Text.StartsWith(ntype, "reminder_") then Ok3(REMINDER_ICON + " Task Reminder: " + title, taskLink)
    else if ntype == "due_date_change" then Ok3(CALENDAR_ICON + " Due Date Changed: " + title, taskLink)
    else if ntype == "task_comment" then Ok3(COMMENT_ICON + " New Comment: " + title, taskLink)
    else if ntype == "project_comment" then
      var name := Json.GetOr(data, "project_name", Json.Str("Untitled Project"));
      var id := Json.GetOr(data, "project_id", Json.Str(""));
      Ok3(COMMENT_ICON + " New Comment on Project: " + Json.PyStr(name), Link(base, "/projects?projectId=", id))
    else if ntype == "project_created" then Ok3(FOLDER_ICON + " New Project Created: " + title, taskLink)
    else if ntype == "project_assigned" then Ok3(FOLDER_ICON + " New Project Assigned: " + title, taskLink)
    else
      var m := Json.GetOr(data, "message", Json.Str(""));
      if !Json.Truthy(m) then Skip3
      else if !m.Str? then Raise3
      else if Text.PyStrip(m.s) == "" then Skip3
      else Ok3(MAILBOX_ICON + " Notification: " + title, taskLink)
  }

  /** The types with a template of their own, besides `reminder_*`. */
  const KNOWN_TYPES: set<string> :=
    {"due_date_change", "task_comment", "project_comment", "project_created", "project_assigned"}

  /** No type with a template of its own has the reminder prefix, so the
      order of the checks does not matter. */
  lemma KnownTypesAreNotReminders()
    ensures forall t :: t in KNOWN_TYPES ==> !Text.StartsWith(t, "reminder_")
  {
    forall t | t in KNOWN_TYPES
      ensures !Text.StartsWith(t, "reminder_")
    {
      assert t[0] != 'r';
      assert "reminder_"[0] == 'r';
    }
  }

  datatype Result3 = Ok3(subject: string, link: string) | Skip3 | Raise3

  /** `create_email_template`: priority conversion and bucketing first
      (an incomparable priority raises whatever the type), then the
      per-type subject and link. */
  function CreateEmailTemplate(ntype: string, data: Json.Row, base: string): (r: TemplateResult)
    ensures PriorityValue(Json.GetOr(data, "priority", Json.Int(5))).None? ==> r == Raises
    ensures var title := Json.PyStr(Json.GetOr(data, "task_title", Json.Str("Untitled Task")));
            var taskLink := Link(base, "/tasks?taskId=", Json.GetOr(data, "task_id", Json.Str("")));
            && (r.Email? <==> PriorityValue(Json.GetOr(data, "priority", Json.Int(5))).Some?
                              && Dispatch(ntype, data, title, taskLink, base).Ok3?)
            && (r.Raises? <==> PriorityValue(Json.GetOr(data, "priority", Json.Int(5))).None?
                               || Dispatch(ntype, data, title, taskLink, base).Raise3?)
    ensures r.Email? ==>
              var p := PriorityValue(Json.GetOr(data, "priority", Json.Int(5))).value;
              && r.t.priorityColor == LevelColor(LevelOf(Rank(p)))
              && r.t.priorityLabel == PriorityLabel(p, LevelOf(Rank(p)))
              && (r.t.reminderDays.Some? <==> Text.StartsWith(ntype, "reminder_"))
    ensures r.Email? && Text.StartsWith(ntype, "reminder_") ==> r.t.reminderDays == Some(ReminderDaysField(ntype))
    ensures r.Email? ==>
              var title := Json.PyStr(Json.GetOr(data, "task_title", Json.Str("Untitled Task")));
              var taskLink := Link(base, "/tasks?taskId=", Json.GetOr(data, "task_id", Json.Str("")));
              && Dispatch(ntype, data, title, taskLink, base) == Ok3(r.t.subject, r.t.link)
              && (ntype != "project_comment" ==> r.t.link == taskLink)
    ensures Text.StartsWith(ntype, "reminder_") && PriorityValue(Json.GetOr(data, "priority", Json.Int(5))).Some? ==>
              r.Email? && r.t.subject == REMINDER_ICON + " Task Reminder: "
                                           + Json.PyStr(Json.GetOr(data, "task_title", Json.Str("Untitled Task")))
    ensures r.NoEmail? <==>
              && PriorityValue(Json.GetOr(data, "priority", Json.Int(5))).Some?
              && !Text.StartsWith(ntype, "reminder_") && ntype !in KNOWN_TYPES
              && var m := Json.GetOr(data, "message", Json.Str(""));
                 !Json.Truthy(m) || (m.Str? && Text.PyStrip(m.s) == "")
  {
    var title := Json.PyStr(Json.GetOr(data, "task_title", Json.Str("Untitled Task")));
    var taskLink := Link(base, "/tasks?taskId=", Json.GetOr(data, "task_id", Json.Str("")));
    match PriorityValue(Json.GetOr(data, "priority", Json.Int(5)))
    case None => Raises
    case Some(p) =>
      var level := LevelOf(Rank(p));
      var days := if Text.StartsWith(ntype, "reminder_") then Some(ReminderDaysField(ntype)) else None;
      match Dispatch(ntype, data, title, taskLink, base)
      case Ok3(subject, link) => Email(Template(subject, link, PriorityLabel(p, level), LevelColor(level), days))
      case Skip3 => NoEmail
      case Raise3 => Raises
  }

  /** `notification_type.split("_")[1]`. */
  function ReminderDaysField(ntype: string): string
    requires Text.StartsWith(ntype, "reminder_")
  {
    assert ntype[8] == '_';
    Text.SplitHasSecond(ntype, '_');
    Text.Split(ntype, '_')[1]
  }

  /** The day count a reminder email shows is the number the reminder's
      type carries, so `reminder_<d>_days` reads back as `<d>`. */
  lemma ReminderDaysRoundTrip(d: nat)
    ensures Text.StartsWith(NotificationService.ReminderType(d), "reminder_")
    ensures ReminderDaysField(NotificationService.ReminderType(d)) == Text.NatToString(d)
  {
    var x := Text.NatToString(d);
    var rest := x + ['_'] + "days";
    var t := NotificationService.ReminderType(d);
    ReminderTypeShape(d);
    assert '_' !in x by {
      assert forall i :: 0 <= i < |x| ==> Text.IsAsciiDigit(x[i]);
    }
    Text.SplitAt("reminder", rest, '_');
    Text.SplitAt(x, "days", '_');
    var parts := Text.Split(t, '_');
    assert parts == ["reminder"] + ([x] + Text.Split("days", '_'));
    assert parts[1] == x;
  }

  lemma ReminderTypeShape(d: nat)
    ensures NotificationService.ReminderType(d) == "reminder" + ['_'] + (Text.NatToString(d) + ['_'] + "days")
  {
  }

  /** A priority string that is not all digits is read as 5, so a comment
      email shows "Priority: 5/10 (Medium)" in orange. */
  lemma PriorityBuckets(data: Json.Row, s: string)
    requires Json.GetOr(data, "priority", Json.Int(5)) == Json.Str(s)
    requires !(|s| > 0 && Text.AllDigits(s))
    ensures var r := CreateEmailTemplate("task_comment", data, DEFAULT_FRONTEND_URL);
            r.Email? && r.t.priorityColor == "#d46b08" && r.t.priorityLabel == "Priority: 5/10 (Medium)"
  {
    var p := Json.Int(5);
    assert PriorityValue(Json.GetOr(data, "priority", Json.Int(5))) == Some(p);
    assert LevelOf(Rank(p)) == Medium;
    assert Json.PyStr(p) == "5" by {
      assert Text.NatToString(5) == "5";
    }
    assert !Text.StartsWith("task_comment", "reminder_") by {
      assert "task_comment"[0] != "reminder_"[0];
    }
    var title := Json.PyStr(Json.GetOr(data, "task_title", Json.Str("Untitled Task")));
    var taskLink := Link(DEFAULT_FRONTEND_URL, "/tasks?taskId=", Json.GetOr(data, "task_id", Json.Str("")));
    assert Dispatch("task_comment", data, title, taskLink, DEFAULT_FRONTEND_URL).Ok3?;
  }

  // ----- sending -----

  /** `send_email`: without both SMTP user and password nothing is sent and
      the answer is false; otherwise the answer is whether the SMTP exchange
      succeeded (`smtpOk`), an exception giving false. The second component
      says whether the server was contacted. */
  function SendEmail(smtpUser: Option<string>, smtpPassword: Option<string>, smtpOk: bool): (res: (bool, bool))
    ensures smtpUser.None? || smtpUser.value == "" || smtpPassword.None? || smtpPassword.value == "" ==>
              res == (false, false)
    ensures res.0 ==> res.1 && smtpOk
    ensures smtpUser.Some? && smtpUser.value != "" && smtpPassword.Some? && smtpPassword.value != "" ==>
              res == (smtpOk, true)
  {
    if smtpUser.None? || smtpUser.value == "" || smtpPassword.None? || smtpPassword.value == "" then (false, false)
    else (smtpOk, true)
  }

  /** The arguments of `send_notification_email` that reach the template;
      None is a keyword argument left at its default of None. */
  datatype Args = Args(
    taskTitle: Option<string>,
    dueDate: Option<string>,
    priority: Json.Value,
    taskId: Option<string>,
    oldDueDate: Option<string>,
    newDueDate: Option<string>,
    message: Option<string>,
    commentText: Option<string>,
    commenterName: Option<string>,
    projectName: Option<string>,
    projectId: Option<string>)

  function OptStr(o: Option<string>): Json.Value {
    if o.Some? then Json.Str(o.value) else Json.Null
  }

  /** The keys of the data dict, in three groups: the task's own, those of
      a due-date change or plain message, and those of a comment or
      project. */
  const TASK_KEYS: set<string> := {"task_title", "due_date", "priority", "task_id"}
  const CHANGE_KEYS: set<string> := {"old_due_date", "new_due_date", "message"}
  const COMMENT_KEYS: set<string> := {"comment_text", "commenter_name", "project_name", "project_id"}

  lemma KeyGroupsDisjoint()
    ensures TASK_KEYS !! CHANGE_KEYS && TASK_KEYS !! COMMENT_KEYS && CHANGE_KEYS !! COMMENT_KEYS
  {
  }

  function TaskFields(a: Args): (m: Json.Row)
    ensures m.Keys == TASK_KEYS
    ensures m["task_title"] == OptStr(a.taskTitle) && m["due_date"] == OptStr(a.dueDate)
    ensures m["priority"] == a.priority && m["task_id"] == OptStr(a.taskId)
  {
    map["task_title" := OptStr(a.taskTitle), "due_date" := OptStr(a.dueDate),
        "priority" := a.priority, "task_id" := OptStr(a.taskId)]
  }

  function ChangeFields(a: Args): (m: Json.Row)
    ensures m.Keys == CHANGE_KEYS
    ensures m["old_due_date"] == OptStr(a.oldDueDate) && m["new_due_date"] == OptStr(a.newDueDate)
    ensures m["message"] == OptStr(a.message)
  {
    map["old_due_date" := OptStr(a.oldDueDate), "new_due_date" := OptStr(a.newDueDate),
        "message" := OptStr(a.message)]
  }

  function CommentFields(a: Args): (m: Json.Row)
    ensures m.Keys == COMMENT_KEYS
    ensures m["comment_text"] == OptStr(a.commentText) && m["commenter_name"] == OptStr(a.commenterName)
    ensures m["project_name"] == OptStr(a.projectName) && m["project_id"] == OptStr(a.projectId)
  {
    map["comment_text" := OptStr(a.commentText), "commenter_name" := OptStr(a.commenterName),
        "project_name" := OptStr(a.projectName), "project_id" := OptStr(a.projectId)]
  }

  /** The data dict as written: every key is present, holding None for an
      argument not passed, so the template's own defaults never apply. */
  function NotificationData(a: Args): (d: Json.Row)
    ensures d.Keys == TASK_KEYS + CHANGE_KEYS + COMMENT_KEYS
    ensures d["priority"] == a.priority
    ensures d["task_title"] == OptStr(a.taskTitle) && d["due_date"] == OptStr(a.dueDate)
    ensures d["task_id"] == OptStr(a.taskId) && d["message"] == OptStr(a.message)
    ensures d["old_due_date"] == OptStr(a.oldDueDate) && d["new_due_date"] == OptStr(a.newDueDate)
    ensures d["comment_text"] == OptStr(a.commentText) && d["commenter_name"] == OptStr(a.commenterName)
    ensures d["project_name"] == OptStr(a.projectName) && d["project_id"] == OptStr(a.projectId)
    ensures a.taskTitle.None? ==> d["task_title"] == Json.Null
  {
    KeyGroupsDisjoint();
    TaskFields(a) + ChangeFields(a) + CommentFields(a)
  }

  /** Leaves out the arguments that were not passed, so that the template's
      defaults ("Untitled Task", "Untitled Project", "Someone", no message)
      apply. */
  function NotificationDataWithDefaults(a: Args): (d: Json.Row)
    ensures a.taskTitle.None? <==> "task_title" !in d
    ensures a.projectName.None? <==> "project_name" !in d
    ensures a.commenterName.None? <==> "commenter_name" !in d
    ensures a.message.None? <==> "message" !in d
    ensures forall k :: k in d ==> k in NotificationData(a) && d[k] == NotificationData(a)[k]
  {
    var full := NotificationData(a);
    map k | k in full && full[k] != Json.Null :: full[k]
  }

  datatype SendResult = Returned(sent: bool, contactedServer: bool) | Raised

  /** `send_notification_email`: builds the template; no email means false
      without contacting the server; an exception in the template is not
      caught. */
  function SendNotificationEmail(ntype: string, a: Args, base: string,
                                 smtpUser: Option<string>, smtpPassword: Option<string>, smtpOk: bool): (r: SendResult)
    ensures CreateEmailTemplate(ntype, NotificationData(a), base).NoEmail? ==> r == Returned(false, false)
    ensures CreateEmailTemplate(ntype, NotificationData(a), base).Raises? <==> r.Raised?
    ensures r.Returned? && r.sent ==> r.contactedServer && CreateEmailTemplate(ntype, NotificationData(a), base).Email?
    ensures CreateEmailTemplate(ntype, NotificationData(a), base).Email? ==>
              r == Returned(SendEmail(smtpUser, smtpPassword, smtpOk).0, SendEmail(smtpUser, smtpPassword, smtpOk).1)
  {
    match CreateEmailTemplate(ntype, NotificationData(a), base)
    case Raises => Raised
    case NoEmail => Returned(false, false)
    case Email(_) =>
      var (sent, contacted) := SendEmail(smtpUser, smtpPassword, smtpOk);
      Returned(sent, contacted)
  }

  /** As written, a reminder sent without a task title is titled with the
      text "None". */
  lemma UntitledReminderAsWritten(a: Args)
    requires a.taskTitle.None? && a.priority == Json.Str("Medium")
    ensures CreateEmailTemplate("reminder_1_days", NotificationData(a), DEFAULT_FRONTEND_URL)
              .t.subject == REMINDER_ICON + " Task Reminder: " + "None"
  {
    var d := NotificationData(a);
    assert Text.StartsWith("reminder_1_days", "reminder_");
    assert !Text.AllDigits("Medium") by { assert !Text.IsAsciiDigit("Medium"[0]); }
    assert Json.GetOr(d, "priority", Json.Int(5)) == Json.Str("Medium");
    assert Json.GetOr(d, "task_title", Json.Str("Untitled Task")) == Json.Null;
    var r := CreateEmailTemplate("reminder_1_days", d, DEFAULT_FRONTEND_URL);
    assert r.Email?;
    assert r.t.subject == REMINDER_ICON + " Task Reminder: " + Json.PyStr(Json.Null);
  }

  /** Without the None entries, the same reminder is titled "Untitled
      Task". */
  lemma UntitledReminderWithDefaults(a: Args)
    requires a.taskTitle.None? && a.priority == Json.Str("Medium")
    ensures CreateEmailTemplate("reminder_1_days", NotificationDataWithDefaults(a), DEFAULT_FRONTEND_URL)
              .t.subject == REMINDER_ICON + " Task Reminder: " + "Untitled Task"
  {
    var d := NotificationDataWithDefaults(a);
    assert Text.StartsWith("reminder_1_days", "reminder_");
    assert !Text.AllDigits("Medium") by { assert !Text.IsAsciiDigit("Medium"[0]); }
    assert "priority" in NotificationData(a) && NotificationData(a)["priority"] == Json.Str("Medium");
    assert Json.GetOr(d, "priority", Json.Int(5)) == Json.Str("Medium");
    assert Json.GetOr(d, "task_title", Json.Str("Untitled Task")) == Json.Str("Untitled Task");
  }

  /** With the None entries left out, a notification without a message is
      still skipped, as it is when the message is None. */
  lemma MissingMessageStillSkipped(ntype: string, a: Args)
    requires a.message.None? && a.priority == Json.Int(5)
    requires !Text.StartsWith(ntype, "reminder_") && ntype !in KNOWN_TYPES
    ensures CreateEmailTemplate(ntype, NotificationDataWithDefaults(a), DEFAULT_FRONTEND_URL).NoEmail?
    ensures CreateEmailTemplate(ntype, NotificationData(a), DEFAULT_FRONTEND_URL).NoEmail?
  {
    var d := NotificationDataWithDefaults(a);
    assert "priority" in NotificationData(a) && NotificationData(a)["priority"] == Json.Int(5);
    assert Json.GetOr(d, "priority", Json.Int(5)) == Json.Int(5);
    assert "message" !in d;
  }
}

=== FILE: json.dfy ===
/** JSON-like values as the Python services see them: a database row or a
    request body is a dict from keys to values, where an absent key and a key
    holding `None` are different things. */
module Json {
  import Text
  import opened Common

  datatype Value =
    | Null
    | Bool(b: bool)
    | Int(i: int)
    | Str(s: string)
    | Arr(items: seq<Value>)
    | Obj(fields: map<string, Value>)

  /** A dict with string keys: a database row, a request body, an API payload. */
  type Row = map<string, Value>

  /** `row.get(key)`: the stored value, or None when the key is absent. */
  function Get(row: Row, key: string): (v: Value)
    ensures key in row ==> v == row[key]
    ensures key !in row ==> v == Null
  {
    if key in row then row[key] else Null
  }

  /** `row.get(key, default)`: the default is used only when the key is
      absent, never when it is present and holds None. */
  function GetOr(row: Row, key: string, default: Value): (v: Value)
    ensures key in row ==> v == row[key]
    ensures key !in row ==> v == default
  {
    if key in row then row[key] else default
  }

  /** Python truthiness. */
  predicate Truthy(v: Value) {
    match v
    case Null => false
    case Bool(b) => b
    case Int(i) => i != 0
    case Str(s) => s != ""
    case Arr(items) => |items| > 0
    case Obj(fields) => |fields| > 0
  }

  /** JavaScript truthiness: the same as Python's on scalars, but every
      array and object is truthy, empty or not. */
  predicate JsTruthy(v: Value) {
    match v
    case Arr(_) => true
    case Obj(_) => true
    case _ => Truthy(v)
  }

  /** The property name JavaScript makes of a value used as an object key
      (`String(v)`): integers in decimal, `null` as "null", an array as its
      elements' names joined with commas (a null element as the empty
      string), and every object as "[object Object]". So the number 1 and
      the text "1" name the same property. */
  function JsPropertyKey(v: Value): string {
    match v
    case Null => "null"
    case Bool(b) => if b then "true" else "false"
    case Int(i) => Text.IntToString(i)
    case Str(s) => s
    case Arr(items) =>
      Text.Join(seq(|items|, i requires 0 <= i < |items| =>
                      if items[i].Null? then "" else JsPropertyKey(items[i])), ",")
    case Obj(_) => "[object Object]"
  }

  /** Python `a or b`: the first operand when it is truthy, else the second. */
  function Or(a: Value, b: Value): (r: Value)
    ensures Truthy(a) ==> r == a
    ensures !Truthy(a) ==> r == b
  {
    if Truthy(a) then a else b
  }

  /** What an f-string prints for a scalar value (`str(v)`); containers are
      abbreviated. */
  function PyStr(v: Value): string {
    match v
    case Null => "None"
    case Bool(b) => if b then "True" else "False"
    case Int(i) => Text.IntToString(i)
    case Str(s) => s
    case Arr(_) => "[...]"
    case Obj(_) => "{...}"
  }

  /** Picks the listed keys out of a row, each with `row.get(key)`: the
      shape every `map_db_row_to_api` in the services has. */
  function Project(row: Row, keys: seq<string>): (r: Row)
    ensures r.Keys == set k | k in keys
    ensures forall k :: k in keys ==> r[k] == Get(row, k)
  {
    map k | k in keys :: Get(row, k)
  }

  /** The request body as the endpoint reads it:
      `request.get_json(silent=True) or {}`. A falsy or unreadable body is
      the empty dict; None stands for a truthy body that is not an object,
      on which the first `.get` or `**` unpacking raises. */
  function RequestDict(body: Value): (r: Option<Row>)
    ensures !Truthy(body) ==> r == Some(map[])
    ensures body.Obj? ==> r == Some(body.fields)
    ensures Truthy(body) && !body.Obj? ==> r.None?
  {
    if !Truthy(body) then Some(map[])
    else if body.Obj? then Some(body.fields)
    else None
  }
}

=== FILE: mention_utils.dfy ===
/** The comment box's @mention helpers: extracting the mentioned names,
    rendering mentions, filtering suggestions, the suggestion list's keys,
    and inserting a chosen name at the cursor. Text positions are
    character indices; the model treats each character as one UTF-16 code
    unit there. */
module MentionUtils {
  import opened Common
  import Json
  import Text

  // ----- the pattern /@(\w+)/g -----

  /** The end of the run of word characters starting at `i`. */
  function RunEnd(text: string, i: nat): (e: nat)
    requires i <= |text|
    ensures i <= e <= |text|
    ensures forall j :: i <= j < e ==> Text.IsWordChar(text[j])
    ensures e < |text| ==> !Text.IsWordChar(text[e])
    decreases |text| - i
  {
    if i < |text| && Text.IsWordChar(text[i]) then RunEnd(text, i + 1) else i
  }

  /** An '@' at `i` followed by at least one word character: where the
      pattern matches. */
  predicate MentionAt(text: string, i: int) {
    0 <= i && i + 1 < |text| && text[i] == '@' && Text.IsWordChar(text[i + 1])
  }

  /** The name a match at `i` captures: the whole word run after the '@'. */
  function NameAt(text: string, i: int): string
    requires MentionAt(text, i)
  {
    text[i + 1..RunEnd(text, i + 1)]
  }

  /** The captures of the global pattern scanning from `i`: after a match
      the scan resumes where the run ended. */
  function Scan(text: string, i: nat): (r: seq<string>)
    requires i <= |text|
    decreases |text| - i
  {
    if i == |text| then []
    else if MentionAt(text, i) then [NameAt(text, i)] + Scan(text, RunEnd(text, i + 1))
    else Scan(text, i + 1)
  }

  /** Since '@' is not a word character, the scan visits every '@': a
      name is captured exactly when some '@' at or after `i` carries it. */
  lemma {:induction false} ScanMembers(text: string, i: nat, m: string)
    requires i <= |text|
    ensures m in Scan(text, i) <==> exists j :: i <= j < |text| && MentionAt(text, j) && NameAt(text, j) == m
    decreases |text| - i
  {
    if i < |text| {
      if MentionAt(text, i) {
        var e := RunEnd(text, i + 1);
        ScanMembers(text, e, m);
        assert forall j :: i < j < e ==> !MentionAt(text, j);
      } else {
        ScanMembers(text, i + 1, m);
      }
    }
  }

  /** Every capture is a non-empty run of word characters. */
  lemma {:induction false} ScanWords(text: string, i: nat)
    requires i <= |text|
    ensures forall k :: 0 <= k < |Scan(text, i)| ==> IsName(Scan(text, i)[k])
    decreases |text| - i
  {
    if i < |text| {
      if MentionAt(text, i) {
        ScanWords(text, RunEnd(text, i + 1));
      } else {
        ScanWords(text, i + 1);
      }
    }
  }

  /** Some mention of `m1` comes before every mention of `m2`: `m1` is
      mentioned first. */
  predicate MentionedBefore(text: string, m1: string, m2: string) {
    exists a :: 0 <= a < |text| && MentionAt(text, a) && NameAt(text, a) == m1
                && forall b :: 0 <= b <= a && MentionAt(text, b) ==> NameAt(text, b) != m2
  }

  /** The scan lists the names in the order of their first mention: a
      name first captured earlier is mentioned before the other. */
  lemma {:induction false} ScanOrder(text: string, i: nat, m1: string, m2: string)
    requires i <= |text|
    requires m1 in Scan(text, i) && m2 in Scan(text, i)
    requires Position(Scan(text, i), m1) < Position(Scan(text, i), m2)
    ensures exists a :: i <= a < |text| && MentionAt(text, a) && NameAt(text, a) == m1
                        && forall b :: i <= b <= a && MentionAt(text, b) ==> NameAt(text, b) != m2
    decreases |text| - i
  {
    var found := Scan(text, i);
    if !MentionAt(text, i) {
      assert found == Scan(text, i + 1);
      ScanOrder(text, i + 1, m1, m2);
    } else if NameAt(text, i) == m1 {
      assert found[0] == m1;
      assert Position(found, m1) == 0;
      assert m1 != m2;
      assert MentionAt(text, i) && NameAt(text, i) == m1;
    } else {
      ScanOrderSkip(text, i, m1, m2);
    }
  }

  /** The step of `ScanOrder` past a mention of neither name. */
  lemma {:induction false} ScanOrderSkip(text: string, i: nat, m1: string, m2: string)
    requires i < |text| && MentionAt(text, i) && NameAt(text, i) != m1
    requires m1 in Scan(text, i) && m2 in Scan(text, i)
    requires Position(Scan(text, i), m1) < Position(Scan(text, i), m2)
    ensures exists a :: i <= a < |text| && MentionAt(text, a) && NameAt(text, a) == m1
                        && forall b :: i <= b <= a && MentionAt(text, b) ==> NameAt(text, b) != m2
    decreases |text| - i, 0
  {
    var found := Scan(text, i);
    var e := RunEnd(text, i + 1);
    var rest := Scan(text, e);
    assert found == [NameAt(text, i)] + rest;
    PositionCons(NameAt(text, i), rest, m1);
    PositionCons(NameAt(text, i), rest, m2);
    ScanOrder(text, e, m1, m2);
    var a :| e <= a < |text| && MentionAt(text, a) && NameAt(text, a) == m1
             && forall b :: e <= b <= a && MentionAt(text, b) ==> NameAt(text, b) != m2;
    NoMentionInsideRun(text, i);
    assert forall b :: i <= b <= a && MentionAt(text, b) ==> b == i || e <= b;
  }

  /** The first index of a name behind a different head. */
  lemma PositionCons<T>(x: T, rest: seq<T>, m: T)
    requires m in [x] + rest
    requires Position([x] + rest, m) > 0 || m != x
    ensures m != x && m in rest && Position([x] + rest, m) == Position(rest, m) + 1
  {
    assert ([x] + rest)[1..] == rest;
  }

  /** No mention starts inside the name a mention captures. */
  lemma NoMentionInsideRun(text: string, i: nat)
    requires MentionAt(text, i)
    ensures forall b :: i < b < RunEnd(text, i + 1) ==> !MentionAt(text, b)
  {
    assert !Text.IsWordChar('@');
  }

  predicate IsName(m: string) {
    |m| > 0 && forall j :: 0 <= j < |m| ==> Text.IsWordChar(m[j])
  }

  // ----- duplicates removed, first occurrence kept -----

  predicate Distinct<T(==)>(s: seq<T>) {
    forall i, j :: 0 <= i < j < |s| ==> s[i] != s[j]
  }

  /** Index of the first occurrence of `x` in `s`, which holds it. */
  function Position<T(==)>(s: seq<T>, x: T): (k: nat)
    requires x in s
    ensures k < |s| && s[k] == x && x !in s[..k]
  {
    var k := FirstIndex(s, (y: T) => y == x);
    assert forall j :: 0 <= j < k ==> s[..k][j] == s[j];
    k
  }

  /** `[...new Set(s)]`: the distinct values, in order of first
      occurrence. */
  function Dedup<T(==,!new)>(s: seq<T>): (r: seq<T>)
    ensures forall x :: x in r <==> x in s
    ensures Distinct(r)
    ensures forall i, j :: 0 <= i < j < |r| ==> Position(s, r[i]) < Position(s, r[j])
  {
    if |s| == 0 then []
    else
      var init := s[..|s| - 1];
      var last := s[|s| - 1];
      var r := Dedup(init);
      assert s == init + [last];
      PositionExtend(init, last);
      if last in r then r
      else
        assert Position(s, last) == |s| - 1 by {
          assert last !in init;
          assert last !in s[..|s| - 1];
        }
        r + [last]
  }

  /** Appending keeps the first index of what was already there. */
  lemma PositionExtend<T>(s: seq<T>, x: T)
    ensures forall y :: y in s ==> Position(s + [x], y) == Position(s, y)
  {
    forall y | y in s ensures Position(s + [x], y) == Position(s, y) {
      var k := Position(s, y);
      assert (s + [x])[..k] == s[..k];
      PositionUnique(s + [x], y, k);
    }
  }

  lemma PositionUnique<T>(s: seq<T>, x: T, k: nat)
    requires k < |s| && s[k] == x && x !in s[..k]
    ensures Position(s, x) == k
  {
  }

  // ----- the exported helpers -----

  /** `extractMentions`: [] for empty text, else every name following an
      '@', once each, in order of first appearance. */
  function ExtractMentions(text: Option<string>): (r: seq<string>)
    ensures text.None? || text == Some("") ==> r == []
    ensures Distinct(r)
    ensures forall k :: 0 <= k < |r| ==> IsName(r[k])
    ensures text.Some? ==>
              forall m :: m in r <==> exists j :: 0 <= j < |text.value| && MentionAt(text.value, j) && NameAt(text.value, j) == m
    ensures text.Some? ==> forall i, j :: 0 <= i < j < |r| ==> MentionedBefore(text.value, r[i], r[j])
  {
    if text.None? || text.value == "" then []
    else
      var found := Scan(text.value, 0);
      ScanWords(text.value, 0);
      forall k | 0 <= k < |Dedup(found)| ensures IsName(Dedup(found)[k]) {
        var m := Dedup(found)[k];
        assert m in found;
      }
      forall m ensures m in Dedup(found) <==> exists j :: 0 <= j < |text.value| && MentionAt(text.value, j) && NameAt(text.value, j) == m {
        ScanMembers(text.value, 0, m);
      }
      var r := Dedup(found);
      forall i, j | 0 <= i < j < |r| ensures MentionedBefore(text.value, r[i], r[j]) {
        ScanOrder(text.value, 0, r[i], r[j]);
      }
      r
  }

  /** `findUserIdByUsername`: a stub that finds no one. */
  function FindUserIdByUsername(username: string, userCache: Json.Row): (r: Option<string>)
    ensures r.None?
  {
    None
  }

  /** The span that replaces a recognised mention. */
  function MentionSpan(userId: string, username: string): string {
    "<span class=\"mention\" data-user-id=\"" + userId + "\" data-username=\"" + username + "\">@" + username + "</span>"
  }

  /** `text.replace(/@(\w+)/g, ...)` from `i`: each match becomes a span
      when the user is found and stays as it was otherwise. */
  function Render(text: string, i: nat, userCache: Json.Row): string
    requires i <= |text|
    decreases |text| - i
  {
    if i == |text| then ""
    else if MentionAt(text, i) then
      var e := RunEnd(text, i + 1);
      var name := text[i + 1..e];
      var shown := match FindUserIdByUsername(name, userCache)
                   case Some(id) => if id != "" then MentionSpan(id, name) else text[i..e]
                   case None => text[i..e];
      shown + Render(text, e, userCache)
    else [text[i]] + Render(text, i + 1, userCache)
  }

  /** With the lookup finding no one, rendering reproduces the text. */
  lemma {:induction false} RenderUnchanged(text: string, i: nat, userCache: Json.Row)
    requires i <= |text|
    ensures Render(text, i, userCache) == text[i..]
    decreases |text| - i
  {
    if i < |text| {
      if MentionAt(text, i) {
        var e := RunEnd(text, i + 1);
        RenderUnchanged(text, e, userCache);
        assert text[i..] == text[i..e] + text[e..];
      } else {
        RenderUnchanged(text, i + 1, userCache);
        assert text[i..] == [text[i]] + text[i + 1..];
      }
    }
  }

  /** `parseMentions`: '' for empty text; otherwise the text comes back
      unchanged, since no user is ever found. */
  function ParseMentions(text: Option<string>, userCache: Json.Row): (r: string)
    ensures text.None? ==> r == ""
    ensures text.Some? ==> r == text.value
  {
    if text.None? || text.value == "" then ""
    else
      RenderUnchanged(text.value, 0, userCache);
      Render(text.value, 0, userCache)
  }

  // ----- suggestions -----

  /** A user as the suggestion list sees one; a missing name, email or
      username is None. */
  datatype User = User(userId: Json.Value, name: Option<string>, email: Option<string>, username: Option<string>)

  const SUGGESTION_LIMIT: nat := 5

  /** `field?.toLowerCase().includes(q)`: a missing field never matches. */
  predicate FieldMatches(field: Option<string>, lowerQuery: string) {
    field.Some? && Text.Contains(Text.Lower(field.value), lowerQuery)
  }

  /** The filter's test: not the current user, and the query found in the
      name, email or username, ignoring case. */
  predicate Suggestible(u: User, lowerQuery: string, currentUserId: Json.Value) {
    && u.userId != currentUserId
    && (FieldMatches(u.name, lowerQuery) || FieldMatches(u.email, lowerQuery) || FieldMatches(u.username, lowerQuery))
  }

  function Matching(users: seq<User>, lowerQuery: string, currentUserId: Json.Value): (r: seq<User>)
    ensures Subsequence(r, users)
    ensures forall u :: u in r <==> u in users && Suggestible(u, lowerQuery, currentUserId)
  {
    if |users| == 0 then []
    else
      var rest := Matching(users[1..], lowerQuery, currentUserId);
      assert forall u :: u in users <==> u == users[0] || u in users[1..];
      if Suggestible(users[0], lowerQuery, currentUserId) then [users[0]] + rest else rest
  }

  /** A prefix of a subsequence is a subsequence. */
  lemma {:induction false} SubsequencePrefix<T>(a: seq<T>, b: seq<T>, n: nat)
    requires Subsequence(a, b) && n <= |a|
    ensures Subsequence(a[..n], b)
    decreases |b|
  {
    if n > 0 {
      if a[0] == b[0] && Subsequence(a[1..], b[1..]) {
        SubsequencePrefix(a[1..], b[1..], n - 1);
        assert a[..n][1..] == a[1..][..n - 1];
      } else {
        SubsequencePrefix(a, b[1..], n);
      }
    }
  }

  /** `getMentionSuggestions`: [] for an empty query; otherwise the users
      that pass the filter, in their given order, the first five of them. */
  function GetMentionSuggestions(users: seq<User>, query: Option<string>, currentUserId: Json.Value): (r: seq<User>)
    ensures query.None? || query == Some("") ==> r == []
    ensures |r| <= SUGGESTION_LIMIT
    ensures Subsequence(r, users)
    ensures query.Some? ==> forall u :: u in r ==> Suggestible(u, Text.Lower(query.value), currentUserId)
    ensures query.Some? && query.value != "" && |r| < SUGGESTION_LIMIT ==>
              forall u :: u in users && Suggestible(u, Text.Lower(query.value), currentUserId) ==> u in r
    ensures query.Some? && query.value != "" ==>
              var all := Matching(users, Text.Lower(query.value), currentUserId);
              && r <= all
              && |r| == (if |all| < SUGGESTION_LIMIT then |all| else SUGGESTION_LIMIT)
  {
    if query.None? || query.value == "" then []
    else
      var all := Matching(users, Text.Lower(query.value), currentUserId);
      if |all| <= SUGGESTION_LIMIT then all
      else
        SubsequencePrefix(all, users, SUGGESTION_LIMIT);
        all[..SUGGESTION_LIMIT]
  }

  // ----- keyboard handling -----

  /** What `onSelect` receives: a new highlighted index, or the chosen
      suggestion. */
  datatype Selection<T> = Highlight(index: int) | Choose(item: T)

  datatype KeyResult<T> = KeyResult(handled: bool, selected: Option<Selection<T>>)

  /** `handleMentionKeydown`. The suggestions are user objects, so an
      existing entry is always truthy. */
  function HandleMentionKeydown<T>(suggestions: Option<seq<T>>, selectedIndex: int, key: string): (r: KeyResult<T>)
    ensures suggestions.None? || |suggestions.value| == 0 ==> r == KeyResult(false, None)
    ensures r.handled <==> suggestions.Some? && |suggestions.value| > 0 && key in {"ArrowUp", "ArrowDown", "Enter", "Escape"}
    ensures r.selected.Some? && r.selected.value.Highlight? && 0 <= selectedIndex < |suggestions.value| ==>
              0 <= r.selected.value.index < |suggestions.value|
    ensures r.selected.Some? && r.selected.value.Choose? ==>
              0 <= selectedIndex < |suggestions.value| && r.selected.value.item == suggestions.value[selectedIndex]
    ensures key == "Enter" && r.handled && 0 <= selectedIndex < |suggestions.value| ==> r.selected == Some(Choose(suggestions.value[selectedIndex]))
    ensures key == "Escape" || key !in {"ArrowUp", "ArrowDown", "Enter"} ==> r.selected.None?
    ensures suggestions.Some? && |suggestions.value| > 0 && key == "ArrowUp" ==>
              && r.selected.Some? && r.selected.value.Highlight?
              && (selectedIndex >= 1 ==> r.selected.value.index == selectedIndex - 1)
              && (selectedIndex < 1 ==> r.selected.value.index == 0)
    ensures suggestions.Some? && |suggestions.value| > 0 && key == "ArrowDown" ==>
              && r.selected.Some? && r.selected.value.Highlight?
              && (selectedIndex + 1 < |suggestions.value| ==> r.selected.value.index == selectedIndex + 1)
              && (selectedIndex + 1 >= |suggestions.value| ==> r.selected.value.index == |suggestions.value| - 1)
  {
    if suggestions.None? || |suggestions.value| == 0 then KeyResult(false, None)
    else
      var n := |suggestions.value|;
      if key == "ArrowUp" then KeyResult(true, Some(Highlight(if selectedIndex - 1 < 0 then 0 else selectedIndex - 1)))
      else if key == "ArrowDown" then KeyResult(true, Some(Highlight(if n - 1 < selectedIndex + 1 then n - 1 else selectedIndex + 1)))
      else if key == "Enter" then
        KeyResult(true, if 0 <= selectedIndex < n then Some(Choose(suggestions.value[selectedIndex])) else None)
      else if key == "Escape" then KeyResult(true, None)
      else KeyResult(false, None)
  }

  /** From a highlighted entry other than the last, ArrowDown then ArrowUp
      comes back to it; from one other than the first, ArrowUp then
      ArrowDown does. */
  lemma ArrowKeysInverse<T>(suggestions: seq<T>, i: int)
    requires 0 <= i < |suggestions|
    ensures i + 1 < |suggestions| ==>
              HandleMentionKeydown(Some(suggestions), HandleMentionKeydown(Some(suggestions), i, "ArrowDown").selected.value.index, "ArrowUp").selected
              == Some(Highlight(i))
    ensures 0 < i ==>
              HandleMentionKeydown(Some(suggestions), HandleMentionKeydown(Some(suggestions), i, "ArrowUp").selected.value.index, "ArrowDown").selected
              == Some(Highlight(i))
  {
  }

  // ----- insertion -----

  /** The textarea after `insertMention`: its text and the collapsed
      cursor. */
  datatype Inserted = Inserted(text: string, cursor: nat)

  /** `insertMention` on a selection `start..end`: with an '@' before the
      cursor, the text from the last such '@' to the selection end becomes
      "@username "; without one, "@username " replaces the selection. The
      cursor lands right after the inserted text, and the text after the
      selection is kept. */
  function InsertMention(text: string, start: nat, end: nat, username: string): (r: Inserted)
    requires start <= end <= |text|
    ensures var at := Text.LastIndexOf(text[..start], '@');
            var from := if at == -1 then start else at;
            && r.cursor == from + |username| + 2
            && |r.text| == r.cursor + |text| - end
            && r.text[..r.cursor] == text[..from] + "@" + username + " "
            && r.text[r.cursor..] == text[end..]
    ensures '@' !in text[Text.LastIndexOf(text[..start], '@') + 1..start]
  {
    var before := text[..start];
    var after := text[end..];
    var at := Text.LastIndexOf(before, '@');
    var inserted := "@" + username + " ";
    if at != -1 then
      var t := text[..at] + inserted + after;
      assert t[..at + |username| + 2] == text[..at] + inserted;
      Inserted(t, at + |username| + 2)
    else
      var t := before + inserted + after;
      assert t[..start + |username| + 2] == before + inserted;
      Inserted(t, start + |username| + 2)
  }
}

=== FILE: notification_panel.dfy ===
/** The notification panel's open flag, one value shared by every caller,
    and the three ways to change it. */
module NotificationPanel {

  datatype Panel = Panel(isOpen: bool)

  /** The panel starts closed. */
  const INITIAL: Panel := Panel(false)

  /** `openPanel`. */
  function OpenPanel(p: Panel): (r: Panel)
    ensures r.isOpen
  {
    Panel(true)
  }

  /** `closePanel`. */
  function ClosePanel(p: Panel): (r: Panel)
    ensures !r.isOpen
  {
    Panel(false)
  }

  /** `togglePanel`. */
  function TogglePanel(p: Panel): (r: Panel)
    ensures r.isOpen != p.isOpen
  {
    Panel(!p.isOpen)
  }

  /** Opening or closing twice is the same as once, and a toggle undoes a
      toggle. */
  lemma PanelLaws(p: Panel)
    ensures OpenPanel(OpenPanel(p)) == OpenPanel(p)
    ensures ClosePanel(ClosePanel(p)) == ClosePanel(p)
    ensures TogglePanel(TogglePanel(p)) == p
  {
  }

  /** `n` toggles in a row. */
  function Toggles(p: Panel, n: nat): Panel {
    if n == 0 then p else TogglePanel(Toggles(p, n - 1))
  }

  /** After `n` toggles the panel is open exactly when it started open and
      `n` is even, or started closed and `n` is odd. */
  lemma {:induction false} TogglesParity(p: Panel, n: nat)
    ensures Toggles(p, n).isOpen <==> (p.isOpen <==> n % 2 == 0)
  {
    if n > 0 {
      TogglesParity(p, n - 1);
    }
  }
}

=== FILE: notification_service.dfy ===
/** The notification service: the registry of users connected for real-time
    delivery, storing notifications, the daily due-date reminder run with its
    de-duplication, and the HTTP endpoints that list and mark notifications.
    The `notifications` table is a sequence of dict rows; the ids the table
    assigns are drawn from a counter; today's date is a day number and the
    clock is integer milliseconds. Real-time emits and queue publications are
    returned as a list of effects. */
module NotificationService {
  import opened Common
  import Json
  import Text
  import Sorting
  import Counting

  // ----- connected users -----

  /** An entry of `connected_users`: a user id and its socket id. The dict
      keeps insertion order, which decides which user a disconnect removes. */
  datatype Conn = Conn(userId: string, sid: string)

  predicate DistinctUsers(reg: seq<Conn>) {
    forall i, j :: 0 <= i < j < |reg| ==> reg[i].userId != reg[j].userId
  }

  /** `connected_users.get(uid)`. */
  function SidOf(reg: seq<Conn>, uid: string): (r: Option<string>)
    ensures r.Some? <==> exists i :: 0 <= i < |reg| && reg[i].userId == uid
  {
    if |reg| == 0 then None
    else if reg[0].userId == uid then Some(reg[0].sid)
    else
      var r := SidOf(reg[1..], uid);
      assert forall i :: 1 <= i < |reg| ==> reg[i] == reg[1..][i - 1];
      r
  }

  predicate IsConnected(reg: seq<Conn>, uid: string) {
    SidOf(reg, uid).Some?
  }

  /** `connected_users[uid] = sid`: replaces the entry in place, or appends
      a new one. */
  function Assign(reg: seq<Conn>, uid: string, sid: string): (r: seq<Conn>)
    requires DistinctUsers(reg)
    ensures DistinctUsers(r)
    ensures SidOf(r, uid) == Some(sid)
    ensures forall u :: u != uid ==> SidOf(r, u) == SidOf(reg, u)
  {
    if |reg| == 0 then [Conn(uid, sid)]
    else if reg[0].userId == uid then
      var r := [Conn(uid, sid)] + reg[1..];
      assert r[1..] == reg[1..];
      r
    else
      var rest := Assign(reg[1..], uid, sid);
      var r := [reg[0]] + rest;
      assert r[1..] == rest;
      assert forall j :: 0 <= j < |rest| ==> rest[j].userId != reg[0].userId by {
        forall j | 0 <= j < |rest| ensures rest[j].userId != reg[0].userId {
          var u := rest[j].userId;
          assert SidOf(rest, u).Some?;
          if u != uid {
            var m :| 0 <= m < |reg[1..]| && reg[1..][m].userId == u;
            assert reg[m + 1].userId == u;
          }
        }
      }
      r
  }

  /** The `join_notifications` event: a truthy user id is recorded with the
      socket id; anything else is ignored. */
  function Join(reg: seq<Conn>, userId: Option<string>, sid: string): (r: seq<Conn>)
    requires DistinctUsers(reg)
    ensures DistinctUsers(r)
    ensures userId.None? || userId.value == "" ==> r == reg
    ensures userId.Some? && userId.value != "" ==>
              SidOf(r, userId.value) == Some(sid)
              && forall u :: u != userId.value ==> SidOf(r, u) == SidOf(reg, u)
  {
    if userId.None? || userId.value == "" then reg else Assign(reg, userId.value, sid)
  }

  /** Index of the first entry with socket id `sid`, or -1. */
  function FirstWithSid(reg: seq<Conn>, sid: string): (i: int)
    ensures -1 <= i < |reg|
    ensures i >= 0 ==> reg[i].sid == sid
    ensures forall j :: 0 <= j < |reg| && (i == -1 || j < i) ==> reg[j].sid != sid
  {
    FirstIndex(reg, (c: Conn) => c.sid == sid)
  }

  /** The `disconnect` event: removes the first user, in insertion order,
      whose socket id matches, and nobody else. */
  function Disconnect(reg: seq<Conn>, sid: string): (r: seq<Conn>)
    ensures FirstWithSid(reg, sid) == -1 ==> r == reg
    ensures var i := FirstWithSid(reg, sid);
            i >= 0 && reg[i].userId != "" ==> r == reg[..i] + reg[i + 1..]
    ensures |r| >= |reg| - 1
  {
    var i := FirstWithSid(reg, sid);
    if i >= 0 && reg[i].userId != "" then
      var r := reg[..i] + reg[i + 1..];
      assert |r| == |reg| - 1;
      r
    else reg
  }

  /** A user who joined with a socket id that no other user holds is gone
      after that socket disconnects, and every other user keeps their
      entry. */
  lemma JoinThenDisconnect(reg: seq<Conn>, uid: string, sid: string)
    requires DistinctUsers(reg) && uid != ""
    requires forall i :: 0 <= i < |reg| && reg[i].userId != uid ==> reg[i].sid != sid
    ensures var r := Disconnect(Join(reg, Some(uid), sid), sid);
            !IsConnected(r, uid)
            && forall u :: u != uid ==> SidOf(r, u) == SidOf(reg, u)
  {
    var j := Join(reg, Some(uid), sid);
    var i := FirstWithSid(j, sid);
    assert SidOf(j, uid) == Some(sid);
    var k :| 0 <= k < |j| && j[k].userId == uid;
    SidAt(j, k);
    OnlyJoinerHoldsSid(reg, uid, sid, j);
    assert i == k && j[i].userId == uid;
    var r := Disconnect(j, sid);
    assert r == j[..i] + j[i + 1..];
    RemoveAt(j, i);
    assert forall u :: u != uid ==> SidOf(j, u) == SidOf(reg, u);
  }

  /** After the join, the joining user is the only one holding the socket
      id. */
  lemma OnlyJoinerHoldsSid(reg: seq<Conn>, uid: string, sid: string, j: seq<Conn>)
    requires DistinctUsers(reg) && uid != ""
    requires forall i :: 0 <= i < |reg| && reg[i].userId != uid ==> reg[i].sid != sid
    requires j == Join(reg, Some(uid), sid)
    ensures forall m :: 0 <= m < |j| && j[m].userId != uid ==> j[m].sid != sid
  {
    forall m | 0 <= m < |j| && j[m].userId != uid ensures j[m].sid != sid {
      SidAt(j, m);
      var u := j[m].userId;
      if SidOf(reg, u).None? {
        assert false;
      } else {
        var p :| 0 <= p < |reg| && reg[p].userId == u;
        SidAt(reg, p);
      }
    }
  }

  lemma {:induction false} SidAt(reg: seq<Conn>, i: int)
    requires DistinctUsers(reg) && 0 <= i < |reg|
    ensures SidOf(reg, reg[i].userId) == Some(reg[i].sid)
  {
    if i > 0 {
      SidAt(reg[1..], i - 1);
    }
  }

  lemma {:induction false} RemoveAt(reg: seq<Conn>, i: int)
    requires DistinctUsers(reg) && 0 <= i < |reg|
    ensures DistinctUsers(reg[..i] + reg[i + 1..])
    ensures !IsConnected(reg[..i] + reg[i + 1..], reg[i].userId)
    ensures forall u :: u != reg[i].userId ==> SidOf(reg[..i] + reg[i + 1..], u) == SidOf(reg, u)
  {
    var r := reg[..i] + reg[i + 1..];
    RemoveAtShift(reg, i);
    assert forall a, b :: 0 <= a < b < |r| ==> r[a].userId != r[b].userId by {
      forall a, b | 0 <= a < b < |r| ensures r[a].userId != r[b].userId {
        var a', b' := if a < i then a else a + 1, if b < i then b else b + 1;
        assert a' < b' && r[a] == reg[a'] && r[b] == reg[b'];
      }
    }
    forall u | u != reg[i].userId ensures SidOf(r, u) == SidOf(reg, u) {
      RemoveAtSid(reg, i, u);
    }
  }

  /** Removing entry `i` shifts the later entries down by one. */
  lemma RemoveAtShift(reg: seq<Conn>, i: int)
    requires 0 <= i < |reg|
    ensures var r := reg[..i] + reg[i + 1..];
            |r| == |reg| - 1 && forall j :: 0 <= j < |r| ==> r[j] == if j < i then reg[j] else reg[j + 1]
  {
  }

  lemma RemoveAtSid(reg: seq<Conn>, i: int, u: string)
    requires DistinctUsers(reg) && 0 <= i < |reg| && u != reg[i].userId
    requires DistinctUsers(reg[..i] + reg[i + 1..])
    requires var r := reg[..i] + reg[i + 1..];
             |r| == |reg| - 1 && forall j :: 0 <= j < |r| ==> r[j] == if j < i then reg[j] else reg[j + 1]
    ensures SidOf(reg[..i] + reg[i + 1..], u) == SidOf(reg, u)
  {
    var r := reg[..i] + reg[i + 1..];
    if SidOf(reg, u).Some? {
      var k :| 0 <= k < |reg| && reg[k].userId == u;
      var j := if k < i then k else k - 1;
      assert r[j] == reg[k];
      SidAt(r, j);
      SidAt(reg, k);
    } else {
      assert forall j :: 0 <= j < |r| ==> r[j].userId != u;
    }
  }

  // ----- notifications -----

  datatype Db = Db(notifications: seq<Json.Row>, nextId: nat)

  /** Stores a notification: the payload's `created_at` and `is_read` are
      overwritten with the current time and false, the table adds an id, and
      every other field is kept. */
  function CreateNotification(db: Db, data: Json.Row, now: int): (res: (Json.Row, Db))
    ensures var row := res.0;
            && "created_at" in row && "is_read" in row
            && row["created_at"] == Json.Int(now)
            && row["is_read"] == Json.Bool(false)
            && "id" in row
            && (forall k :: k in data && k !in {"created_at", "is_read", "id"} ==> k in row && row[k] == data[k])
    ensures res.1.notifications == db.notifications + [res.0]
    ensures res.1.nextId > db.nextId
  {
    var row := data["created_at" := Json.Int(now)]["is_read" := Json.Bool(false)]
                   ["id" := Json.Str(Text.NatToString(db.nextId))];
    (row, Db(db.notifications + [row], db.nextId + 1))
  }

  // ----- due-date reminders -----

  /** What the reminder preferences lookup returned for a task. */
  datatype PrefLookup =
    | NoRow                       // no preferences row
    | LookupFails                 // the query raised
    | RowWithoutDays              // a row without a `reminder_days` key
    | RowNullDays                 // a row whose `reminder_days` is NULL
    | RowDays(days: seq<int>)

  const DEFAULT_REMINDER_DAYS: seq<int> := [7, 3, 1]

  /** The days before the due date on which to remind. None means the task
      is skipped: iterating over a NULL list raises inside the task's
      handler. */
  function ReminderDays(p: PrefLookup): (r: Option<seq<int>>)
    ensures p.RowNullDays? <==> r.None?
    ensures p.RowDays? ==> r == Some(p.days)
    ensures p.NoRow? || p.LookupFails? || p.RowWithoutDays? ==> r == Some(DEFAULT_REMINDER_DAYS)
  {
    match p
    case RowDays(d) => Some(d)
    case RowNullDays => None
    case _ => Some(DEFAULT_REMINDER_DAYS)
  }

  /** A task as the reminder run reads it. `dueDay` is the day number of the
      first ten characters of `due_date`, or None when they do not parse
      (the task is then skipped). */
  datatype Task = Task(taskId: string, ownerId: string, title: Json.Value, dueDate: string, dueDay: Option<int>)

  function ReminderType(d: int): string {
    "reminder_" + Text.IntToString(d) + "_days"
  }

  /** The topic a d-day reminder is published under. It is the reminder
      type's `<d>_days` part as one dot-free word after "task.reminder.", so
      the `due_date_reminders` queue's binding `task.reminder.*` matches
      it. */
  function RoutingKey(d: int): (k: string)
    ensures Text.StartsWith(k, "task.reminder.")
    ensures k[14..] == ReminderType(d)[9..]
    ensures forall i :: 14 <= i < |k| ==> k[i] != '.'
  {
    var n := Text.IntToString(d);
    assert forall i :: 0 <= i < |n| ==> n[i] != '.' by {
      var m := Text.NatToString(if d < 0 then -d else d);
      assert Text.AllDigits(m);
      assert n == m || n == "-" + m;
    }
    var k := "task.reminder." + n + "_days";
    assert k[14..] == n + "_days";
    assert ReminderType(d)[9..] == n + "_days";
    k
  }

  /** "Task Due in d Day", with an "s" exactly when d > 1. */
  function ReminderTitle(d: int): (t: string)
    ensures Text.StartsWith(t, "Task Due in " + Text.IntToString(d) + " Day")
    ensures |t| == |"Task Due in " + Text.IntToString(d) + " Day"| + (if d > 1 then 1 else 0)
    ensures t[|t| - 1] == 's' <==> d > 1
  {
    var t := "Task Due in " + Text.IntToString(d) + " Day" + (if d > 1 then "s" else "");
    assert t[..|"Task Due in " + Text.IntToString(d) + " Day"|] == "Task Due in " + Text.IntToString(d) + " Day";
    t
  }

  /** Whether a notification with this task id and reminder type is
      stored. */
  predicate HasReminder(rows: seq<Json.Row>, taskId: string, d: int) {
    exists i :: 0 <= i < |rows| && IsReminder(rows[i], taskId, d)
  }

  predicate IsReminder(row: Json.Row, taskId: string, d: int) {
    Json.Get(row, "task_id") == Json.Str(taskId) && Json.Get(row, "type") == Json.Str(ReminderType(d))
  }

  datatype Effect =
    | Realtime(userId: string, notification: Json.Row)
    | Published(routingKey: string, notificationId: Json.Value)

  datatype RunState = RunState(db: Db, effects: seq<Effect>)

  /** The payload of a d-day reminder for `task`. `formatDate` stands for
      the `%B %d, %Y` rendering of the due day. */
  function ReminderData(task: Task, d: int, dueDay: int, formatDate: int -> string): (r: Json.Row)
    ensures r.Keys == {"user_id", "title", "message", "type", "task_id", "due_date"}
    ensures r["type"] == Json.Str(ReminderType(d)) && r["task_id"] == Json.Str(task.taskId)
    ensures r["title"] == Json.Str(ReminderTitle(d)) && r["user_id"] == Json.Str(task.ownerId)
  {
    map["user_id" := Json.Str(task.ownerId),
        "title" := Json.Str(ReminderTitle(d)),
        "message" := Json.Str("Task '" + Json.PyStr(task.title) + "' is due on " + formatDate(dueDay)),
        "type" := Json.Str(ReminderType(d)),
        "task_id" := Json.Str(task.taskId),
        "due_date" := Json.Str(task.dueDate)]
  }

  /** One entry `d` of the task's reminder days. Nothing happens unless the
      task is due in exactly `d` days; then the lookup for a stored reminder
      of that type runs, and `fault` says that it raises, which gives None.
      When no such reminder is stored yet, stores one, emits it to the
      owner if connected and publishes it under `task.reminder.<d>_days`. */
  function RemindOnce(st: RunState, task: Task, dueDay: int, d: int, today: int, now: int,
                      reg: seq<Conn>, formatDate: int -> string, fault: bool): (r: Option<RunState>)
    ensures r.None? <==> dueDay - today == d && fault
    ensures dueDay - today != d ==> r == Some(st)
    ensures r.Some? && HasReminder(st.db.notifications, task.taskId, d) ==> r == Some(st)
    ensures r.Some? && dueDay - today == d ==> HasReminder(r.value.db.notifications, task.taskId, d)
    ensures r.Some? ==> Prefix(st.db.notifications, r.value.db.notifications)
    ensures r.Some? && dueDay - today == d && !HasReminder(st.db.notifications, task.taskId, d) ==>
              var st' := r.value;
              |st'.db.notifications| == |st.db.notifications| + 1
              && var row := st'.db.notifications[|st.db.notifications|];
                 && IsReminder(row, task.taskId, d)
                 && "id" in row
                 && |st'.effects| == |st.effects| + (if IsConnected(reg, task.ownerId) then 2 else 1)
                 && st'.effects[..|st.effects|] == st.effects
                 && st'.effects[|st'.effects| - 1] == Published(RoutingKey(d), row["id"])
                 && (IsConnected(reg, task.ownerId) ==> st'.effects[|st.effects|] == Realtime(task.ownerId, row))
  {
    if dueDay - today != d then Some(st)
    else if fault then None
    else if HasReminder(st.db.notifications, task.taskId, d) then Some(st)
    else Some(StoreReminder(st, task, dueDay, d, now, reg, formatDate))
  }

  /** Stores the d-day reminder of `task`, emits it to the owner if
      connected, then publishes it. */
  function StoreReminder(st: RunState, task: Task, dueDay: int, d: int, now: int,
                         reg: seq<Conn>, formatDate: int -> string): (st': RunState)
    ensures Prefix(st.db.notifications, st'.db.notifications)
    ensures |st'.db.notifications| == |st.db.notifications| + 1
    ensures var row := st'.db.notifications[|st.db.notifications|];
            && IsReminder(row, task.taskId, d)
            && "id" in row
            && |st'.effects| == |st.effects| + (if IsConnected(reg, task.ownerId) then 2 else 1)
            && st'.effects[..|st.effects|] == st.effects
            && st'.effects[|st'.effects| - 1] == Published(RoutingKey(d), row["id"])
            && (IsConnected(reg, task.ownerId) ==> st'.effects[|st.effects|] == Realtime(task.ownerId, row))
  {
    var data := ReminderData(task, d, dueDay, formatDate);
    var (row, db1) := CreateNotification(st.db, data, now);
    assert "task_id" !in {"created_at", "is_read", "id"} && "type" !in {"created_at", "is_read", "id"};
    assert row["task_id"] == data["task_id"] && row["type"] == data["type"];
    assert db1.notifications[|st.db.notifications|] == row;
    var live := if IsConnected(reg, task.ownerId) then [Realtime(task.ownerId, row)] else [];
    var effects := st.effects + live + [Published(RoutingKey(d), row["id"])];
    assert effects[..|st.effects|] == st.effects;
    RunState(db1, effects)
  }

  predicate Prefix<T(==)>(a: seq<T>, b: seq<T>) {
    |a| <= |b| && b[..|a|] == a
  }

  /** The task's reminder days in order. `fails(t, d)` says that the lookup
      for a stored d-day reminder of task `t` raises; that ends the task's
      pass, skipping the rest of its days, so a task whose lookup fails gets
      no reminder in this run. */
  function RemindDays(st: RunState, task: Task, dueDay: int, days: seq<int>, today: int, now: int,
                      reg: seq<Conn>, formatDate: int -> string, fails: (string, int) -> bool): (r: RunState)
    ensures Prefix(st.db.notifications, r.db.notifications)
    ensures fails(task.taskId, dueDay - today) ==> r == st
    decreases |days|
  {
    if |days| == 0 then st
    else
      match RemindOnce(st, task, dueDay, days[0], today, now, reg, formatDate, fails(task.taskId, days[0]))
      case None => st
      case Some(st1) => RemindDays(st1, task, dueDay, days[1..], today, now, reg, formatDate, fails)
  }

  /** The lookup for the one reminder type a task can be due for today
      succeeds (vacuous without a due date). */
  predicate LookupSucceeds(task: Task, today: int, fails: (string, int) -> bool) {
    task.dueDay.Some? ==> !fails(task.taskId, task.dueDay.value - today)
  }

  /** One task of the run: its reminder days, then each of them in
      order. */
  function RemindTask(st: RunState, task: Task, prefs: PrefLookup, today: int, now: int,
                      reg: seq<Conn>, formatDate: int -> string, fails: (string, int) -> bool): (r: RunState)
    ensures Prefix(st.db.notifications, r.db.notifications)
    ensures !LookupSucceeds(task, today, fails) ==> r == st
  {
    match ReminderDays(prefs)
    case None => st
    case Some(days) =>
      match task.dueDay
      case None => st
      case Some(due) => RemindDays(st, task, due, days, today, now, reg, formatDate, fails)
  }

  /** The loop over the fetched tasks, in order. `prefs` stands for the
      preferences lookup of each task id. */
  function RemindTasks(st: RunState, tasks: seq<Task>, prefs: string -> PrefLookup, today: int, now: int,
                       reg: seq<Conn>, formatDate: int -> string, fails: (string, int) -> bool): (r: RunState)
    ensures Prefix(st.db.notifications, r.db.notifications)
    decreases |tasks|
  {
    if |tasks| == 0 then st
    else RemindTasks(RemindTask(st, tasks[0], prefs(tasks[0].taskId), today, now, reg, formatDate, fails),
                     tasks[1..], prefs, today, now, reg, formatDate, fails)
  }

  /** Every reminder a task is due today is stored once the run has seen
      the task. */
  predicate Covered(rows: seq<Json.Row>, task: Task, prefs: PrefLookup, today: int) {
    ReminderDays(prefs).Some? && task.dueDay.Some? ==>
      forall d :: d in ReminderDays(prefs).value && task.dueDay.value - today == d ==>
        HasReminder(rows, task.taskId, d)
  }

  /** `check_due_date_reminders`: fetches every task with a due date
      (`fetched`, None when that query raises, which ends the run) and
      reminds each in order. Afterwards every task whose lookup succeeded
      is covered. */
  function CheckDueDateReminders(st: RunState, fetched: Option<seq<Task>>, prefs: string -> PrefLookup,
                                 today: int, now: int, reg: seq<Conn>, formatDate: int -> string,
                                 fails: (string, int) -> bool): (r: RunState)
    ensures fetched.None? ==> r == st
    ensures Prefix(st.db.notifications, r.db.notifications)
    ensures fetched.Some? ==>
              forall i :: 0 <= i < |fetched.value| && LookupSucceeds(fetched.value[i], today, fails) ==>
                Covered(r.db.notifications, fetched.value[i], prefs(fetched.value[i].taskId), today)
  {
    match fetched
    case None => st
    case Some(tasks) =>
      RunCovers(st, tasks, prefs, today, now, reg, formatDate, fails);
      RemindTasks(st, tasks, prefs, today, now, reg, formatDate, fails)
  }

  lemma PrefixKeepsReminders(a: seq<Json.Row>, b: seq<Json.Row>, taskId: string, d: int)
    requires Prefix(a, b) && HasReminder(a, taskId, d)
    ensures HasReminder(b, taskId, d)
  {
    var i :| 0 <= i < |a| && IsReminder(a[i], taskId, d);
    assert b[i] == a[i];
  }

  lemma PrefixKeepsCovered(a: seq<Json.Row>, b: seq<Json.Row>, task: Task, prefs: PrefLookup, today: int)
    requires Prefix(a, b) && Covered(a, task, prefs, today)
    ensures Covered(b, task, prefs, today)
  {
    if ReminderDays(prefs).Some? && task.dueDay.Some? {
      forall d | d in ReminderDays(prefs).value && task.dueDay.value - today == d
        ensures HasReminder(b, task.taskId, d)
      {
        PrefixKeepsReminders(a, b, task.taskId, d);
      }
    }
  }

  lemma {:induction false} RemindDaysCovers(st: RunState, task: Task, due: int, days: seq<int>, today: int, now: int,
                                            reg: seq<Conn>, formatDate: int -> string, fails: (string, int) -> bool)
    requires !fails(task.taskId, due - today)
    ensures forall d :: d in days && due - today == d ==>
              HasReminder(RemindDays(st, task, due, days, today, now, reg, formatDate, fails).db.notifications,
                          task.taskId, d)
    decreases |days|
  {
    if |days| > 0 {
      var once := RemindOnce(st, task, due, days[0], today, now, reg, formatDate, fails(task.taskId, days[0]));
      assert once.Some?;
      var st1 := once.value;
      var r := RemindDays(st1, task, due, days[1..], today, now, reg, formatDate, fails);
      assert RemindDays(st, task, due, days, today, now, reg, formatDate, fails) == r;
      RemindDaysCovers(st1, task, due, days[1..], today, now, reg, formatDate, fails);
      if due - today == days[0] {
        PrefixKeepsReminders(st1.db.notifications, r.db.notifications, task.taskId, days[0]);
      }
      assert forall d :: d in days ==> d == days[0] || d in days[1..];
    }
  }

  lemma {:induction false} RemindDaysStable(st: RunState, task: Task, due: int, days: seq<int>, today: int, now: int,
                                            reg: seq<Conn>, formatDate: int -> string, fails: (string, int) -> bool)
    requires forall d :: d in days && due - today == d ==> HasReminder(st.db.notifications, task.taskId, d)
    ensures RemindDays(st, task, due, days, today, now, reg, formatDate, fails) == st
    decreases |days|
  {
    if |days| > 0 {
      assert forall d :: d in days[1..] ==> d in days;
      RemindDaysStable(st, task, due, days[1..], today, now, reg, formatDate, fails);
    }
  }

  lemma {:induction false} RunCovers(st: RunState, tasks: seq<Task>, prefs: string -> PrefLookup, today: int, now: int,
                                     reg: seq<Conn>, formatDate: int -> string, fails: (string, int) -> bool)
    ensures var r := RemindTasks(st, tasks, prefs, today, now, reg, formatDate, fails);
            forall i :: 0 <= i < |tasks| && LookupSucceeds(tasks[i], today, fails) ==>
              Covered(r.db.notifications, tasks[i], prefs(tasks[i].taskId), today)
    decreases |tasks|
  {
    if |tasks| > 0 {
      var t := tasks[0];
      var st1 := RemindTask(st, t, prefs(t.taskId), today, now, reg, formatDate, fails);
      var r := RemindTasks(st1, tasks[1..], prefs, today, now, reg, formatDate, fails);
      assert RemindTasks(st, tasks, prefs, today, now, reg, formatDate, fails) == r;
      RunCovers(st1, tasks[1..], prefs, today, now, reg, formatDate, fails);
      if ReminderDays(prefs(t.taskId)).Some? && t.dueDay.Some? && LookupSucceeds(t, today, fails) {
        RemindDaysCovers(st, t, t.dueDay.value, ReminderDays(prefs(t.taskId)).value, today, now, reg, formatDate, fails);
        PrefixKeepsCovered(st1.db.notifications, r.db.notifications, t, prefs(t.taskId), today);
      }
      forall i | 0 <= i < |tasks| && LookupSucceeds(tasks[i], today, fails)
        ensures Covered(r.db.notifications, tasks[i], prefs(tasks[i].taskId), today)
      {
        if i > 0 {
          assert tasks[i] == tasks[1..][i - 1];
        }
      }
    }
  }

  lemma {:induction false} RunStable(st: RunState, tasks: seq<Task>, prefs: string -> PrefLookup, today: int, now: int,
                                     reg: seq<Conn>, formatDate: int -> string, fails: (string, int) -> bool)
    requires forall i :: 0 <= i < |tasks| ==> Covered(st.db.notifications, tasks[i], prefs(tasks[i].taskId), today)
    ensures RemindTasks(st, tasks, prefs, today, now, reg, formatDate, fails) == st
    decreases |tasks|
  {
    if |tasks| > 0 {
      var t := tasks[0];
      if ReminderDays(prefs(t.taskId)).Some? && t.dueDay.Some? {
        assert Covered(st.db.notifications, t, prefs(t.taskId), today);
        RemindDaysStable(st, t, t.dueDay.value, ReminderDays(prefs(t.taskId)).value, today, now, reg, formatDate, fails);
      }
      forall i | 0 <= i < |tasks[1..]|
        ensures Covered(st.db.notifications, tasks[1..][i], prefs(tasks[1..][i].taskId), today)
      {
        assert tasks[1..][i] == tasks[i + 1];
      }
      RunStable(st, tasks[1..], prefs, today, now, reg, formatDate, fails);
    }
  }

  /** When every lookup of a first run succeeds, running the reminder check
      again on the same day stores, emits and publishes nothing, whether
      the second run fetches the same tasks or its fetch fails, and
      whatever its own lookups do. */
  lemma ReminderRunIdempotent(db: Db, tasks: seq<Task>, prefs: string -> PrefLookup, today: int,
                              now1: int, now2: int, reg1: seq<Conn>, reg2: seq<Conn>, formatDate: int -> string,
                              fails1: (string, int) -> bool, fails2: (string, int) -> bool, again: Option<seq<Task>>)
    requires forall i :: 0 <= i < |tasks| ==> LookupSucceeds(tasks[i], today, fails1)
    requires again.None? || again == Some(tasks)
    ensures var first := CheckDueDateReminders(RunState(db, []), Some(tasks), prefs, today, now1, reg1, formatDate, fails1);
            CheckDueDateReminders(RunState(first.db, []), again, prefs, today, now2, reg2, formatDate, fails2)
              == RunState(first.db, [])
  {
    var first := CheckDueDateReminders(RunState(db, []), Some(tasks), prefs, today, now1, reg1, formatDate, fails1);
    if again.Some? {
      RunStable(RunState(first.db, []), tasks, prefs, today, now2, reg2, formatDate, fails2);
    }
  }

  /** A reminder is stored for a task only on a day `d` of its reminder
      days with the task due in exactly `d` days, only when the lookup
      succeeded, and only if none was stored before. */
  lemma RemindOnceOnlyWhenDue(st: RunState, task: Task, due: int, d: int, today: int, now: int,
                              reg: seq<Conn>, formatDate: int -> string, fault: bool)
    requires RemindOnce(st, task, due, d, today, now, reg, formatDate, fault).Some?
    requires |RemindOnce(st, task, due, d, today, now, reg, formatDate, fault).value.db.notifications|
               > |st.db.notifications|
    ensures due - today == d && !fault && !HasReminder(st.db.notifications, task.taskId, d)
  {
  }

  // ----- endpoints -----

  /** `is_read` as the listing counts it: an absent key counts as read, a
      present falsy value (false or NULL) as unread. */
  predicate Unread(row: Json.Row) {
    !Json.Truthy(Json.GetOr(row, "is_read", Json.Bool(true)))
  }

  /** `len([n for n in notifications if not n.get("is_read", True)])`. */
  function CountUnread(rows: seq<Json.Row>): (n: nat)
    ensures n == |set i | 0 <= i < |rows| && Unread(rows[i])|
    ensures n <= |rows|
    ensures n == 0 <==> forall i :: 0 <= i < |rows| ==> !Unread(rows[i])
  {
    Counting.CountExtremes(rows, Unread);
    assert Counting.Positions(rows, Unread) == set i | 0 <= i < |rows| && Unread(rows[i]);
    Counting.Count(rows, Unread)
  }

  function CreatedAt(row: Json.Row): int {
    match Json.Get(row, "created_at")
    case Int(t) => t
    case _ => 0
  }

  function ForUser(rows: seq<Json.Row>, uid: string): (r: seq<Json.Row>)
    ensures forall i :: 0 <= i < |r| ==> Json.Get(r[i], "user_id") == Json.Str(uid)
    ensures forall x :: x in rows && Json.Get(x, "user_id") == Json.Str(uid) ==> x in r
    ensures forall x :: x in r ==> x in rows
  {
    if |rows| == 0 then []
    else
      var rest := ForUser(rows[1..], uid);
      assert rows == [rows[0]] + rows[1..];
      if Json.Get(rows[0], "user_id") == Json.Str(uid) then [rows[0]] + rest else rest
  }

  datatype Listing = Listing(notifications: seq<Json.Row>, unreadCount: nat, total: nat)

  datatype ListReply = ListReply(status: Status, listing: Option<Listing>)

  /** The user's notifications, newest first, at most `limit` of them:
      `eq("user_id", uid).order("created_at", desc=True).limit(limit)`. The
      page is as long as it can be, and every row of the user left off it
      is no newer than any row on it. */
  function NewestForUser(rows: seq<Json.Row>, uid: string, limit: nat): (page: seq<Json.Row>)
    ensures |page| == if |ForUser(rows, uid)| < limit then |ForUser(rows, uid)| else limit
    ensures Sorting.SortedDesc(page, CreatedAt)
    ensures multiset(page) <= multiset(ForUser(rows, uid))
    ensures forall x, i :: x in multiset(ForUser(rows, uid)) - multiset(page) && 0 <= i < |page| ==>
              CreatedAt(x) <= CreatedAt(page[i])
    ensures forall i :: 0 <= i < |page| ==> page[i] in rows && Json.Get(page[i], "user_id") == Json.Str(uid)
    ensures |ForUser(rows, uid)| <= limit ==> multiset(page) == multiset(ForUser(rows, uid))
  {
    var sorted := Sorting.SortDesc(ForUser(rows, uid), CreatedAt);
    var k := if |sorted| <= limit then |sorted| else limit;
    PageOfSorted(rows, uid, sorted, k);
    sorted[..k]
  }

  /** The first `k` rows of the user's rows sorted newest first are a
      newest-first page drawn from them, holding every row when `k` is
      all of them. */
  lemma PageOfSorted(rows: seq<Json.Row>, uid: string, sorted: seq<Json.Row>, k: nat)
    requires multiset(sorted) == multiset(ForUser(rows, uid)) && Sorting.SortedDesc(sorted, CreatedAt)
    requires k <= |sorted|
    ensures Sorting.SortedDesc(sorted[..k], CreatedAt)
    ensures multiset(sorted[..k]) <= multiset(ForUser(rows, uid))
    ensures forall x, i :: x in multiset(ForUser(rows, uid)) - multiset(sorted[..k]) && 0 <= i < k ==>
              CreatedAt(x) <= CreatedAt(sorted[..k][i])
    ensures forall i :: 0 <= i < k ==> sorted[..k][i] in rows && Json.Get(sorted[..k][i], "user_id") == Json.Str(uid)
    ensures k == |sorted| ==> multiset(sorted[..k]) == multiset(ForUser(rows, uid))
  {
    Sorting.PrefixIsTop(sorted, CreatedAt, k);
    PageFromRows(rows, uid, sorted, k);
    assert k == |sorted| ==> sorted[..k] == sorted;
  }

  lemma PageFromRows(rows: seq<Json.Row>, uid: string, sorted: seq<Json.Row>, k: nat)
    requires multiset(sorted) == multiset(ForUser(rows, uid)) && k <= |sorted|
    ensures forall i :: 0 <= i < k ==> sorted[i] in rows && Json.Get(sorted[i], "user_id") == Json.Str(uid)
  {
    forall i | 0 <= i < k ensures sorted[i] in rows && Json.Get(sorted[i], "user_id") == Json.Str(uid) {
      assert sorted[i] in multiset(ForUser(rows, uid));
    }
  }

  /** GET /notifications: 400 without a truthy `user_id`; otherwise the
      user's newest `limit` notifications, how many of them are unread and
      how many there are. `fault` says that the query raises: the lookup
      then yields no rows, so the answer is still 200, with an empty list. */
  function GetNotifications(db: Db, userId: Option<string>, limit: nat, fault: bool): (r: ListReply)
    ensures userId.None? || userId.value == "" ==> r == ListReply(BAD_REQUEST, None)
    ensures r.status == OK <==> r.listing.Some?
    ensures r.status == OK <==> userId.Some? && userId.value != ""
    ensures r.listing.Some? && fault ==> r.listing.value == Listing([], 0, 0)
    ensures r.listing.Some? ==>
              && userId.Some?
              && r.listing.value.notifications
                   == (if fault then [] else NewestForUser(db.notifications, userId.value, limit))
              && r.listing.value.total == |r.listing.value.notifications|
              && r.listing.value.unreadCount
                   == |set i | 0 <= i < r.listing.value.total && Unread(r.listing.value.notifications[i])|
  {
    if userId.None? || userId.value == "" then ListReply(BAD_REQUEST, None)
    else
      var page := if fault then [] else NewestForUser(db.notifications, userId.value, limit);
      ListReply(OK, Some(Listing(page, CountUnread(page), |page|)))
  }

  /** A row without an `is_read` key is never counted as unread. */
  lemma AbsentReadFlagCountsAsRead(row: Json.Row)
    requires "is_read" !in row
    ensures !Unread(row)
  {
  }

  /** Every freshly stored notification counts as unread. */
  lemma CreatedIsUnread(db: Db, data: Json.Row, now: int)
    ensures Unread(CreateNotification(db, data, now).0)
  {
  }

  function MarkRows(rows: seq<Json.Row>, matches: Json.Row -> bool): (r: seq<Json.Row>)
    ensures |r| == |rows|
    ensures forall i :: 0 <= i < |rows| ==>
              r[i] == if matches(rows[i]) then rows[i]["is_read" := Json.Bool(true)] else rows[i]
  {
    seq(|rows|, i requires 0 <= i < |rows| =>
      if matches(rows[i]) then rows[i]["is_read" := Json.Bool(true)] else rows[i])
  }

  predicate AnyMatch(rows: seq<Json.Row>, matches: Json.Row -> bool) {
    exists i :: 0 <= i < |rows| && matches(rows[i])
  }

  datatype Reply = Reply(status: Status, db: Db)

  /** PATCH /notifications/<id>/read: no body is a server error; 400
      without a truthy `user_id`; otherwise the user's notification with
      that id is marked read, 200 when one matched and 400 when none did.
      `fault` says that the update raises: the helper then reports failure,
      so the answer is the same 400 as for no match, with nothing written. */
  function MarkRead(db: Db, notificationId: string, body: Option<Json.Row>, fault: bool): (r: Reply)
    ensures body.None? ==> r == Reply(SERVER_ERROR, db)
    ensures body.Some? && !Json.Truthy(Json.Get(body.value, "user_id")) ==> r == Reply(BAD_REQUEST, db)
    ensures body.Some? && Json.Truthy(Json.Get(body.value, "user_id")) && fault ==> r == Reply(BAD_REQUEST, db)
    ensures r.status == OK ==> !fault
    ensures body.Some? && Json.Truthy(Json.Get(body.value, "user_id")) && !fault ==>
              var uid := Json.Get(body.value, "user_id");
              && (r.status == OK <==>
                    exists i :: 0 <= i < |db.notifications| && IsTarget(db.notifications[i], notificationId, uid))
              && |r.db.notifications| == |db.notifications|
              && forall i :: 0 <= i < |db.notifications| ==>
                   r.db.notifications[i] == if IsTarget(db.notifications[i], notificationId, uid)
                                            then db.notifications[i]["is_read" := Json.Bool(true)]
                                            else db.notifications[i]
    ensures r.status in {OK, BAD_REQUEST, SERVER_ERROR}
  {
    if body.None? then Reply(SERVER_ERROR, db)
    else
      var uid := Json.Get(body.value, "user_id");
      if !Json.Truthy(uid) then Reply(BAD_REQUEST, db)
      else if fault then Reply(BAD_REQUEST, db)
      else
        var matches := (row: Json.Row) => IsTarget(row, notificationId, uid);
        var rows := MarkRows(db.notifications, matches);
        if AnyMatch(db.notifications, matches) then Reply(OK, db.(notifications := rows))
        else Reply(BAD_REQUEST, db.(notifications := rows))
  }

  /** The row `update(...).eq("id", id).eq("user_id", uid)` touches. */
  predicate IsTarget(row: Json.Row, notificationId: string, uid: Json.Value) {
    Json.Get(row, "id") == Json.Str(notificationId) && Json.Get(row, "user_id") == uid
  }

  /** PATCH /notifications/mark-all-read: no body is a server error; 400
      without a truthy `user_id`; otherwise every notification of the user
      whose `is_read` is false is marked read. `fault` says that the update
      raises, which is a server error with nothing written. */
  function MarkAllRead(db: Db, body: Option<Json.Row>, fault: bool): (r: Reply)
    ensures body.None? ==> r == Reply(SERVER_ERROR, db)
    ensures body.Some? && !Json.Truthy(Json.Get(body.value, "user_id")) ==> r == Reply(BAD_REQUEST, db)
    ensures body.Some? && Json.Truthy(Json.Get(body.value, "user_id")) && fault ==> r == Reply(SERVER_ERROR, db)
    ensures r.status == OK <==> body.Some? && Json.Truthy(Json.Get(body.value, "user_id")) && !fault
    ensures r.status in {OK, BAD_REQUEST, SERVER_ERROR}
    ensures |r.db.notifications| == |db.notifications|
    ensures r.status == OK ==>
              forall i :: 0 <= i < |db.notifications| ==>
                var row := db.notifications[i];
                if Json.Get(row, "user_id") == Json.Get(body.value, "user_id") && Json.Get(row, "is_read") == Json.Bool(false)
                then r.db.notifications[i] == row["is_read" := Json.Bool(true)]
                else r.db.notifications[i] == row
  {
    if body.None? then Reply(SERVER_ERROR, db)
    else
      var uid := Json.Get(body.value, "user_id");
      if !Json.Truthy(uid) then Reply(BAD_REQUEST, db)
      else if fault then Reply(SERVER_ERROR, db)
      else
        var matches := (row: Json.Row) =>
          Json.Get(row, "user_id") == uid && Json.Get(row, "is_read") == Json.Bool(false);
        Reply(OK, db.(notifications := MarkRows(db.notifications, matches)))
  }

  /** After a successful mark-all, none of the user's notifications counts as
      unread, provided none holds a NULL `is_read` (the update only matches
      rows holding false, while the listing counts NULL as unread). */
  lemma MarkAllClearsUnread(db: Db, body: Json.Row, uid: string)
    requires Json.Get(body, "user_id") == Json.Str(uid) && uid != ""
    requires forall i :: 0 <= i < |db.notifications| ==>
               Json.Get(db.notifications[i], "user_id") == Json.Str(uid) ==>
                 "is_read" !in db.notifications[i] || db.notifications[i]["is_read"].Bool?
    ensures var rows := MarkAllRead(db, Some(body), false).db.notifications;
            forall i :: 0 <= i < |rows| && Json.Get(rows[i], "user_id") == Json.Str(uid) ==> !Unread(rows[i])
  {
    var rows := MarkAllRead(db, Some(body), false).db.notifications;
    forall i | 0 <= i < |rows| && Json.Get(rows[i], "user_id") == Json.Str(uid) ensures !Unread(rows[i]) {
      var row := db.notifications[i];
      if Json.Get(row, "is_read") != Json.Bool(false) {
        assert rows[i] == row;
      }
    }
  }

  /** Marking all read a second time changes nothing: the first pass left
      none of the user's rows holding false. A failed first pass wrote
      nothing, so the second is then the same as a first. */
  lemma MarkAllReadIdempotent(db: Db, body: Option<Json.Row>, fault: bool)
    ensures MarkAllRead(MarkAllRead(db, body, fault).db, body, fault) == MarkAllRead(db, body, fault)
  {
    var r1 := MarkAllRead(db, body, fault);
    if r1.status == OK {
      var r2 := MarkAllRead(r1.db, body, fault);
      assert r2.db.notifications == r1.db.notifications by {
        forall i | 0 <= i < |r1.db.notifications|
          ensures r2.db.notifications[i] == r1.db.notifications[i]
        {
          var row := db.notifications[i];
          if Json.Get(row, "user_id") == Json.Get(body.value, "user_id") && Json.Get(row, "is_read") == Json.Bool(false) {
            assert Json.Get(r1.db.notifications[i], "is_read") == Json.Bool(true);
          }
        }
      }
    }
  }

  /** The validated body of POST /notifications/create: `user_id`, `title`
      and `message` must be strings; `type` defaults to "reminder";
      `task_id` and `due_date` are optional strings. */
  function ParseNotificationCreate(body: Json.Row): (r: Option<Json.Row>)
    ensures r.Some? ==>
              && r.value.Keys == {"user_id", "title", "message", "type", "task_id", "due_date"}
              && r.value["user_id"].Str? && r.value["title"].Str? && r.value["message"].Str?
              && r.value["type"] == (if "type" in body then body["type"] else Json.Str("reminder"))
              && r.value["user_id"] == Json.Get(body, "user_id")
              && r.value["title"] == Json.Get(body, "title")
              && r.value["message"] == Json.Get(body, "message")
              && r.value["task_id"] == Json.Get(body, "task_id")
              && r.value["due_date"] == Json.Get(body, "due_date")
    ensures r.None? <==>
              !(Json.Get(body, "user_id").Str? && Json.Get(body, "title").Str? && Json.Get(body, "message").Str?)
              || ("type" in body && !body["type"].Str?)
              || !OptionalStr(Json.Get(body, "task_id")) || !OptionalStr(Json.Get(body, "due_date"))
  {
    if !(Json.Get(body, "user_id").Str? && Json.Get(body, "title").Str? && Json.Get(body, "message").Str?)
       || ("type" in body && !body["type"].Str?)
       || !OptionalStr(Json.Get(body, "task_id")) || !OptionalStr(Json.Get(body, "due_date")) then None
    else
      Some(map["user_id" := body["user_id"], "title" := body["title"], "message" := body["message"],
               "type" := Json.GetOr(body, "type", Json.Str("reminder")),
               "task_id" := Json.Get(body, "task_id"), "due_date" := Json.Get(body, "due_date")])
  }

  predicate OptionalStr(v: Json.Value) {
    v.Null? || v.Str?
  }

  /** A validated body validates again to itself: the parser keeps the
      values it accepts and fills in only what a second pass would. */
  lemma ParseNotificationCreateIdempotent(body: Json.Row)
    requires ParseNotificationCreate(body).Some?
    ensures ParseNotificationCreate(ParseNotificationCreate(body).value) == ParseNotificationCreate(body)
  {
    var v := ParseNotificationCreate(body).value;
    assert ParseNotificationCreate(v).Some?;
    assert ParseNotificationCreate(v).value == v;
  }

  datatype CreateReply = CreateReply(status: Status, notification: Option<Json.Row>, db: Db, effects: seq<Effect>)

  /** POST /notifications/create: a missing body is a server error, an
      invalid one 400; otherwise the notification is stored, emitted to the
      user if connected, published under `notification.<type>`, and 201
      returned. `insertFails` says that the insert raises: the helper then
      stores nothing and the answer is a server error. */
  function CreateEndpoint(db: Db, body: Option<Json.Row>, now: int, reg: seq<Conn>, insertFails: bool): (r: CreateReply)
    ensures body.None? ==> r.status == SERVER_ERROR && r.db == db
    ensures body.Some? && ParseNotificationCreate(body.value).None? ==> r.status == BAD_REQUEST && r.db == db
    ensures body.Some? && ParseNotificationCreate(body.value).Some? && insertFails ==>
              r == CreateReply(SERVER_ERROR, None, db, [])
    ensures r.status == CREATED <==> r.notification.Some?
    ensures body.Some? && ParseNotificationCreate(body.value).Some? && !insertFails ==>
              var data := ParseNotificationCreate(body.value).value;
              && r.status == CREATED
              && (forall k :: k in data ==> k in r.notification.value && r.notification.value[k] == data[k])
              && |r.effects| > 0 && "id" in r.notification.value
              && r.effects[|r.effects| - 1]
                   == Published("notification." + Json.PyStr(data["type"]), r.notification.value["id"])
    ensures r.status == CREATED ==>
              && r.db.notifications == db.notifications + [r.notification.value]
              && Unread(r.notification.value)
              && Json.Get(r.notification.value, "user_id").Str?
              && (IsConnected(reg, Json.Get(r.notification.value, "user_id").s) <==>
                    exists e :: e in r.effects && e.Realtime?)
  {
    if body.None? then CreateReply(SERVER_ERROR, None, db, [])
    else match ParseNotificationCreate(body.value)
      case None => CreateReply(BAD_REQUEST, None, db, [])
      case Some(data) =>
        if insertFails then CreateReply(SERVER_ERROR, None, db, [])
        else
          var (row, db1) := CreateNotification(db, data, now);
          var uid := data["user_id"].s;
          assert forall k :: k in data ==> k !in {"created_at", "is_read", "id"};
          assert forall k :: k in data ==> k in row && row[k] == data[k];
          var effects := Deliveries(reg, uid, row, Published("notification." + Json.PyStr(data["type"]), row["id"]));
          CreateReply(CREATED, Some(row), db1, effects)
  }

  /** The effects of a stored notification: a realtime emit when the user
      is connected, then `last`, which is not one. */
  function Deliveries(reg: seq<Conn>, uid: string, row: Json.Row, last: Effect): (effects: seq<Effect>)
    requires !last.Realtime?
    ensures |effects| > 0 && effects[|effects| - 1] == last
    ensures IsConnected(reg, uid) <==> exists e :: e in effects && e.Realtime?
  {
    var live := if IsConnected(reg, uid) then [Realtime(uid, row)] else [];
    assert IsConnected(reg, uid) ==> (live + [last])[0].Realtime?;
    live + [last]
  }
}

=== FILE: notification_store.dfy ===
/** The browser-side notification list: its unread count and first ten
    entries, newest-first insertion, marking read, and the outcomes of a
    fetch. `is_read` is kept as its truthiness and `created_at` as the
    millisecond time `new Date` reads from it. */
module NotificationStore {
  import opened Common
  import Json
  import Sorting
  import Counting

  datatype Notification = Notification(id: Json.Value, isRead: bool, createdAt: int, title: string)

  datatype Store = Store(notifications: seq<Notification>, isLoading: bool)

  const RECENT_LIMIT: nat := 10

  function CreatedAt(n: Notification): int { n.createdAt }

  /** Newest first, the order the store keeps. */
  predicate Ordered(s: seq<Notification>) {
    Sorting.SortedDesc(s, CreatedAt)
  }

  predicate IsUnread(n: Notification) { !n.isRead }

  /** `unreadCount`: the number of notifications whose `is_read` is
      falsy. */
  function UnreadCount(s: seq<Notification>): (r: nat)
    ensures r == |set i | 0 <= i < |s| && !s[i].isRead|
    ensures r <= |s|
    ensures r == 0 <==> forall i :: 0 <= i < |s| ==> s[i].isRead
    ensures r == |s| <==> forall i :: 0 <= i < |s| ==> !s[i].isRead
  {
    Counting.CountExtremes(s, IsUnread);
    assert Counting.Positions(s, IsUnread) == set i | 0 <= i < |s| && !s[i].isRead;
    Counting.Count(s, IsUnread)
  }

  /** `recentNotifications`: the first ten, or all when there are fewer. */
  function Recent(s: seq<Notification>): (r: seq<Notification>)
    ensures |r| == if |s| < RECENT_LIMIT then |s| else RECENT_LIMIT
    ensures r <= s
  {
    if |s| <= RECENT_LIMIT then s else s[..RECENT_LIMIT]
  }

  /** `addNotification`: puts the new entry in front and re-sorts, which
      on an ordered list places it before the first entry that is not
      newer. */
  function AddNotification(s: Store, n: Notification): (r: Store)
    requires Ordered(s.notifications)
    ensures |r.notifications| == |s.notifications| + 1
    ensures multiset(r.notifications) == multiset(s.notifications) + multiset{n}
    ensures Ordered(r.notifications)
    ensures r.isLoading == s.isLoading
  {
    s.(notifications := Sorting.SortDesc([n] + s.notifications, CreatedAt))
  }

  /** The new entry lands right before the first entry that is not newer,
      and every earlier entry keeps its relative order. */
  lemma AddNotificationPosition(s: Store, n: Notification)
    requires Ordered(s.notifications)
    ensures var k := Sorting.InsertionPoint(n, s.notifications, CreatedAt);
            AddNotification(s, n).notifications == s.notifications[..k] + [n] + s.notifications[k..]
  {
    var xs := [n] + s.notifications;
    assert xs[1..] == s.notifications;
    Sorting.SortOfSorted(s.notifications, CreatedAt);
    Sorting.InsertSplits(n, s.notifications, CreatedAt);
  }

  /** Index of the first notification with the id (`Array.find`), or -1. */
  function FirstWithId(s: seq<Notification>, id: Json.Value): (k: int)
    ensures -1 <= k < |s|
    ensures k >= 0 ==> s[k].id == id && forall j :: 0 <= j < k ==> s[j].id != id
    ensures k == -1 ==> forall j :: 0 <= j < |s| ==> s[j].id != id
  {
    FirstIndex(s, (n: Notification) => n.id == id)
  }

  /** Marks the first notification with the id read; no match changes
      nothing. */
  function MarkFirst(s: seq<Notification>, id: Json.Value): (r: seq<Notification>)
    ensures var k := FirstWithId(s, id);
            r == if k == -1 then s else s[k := s[k].(isRead := true)]
  {
    if |s| == 0 then []
    else if s[0].id == id then [s[0].(isRead := true)] + s[1..]
    else
      var rest := MarkFirst(s[1..], id);
      assert [s[0]] + s[1..] == s;
      [s[0]] + rest
  }

  /** `markAsRead`: the first local entry with the id is marked read
      whether the request succeeds, answers with an error or throws; no
      other entry changes. */
  function MarkAsRead(s: Store, id: Json.Value, outcome: Remote<bool>): (r: Store)
    ensures var k := FirstWithId(s.notifications, id);
            r.notifications == if k == -1 then s.notifications else s.notifications[k := s.notifications[k].(isRead := true)]
    ensures r.isLoading == s.isLoading
  {
    match outcome
    case RespOk(_) => s.(notifications := MarkFirst(s.notifications, id))
    case RespNotOk => s.(notifications := MarkFirst(s.notifications, id))
    case Throws => s.(notifications := MarkFirst(s.notifications, id))
  }

  /** Marking read lowers the unread count by one exactly when the first
      entry with the id was unread, and otherwise leaves it. */
  lemma {:induction false} MarkAsReadCount(s: seq<Notification>, id: Json.Value)
    ensures var k := FirstWithId(s, id);
            UnreadCount(MarkFirst(s, id)) == UnreadCount(s) - (if k >= 0 && !s[k].isRead then 1 else 0)
  {
    if |s| > 0 {
      if s[0].id == id {
        MarkHead(s, id);
      } else {
        var k := FirstWithId(s[1..], id);
        MarkAsReadCount(s[1..], id);
        MarkTail(s, id);
        UnreadFront(s);
        if k >= 0 {
          assert s[k + 1] == s[1..][k];
        }
      }
    }
  }

  /** The unread count, counted from the first entry. */
  lemma UnreadFront(s: seq<Notification>)
    requires |s| > 0
    ensures UnreadCount(s) == (if s[0].isRead then 0 else 1) + UnreadCount(s[1..])
  {
    Counting.CountFront(s, IsUnread);
  }

  lemma MarkHead(s: seq<Notification>, id: Json.Value)
    requires |s| > 0 && s[0].id == id
    ensures UnreadCount(MarkFirst(s, id)) == UnreadCount(s) - (if s[0].isRead then 0 else 1)
  {
    var r := MarkFirst(s, id);
    assert r[1..] == s[1..];
    Counting.CountFront(r, IsUnread);
    Counting.CountFront(s, IsUnread);
  }

  lemma MarkTail(s: seq<Notification>, id: Json.Value)
    requires |s| > 0 && s[0].id != id
    ensures UnreadCount(MarkFirst(s, id)) == (if s[0].isRead then 0 else 1) + UnreadCount(MarkFirst(s[1..], id))
    ensures var k := FirstWithId(s[1..], id); FirstWithId(s, id) == if k == -1 then -1 else k + 1
  {
    var r := MarkFirst(s, id);
    assert r == [s[0]] + MarkFirst(s[1..], id);
    assert r[1..] == MarkFirst(s[1..], id);
    Counting.CountFront(r, IsUnread);
  }

  /** Every entry marked read, nothing else changed. */
  function MarkAll(s: seq<Notification>): (r: seq<Notification>)
    ensures |r| == |s|
    ensures forall i :: 0 <= i < |s| ==> r[i] == s[i].(isRead := true)
  {
    seq(|s|, i requires 0 <= i < |s| => s[i].(isRead := true))
  }

  /** `markAllAsRead`: every entry is read afterwards, in every outcome of
      the request, so the unread count drops to zero. */
  function MarkAllAsRead(s: Store, outcome: Remote<bool>): (r: Store)
    ensures |r.notifications| == |s.notifications|
    ensures UnreadCount(r.notifications) == 0
    ensures forall i :: 0 <= i < |s.notifications| ==>
              r.notifications[i].id == s.notifications[i].id && r.notifications[i].createdAt == s.notifications[i].createdAt
    ensures r.isLoading == s.isLoading
  {
    match outcome
    case RespOk(_) => s.(notifications := MarkAll(s.notifications))
    case RespNotOk => s.(notifications := MarkAll(s.notifications))
    case Throws => s.(notifications := MarkAll(s.notifications))
  }

  /** The list a response body yields: `data.notifications || []`, newest
      first. A non-list value makes `.sort` throw, which is the `Throws`
      outcome. */
  function Sorted(payload: Option<seq<Notification>>): (r: seq<Notification>)
    ensures Ordered(r)
    ensures multiset(r) == multiset(payload.GetOr([]))
  {
    Sorting.SortDesc(payload.GetOr([]), CreatedAt)
  }

  /** `fetchNotifications`: nothing happens without a (JavaScript) truthy user id.
      Otherwise the notification service's list is stored newest first; on
      an error answer the task service's list is tried, and if that answers
      with an error too the old list stays; a throw on either path empties
      the list. Loading always ends false. */
  function FetchNotifications(s: Store, userId: Json.Value, primary: Remote<Option<seq<Notification>>>,
                              fallback: Remote<Option<seq<Notification>>>): (r: Store)
    ensures !Json.JsTruthy(userId) ==> r == s
    ensures Json.JsTruthy(userId) ==> !r.isLoading
    ensures Json.JsTruthy(userId) ==>
              match primary
              case RespOk(p) => r.notifications == Sorted(p)
              case Throws => r.notifications == []
              case RespNotOk =>
                match fallback
                case RespOk(p) => r.notifications == Sorted(p)
                case Throws => r.notifications == []
                case RespNotOk => r.notifications == s.notifications
    ensures Json.JsTruthy(userId) && Ordered(s.notifications) ==> Ordered(r.notifications)
  {
    if !Json.JsTruthy(userId) then s
    else
      var list :=
        match primary
        case RespOk(p) => Sorted(p)
        case Throws => []
        case RespNotOk =>
          match fallback
          case RespOk(p) => Sorted(p)
          case Throws => []
          case RespNotOk => s.notifications;
      Store(list, false)
  }
}

=== FILE: password_validation.dfy ===
/** Password rules of the sign-up and reset forms: the strength check with
    its ordered messages, the confirmation check, the 0-100 strength score
    and its label, the requirement checklist, and the plain email check.
    A password is `Option<string>`, None standing for `null` or
    `undefined`; lengths are JavaScript lengths (UTF-16 code units). */
module PasswordValidation {
  import opened Common
  import Text
  import EmailFormat
  import ProfileValidation
  import Counting

  const MIN_LENGTH: nat := 15

  const REQUIRED := "Password is required"
  const BOTH_REQUIRED := "Both password fields are required"
  const NO_MATCH := "Passwords do not match"

  /** The five rules a strong password meets, in the order they are
      checked. */
  datatype Rule = Length | Upper | Lower | Digit | Special

  const RULES: seq<Rule> := [Length, Upper, Lower, Digit, Special]

  /** `[!@#$%^&*()_+\-=\[\]{};':"\\|,.<>\/?]`. */
  predicate IsSpecial(c: char) {
    c in "!@#$%^&*()_+-=[]{};':\"\\|,.<>/?"
  }

  /** Whether a (non-empty) password meets a rule. */
  predicate Passes(rule: Rule, s: string) {
    match rule
    case Length => Text.JsLength(s) >= MIN_LENGTH
    case Upper => Text.HasChar(s, Text.IsAsciiUpper)
    case Lower => Text.HasChar(s, Text.IsAsciiLower)
    case Digit => Text.HasChar(s, Text.IsAsciiDigit)
    case Special => Text.HasChar(s, IsSpecial)
  }

  const LENGTH_MESSAGE := "Password must be at least 15 characters long"
  const CONTAINS_PREFIX := "Password must contain at least one "

  /** The message pushed when a rule fails. */
  function Message(rule: Rule): string {
    if rule == Length then LENGTH_MESSAGE else CONTAINS_PREFIX + Missing(rule)
  }

  /** What the message of a character-class rule says is missing. */
  function Missing(rule: Rule): (m: string)
    ensures |m| > 0
  {
    match rule
    case Length => "length"
    case Upper => "uppercase letter"
    case Lower => "lowercase letter"
    case Digit => "number"
    case Special => "special character (!@#$%^&*()_+-=[]{};':\"|,.<>/?)"
  }

  /** No two rules share a message, so a message names its rule. */
  lemma MessagesDistinct(a: Rule, b: Rule)
    requires a != b
    ensures Message(a) != Message(b)
  {
    assert |CONTAINS_PREFIX| == 35;
    if a != Length && b != Length {
      assert Message(a)[35] == Missing(a)[0];
      assert Message(b)[35] == Missing(b)[0];
    } else {
      var other := if a == Length then b else a;
      assert Message(other)[14] == CONTAINS_PREFIX[14] == 'c';
      assert LENGTH_MESSAGE[14] == 'b';
    }
  }

  function Messages(rules: seq<Rule>): (r: seq<string>)
    ensures |r| == |rules|
    ensures forall i :: 0 <= i < |rules| ==> r[i] == Message(rules[i])
  {
    if |rules| == 0 then [] else [Message(rules[0])] + Messages(rules[1..])
  }

  /** The messages of the rules a password fails, in rule order. */
  function Failures(rules: seq<Rule>, s: string): (r: seq<string>)
    ensures Subsequence(r, Messages(rules))
    ensures forall i :: 0 <= i < |rules| && !Passes(rules[i], s) ==> Message(rules[i]) in r
    ensures forall m :: m in r ==> exists i :: 0 <= i < |rules| && !Passes(rules[i], s) && Message(rules[i]) == m
  {
    if |rules| == 0 then []
    else
      var rest := Failures(rules[1..], s);
      assert Messages(rules)[1..] == Messages(rules[1..]);
      assert forall i :: 1 <= i < |rules| ==> rules[i] == rules[1..][i - 1];
      if Passes(rules[0], s) then rest else [Message(rules[0])] + rest
  }

  /** A message is among the failures of the five rules exactly when its
      rule fails. */
  lemma FailuresNameRules(s: string)
    ensures forall rule :: Message(rule) in Failures(RULES, s) <==> !Passes(rule, s)
    ensures |Failures(RULES, s)| == 0 <==> forall rule :: Passes(rule, s)
  {
    var errors := Failures(RULES, s);
    forall rule ensures Message(rule) in errors <==> !Passes(rule, s) {
      FailureOfRule(s, rule);
    }
    if |errors| > 0 {
      assert errors[0] in errors;
      var i :| 0 <= i < |RULES| && !Passes(RULES[i], s) && Message(RULES[i]) == errors[0];
    }
  }

  lemma FailureOfRule(s: string, rule: Rule)
    ensures Message(rule) in Failures(RULES, s) <==> !Passes(rule, s)
  {
    var errors := Failures(RULES, s);
    if Message(rule) in errors {
      var i :| 0 <= i < |RULES| && !Passes(RULES[i], s) && Message(RULES[i]) == Message(rule);
      if RULES[i] != rule {
        MessagesDistinct(RULES[i], rule);
      }
    } else {
      assert rule == RULES[0] || rule == RULES[1] || rule == RULES[2] || rule == RULES[3] || rule == RULES[4];
    }
  }

  datatype Strength = Strength(isValid: bool, errors: seq<string>)

  /** `validatePasswordStrength`: an empty password gets only the
      "required" message; otherwise the message of every failed rule, in
      the rules' order, and the password is valid exactly when it meets all
      five. */
  function ValidatePasswordStrength(password: Option<string>): (v: Strength)
    ensures v.isValid <==> |v.errors| == 0
    ensures password.None? || password == Some("") ==> v.errors == [REQUIRED]
    ensures password.Some? && password.value != "" ==>
              && Subsequence(v.errors, Messages(RULES))
              && forall rule :: Message(rule) in v.errors <==> !Passes(rule, password.value)
    ensures v.isValid <==> password.Some? && password.value != "" && forall rule :: Passes(rule, password.value)
  {
    if password.None? || password.value == "" then Strength(false, [REQUIRED])
    else
      var s := password.value;
      var errors := Failures(RULES, s);
      FailuresNameRules(s);
      Strength(|errors| == 0, errors)
  }

  datatype Match = Match(isValid: bool, error: Option<string>)

  /** `validatePasswordMatch`: both fields must be non-empty, then equal. */
  function ValidatePasswordMatch(password: Option<string>, confirm: Option<string>): (m: Match)
    ensures m.isValid <==> m.error.None?
    ensures m.isValid <==> password.Some? && password.value != "" && password == confirm
    ensures (password.None? || password == Some("") || confirm.None? || confirm == Some("")) ==> m.error == Some(BOTH_REQUIRED)
    ensures password.Some? && password.value != "" && confirm.Some? && confirm.value != "" && password != confirm ==> m.error == Some(NO_MATCH)
  {
    if password.None? || password.value == "" || confirm.None? || confirm.value == "" then Match(false, Some(BOTH_REQUIRED))
    else if password.value != confirm.value then Match(false, Some(NO_MATCH))
    else Match(true, None)
  }

  /** The four character-class rules, each worth 15 points. */
  const CLASS_RULES: seq<Rule> := [Upper, Lower, Digit, Special]

  /** The rules a password meets, as a test. */
  function MetBy(s: string): Rule -> bool {
    rule => Passes(rule, s)
  }

  /** Points for length: 20 once the length rule is met, 10 more from 20
      code units and 10 more from 25. */
  function LengthPoints(s: string): (p: nat)
    ensures p <= 40
    ensures p >= 20 <==> Passes(Length, s)
    ensures p == 40 <==> Text.JsLength(s) >= 25
  {
    var n := Text.JsLength(s);
    (if n >= 15 then 20 else 0) + (if n >= 20 then 10 else 0) + (if n >= 25 then 10 else 0)
  }

  /** Points per rule met, the length counted in three steps: the length
      points plus 15 for each character class the password contains. */
  function RawScore(s: string): (n: nat)
    ensures n == LengthPoints(s) + 15 * Counting.Count(CLASS_RULES, MetBy(s))
    ensures n <= 100
  {
    ClassCount(s);
    var n := Text.JsLength(s);
    (if n >= 15 then 20 else 0) + (if n >= 20 then 10 else 0) + (if n >= 25 then 10 else 0)
    + (if Text.HasChar(s, Text.IsAsciiLower) then 15 else 0)
    + (if Text.HasChar(s, Text.IsAsciiUpper) then 15 else 0)
    + (if Text.HasChar(s, Text.IsAsciiDigit) then 15 else 0)
    + (if Text.HasChar(s, IsSpecial) then 15 else 0)
  }

  /** The number of character classes met, one at a time. */
  lemma ClassCount(s: string)
    ensures Counting.Count(CLASS_RULES, MetBy(s))
            == (if Passes(Upper, s) then 1 else 0) + (if Passes(Lower, s) then 1 else 0)
               + (if Passes(Digit, s) then 1 else 0) + (if Passes(Special, s) then 1 else 0)
  {
    var p := MetBy(s);
    assert CLASS_RULES[..3] == [Upper, Lower, Digit];
    assert [Upper, Lower, Digit][..2] == [Upper, Lower];
    assert [Upper, Lower][..1] == [Upper];
    assert [Upper][..0] == [];
  }

  /** `getPasswordStrength`: 0 for an empty password, else the points
      capped at 100 (a cap the points never reach past). */
  function GetPasswordStrength(password: Option<string>): (score: nat)
    ensures score <= 100
    ensures password.None? || password == Some("") ==> score == 0
    ensures password.Some? && password.value != "" ==> score == RawScore(password.value)
  {
    if password.None? || password.value == "" then 0
    else
      var raw := RawScore(password.value);
      if raw < 100 then raw else 100
  }

  datatype Label = Label(name: string, color: string)

  const STRONG := Label("Strong", "#34c759")
  const GOOD := Label("Good", "#ff9500")
  const FAIR := Label("Fair", "#ff9500")
  const WEAK := Label("Weak", "#ff3b30")
  const VERY_WEAK := Label("Very Weak", "#ff3b30")

  /** The bands from weakest to strongest. */
  const BANDS: seq<Label> := [VERY_WEAK, WEAK, FAIR, GOOD, STRONG]

  /** Which band a score falls in. */
  function Band(score: int): (b: nat)
    ensures b < |BANDS|
    ensures b == 4 <==> score >= 80
    ensures b == 3 <==> 60 <= score < 80
    ensures b == 2 <==> 40 <= score < 60
    ensures b == 1 <==> 0 < score < 40
    ensures b == 0 <==> score <= 0
  {
    if score >= 80 then 4 else if score >= 60 then 3 else if score >= 40 then 2 else if score > 0 then 1 else 0
  }

  /** `getPasswordStrengthLabel`. */
  function GetPasswordStrengthLabel(score: int): (l: Label)
    ensures l in BANDS
    ensures l == STRONG <==> score >= 80
    ensures l == GOOD <==> 60 <= score < 80
    ensures l == FAIR <==> 40 <= score < 60
    ensures l == WEAK <==> 0 < score < 40
    ensures l == VERY_WEAK <==> score <= 0
  {
    BANDS[Band(score)]
  }

  /** A higher score never gets a weaker label. */
  lemma LabelMonotone(a: int, b: int)
    requires a <= b
    ensures Band(a) <= Band(b)
    ensures BANDS[Band(a)] == GetPasswordStrengthLabel(a) && BANDS[Band(b)] == GetPasswordStrengthLabel(b)
  {
  }

  /** A password that passes the strength check scores at least 80 and is
      labelled Strong. */
  lemma ValidIsStrong(password: Option<string>)
    requires ValidatePasswordStrength(password).isValid
    ensures GetPasswordStrength(password) >= 80
    ensures GetPasswordStrengthLabel(GetPasswordStrength(password)) == STRONG
  {
    var s := password.value;
    assert Passes(Length, s) && Passes(Upper, s) && Passes(Lower, s) && Passes(Digit, s) && Passes(Special, s);
  }

  // ----- the requirement checklist -----

  /** JavaScript length of the run of non-line-terminators ending the
      text. */
  function TrailingRun(s: string): (n: nat)
    ensures n <= Text.JsLength(s)
  {
    if |s| == 0 then 0
    else if Text.IsLineTerminator(s[|s| - 1]) then 0
    else TrailingRun(s[..|s| - 1]) + Text.Utf16Units(s[|s| - 1])
  }

  /** The longest run of code units without a line terminator: `/.{n,}/`
      matches exactly when it is at least n. */
  function LongestRun(s: string): (n: nat)
    ensures n <= Text.JsLength(s)
    ensures TrailingRun(s) <= n
  {
    if |s| == 0 then 0
    else
      var init := LongestRun(s[..|s| - 1]);
      var tail := TrailingRun(s);
      if init < tail then tail else init
  }

  predicate NoLineTerminator(s: string) {
    forall i :: 0 <= i < |s| ==> !Text.IsLineTerminator(s[i])
  }

  /** Without line terminators the longest run is the whole text. */
  lemma {:induction false} LongestRunWhole(s: string)
    requires NoLineTerminator(s)
    ensures LongestRun(s) == Text.JsLength(s)
  {
    if |s| > 0 {
      assert NoLineTerminator(s[..|s| - 1]);
      TrailingRunWhole(s);
    }
  }

  lemma {:induction false} TrailingRunWhole(s: string)
    requires NoLineTerminator(s)
    ensures TrailingRun(s) == Text.JsLength(s)
  {
    if |s| > 0 {
      assert NoLineTerminator(s[..|s| - 1]);
      TrailingRunWhole(s[..|s| - 1]);
    }
  }

  /** The checklist's test for a rule: the length entry is `/.{15,}/`,
      the others the same character classes the strength check uses. */
  predicate Met(rule: Rule, s: string) {
    if rule == Length then LongestRun(s) >= MIN_LENGTH else Passes(rule, s)
  }

  function RequirementText(rule: Rule): string {
    match rule
    case Length => "At least 15 characters long"
    case Upper => "Contains uppercase letter (A-Z)"
    case Lower => "Contains lowercase letter (a-z)"
    case Digit => "Contains number (0-9)"
    case Special => "Contains special character (!@#$%...)"
  }

  datatype Requirement = Requirement(text: string, met: bool)

  /** `checkPasswordRequirements`: one entry per rule, in order, none met
      for an empty password. */
  function CheckPasswordRequirements(password: Option<string>): (r: seq<Requirement>)
    ensures |r| == |RULES|
    ensures forall i :: 0 <= i < |RULES| ==> r[i].text == RequirementText(RULES[i])
    ensures forall i :: 0 <= i < |RULES| ==>
              (r[i].met <==> password.Some? && password.value != "" && Met(RULES[i], password.value))
  {
    seq(|RULES|, i requires 0 <= i < |RULES| =>
      Requirement(RequirementText(RULES[i]), password.Some? && password.value != "" && Met(RULES[i], password.value)))
  }

  /** A met checklist entry is never contradicted by the strength check,
      and on a password without line terminators the two agree on every
      rule: entry i is met exactly when rule i's message is absent. */
  lemma ChecklistAgreesWithStrength(password: Option<string>)
    requires password.Some? && password.value != ""
    ensures forall i :: 0 <= i < |RULES| && CheckPasswordRequirements(password)[i].met ==>
              Message(RULES[i]) !in ValidatePasswordStrength(password).errors
    ensures NoLineTerminator(password.value) ==>
              forall i :: 0 <= i < |RULES| ==>
                (CheckPasswordRequirements(password)[i].met <==> Message(RULES[i]) !in ValidatePasswordStrength(password).errors)
  {
    if NoLineTerminator(password.value) {
      LongestRunWhole(password.value);
    }
  }

  /** With a line break the checklist can leave the length entry unmet
      while the strength check accepts the length: two 8-character lines
      make 17 code units, but no run of 15. */
  lemma LineBreakSplitsLengthRun()
    ensures var s := "abcdefgh\nabcdefg";
            Text.JsLength(s) >= MIN_LENGTH && !Met(Length, s)
  {
    var a, b := "abcdefgh", "abcdefg";
    var s := a + ['\n'] + b;
    assert s == "abcdefgh\nabcdefg";
    Text.JsLengthOfBmp(s);
    Text.JsLengthOfBmp(a);
    Text.JsLengthOfBmp(b);
    RunsAcrossBreak(a, '\n', b);
  }

  /** A line terminator splits the runs: the longest run of `a + [t] + b`
      is the longer of the two sides' longest runs. */
  lemma {:induction false} RunsAcrossBreak(a: string, t: char, b: string)
    requires Text.IsLineTerminator(t)
    ensures TrailingRun(a + [t] + b) == TrailingRun(b)
    ensures LongestRun(a + [t] + b) == if LongestRun(a) < LongestRun(b) then LongestRun(b) else LongestRun(a)
  {
    if |b| == 0 {
      assert a + [t] + b == a + [t];
      RunStep(a, t);
    } else {
      var b', c := b[..|b| - 1], b[|b| - 1];
      RunsAcrossBreak(a, t, b');
      SplitLast(a + [t], b);
      RunStep(a + [t] + b', c);
      RunStep(b', c);
    }
  }

  lemma SplitLast(a: string, b: string)
    requires |b| > 0
    ensures a + b == (a + b[..|b| - 1]) + [b[|b| - 1]]
    ensures b == b[..|b| - 1] + [b[|b| - 1]]
  {
  }

  /** The runs after appending one character. */
  lemma RunStep(u: string, c: char)
    ensures TrailingRun(u + [c]) == if Text.IsLineTerminator(c) then 0 else TrailingRun(u) + Text.Utf16Units(c)
    ensures LongestRun(u + [c]) == if LongestRun(u) < TrailingRun(u + [c]) then TrailingRun(u + [c]) else LongestRun(u)
  {
    assert (u + [c])[..|u|] == u;
  }

  /** The password form's `validateEmail`: true exactly when the trimmed
      text has the email shape, the verdict the profile form reaches. */
  function ValidateEmail(email: Option<string>): (b: bool)
    ensures b <==> email.Some? && EmailFormat.EmailShape(Text.JsTrim(email.value))
    ensures b == ProfileValidation.ValidateEmail(email).valid
  {
    if email.None? || email.value == "" then false
    else
      EmailFormat.MatchesIffShape(Text.JsTrim(email.value));
      EmailFormat.Matches(Text.JsTrim(email.value))
  }
}

=== FILE: profile_validation.dfy ===
/** Profile-form validation: the display name's rules and messages, its
    sanitised form, the email check, and the whole-profile helpers. A field
    is `Option<string>`, None standing for `null` or `undefined`. Lengths
    are JavaScript lengths (UTF-16 code units) of the trimmed text. */
module ProfileValidation {
  import opened Common
  import Json
  import Text
  import EmailFormat

  const DISPLAY_NAME_MAX_LENGTH: nat := 20
  const DISPLAY_NAME_MIN_LENGTH: nat := 1

  const NAME_REQUIRED := "Display name is required"
  const NAME_BLANK := "Display name cannot contain only whitespace"
  const NAME_TOO_LONG := "Display name must not exceed 20 characters"
  const EMAIL_REQUIRED := "Email is required"
  const EMAIL_INVALID := "Please enter a valid email address"

  /** `{ valid, error }`: the error is None exactly when valid. */
  datatype Verdict = Verdict(valid: bool, error: Option<string>)

  /** `validateDisplayName`. */
  function ValidateDisplayName(name: Option<string>): (v: Verdict)
    ensures v.valid <==> v.error.None?
    ensures v.valid <==> name.Some? && Text.JsTrim(name.value) != ""
                         && Text.JsLength(Text.JsTrim(name.value)) <= DISPLAY_NAME_MAX_LENGTH
    ensures name.None? || name == Some("") ==> v.error == Some(NAME_REQUIRED)
    ensures name.Some? && name.value != "" && Text.JsTrim(name.value) == "" ==> v.error == Some(NAME_BLANK)
    ensures name.Some? && Text.JsLength(Text.JsTrim(name.value)) > DISPLAY_NAME_MAX_LENGTH ==> v.error == Some(NAME_TOO_LONG)
  {
    if name.None? || name.value == "" then Verdict(false, Some(NAME_REQUIRED))
    else
      var trimmed := Text.JsTrim(name.value);
      if trimmed == "" then Verdict(false, Some(NAME_BLANK))
      else if Text.JsLength(trimmed) < DISPLAY_NAME_MIN_LENGTH then
        // a non-empty string has length at least 1, so the minimum-length
        // message is never produced
        assert false;
        Verdict(false, Some("Display name must be at least 1 character"))
      else if Text.JsLength(trimmed) > DISPLAY_NAME_MAX_LENGTH then Verdict(false, Some(NAME_TOO_LONG))
      else Verdict(true, None)
  }

  /** `sanitizeDisplayName`: '' for a falsy name, else the trimmed name. */
  function SanitizeDisplayName(name: Option<string>): (r: string)
    ensures name.None? ==> r == ""
    ensures name.Some? ==> r == Text.JsTrim(name.value)
  {
    if name.None? || name.value == "" then "" else Text.JsTrim(name.value)
  }

  /** Sanitising twice is sanitising once. */
  lemma SanitizeIdempotent(name: Option<string>)
    ensures SanitizeDisplayName(Some(SanitizeDisplayName(name))) == SanitizeDisplayName(name)
  {
    if name.Some? {
      Text.StripIdempotent(name.value, Text.IsJsSpace);
    }
  }

  /** Sanitising keeps the verdict: a name is valid exactly when its
      sanitised form is, and a valid name's sanitised form is its trimmed
      text. */
  lemma SanitizeKeepsValidity(name: Option<string>)
    ensures ValidateDisplayName(Some(SanitizeDisplayName(name))).valid == ValidateDisplayName(name).valid
  {
    if name.Some? {
      Text.StripIdempotent(name.value, Text.IsJsSpace);
    }
  }

  /** The profile form's `validateEmail`: blank input is "required";
      otherwise the trimmed text must match the pattern. */
  function ValidateEmail(email: Option<string>): (v: Verdict)
    ensures v.valid <==> v.error.None?
    ensures email.None? || Text.JsTrim(email.value) == "" ==> v.error == Some(EMAIL_REQUIRED)
    ensures v.valid <==> email.Some? && EmailFormat.EmailShape(Text.JsTrim(email.value))
    ensures email.Some? && Text.JsTrim(email.value) != "" && !v.valid ==> v.error == Some(EMAIL_INVALID)
  {
    if email.None? || email.value == "" || Text.JsTrim(email.value) == "" then
      Verdict(false, Some(EMAIL_REQUIRED))
    else
      EmailFormat.MatchesIffShape(Text.JsTrim(email.value));
      if !EmailFormat.Matches(Text.JsTrim(email.value)) then Verdict(false, Some(EMAIL_INVALID))
      else Verdict(true, None)
  }

  /** A profile form: the display name and every other field as given. */
  datatype Profile = Profile(displayName: Option<string>, others: map<string, Json.Value>)

  datatype ProfileVerdict = ProfileVerdict(valid: bool, errors: map<string, string>)

  /** `validateProfileData`: `errors.displayName` is present exactly when
      the display name fails, carrying its message, and the profile is
      valid exactly when there are no errors. */
  function ValidateProfileData(p: Profile): (v: ProfileVerdict)
    ensures v.valid <==> |v.errors| == 0
    ensures v.errors.Keys <= {"displayName"}
    ensures "displayName" in v.errors <==> !ValidateDisplayName(p.displayName).valid
    ensures "displayName" in v.errors ==> Some(v.errors["displayName"]) == ValidateDisplayName(p.displayName).error
  {
    var nv := ValidateDisplayName(p.displayName);
    var errors: map<string, string> := if nv.valid then map[] else map["displayName" := nv.error.value];
    ProfileVerdict(|errors| == 0, errors)
  }

  /** `sanitizeProfileData`: only the display name changes. */
  function SanitizeProfileData(p: Profile): (r: Profile)
    ensures r.others == p.others
    ensures r.displayName == Some(SanitizeDisplayName(p.displayName))
  {
    p.(displayName := Some(SanitizeDisplayName(p.displayName)))
  }

  /** A sanitised profile validates as the original does. */
  lemma SanitizedProfileSameVerdict(p: Profile)
    ensures ValidateProfileData(SanitizeProfileData(p)).valid == ValidateProfileData(p).valid
  {
    SanitizeKeepsValidity(p.displayName);
  }
}

=== FILE: project_events.dfy ===
/** The project-created event bus: one listener list shared by every
    caller, registration that hands back a cleanup, and emission. A
    listener is known only by its identity, the type parameter `L`. */
module ProjectEvents {
  import opened Common

  /** The shared listener list, in registration order. */
  datatype Bus<L> = Bus(listeners: seq<L>)

  /** The list every caller starts with. */
  function Initial<L>(): (b: Bus<L>)
    ensures |b.listeners| == 0
  {
    Bus([])
  }

  /** `onProjectCreated`: the callback joins the end of the list. */
  function OnProjectCreated<L>(bus: Bus<L>, callback: L): (r: Bus<L>)
    ensures |r.listeners| == |bus.listeners| + 1
    ensures r.listeners[..|bus.listeners|] == bus.listeners
    ensures r.listeners[|bus.listeners|] == callback
  {
    Bus(bus.listeners + [callback])
  }

  /** Index of the first listener equal to `x` (`indexOf`), or -1. */
  function IndexOf<L(==)>(s: seq<L>, x: L): (k: int)
    ensures -1 <= k < |s|
    ensures k >= 0 ==> s[k] == x && x !in s[..k]
    ensures k == -1 ==> x !in s
  {
    var k := FirstIndex(s, (y: L) => y == x);
    assert k >= 0 ==> forall j :: 0 <= j < k ==> s[..k][j] == s[j];
    k
  }

  /** The cleanup a registration returns: removes the first occurrence of
      its callback, and does nothing when the callback is gone. */
  function Cleanup<L(==)>(bus: Bus<L>, callback: L): (r: Bus<L>)
    ensures callback !in bus.listeners ==> r == bus
    ensures callback in bus.listeners ==>
              && |r.listeners| == |bus.listeners| - 1
              && multiset(r.listeners) == multiset(bus.listeners) - multiset{callback}
  {
    var k := IndexOf(bus.listeners, callback);
    if k == -1 then bus
    else
      var s := bus.listeners;
      assert s == s[..k] + [s[k]] + s[k + 1..];
      Bus(s[..k] + s[k + 1..])
  }

  /** Every listener that came before the removed one keeps its place, and
      the rest keep their order. */
  lemma CleanupKeepsOrder<L>(bus: Bus<L>, callback: L)
    requires callback in bus.listeners
    ensures var k := IndexOf(bus.listeners, callback);
            Cleanup(bus, callback).listeners == bus.listeners[..k] + bus.listeners[k + 1..]
  {
  }

  /** Registering a callback and running its cleanup straight away leaves
      the list as it was when the callback was new. When it was already
      registered, the cleanup takes out its oldest registration and the
      new one stays at the end. */
  lemma RegisterThenCleanup<L>(bus: Bus<L>, callback: L)
    ensures Cleanup(OnProjectCreated(bus, callback), callback).listeners
            == (if callback in bus.listeners
                then Cleanup(bus, callback).listeners + [callback]
                else bus.listeners)
  {
    if callback in bus.listeners {
      CleanupOlder(bus.listeners, callback);
    } else {
      CleanupNew(bus.listeners, callback);
    }
  }

  lemma CleanupNew<L>(s: seq<L>, callback: L)
    requires callback !in s
    ensures Cleanup(Bus(s + [callback]), callback).listeners == s
  {
    var t := s + [callback];
    CleanupKeepsOrder(Bus(t), callback);
    assert IndexOf(t, callback) == |s| by {
      assert t[..|s|] == s;
    }
    assert t[..|s|] == s;
  }

  lemma CleanupOlder<L>(s: seq<L>, callback: L)
    requires callback in s
    ensures Cleanup(Bus(s + [callback]), callback).listeners == Cleanup(Bus(s), callback).listeners + [callback]
  {
    var t := s + [callback];
    var j := IndexOf(s, callback);
    IndexOfPrefix(s, [callback], callback);
    CleanupKeepsOrder(Bus(t), callback);
    CleanupKeepsOrder(Bus(s), callback);
    assert t[..j] == s[..j];
    assert t[j + 1..] == s[j + 1..] + [callback];
  }

  lemma {:induction false} IndexOfPrefix<L>(s: seq<L>, t: seq<L>, x: L)
    requires x in s
    ensures IndexOf(s + t, x) == IndexOf(s, x)
  {
    if s[0] != x {
      assert (s + t)[1..] == s[1..] + t;
      IndexOfPrefix(s[1..], t, x);
    }
  }

  /** `emitProjectCreated`: the calls made, each listener once with the
      project, in registration order. */
  function EmitProjectCreated<L, P>(bus: Bus<L>, project: P): (calls: seq<(L, P)>)
    ensures |calls| == |bus.listeners|
    ensures forall i :: 0 <= i < |calls| ==> calls[i] == (bus.listeners[i], project)
  {
    seq(|bus.listeners|, i requires 0 <= i < |bus.listeners| => (bus.listeners[i], project))
  }

  /** A registered callback hears the next emission, and after its cleanup
      it hears it once fewer. */
  lemma CleanupSilences<L, P>(bus: Bus<L>, callback: L, project: P)
    ensures (callback, project) in EmitProjectCreated(OnProjectCreated(bus, callback), project)
    ensures multiset(EmitProjectCreated(Cleanup(bus, callback), project))[(callback, project)]
            == if callback in bus.listeners then multiset(EmitProjectCreated(bus, project))[(callback, project)] - 1 else 0
  {
    var r := OnProjectCreated(bus, callback);
    assert EmitProjectCreated(r, project)[|bus.listeners|] == (callback, project);
    EmitCounts(bus, callback, project);
    EmitCounts(Cleanup(bus, callback), callback, project);
  }

  /** Each listener is called as many times as it is registered. */
  lemma {:induction false} EmitCounts<L, P>(bus: Bus<L>, callback: L, project: P)
    ensures multiset(EmitProjectCreated(bus, project))[(callback, project)] == multiset(bus.listeners)[callback]
    decreases |bus.listeners|
  {
    var s := bus.listeners;
    if |s| > 0 {
      var init := Bus(s[..|s| - 1]);
      EmitCounts(init, callback, project);
      assert EmitProjectCreated(bus, project) == EmitProjectCreated(init, project) + [(s[|s| - 1], project)];
      assert s == init.listeners + [s[|s| - 1]];
    }
  }
}

=== FILE: project_service.dfy ===
/** The project service: create, list, update and delete rows of the
    `project` table. The table is a sequence of rows; `fault` stands for a
    database call that raises, and `newId`/`now` for the values the
    database fills in on insert. */
module ProjectService {
  import opened Common
  import Json
  import Text
  import Sorting

  /** Texts the service answers with. */
  const MSG_NO_FIELDS := "No valid fields to update"
  const MSG_DELETED := "Project deleted successfully"
  const MSG_NOT_FOUND := "Project not found"
  const MSG_UPDATE_FAILED := "Project not found or update failed"
  const MSG_NAME_REQUIRED := "project_name is required"

  type Row = Json.Row

  /** The columns the list endpoint selects and the API form shows. */
  const PROJECT_COLUMNS: seq<string> :=
    ["project_id", "project_name", "project_description", "created_at", "created_by", "due_date"]

  datatype Reply = Reply(status: Status, body: Row, db: seq<Row>)

  /** The `str(exc)` a handler returns with 500; its text is not
      modelled. */
  const RAISED: Json.Value := Json.Str("exception")

  /** `body.get(key, "").strip()`: an absent key reads as the empty string,
      a string is stripped, and anything else (None included) has no
      `strip` and raises, which is None here. */
  function StrippedField(body: Row, key: string): (r: Option<string>)
    ensures key !in body ==> r == Some("")
    ensures key in body && body[key].Str? ==> r == Some(Text.PyStrip(body[key].s))
    ensures key in body && !body[key].Str? ==> r.None?
  {
    if key !in body then Some("")
    else if body[key].Str? then Some(Text.PyStrip(body[key].s))
    else None
  }

  /** The `created_by` of a new project: a truthy `owner_id` as given,
      else the stripped `created_by`, else "Unknown". None when the
      fallback to `created_by` meets a value that is not a string. */
  function CreatedBy(body: Row): (r: Option<Json.Value>)
    ensures Json.Truthy(Json.Get(body, "owner_id")) ==> r == Some(body["owner_id"])
    ensures !Json.Truthy(Json.Get(body, "owner_id")) ==>
              match StrippedField(body, "created_by")
              case None => r.None?
              case Some(c) => r == Some(Json.Str(if c == "" then "Unknown" else c))
    ensures r.Some? && r.value.Str? ==> r.value.s != ""
  {
    var owner := Json.Get(body, "owner_id");
    if Json.Truthy(owner) then Some(owner)
    else match StrippedField(body, "created_by")
      case None => None
      case Some(c) => Some(Json.Str(if c == "" then "Unknown" else c))
  }

  /** The row `create_project` inserts, or None when a field it strips is
      not a string. The name is checked non-blank before this is built. */
  function ProjectData(body: Row): (r: Option<Row>)
    ensures r.Some? <==> StrippedField(body, "project_name").Some?
                         && StrippedField(body, "project_description").Some?
                         && CreatedBy(body).Some?
    ensures r.Some? ==>
              && r.value.Keys == {"project_name", "project_description", "created_by", "due_date"}
              && r.value["project_name"] == Json.Str(StrippedField(body, "project_name").value)
              && r.value["project_description"] == Json.Str(StrippedField(body, "project_description").value)
              && r.value["created_by"] == CreatedBy(body).value
              && r.value["due_date"] == Json.Get(body, "due_date")
  {
    match (StrippedField(body, "project_name"), StrippedField(body, "project_description"), CreatedBy(body))
    case (Some(name), Some(description), Some(owner)) =>
      Some(map["project_name" := Json.Str(name), "project_description" := Json.Str(description),
               "created_by" := owner, "due_date" := Json.Get(body, "due_date")])
    case _ => None
  }

  /** POST /projects: 400 unless the stripped `project_name` is
      non-empty; otherwise the stripped fields are inserted, with the id
      and timestamp the database assigns, and the stored row is returned
      with 201. A field of the wrong type raises: 500, nothing written. */
  function CreateProject(db: seq<Row>, body: Json.Value, newId: Json.Value, now: string, fault: bool): (r: Reply)
    ensures r.status in {CREATED, BAD_REQUEST, SERVER_ERROR}
    ensures Json.RequestDict(body).Some? && StrippedField(Json.RequestDict(body).value, "project_name") == Some("")
            ==> r.status == BAD_REQUEST
    ensures r.status == CREATED <==>
              && Json.RequestDict(body).Some? && !fault
              && ProjectData(Json.RequestDict(body).value).Some?
              && StrippedField(Json.RequestDict(body).value, "project_name") != Some("")
    ensures r.status == CREATED ==>
              var data := ProjectData(Json.RequestDict(body).value).value;
              && |r.db| == |db| + 1 && r.db[..|db|] == db
              && r.db[|db|] == data["project_id" := newId]["created_at" := Json.Str(now)]
              && data["project_name"].Str? && data["project_name"].s != ""
              && "project" in r.body && r.body["project"] == Json.Obj(r.db[|db|])
    ensures r.status != CREATED ==> r.db == db
  {
    match Json.RequestDict(body)
    case None => Reply(SERVER_ERROR, map["error" := RAISED], db)
    case Some(dict) =>
      match StrippedField(dict, "project_name")
      case None => Reply(SERVER_ERROR, map["error" := RAISED], db)
      case Some(name) =>
        if name == "" then Reply(BAD_REQUEST, map["error" := Json.Str(MSG_NAME_REQUIRED)], db)
        else match ProjectData(dict)
          case None => Reply(SERVER_ERROR, map["error" := RAISED], db)
          case Some(data) =>
            if fault then Reply(SERVER_ERROR, map["error" := Json.Str("insert failed")], db)
            else
              var row := data["project_id" := newId]["created_at" := Json.Str(now)];
              var db1 := db + [row];
              assert db1[..|db|] == db;
              Reply(CREATED, map["project" := Json.Obj(row)], db1)
  }

  /** Whether a row is the project the path names. The id arrives as text
      and is compared with the printed form of the stored value. */
  predicate IsProject(row: Row, id: string) {
    Json.PyStr(Json.Get(row, "project_id")) == id
  }

  /** The fields `update_project` strips. */
  const STRIPPED_FIELDS: set<string> := {"project_name", "project_description", "created_by"}

  /** The fields `update_project` copies into the payload when present. */
  const EDITABLE_FIELDS: set<string> := STRIPPED_FIELDS + {"due_date"}

  /** A stripped field is absent or a string; anything else raises. */
  predicate Strippable(body: Row, key: string) {
    key !in body || body[key].Str?
  }

  /** The update payload: each editable field that is present in the
      body, stripped except for `due_date`, which is copied as given. None
      when a stripped field is not a string. */
  function UpdateData(body: Row): (r: Option<Row>)
    ensures r.Some? <==> Strippable(body, "project_name") && Strippable(body, "project_description")
                         && Strippable(body, "created_by")
    ensures r.Some? ==> r.value.Keys == EDITABLE_FIELDS * body.Keys
    ensures r.Some? && "due_date" in body ==> r.value["due_date"] == body["due_date"]
    ensures r.Some? ==> forall k :: k in STRIPPED_FIELDS && k in body ==> r.value[k] == Json.Str(Text.PyStrip(body[k].s))
  {
    if Strippable(body, "project_name") && Strippable(body, "project_description") && Strippable(body, "created_by") then
      Some(map k | k in EDITABLE_FIELDS * body.Keys ::
             if k == "due_date" then body[k] else Json.Str(Text.PyStrip(body[k].s)))
    else None
  }

  /** Applies the payload to every row of the project; the rest of the
      table is untouched. */
  function ApplyUpdate(db: seq<Row>, id: string, data: Row): (r: seq<Row>)
    ensures |r| == |db|
    ensures forall i :: 0 <= i < |db| && !IsProject(db[i], id) ==> r[i] == db[i]
    ensures forall i :: 0 <= i < |db| && IsProject(db[i], id) ==> r[i] == db[i] + data
  {
    seq(|db|, i requires 0 <= i < |db| => if IsProject(db[i], id) then db[i] + data else db[i])
  }

  /** Index of the first row of the project, or -1. */
  function FindProject(db: seq<Row>, id: string): (i: int)
    ensures -1 <= i < |db|
    ensures i >= 0 ==> IsProject(db[i], id) && forall j :: 0 <= j < i ==> !IsProject(db[j], id)
    ensures i == -1 ==> forall j :: 0 <= j < |db| ==> !IsProject(db[j], id)
  {
    FirstIndex(db, (row: Row) => IsProject(row, id))
  }

  /** PUT /projects/<id>: 400 unless the stripped `project_name` is
      non-empty, then the present fields are written to the project's rows;
      404 when no row is the project. */
  function UpdateProject(db: seq<Row>, id: string, body: Json.Value, fault: bool): (r: Reply)
    ensures Json.RequestDict(body).Some? && StrippedField(Json.RequestDict(body).value, "project_name") == Some("")
            ==> r.status == BAD_REQUEST
    ensures r.status == OK <==>
              && Json.RequestDict(body).Some? && !fault
              && StrippedField(Json.RequestDict(body).value, "project_name").Some?
              && StrippedField(Json.RequestDict(body).value, "project_name") != Some("")
              && UpdateData(Json.RequestDict(body).value).Some?
              && FindProject(db, id) >= 0
    ensures && Json.RequestDict(body).Some? && !fault
            && StrippedField(Json.RequestDict(body).value, "project_name").Some?
            && StrippedField(Json.RequestDict(body).value, "project_name") != Some("")
            && UpdateData(Json.RequestDict(body).value).Some?
            && FindProject(db, id) == -1
            ==> r.status == NOT_FOUND
    ensures r.status == OK ==>
              var data := UpdateData(Json.RequestDict(body).value).value;
              && "project_name" in data
              && r.db == ApplyUpdate(db, id, data)
              && "project" in r.body && r.body["project"] == Json.Obj(db[FindProject(db, id)] + data)
    ensures r.status != OK ==> r.db == db
  {
    match Json.RequestDict(body)
    case None => Reply(SERVER_ERROR, map["error" := RAISED], db)
    case Some(dict) =>
      match StrippedField(dict, "project_name")
      case None => Reply(SERVER_ERROR, map["error" := RAISED], db)
      case Some(name) =>
        if name == "" then Reply(BAD_REQUEST, map["error" := Json.Str(MSG_NAME_REQUIRED)], db)
        else match UpdateData(dict)
          case None => Reply(SERVER_ERROR, map["error" := RAISED], db)
          case Some(data) =>
            NameAlwaysUpdated(dict);
            if |data| == 0 then
              assert false;
              Reply(BAD_REQUEST, map["error" := Json.Str(MSG_NO_FIELDS)], db)
            else if fault then Reply(SERVER_ERROR, map["error" := RAISED], db)
            else
              var k := FindProject(db, id);
              if k == -1 then Reply(NOT_FOUND, map["error" := Json.Str(MSG_UPDATE_FAILED)], db)
              else
                var db1 := ApplyUpdate(db, id, data);
                assert db1[k] == db[k] + data;
                Reply(OK, map["project" := Json.Obj(db1[k])], db1)
  }

  /** A body that passes the name check, and whose other stripped fields
      are strings, always yields a payload carrying `project_name`, so the
      payload is never empty and the MSG_NO_FIELDS answer cannot be
      reached. */
  lemma NameAlwaysUpdated(body: Row)
    requires StrippedField(body, "project_name").Some? && StrippedField(body, "project_name") != Some("")
    requires Strippable(body, "project_description") && Strippable(body, "created_by")
    ensures UpdateData(body).Some?
    ensures "project_name" in UpdateData(body).value
    ensures |UpdateData(body).value| > 0
  {
    assert "project_name" in body;
    assert "project_name" in UpdateData(body).value;
  }

  /** Removes every row of the project. */
  function DeleteRows(db: seq<Row>, id: string): (r: seq<Row>)
    ensures Subsequence(r, db)
    ensures forall row :: row in r <==> row in db && !IsProject(row, id)
    ensures |r| == |db| <==> FindProject(db, id) == -1
  {
    if |db| == 0 then []
    else
      var rest := DeleteRows(db[1..], id);
      assert forall row :: row in db <==> row == db[0] || row in db[1..];
      if IsProject(db[0], id) then
        SubsequenceNoLonger(rest, db[1..]);
        assert Subsequence(rest, db) by { SubsequenceDropFront(rest, db); }
        rest
      else
        assert ([db[0]] + rest)[1..] == rest;
        [db[0]] + rest
  }

  lemma {:induction false} SubsequenceNoLonger<T>(a: seq<T>, b: seq<T>)
    requires Subsequence(a, b)
    ensures |a| <= |b|
    decreases |b|
  {
    if |a| > 0 {
      if a[0] == b[0] && Subsequence(a[1..], b[1..]) {
        SubsequenceNoLonger(a[1..], b[1..]);
      } else {
        SubsequenceNoLonger(a, b[1..]);
      }
    }
  }

  lemma SubsequenceDropFront<T>(a: seq<T>, b: seq<T>)
    requires |b| > 0 && Subsequence(a, b[1..])
    ensures Subsequence(a, b)
  {
  }

  /** DELETE /projects/<id>: the project's rows are removed and 200; 404
      when no row is the project. */
  function DeleteProject(db: seq<Row>, id: string, fault: bool): (r: Reply)
    ensures r.status == OK <==> !fault && FindProject(db, id) >= 0
    ensures !fault && FindProject(db, id) == -1 ==> r.status == NOT_FOUND
    ensures r.status == OK ==> |r.db| < |db| && forall row :: row in r.db <==> row in db && !IsProject(row, id)
    ensures r.status != OK ==> r.db == db
  {
    if fault then Reply(SERVER_ERROR, map["error" := RAISED], db)
    else if FindProject(db, id) == -1 then Reply(NOT_FOUND, map["error" := Json.Str(MSG_NOT_FOUND)], db)
    else
      var db1 := DeleteRows(db, id);
      SubsequenceNoLonger(db1, db);
      Reply(OK, map["message" := Json.Str(MSG_DELETED)], db1)
  }

  /** A project row in API form: the six selected columns. */
  function MapDbRowToApi(row: Row): (r: Row)
    ensures r.Keys == set k | k in PROJECT_COLUMNS
    ensures forall k :: k in PROJECT_COLUMNS ==> r[k] == Json.Get(row, k)
  {
    Json.Project(row, PROJECT_COLUMNS)
  }

  /** The query filters of GET /projects. `limit` is the integer the query
      string parses to, None when absent or not an integer. */
  datatype Query = Query(limit: Option<int>, createdBy: Option<string>, projectId: Option<string>)

  /** A row passes the `created_by` and `project_id` filters that are
      given with a non-empty value. */
  predicate Selected(row: Row, q: Query) {
    && (q.createdBy.Some? && q.createdBy.value != "" ==> Json.PyStr(Json.Get(row, "created_by")) == q.createdBy.value)
    && (q.projectId.Some? && q.projectId.value != "" ==> IsProject(row, q.projectId.value))
  }

  function Filter(db: seq<Row>, q: Query): (r: seq<Row>)
    ensures Subsequence(r, db)
    ensures forall row :: row in r <==> row in db && Selected(row, q)
  {
    if |db| == 0 then []
    else
      var rest := Filter(db[1..], q);
      assert forall row :: row in db <==> row == db[0] || row in db[1..];
      if Selected(db[0], q) then
        assert ([db[0]] + rest)[1..] == rest;
        [db[0]] + rest
      else rest
  }

  /** GET /projects: the selected rows, newest `created_at` first
      (`createdAt` gives each row's position in time), cut to `limit` rows
      when that is a positive number, each in API form. A zero limit is
      falsy and means no limit; a negative one is refused by the database
      and is 500 here. */
  function GetProjects(db: seq<Row>, q: Query, createdAt: Row -> int, fault: bool): (r: (Status, seq<Row>))
    ensures r.0 == OK <==> !fault && !(q.limit.Some? && q.limit.value < 0)
    ensures r.0 == OK ==>
              var kept := Filter(db, q);
              && |r.1| == (if q.limit.Some? && 0 < q.limit.value < |kept| then q.limit.value else |kept|)
              && forall i :: 0 <= i < |r.1| ==> r.1[i] == MapDbRowToApi(SortedRows(kept, createdAt)[i])
    ensures r.0 != OK ==> r.1 == []
  {
    if fault || (q.limit.Some? && q.limit.value < 0) then (SERVER_ERROR, [])
    else
      var sorted := SortedRows(Filter(db, q), createdAt);
      var n := if q.limit.Some? && 0 < q.limit.value < |sorted| then q.limit.value else |sorted|;
      (OK, seq(n, i requires 0 <= i < n => MapDbRowToApi(sorted[i])))
  }

  /** The rows newest first. */
  function SortedRows(rows: seq<Row>, createdAt: Row -> int): (r: seq<Row>)
    ensures multiset(r) == multiset(rows)
    ensures Sorting.SortedDesc(r, createdAt)
  {
    Sorting.SortDesc(rows, createdAt)
  }
}

=== FILE: report_service.dfy ===
/** The report service: the filters applied to a user's tasks before a
    personal report, the statistics, per-member tallies and five-way
    grouping of a project report, the duration and date-range texts, and the
    HTTP status rules of the report endpoints. Dates reach the model already
    parsed: `Parsers` stands for `datetime.fromisoformat` (None for a
    `ValueError`) giving a day number; PDF and chart rendering are left
    out. */
module ReportService {
  import opened Common
  import Json
  import Text
  import Tally
  import Sorting
  import Counting

  /** Texts the service answers with. */
  const MSG_TASKS_UNAVAILABLE := "Failed to fetch tasks from task service"
  const MSG_REPORT_FAILED := "Failed to generate report"
  const MSG_BAD_START := "start_date must be in ISO format (YYYY-MM-DD)"
  const MSG_BAD_END := "end_date must be in ISO format (YYYY-MM-DD)"
  const MSG_USER_REQUIRED := "user_id is required"

  type Task = Json.Row

  /** `stamp` parses a stored timestamp the way the service does (a 'T'
      form has its 'Z' replaced by '+00:00' first); `iso` parses a request's
      plain ISO date. Both yield the calendar day. */
  datatype Parsers = Parsers(stamp: string -> Option<int>, iso: string -> Option<int>)

  // ----- filtering a user's tasks -----

  /** A request bound given as a non-empty string (`if start_date:`). */
  predicate Given(bound: Option<string>) {
    bound.Some? && bound.value != ""
  }

  /** The status filter applies only when it is non-empty and does not
      contain 'All'. */
  predicate FilterActive(filter: seq<string>) {
    |filter| > 0 && "All" !in filter
  }

  /** `task.get('status', '')` as text; None when it holds a non-string,
      on which `.lower()` raises. */
  function StatusText(t: Task): (r: Option<string>)
    ensures "status" !in t ==> r == Some("")
    ensures "status" in t ==> (r.Some? <==> t["status"].Str?)
  {
    match Json.GetOr(t, "status", Json.Str(""))
    case Str(s) => Some(s)
    case _ => None
  }

  /** Some filter entry equals the status, both lowercased. */
  predicate MatchesFilter(status: string, filter: seq<string>) {
    exists i :: 0 <= i < |filter| && Text.Lower(filter[i]) == Text.Lower(status)
  }

  /** What the loop does with one task: keeps it, skips it with
      `continue`, or lets an exception out. */
  datatype Decision = Keep | Drop | Crash

  /** The date test once the task's day is known: inclusive bounds, where a
      bound that does not parse drops the task (the `ValueError` is caught
      inside the loop). */
  function BoundsDecision(day: int, start: Option<string>, end: Option<string>, p: Parsers): (d: Decision)
    ensures d != Crash
    ensures d == Keep <==>
              && (Given(start) ==> p.iso(start.value).Some? && p.iso(start.value).value <= day)
              && (Given(end) ==> p.iso(end.value).Some? && day <= p.iso(end.value).value)
  {
    if Given(start) && (p.iso(start.value).None? || day < p.iso(start.value).value) then Drop
    else if Given(end) && (p.iso(end.value).None? || day > p.iso(end.value).value) then Drop
    else Keep
  }

  /** The date-range test on `created_at`. Without bounds, or without a
      truthy `created_at`, the task passes. A string that does not parse is
      dropped. A non-string value fails on `'T' in created_at` or in
      `fromisoformat`, except that a list or dict containing "T" fails in
      `.replace`, an `AttributeError` that is caught. */
  function DateDecision(t: Task, start: Option<string>, end: Option<string>, p: Parsers): (d: Decision)
    ensures !Given(start) && !Given(end) ==> d == Keep
    ensures !Json.Truthy(Json.Get(t, "created_at")) ==> d == Keep
    ensures (Given(start) || Given(end)) && Json.Get(t, "created_at").Str? && Json.Truthy(Json.Get(t, "created_at")) ==>
              var day := p.stamp(Json.Get(t, "created_at").s);
              (d == Keep <==> day.Some? && BoundsDecision(day.value, start, end, p) == Keep)
  {
    if !Given(start) && !Given(end) then Keep
    else
      var c := Json.Get(t, "created_at");
      if !Json.Truthy(c) then Keep
      else match c
        case Str(s) =>
          (match p.stamp(s)
           case None => Drop
           case Some(day) => BoundsDecision(day, start, end, p))
        case Arr(items) => if Json.Str("T") in items then Drop else Crash
        case Obj(fields) => if "T" in fields then Drop else Crash
        case _ => Crash
  }

  /** The whole test for one task: the status filter first, then the
      date range. */
  function Decide(t: Task, start: Option<string>, end: Option<string>, filter: seq<string>, p: Parsers): (d: Decision)
    ensures FilterActive(filter) && d == Keep ==>
              StatusText(t).Some? && MatchesFilter(StatusText(t).value, filter)
    ensures !FilterActive(filter) ==> d == DateDecision(t, start, end, p)
    ensures d == Keep ==> DateDecision(t, start, end, p) == Keep
  {
    if FilterActive(filter) then
      match StatusText(t)
      case None => Crash
      case Some(s) => if MatchesFilter(s, filter) then DateDecision(t, start, end, p) else Drop
    else DateDecision(t, start, end, p)
  }

  /** The test `Decide` passes, as a predicate on tasks. */
  function Kept(start: Option<string>, end: Option<string>, filter: seq<string>, p: Parsers): Task -> bool {
    t => Decide(t, start, end, filter, p) == Keep
  }

  /** The test "the filter raises on this task". */
  function Crashes(start: Option<string>, end: Option<string>, filter: seq<string>, p: Parsers): Task -> bool {
    t => Decide(t, start, end, filter, p) == Crash
  }

  /** Some element passes `test` exactly when the first one does or some
      element of the tail does. */
  lemma SomeFront<T>(s: seq<T>, test: T -> bool)
    requires |s| > 0
    ensures (exists i :: 0 <= i < |s| && test(s[i])) <==> test(s[0]) || exists i :: 0 <= i < |s[1..]| && test(s[1..][i])
  {
    if exists i :: 0 <= i < |s| && test(s[i]) {
      var i :| 0 <= i < |s| && test(s[i]);
      if i > 0 {
        assert test(s[1..][i - 1]);
      }
    }
  }

  /** The filtering loop of `fetch_tasks_for_user`. None when some task
      raises; otherwise the kept tasks, in their original order: a
      subsequence holding only passing tasks and as long as the number of
      passing positions, so every passing position is in it. */
  function FilterTasks(tasks: seq<Task>, start: Option<string>, end: Option<string>,
                       filter: seq<string>, p: Parsers): (r: Option<seq<Task>>)
    ensures r.None? <==> exists i :: 0 <= i < |tasks| && Decide(tasks[i], start, end, filter, p) == Crash
    ensures r.Some? ==> Subsequence(r.value, tasks)
    ensures r.Some? ==> forall t :: t in r.value <==> t in tasks && Decide(t, start, end, filter, p) == Keep
    ensures r.Some? ==> |r.value| == Counting.Count(tasks, Kept(start, end, filter, p))
  {
    if |tasks| == 0 then Some([])
    else
      var rest := FilterTasks(tasks[1..], start, end, filter, p);
      var keep := Kept(start, end, filter, p);
      SomeFront(tasks, Crashes(start, end, filter, p));
      match Decide(tasks[0], start, end, filter, p)
      case Crash => None
      case Drop =>
        if rest.None? then None
        else
          KeepStep(tasks, keep, rest.value, rest.value);
          rest
      case Keep =>
        if rest.None? then None
        else
          KeepStep(tasks, keep, rest.value, [tasks[0]] + rest.value);
          Some([tasks[0]] + rest.value)
  }

  /** One step of a filtering loop: putting the first element in front of
      the tail's kept elements exactly when it passes `keep` keeps them a
      subsequence holding exactly the passing elements, as many as pass. */
  lemma KeepStep<T>(s: seq<T>, keep: T -> bool, rest: seq<T>, r: seq<T>)
    requires |s| > 0 && Subsequence(rest, s[1..])
    requires forall t :: t in rest <==> t in s[1..] && keep(t)
    requires |rest| == Counting.Count(s[1..], keep)
    requires r == if keep(s[0]) then [s[0]] + rest else rest
    ensures Subsequence(r, s)
    ensures forall t :: t in r <==> t in s && keep(t)
    ensures |r| == Counting.Count(s, keep)
  {
    Counting.CountFront(s, keep);
    assert forall t :: t in s <==> t == s[0] || t in s[1..];
    if keep(s[0]) {
      assert r[1..] == rest;
    }
  }

  /** With no status filter in force and no date bound, every task is
      kept, in order. */
  lemma {:induction false} NoFiltersKeepAll(tasks: seq<Task>, start: Option<string>, end: Option<string>,
                                            filter: seq<string>, p: Parsers)
    requires !FilterActive(filter) && !Given(start) && !Given(end)
    ensures FilterTasks(tasks, start, end, filter, p) == Some(tasks)
  {
    if |tasks| > 0 {
      NoFiltersKeepAll(tasks[1..], start, end, filter, p);
      assert tasks == [tasks[0]] + tasks[1..];
    }
  }

  /** A status filter containing 'All' filters nothing by status: the
      result is the one the date range alone gives. */
  lemma {:induction false} AllMeansNoStatusFilter(tasks: seq<Task>, start: Option<string>, end: Option<string>,
                                                  filter: seq<string>, p: Parsers)
    requires "All" in filter
    ensures FilterTasks(tasks, start, end, filter, p) == FilterTasks(tasks, start, end, [], p)
  {
    if |tasks| > 0 {
      AllMeansNoStatusFilter(tasks[1..], start, end, filter, p);
    }
  }

  /** `fetch_tasks_for_user`: a failed or non-OK call to the task service
      raises a request error; otherwise the tasks are filtered. */
  datatype Fetch<T> = Fetched(data: T) | RequestFailed | Failed

  function FetchTasksForUser(response: Remote<seq<Task>>, start: Option<string>, end: Option<string>,
                             filter: seq<string>, p: Parsers): (r: Fetch<seq<Task>>)
    ensures !response.RespOk? <==> r.RequestFailed?
    ensures r.Failed? <==>
              response.RespOk? && exists i :: 0 <= i < |response.data| && Decide(response.data[i], start, end, filter, p) == Crash
    ensures r.Fetched? ==> Subsequence(r.data, response.data)
    ensures r.Fetched? ==> forall t :: t in r.data <==> t in response.data && Decide(t, start, end, filter, p) == Keep
    ensures r.Fetched? ==> |r.data| == Counting.Count(response.data, Kept(start, end, filter, p))
  {
    match response
    case RespOk(tasks) =>
      (match FilterTasks(tasks, start, end, filter, p)
       case None => Failed
       case Some(kept) => Fetched(kept))
    case _ => RequestFailed
  }

  // ----- project statistics -----

  /** Every task's status is absent or a string: otherwise the status
      counts raise. */
  predicate StatusesReadable(tasks: seq<Task>) {
    forall t :: t in tasks ==> StatusText(t).Some?
  }

  /** The task's status, read as text and lowercased, is `name`. */
  predicate HasStatus(t: Task, name: string) {
    StatusText(t).Some? && Text.Lower(StatusText(t).value) == name
  }

  /** The positions of the tasks with status `name`: what the list
      comprehension of the statistics keeps. */
  ghost function WithStatus(tasks: seq<Task>, name: string): set<int> {
    set i | 0 <= i < |tasks| && HasStatus(tasks[i], name)
  }

  /** How many tasks have the given lowercased status. */
  function CountStatus(tasks: seq<Task>, name: string): (n: nat)
    ensures n == |WithStatus(tasks, name)|
    ensures n <= |tasks|
  {
    assert Counting.Positions(tasks, t => HasStatus(t, name)) == WithStatus(tasks, name);
    Counting.Count(tasks, t => HasStatus(t, name))
  }

  /** The status counts do not depend on the order in which the task
      service lists the tasks. */
  lemma CountStatusOrderFree(a: seq<Task>, b: seq<Task>, name: string)
    requires multiset(a) == multiset(b)
    ensures CountStatus(a, name) == CountStatus(b, name)
  {
    Counting.CountPermutation(a, b, t => HasStatus(t, name));
  }

  /** The completion rate in percent, unrounded: 0 when there are no
      tasks. */
  function Rate(completed: nat, total: nat): (r: real)
    requires completed <= total
    ensures total == 0 ==> r == 0.0
    ensures 0.0 <= r <= 100.0
    ensures total > 0 && completed == total ==> r == 100.0
    ensures total > 0 ==> r * (total as real) == 100.0 * (completed as real)
  {
    if total > 0 then (completed as real) * 100.0 / (total as real) else 0.0
  }

  datatype Summary = Summary(total: nat, completed: nat, ongoing: nat, underReview: nat, rate: real)

  /** The three status counts cannot overlap: together they never exceed
      the number of tasks. */
  lemma {:induction false} StatusCountsDisjoint(tasks: seq<Task>)
    requires StatusesReadable(tasks)
    ensures CountStatus(tasks, "completed") + CountStatus(tasks, "ongoing")
            + CountStatus(tasks, "under review") <= |tasks|
  {
    if |tasks| > 0 {
      var init := tasks[..|tasks| - 1];
      assert tasks == init + [tasks[|tasks| - 1]];
      StatusCountsDisjoint(init);
    }
  }

  function Summarize(tasks: seq<Task>): (s: Summary)
    requires StatusesReadable(tasks)
    ensures s.total == |tasks|
    ensures s.completed + s.ongoing + s.underReview <= s.total
    ensures s.total == 0 ==> s.rate == 0.0
    ensures 0.0 <= s.rate <= 100.0
    ensures s.completed == |WithStatus(tasks, "completed")|
    ensures s.ongoing == |WithStatus(tasks, "ongoing")|
    ensures s.underReview == |WithStatus(tasks, "under review")|
    ensures s.rate == Rate(s.completed, s.total)
  {
    StatusCountsDisjoint(tasks);
    var completed := CountStatus(tasks, "completed");
    Summary(|tasks|, completed, CountStatus(tasks, "ongoing"), CountStatus(tasks, "under review"),
            Rate(completed, |tasks|))
  }

  /** The summary of a project report is the same whatever order the task
      service lists the tasks in. */
  lemma SummaryOrderFree(a: seq<Task>, b: seq<Task>)
    requires StatusesReadable(a)
    requires multiset(a) == multiset(b)
    ensures StatusesReadable(b)
    ensures Summarize(a) == Summarize(b)
  {
    forall t | t in b ensures StatusText(t).Some? {
      assert t in multiset(b);
    }
    assert |a| == |multiset(a)| == |b|;
    CountStatusOrderFree(a, b, "completed");
    CountStatusOrderFree(a, b, "ongoing");
    CountStatusOrderFree(a, b, "under review");
  }

  // ----- per-member tallies -----

  /** `task.get('assignee_name', task.get('owner_name', 'Unassigned'))`. */
  function MemberOf(t: Task): Json.Value {
    Json.GetOr(t, "assignee_name", Json.GetOr(t, "owner_name", Json.Str("Unassigned")))
  }

  /** A list or dict cannot be a dict key: tallying such a member raises. */
  predicate MembersHashable(tasks: seq<Task>) {
    forall i :: 0 <= i < |tasks| ==> !MemberOf(tasks[i]).Arr? && !MemberOf(tasks[i]).Obj?
  }

  function Members(tasks: seq<Task>): (m: seq<Json.Value>)
    ensures |m| == |tasks|
    ensures forall i :: 0 <= i < |tasks| ==> m[i] == MemberOf(tasks[i])
  {
    seq(|tasks|, i requires 0 <= i < |tasks| => MemberOf(tasks[i]))
  }

  /** The task is completed and `member`'s. */
  function CompletedBy(member: Json.Value): Task -> bool {
    t => HasStatus(t, "completed") && MemberOf(t) == member
  }

  /** The members of the completed tasks, in task order: each member as
      often as it has completed tasks. */
  function CompletedMembers(tasks: seq<Task>): (m: seq<Json.Value>)
    requires StatusesReadable(tasks)
    ensures |m| == CountStatus(tasks, "completed")
    ensures forall member :: Tally.Occurrences(m, member) == Counting.Count(tasks, CompletedBy(member))
  {
    if |tasks| == 0 then []
    else
      var init := tasks[..|tasks| - 1];
      var last := tasks[|tasks| - 1];
      var m0 := CompletedMembers(init);
      if Text.Lower(StatusText(last).value) == "completed" then
        assert (m0 + [MemberOf(last)])[..|m0|] == m0;
        m0 + [MemberOf(last)]
      else m0
  }

  /** A member's completed tasks are among their tasks. */
  lemma {:induction false} CompletedWithinTotal(tasks: seq<Task>, member: Json.Value)
    requires StatusesReadable(tasks)
    ensures Tally.Occurrences(CompletedMembers(tasks), member) <= Tally.Occurrences(Members(tasks), member)
  {
    if |tasks| > 0 {
      var init := tasks[..|tasks| - 1];
      CompletedWithinTotal(init, member);
      assert Members(tasks)[..|tasks| - 1] == Members(init);
      var c := CompletedMembers(tasks);
      if Text.Lower(StatusText(tasks[|tasks| - 1]).value) == "completed" {
        assert c[..|c| - 1] == CompletedMembers(init);
      } else {
        assert c == CompletedMembers(init);
      }
    }
  }

  datatype Perf = Perf(member: Json.Value, total: nat, completed: nat, rate: real)

  /** One row per tallied member, completed counts looked up in the
      completed tally. */
  function PerfRows(entries: seq<Tally.Entry<Json.Value>>, done: seq<Tally.Entry<Json.Value>>): (r: seq<Perf>)
    ensures |r| == |entries|
    ensures forall i :: 0 <= i < |r| ==>
              r[i].member == entries[i].key && r[i].total == entries[i].count
              && r[i].completed == Tally.Lookup(done, entries[i].key)
  {
    if |entries| == 0 then []
    else
      var e := entries[0];
      var completed := Tally.Lookup(done, e.key);
      [Perf(e.key, e.count, completed,
            if completed <= e.count then Rate(completed, e.count) else 0.0)]
        + PerfRows(entries[1..], done)
  }

  function TotalOf(rows: seq<Perf>): nat {
    if |rows| == 0 then 0 else rows[0].total + TotalOf(rows[1..])
  }

  lemma {:induction false} TotalOfPerfRows(entries: seq<Tally.Entry<Json.Value>>, done: seq<Tally.Entry<Json.Value>>)
    ensures TotalOf(PerfRows(entries, done)) == Tally.Sum(entries)
  {
    if |entries| > 0 {
      TotalOfPerfRows(entries[1..], done);
      Tally.SumFront(entries);
    }
  }

  function ByCount(e: Tally.Entry<Json.Value>): int {
    e.count
  }

  /** The members the rows name, in row order. */
  function RowMembers(r: seq<Perf>): (ms: seq<Json.Value>)
    ensures |ms| == |r|
    ensures forall i :: 0 <= i < |r| ==> ms[i] == r[i].member
  {
    seq(|r|, i requires 0 <= i < |r| => r[i].member)
  }

  /** Each row's total is its member's number of tasks in `ms`, and its
      completed count the member's number in `cs`. */
  predicate RowsCount(r: seq<Perf>, ms: seq<Json.Value>, cs: seq<Json.Value>) {
    forall i :: 0 <= i < |r| ==>
      && r[i].total == Tally.Occurrences(ms, r[i].member) > 0
      && r[i].completed == Tally.Occurrences(cs, r[i].member)
  }

  /** Every row of a sorted tally is a member's row: its total is the
      member's number of tasks and its completed count the number of that
      member's completed tasks. */
  lemma {:induction false} RowsAreMembers(ms: seq<Json.Value>, cs: seq<Json.Value>,
                                          sorted: seq<Tally.Entry<Json.Value>>)
    requires multiset(sorted) == multiset(Tally.Count(ms))
    ensures RowsCount(PerfRows(sorted, Tally.Count(cs)), ms, cs)
    ensures forall m :: m in RowMembers(PerfRows(sorted, Tally.Count(cs))) ==> m in ms
  {
    var totals := Tally.Count(ms);
    var r := PerfRows(sorted, Tally.Count(cs));
    forall i | 0 <= i < |r|
      ensures r[i].total == Tally.Occurrences(ms, r[i].member) > 0
      ensures r[i].completed == Tally.Occurrences(cs, r[i].member)
      ensures r[i].member in ms
    {
      assert sorted[i] in multiset(sorted);
      var k :| 0 <= k < |totals| && totals[k] == sorted[i];
      Tally.EntryCounts(ms, k);
      assert Tally.Keys(totals)[k] == totals[k].key;
    }
    forall m | m in RowMembers(r) ensures m in ms {
      var i :| 0 <= i < |r| && RowMembers(r)[i] == m;
    }
  }

  /** Every member has a row in a sorted tally. */
  lemma {:induction false} MembersHaveRows(ms: seq<Json.Value>, sorted: seq<Tally.Entry<Json.Value>>,
                                           done: seq<Tally.Entry<Json.Value>>)
    requires multiset(sorted) == multiset(Tally.Count(ms))
    ensures forall m :: m in ms ==> m in RowMembers(PerfRows(sorted, done))
  {
    var totals := Tally.Count(ms);
    var r := PerfRows(sorted, done);
    forall m | m in ms
      ensures m in RowMembers(r)
    {
      assert m in Tally.Keys(totals);
      var k :| 0 <= k < |totals| && Tally.Keys(totals)[k] == m;
      assert totals[k] in multiset(sorted);
      var i :| 0 <= i < |sorted| && sorted[i] == totals[k];
      assert RowMembers(r)[i] == m;
    }
  }

  /** The rows for members `ms` (one per task) of whom `cs` completed a
      task: ordered by total, largest first, one row per member. */
  function TeamRows(ms: seq<Json.Value>, cs: seq<Json.Value>): (r: seq<Perf>)
    ensures forall i, j :: 0 <= i < j < |r| ==> r[i].total >= r[j].total
    ensures forall i :: 0 <= i < |r| ==>
              && r[i].total == Tally.Occurrences(ms, r[i].member) > 0
              && r[i].completed == Tally.Occurrences(cs, r[i].member)
    ensures forall m :: m in ms <==> m in RowMembers(r)
  {
    var totals := Tally.Count(ms);
    var done := Tally.Count(cs);
    var sorted := Sorting.SortDesc(totals, ByCount);
    RowsAreMembers(ms, cs, sorted);
    MembersHaveRows(ms, sorted, done);
    var r := PerfRows(sorted, done);
    assert RowsCount(r, ms, cs);
    r
  }

  /** `team_performance`: members ordered by their number of tasks,
      largest first, ties in order of first appearance. */
  function TeamPerformance(tasks: seq<Task>): (r: seq<Perf>)
    requires StatusesReadable(tasks)
    ensures forall i, j :: 0 <= i < j < |r| ==> r[i].total >= r[j].total
    ensures forall i :: 0 <= i < |r| ==>
              && r[i].total == Tally.Occurrences(Members(tasks), r[i].member) > 0
              && r[i].completed == Tally.Occurrences(CompletedMembers(tasks), r[i].member)
    ensures forall m :: m in Members(tasks) <==> m in RowMembers(r)
  {
    TeamRows(Members(tasks), CompletedMembers(tasks))
  }

  /** The members' totals add up to the number of tasks, and nobody has
      completed more tasks than they have. */
  lemma TeamTotals(tasks: seq<Task>)
    requires StatusesReadable(tasks)
    ensures TotalOf(TeamPerformance(tasks)) == |tasks|
    ensures forall i :: 0 <= i < |TeamPerformance(tasks)| ==>
              TeamPerformance(tasks)[i].completed <= TeamPerformance(tasks)[i].total
  {
    var totals := Tally.Count(Members(tasks));
    var done := Tally.Count(CompletedMembers(tasks));
    var sorted := Sorting.SortDesc(totals, ByCount);
    TotalOfPerfRows(sorted, done);
    Tally.SumPermutation(sorted, totals);
    var r := TeamPerformance(tasks);
    forall i | 0 <= i < |r| ensures r[i].completed <= r[i].total {
      CompletedWithinTotal(tasks, r[i].member);
    }
  }

  // ----- grouping -----

  datatype Group = Overdue | Ongoing | UnderReview | Completed | Unassigned

  /** The status the grouping reads: `task.get('status', 'Unassigned')`.
      A status that is not a string never reaches the grouping, because
      the status counts before it raise; it is read here as "Unassigned". */
  function GroupingStatus(t: Task): (s: string)
    ensures "status" !in t ==> s == "Unassigned"
    ensures "status" in t && t["status"].Str? ==> s == t["status"].s
  {
    if "status" in t && t["status"].Str? then t["status"].s else "Unassigned"
  }

  /** `task.get('dueDate', task.get('due_date', ''))`. */
  function DueValue(t: Task): Json.Value {
    Json.GetOr(t, "dueDate", Json.GetOr(t, "due_date", Json.Str("")))
  }

  /** Overdue: not completed, with a due date that parses to a day strictly
      before today. Any failure to parse is swallowed. */
  predicate IsOverdue(status: string, due: Json.Value, today: int, p: Parsers) {
    && Json.Truthy(due) && Text.Lower(status) != "completed"
    && due.Str? && p.stamp(due.s).Some? && p.stamp(due.s).value < today
  }

  /** The group a task lands in: Overdue first, then an exact group name,
      then by keywords in the lowercased status, Unassigned otherwise. */
  function GroupOf(status: string, due: Json.Value, today: int, p: Parsers): (g: Group)
    ensures g == Overdue <==> IsOverdue(status, due, today, p) || status == "Overdue"
    ensures !IsOverdue(status, due, today, p) && status == "Ongoing" ==> g == Ongoing
    ensures !IsOverdue(status, due, today, p) && status == "Under Review" ==> g == UnderReview
    ensures !IsOverdue(status, due, today, p) && status == "Completed" ==> g == Completed
    ensures !IsOverdue(status, due, today, p) && status == "Unassigned" ==> g == Unassigned
  {
    if IsOverdue(status, due, today, p) then Overdue
    else if status == "Overdue" then Overdue
    else if status == "Ongoing" then Ongoing
    else if status == "Under Review" then UnderReview
    else if status == "Completed" then Completed
    else if status == "Unassigned" then Unassigned
    else
      var s := Text.Lower(status);
      if Text.Contains(s, "ongoing") || Text.Contains(s, "progress") then Ongoing
      else if Text.Contains(s, "review") then UnderReview
      else if Text.Contains(s, "completed") then Completed
      else Unassigned
  }

  /** A task whose status reads "completed" in any letter case is grouped
      as completed, never as overdue. */
  lemma CompletedNeverOverdue(status: string, due: Json.Value, today: int, p: Parsers)
    requires Text.Lower(status) == "completed"
    ensures GroupOf(status, due, today, p) == Completed
  {
    assert !IsOverdue(status, due, today, p);
    if status != "Completed" {
      assert |status| == 9;
      assert status != "Overdue" && status != "Ongoing" && status != "Under Review" && status != "Unassigned";
      CompletedKeywords(Text.Lower(status));
    }
  }

  /** Of the status keywords, "completed" contains only its own. */
  lemma CompletedKeywords(s: string)
    requires s == "completed"
    ensures !Text.Contains(s, "ongoing") && !Text.Contains(s, "progress") && !Text.Contains(s, "review")
    ensures Text.Contains(s, "completed")
  {
    assert 'g' !in s && 'r' !in s;
    Text.MissingCharNotContained(s, "ongoing", 'g');
    Text.MissingCharNotContained(s, "progress", 'r');
    Text.MissingCharNotContained(s, "review", 'r');
    assert Text.OccursAt(s, "completed", 0);
  }

  function GroupOfTask(t: Task, today: int, p: Parsers): Group {
    GroupOf(GroupingStatus(t), DueValue(t), today, p)
  }

  /** The tasks of one group, in task order: what the grouping loop
      appends to that group's list. */
  function InGroup(tasks: seq<Task>, g: Group, today: int, p: Parsers): (r: seq<Task>)
    ensures Subsequence(r, tasks)
    ensures forall t :: t in r <==> t in tasks && GroupOfTask(t, today, p) == g
  {
    if |tasks| == 0 then []
    else
      var rest := InGroup(tasks[1..], g, today, p);
      assert forall t :: t in tasks <==> t == tasks[0] || t in tasks[1..];
      if GroupOfTask(tasks[0], today, p) == g then
        assert ([tasks[0]] + rest)[1..] == rest;
        [tasks[0]] + rest
      else rest
  }

  datatype Groups = Groups(overdue: seq<Task>, ongoing: seq<Task>, underReview: seq<Task>,
                           completed: seq<Task>, unassigned: seq<Task>)
  {
    function Size(): nat {
      |overdue| + |ongoing| + |underReview| + |completed| + |unassigned|
    }
  }

  /** `task_groups`: the five lists, each in task order. */
  function GroupTasks(tasks: seq<Task>, today: int, p: Parsers): Groups {
    Groups(InGroup(tasks, Overdue, today, p), InGroup(tasks, Ongoing, today, p),
           InGroup(tasks, UnderReview, today, p), InGroup(tasks, Completed, today, p),
           InGroup(tasks, Unassigned, today, p))
  }

  /** Every task lands in exactly one group: the five group sizes add up
      to the number of tasks. */
  lemma {:induction false} GroupsPartition(tasks: seq<Task>, today: int, p: Parsers)
    ensures GroupTasks(tasks, today, p).Size() == |tasks|
  {
    if |tasks| > 0 {
      GroupsPartition(tasks[1..], today, p);
    }
  }

  // ----- the project report -----

  /** Index of the first project whose `project_id` equals `id`, or -1. */
  function FindProject(projects: seq<Json.Row>, id: Json.Value): (i: int)
    ensures -1 <= i < |projects|
    ensures i >= 0 ==> Json.Get(projects[i], "project_id") == id
                       && forall j :: 0 <= j < i ==> Json.Get(projects[j], "project_id") != id
    ensures i == -1 ==> forall j :: 0 <= j < |projects| ==> Json.Get(projects[j], "project_id") != id
  {
    FirstIndex(projects, (row: Json.Row) => Json.Get(row, "project_id") == id)
  }

  /** A project date for display: a truthy value other than 'N/A' is
      reformatted by `format`, any failure giving 'N/A'; other values are
      shown as they are. */
  function DisplayDate(v: Json.Value, format: string -> Option<string>): (r: Json.Value)
    ensures !Json.Truthy(v) || v == Json.Str("N/A") ==> r == v
    ensures Json.Truthy(v) && v != Json.Str("N/A") ==> r.Str?
    ensures Json.Truthy(v) && !v.Str? ==> r == Json.Str("N/A")
  {
    if !Json.Truthy(v) || v == Json.Str("N/A") then v
    else if v.Str? && format(v.s).Some? then Json.Str(format(v.s).value)
    else Json.Str("N/A")
  }

  const UNTITLED_PROJECT := "Untitled Project"
  const NO_DESCRIPTION := "No description"

  /** The `project` part of the report, with its documented defaults. */
  function ProjectInfo(project: Json.Row, format: string -> Option<string>): (r: Json.Row)
    ensures r.Keys == {"id", "name", "description", "owner", "status", "created_date", "due_date", "collaborators"}
    ensures r["id"] == Json.Get(project, "project_id")
    ensures "project_name" !in project ==> r["name"] == Json.Str(UNTITLED_PROJECT)
    ensures "created_at" !in project ==> r["created_date"] == Json.Str("N/A")
  {
    map["id" := Json.Get(project, "project_id"),
        "name" := Json.GetOr(project, "project_name", Json.Str(UNTITLED_PROJECT)),
        "description" := Json.GetOr(project, "project_description", Json.Str(NO_DESCRIPTION)),
        "owner" := Json.GetOr(project, "created_by_name", Json.Str("Unknown")),
        "status" := Json.GetOr(project, "status", Json.Str("Active")),
        "created_date" := DisplayDate(Json.GetOr(project, "created_at", Json.Str("N/A")), format),
        "due_date" := DisplayDate(Json.GetOr(project, "due_date", Json.Str("N/A")), format),
        "collaborators" := Json.GetOr(project, "collaborators", Json.Arr([]))]
  }

  datatype ReportData = ReportData(project: Json.Row, summary: Summary, team: seq<Perf>, groups: Groups)

  /** The report assembled from a found project and its tasks. */
  function BuildReport(project: Json.Row, ts: seq<Task>, today: int, p: Parsers,
                       format: string -> Option<string>): (d: ReportData)
    requires StatusesReadable(ts)
    ensures "id" in d.project && d.project["id"] == Json.Get(project, "project_id")
    ensures d.summary == Summarize(ts)
    ensures d.summary.total == d.groups.Size()
    ensures TotalOf(d.team) == d.summary.total
  {
    TeamTotals(ts);
    GroupsPartition(ts, today, p);
    ReportData(ProjectInfo(project, format), Summarize(ts), TeamPerformance(ts), GroupTasks(ts, today, p))
  }

  /** `fetch_project_report_data`. The project list is fetched first and a
      missing or empty project raises an ordinary exception before the
      tasks are fetched; an unreadable status or an unhashable member
      raises too. */
  function FetchProjectReportData(id: Json.Value, projects: Remote<seq<Json.Row>>, tasks: Remote<seq<Task>>,
                                  today: int, p: Parsers, format: string -> Option<string>)
    : (r: Fetch<ReportData>)
    ensures !projects.RespOk? ==> r.RequestFailed?
    ensures projects.RespOk? ==>
              var k := FindProject(projects.data, id);
              && (k == -1 || |projects.data[k]| == 0 ==> r.Failed?)
              && (k != -1 && |projects.data[k]| > 0 ==>
                    && (!tasks.RespOk? ==> r.RequestFailed?)
                    && (tasks.RespOk? ==>
                          (r.Fetched? <==> StatusesReadable(tasks.data) && MembersHashable(tasks.data))))
    ensures r.Fetched? ==> "id" in r.data.project && r.data.project["id"] == id
    ensures r.Fetched? ==>
              && tasks.RespOk? && StatusesReadable(tasks.data)
              && r.data.summary == Summarize(tasks.data)
              && r.data.summary.total == r.data.groups.Size()
              && TotalOf(r.data.team) == r.data.summary.total
  {
    match projects
    case RespOk(all) =>
      var k := FindProject(all, id);
      if k == -1 || |all[k]| == 0 then Failed
      else
        (match tasks
         case RespOk(ts) =>
           if !StatusesReadable(ts) || !MembersHashable(ts) then Failed
           else Fetched(BuildReport(all[k], ts, today, p, format))
         case _ => RequestFailed)
    case _ => RequestFailed
  }

  /** POST /preview-project-report: 400 without a truthy `project_id`,
      503 when a service call fails, 500 for any other error (a body that
      is not a JSON object included), else 200 with the report. */
  function PreviewProjectReport(body: Option<Json.Row>, projects: Remote<seq<Json.Row>>, tasks: Remote<seq<Task>>,
                                today: int, p: Parsers, format: string -> Option<string>)
    : (r: (Status, Option<ReportData>))
    ensures body.None? ==> r == (SERVER_ERROR, None)
    ensures body.Some? && !Json.Truthy(Json.Get(body.value, "project_id")) ==> r == (BAD_REQUEST, None)
    ensures r.0 == OK <==> r.1.Some?
    ensures r.0 in {OK, BAD_REQUEST, SERVER_ERROR, UNAVAILABLE}
    ensures r.0 == UNAVAILABLE ==> !projects.RespOk? || !tasks.RespOk?
    ensures body.Some? && Json.Truthy(Json.Get(body.value, "project_id")) ==>
              (r.0 == UNAVAILABLE <==>
                 FetchProjectReportData(Json.Get(body.value, "project_id"), projects, tasks, today, p, format).RequestFailed?)
    ensures body.Some? && Json.Truthy(Json.Get(body.value, "project_id")) && !projects.RespOk? ==> r.0 == UNAVAILABLE
    ensures r.0 == OK ==> body.Some? && "id" in r.1.value.project
                          && r.1.value.project["id"] == Json.Get(body.value, "project_id")
  {
    if body.None? then (SERVER_ERROR, None)
    else
      var id := Json.Get(body.value, "project_id");
      if !Json.Truthy(id) then (BAD_REQUEST, None)
      else match FetchProjectReportData(id, projects, tasks, today, p, format)
        case Fetched(d) => (OK, Some(d))
        case RequestFailed => (UNAVAILABLE, None)
        case Failed => (SERVER_ERROR, None)
  }

  // ----- texts -----

  /** A parsed timestamp: seconds on its own clock, and whether it carries
      a UTC offset. Python refuses to subtract an offset-naive instant from
      an offset-aware one. */
  datatype Instant = Instant(seconds: int, aware: bool)

  /** How `calculate_duration` reads one truthy date value: a string
      parses or raises `ValueError`; a list or dict containing "T" reaches
      `.replace` and raises `AttributeError`; any other value raises a
      `TypeError` in `'T' in v` or in `fromisoformat`. */
  datatype Reading = Parsed(at: Instant) | Unparsable | TypeFault

  function ReadDate(v: Json.Value, parse: string -> Option<Instant>): Reading {
    match v
    case Str(s) => if parse(s).Some? then Parsed(parse(s).value) else Unparsable
    case Arr(items) => if Json.Str("T") in items then Unparsable else TypeFault
    case Obj(fields) => if "T" in fields then Unparsable else TypeFault
    case _ => TypeFault
  }

  /** The text for a whole number of days. */
  function DaysText(days: int): (r: string)
    ensures days <= 0 ==> r == "< 1 day"
    ensures days == 1 ==> r == "1 day"
    ensures days >= 2 ==> r == Text.NatToString(days) + " days"
  {
    if days < 0 then "< 1 day"
    else if days == 0 then "< 1 day"
    else if days == 1 then "1 day"
    else Text.IntToString(days) + " days"
  }

  /** `calculate_duration`, given the task's `created_at` and `updated_at`:
      "Ongoing" when either is falsy, "N/A" when the first date read fails
      with `ValueError` or `AttributeError`, else the whole days between
      the two instants (`timedelta.days`, rounded down). None when a
      `TypeError` escapes: from a value of the wrong type, or from
      subtracting an offset-naive instant from an offset-aware one or the
      reverse; `generate_pdf_report` does not catch it. `parse` yields
      seconds. */
  function CalculateDuration(assignedOn: Json.Value, completedOn: Json.Value,
                             parse: string -> Option<Instant>): (r: Option<string>)
    ensures !Json.Truthy(assignedOn) || !Json.Truthy(completedOn) ==> r == Some("Ongoing")
    ensures Json.Truthy(assignedOn) && Json.Truthy(completedOn) ==>
              var a := ReadDate(assignedOn, parse);
              var c := ReadDate(completedOn, parse);
              && (r.None? <==> a.TypeFault? || (a.Parsed? && c.TypeFault?)
                               || (a.Parsed? && c.Parsed? && a.at.aware != c.at.aware))
              && (r == Some("N/A") <==> a.Unparsable? || (a.Parsed? && c.Unparsable?))
              && (a.Parsed? && c.Parsed? && a.at.aware == c.at.aware ==>
                    var elapsed := c.at.seconds - a.at.seconds;
                    && (elapsed < 86400 ==> r == Some("< 1 day"))
                    && (86400 <= elapsed < 2 * 86400 ==> r == Some("1 day"))
                    && (elapsed >= 2 * 86400 ==> r == Some(Text.NatToString(elapsed / 86400) + " days")))
  {
    if !Json.Truthy(completedOn) || !Json.Truthy(assignedOn) then Some("Ongoing")
    else
      match ReadDate(assignedOn, parse)
      case TypeFault => None
      case Unparsable => Some("N/A")
      case Parsed(start) =>
        match ReadDate(completedOn, parse)
        case TypeFault => None
        case Unparsable => Some("N/A")
        case Parsed(end) =>
          if start.aware != end.aware then None
          else Some(DaysText((end.seconds - start.seconds) / 86400))
  }

  /** The 'Date Range' line of the report's metadata. */
  function DateRangeText(start: Option<string>, end: Option<string>): (r: string)
    ensures Given(start) && Given(end) ==> r == start.value + " to " + end.value
    ensures Given(start) && !Given(end) ==> r == "From " + start.value
    ensures !Given(start) && Given(end) ==> r == "Until " + end.value
    ensures !Given(start) && !Given(end) ==> r == "All time"
  {
    if Given(start) && Given(end) then start.value + " to " + end.value
    else if Given(start) then "From " + start.value
    else if Given(end) then "Until " + end.value
    else "All time"
  }

  /** The 'Status Filter' line, present exactly when the filter applies. */
  function StatusFilterLine(filter: seq<string>): (r: Option<string>)
    ensures r.Some? <==> FilterActive(filter)
    ensures r.Some? ==> r.value == Text.Join(filter, ", ")
  {
    if FilterActive(filter) then Some(Text.Join(filter, ", ")) else None
  }

  // ----- POST /generate-report -----

  /** `status_filter` as the filtering loop and the report's metadata use
      it, after the endpoint has wrapped a string in a one-entry list (the
      empty string included). A falsy value, and a list or dict holding
      "All", mean no filter, given here as the empty list. None stands for
      a value on which `len`, `.lower()` or `', '.join` raises once the
      tasks have been fetched: a truthy number or boolean, a list without
      "All" holding a non-string, and a non-empty dict without an "All"
      key (see the README). */
  function FilterList(v: Json.Value): (r: Option<seq<string>>)
    ensures v.Str? ==> r == Some([v.s])
    ensures !v.Str? && !Json.Truthy(v) ==> r == Some([])
    ensures v.Arr? && Json.Str("All") in v.items ==> r.Some? && !FilterActive(r.value)
    ensures v.Obj? && "All" in v.fields ==> r.Some? && !FilterActive(r.value)
    ensures v.Arr? && Json.Truthy(v) && Json.Str("All") !in v.items ==>
              (r.Some? <==> forall i :: 0 <= i < |v.items| ==> v.items[i].Str?)
    ensures r.Some? && v.Arr? && Json.Str("All") !in v.items ==>
              |r.value| == |v.items| && forall i :: 0 <= i < |v.items| ==> v.items[i] == Json.Str(r.value[i])
    ensures (v.Int? || v.Bool?) && Json.Truthy(v) ==> r.None?
  {
    match v
    case Str(s) => Some([s])
    case Arr(items) =>
      if Json.Str("All") in items then Some([])
      else if forall i :: 0 <= i < |items| ==> items[i].Str? then Some(Strings(items))
      else None
    case Obj(fields) => if |fields| == 0 || "All" in fields then Some([]) else None
    case _ => if Json.Truthy(v) then None else Some([])
  }

  function Strings(items: seq<Json.Value>): (r: seq<string>)
    requires forall i :: 0 <= i < |items| ==> items[i].Str?
    ensures |r| == |items|
    ensures forall i :: 0 <= i < |items| ==> items[i] == Json.Str(r[i])
  {
    if |items| == 0 then [] else [items[0].s] + Strings(items[1..])
  }

  /** A request bound as the endpoint sees it: a falsy value is no bound. */
  function Bound(v: Json.Value): (r: Option<string>)
    ensures !Json.Truthy(v) ==> !Given(r)
    ensures Json.Truthy(v) && v.Str? ==> r == Some(v.s)
  {
    if Json.Truthy(v) && v.Str? then Some(v.s) else None
  }

  datatype ReportReply = ReportReply(status: Status, error: string, tasks: seq<Task>,
                                     dateRange: string, statusLine: Option<string>)

  /** A request bound that `fromisoformat` accepts, or a falsy one that
      is not checked at all. */
  predicate BoundValid(v: Json.Value, p: Parsers) {
    Json.Truthy(v) ==> v.Str? && p.iso(v.s).Some?
  }

  /** `user_name` can be put into the file name: absent (it defaults to
      'Unknown User') or a string. */
  predicate UserNameUsable(data: Json.Row) {
    "user_name" !in data || data["user_name"].Str?
  }

  /** The status filter the endpoint reads, defaulting to ['All']. */
  function FilterValue(data: Json.Row): Json.Value {
    Json.GetOr(data, "status_filter", Json.Arr([Json.Str("All")]))
  }

  /** One kept task as `generate_pdf_report` reads it. Its status is
      lowercased for the summary counts and again in the task table, so it
      must be absent or a string; a completed task's duration must not let a
      `TypeError` out; and its title is cut with `[:40]`, which needs an
      absent title, a string or a list. `instant` parses a stored timestamp
      as `calculate_duration` does. */
  predicate Renders(t: Task, instant: string -> Option<Instant>) {
    && StatusText(t).Some?
    && (HasStatus(t, "completed") ==>
          CalculateDuration(Json.Get(t, "created_at"), Json.Get(t, "updated_at"), instant).Some?)
    && ("title" in t ==> t["title"].Str? || t["title"].Arr?)
  }

  predicate AllRender(tasks: seq<Task>, instant: string -> Option<Instant>) {
    forall i :: 0 <= i < |tasks| ==> Renders(tasks[i], instant)
  }

  /** Validation order: body, `user_id`, `start_date`, `end_date`; then the
      task fetch (503 on a failed call); then the filtering loop, the PDF
      and the file name, where any error is a 500. A bound that is truthy
      but not a string makes `fromisoformat` raise a `TypeError`, which only
      the generic handler catches; so does a kept task the PDF cannot
      render, and a `user_name` that is not a string, at `.replace`. */
  function GenerateReport(body: Option<Json.Row>, response: Remote<seq<Task>>, p: Parsers,
                          instant: string -> Option<Instant>): (r: ReportReply)
    ensures body.None? ==> r.status == SERVER_ERROR
    ensures body.Some? && !Json.Truthy(Json.Get(body.value, "user_id")) ==>
              r.status == BAD_REQUEST && r.error == MSG_USER_REQUIRED
    ensures body.Some? && Json.Truthy(Json.Get(body.value, "user_id"))
            && Json.Get(body.value, "start_date").Str? && Json.Truthy(Json.Get(body.value, "start_date"))
            && p.iso(Json.Get(body.value, "start_date").s).None? ==>
              r.status == BAD_REQUEST && r.error == MSG_BAD_START
    ensures r.status == UNAVAILABLE <==>
              && body.Some? && Json.Truthy(Json.Get(body.value, "user_id"))
              && BoundValid(Json.Get(body.value, "start_date"), p) && BoundValid(Json.Get(body.value, "end_date"), p)
              && !response.RespOk?
    ensures r.status == OK <==>
              && body.Some? && Json.Truthy(Json.Get(body.value, "user_id"))
              && BoundValid(Json.Get(body.value, "start_date"), p) && BoundValid(Json.Get(body.value, "end_date"), p)
              && response.RespOk? && FilterList(FilterValue(body.value)).Some?
              && FilterTasks(response.data, Bound(Json.Get(body.value, "start_date")),
                             Bound(Json.Get(body.value, "end_date")),
                             FilterList(FilterValue(body.value)).value, p).Some?
              && AllRender(FilterTasks(response.data, Bound(Json.Get(body.value, "start_date")),
                                       Bound(Json.Get(body.value, "end_date")),
                                       FilterList(FilterValue(body.value)).value, p).value, instant)
              && UserNameUsable(body.value)
    ensures r.status == OK ==>
              && body.Some? && response.RespOk?
              && Subsequence(r.tasks, response.data)
              && r.tasks == FilterTasks(response.data, Bound(Json.Get(body.value, "start_date")),
                                        Bound(Json.Get(body.value, "end_date")),
                                        FilterList(FilterValue(body.value)).value, p).value
              && r.dateRange == DateRangeText(Bound(Json.Get(body.value, "start_date")),
                                              Bound(Json.Get(body.value, "end_date")))
  {
    if body.None? then ReportReply(SERVER_ERROR, MSG_REPORT_FAILED, [], "", None)
    else
      var data := body.value;
      if !Json.Truthy(Json.Get(data, "user_id")) then ReportReply(BAD_REQUEST, MSG_USER_REQUIRED, [], "", None)
      else
        var s := Json.Get(data, "start_date");
        var e := Json.Get(data, "end_date");
        if Json.Truthy(s) && !s.Str? then ReportReply(SERVER_ERROR, MSG_REPORT_FAILED, [], "", None)
        else if Json.Truthy(s) && p.iso(s.s).None? then
          ReportReply(BAD_REQUEST, MSG_BAD_START, [], "", None)
        else if Json.Truthy(e) && !e.Str? then ReportReply(SERVER_ERROR, MSG_REPORT_FAILED, [], "", None)
        else if Json.Truthy(e) && p.iso(e.s).None? then
          ReportReply(BAD_REQUEST, MSG_BAD_END, [], "", None)
        else
          var filter := FilterList(FilterValue(data));
          match FetchTasksForUser(response, Bound(s), Bound(e), if filter.Some? then filter.value else [], p)
          case RequestFailed => ReportReply(UNAVAILABLE, MSG_TASKS_UNAVAILABLE, [], "", None)
          case Failed => ReportReply(SERVER_ERROR, MSG_REPORT_FAILED, [], "", None)
          case Fetched(kept) =>
            if filter.None? || !AllRender(kept, instant) || !UserNameUsable(data) then
              ReportReply(SERVER_ERROR, MSG_REPORT_FAILED, [], "", None)
            else ReportReply(OK, "", kept, DateRangeText(Bound(s), Bound(e)), StatusFilterLine(filter.value))
  }

  /** With no status filter, no date bound, a usable name and tasks the
      PDF can render, the report lists every task the service returned, in
      order, and says "All time". */
  lemma UnfilteredReportKeepsEveryTask(body: Json.Row, tasks: seq<Task>, p: Parsers,
                                       instant: string -> Option<Instant>)
    requires Json.Truthy(Json.Get(body, "user_id"))
    requires !Json.Truthy(Json.Get(body, "start_date")) && !Json.Truthy(Json.Get(body, "end_date"))
    requires "status_filter" !in body
    requires UserNameUsable(body)
    requires AllRender(tasks, instant)
    ensures GenerateReport(Some(body), RespOk(tasks), p, instant).status == OK
    ensures GenerateReport(Some(body), RespOk(tasks), p, instant).tasks == tasks
    ensures GenerateReport(Some(body), RespOk(tasks), p, instant).dateRange == "All time"
    ensures GenerateReport(Some(body), RespOk(tasks), p, instant).statusLine.None?
  {
    NoFiltersKeepAll(tasks, Bound(Json.Get(body, "start_date")), Bound(Json.Get(body, "end_date")), [], p);
  }

  /** Without filters, one task the PDF cannot render (a null status, a
      null title, a completed task whose dates mix offset-aware and naive
      instants) turns the whole report into a 500. */
  lemma UnrenderableTaskFailsReport(body: Json.Row, tasks: seq<Task>, p: Parsers,
                                    instant: string -> Option<Instant>, i: nat)
    requires Json.Truthy(Json.Get(body, "user_id"))
    requires !Json.Truthy(Json.Get(body, "start_date")) && !Json.Truthy(Json.Get(body, "end_date"))
    requires "status_filter" !in body
    requires i < |tasks| && !Renders(tasks[i], instant)
    ensures GenerateReport(Some(body), RespOk(tasks), p, instant).status == SERVER_ERROR
  {
    NoFiltersKeepAll(tasks, Bound(Json.Get(body, "start_date")), Bound(Json.Get(body, "end_date")), [], p);
  }

  /** Once both bounds have been validated, no task is dropped for an
      unparseable bound: a task with a parseable `created_at` is kept
      exactly when its day lies within the bounds. */
  lemma ValidatedBoundsDecideByDay(day: int, start: Option<string>, end: Option<string>, p: Parsers)
    requires Given(start) ==> p.iso(start.value).Some?
    requires Given(end) ==> p.iso(end.value).Some?
    ensures BoundsDecision(day, start, end, p) == Keep <==>
              && (Given(start) ==> p.iso(start.value).value <= day)
              && (Given(end) ==> day <= p.iso(end.value).value)
  {
  }
}

=== FILE: sorting.dfy ===
/** Stable descending sort by an integer key. JavaScript's `Array.prototype.sort`
    (stable since ES2019) with a comparator `b.key - a.key`, and Python's
    `sorted(..., key=k, reverse=True)` (which keeps equal keys in input
    order), both order a list this way. */
module Sorting {

  predicate SortedDesc<T>(s: seq<T>, key: T -> int) {
    forall i, j :: 0 <= i < j < |s| ==> key(s[i]) >= key(s[j])
  }

  /** Places `x` in front of the first element whose key does not exceed
      its own, so `x` precedes the elements it ties with. */
  function Insert<T>(x: T, s: seq<T>, key: T -> int): (r: seq<T>)
    requires SortedDesc(s, key)
    ensures |r| == |s| + 1
    ensures multiset(r) == multiset(s) + multiset{x}
    ensures SortedDesc(r, key)
  {
    if |s| == 0 || key(s[0]) <= key(x) then
      [x] + s
    else
      var t := Insert(x, s[1..], key);
      assert s == [s[0]] + s[1..];
      BoundedByHead(t, s[1..], x, key, key(s[0]));
      [s[0]] + t
  }

  /** Whatever a permutation of `u` plus `x` holds is bounded by a bound of
      both. */
  lemma BoundedByHead<T>(t: seq<T>, u: seq<T>, x: T, key: T -> int, b: int)
    requires multiset(t) == multiset(u) + multiset{x}
    requires key(x) <= b && forall k :: 0 <= k < |u| ==> key(u[k]) <= b
    ensures forall j :: 0 <= j < |t| ==> key(t[j]) <= b
  {
    forall j | 0 <= j < |t| ensures key(t[j]) <= b {
      assert t[j] in multiset(t);
      if t[j] != x {
        assert t[j] in multiset(u);
        var k :| 0 <= k < |u| && u[k] == t[j];
      }
    }
  }

  /** Insertion sort; later elements are inserted first, so among equal
      keys the earlier input element ends up first. */
  function SortDesc<T>(s: seq<T>, key: T -> int): (r: seq<T>)
    ensures |r| == |s|
    ensures multiset(r) == multiset(s)
    ensures SortedDesc(r, key)
  {
    if |s| == 0 then []
    else
      assert s == [s[0]] + s[1..];
      Insert(s[0], SortDesc(s[1..], key), key)
  }

  /** The elements whose key is `v`, in their order in `s`. */
  function WithKey<T>(s: seq<T>, key: T -> int, v: int): seq<T> {
    if |s| == 0 then [] else (if key(s[0]) == v then [s[0]] else []) + WithKey(s[1..], key, v)
  }

  /** `Insert` puts `x` ahead of every element it ties with and leaves
      their order alone. */
  lemma {:induction false} InsertKeepsTies<T>(x: T, s: seq<T>, key: T -> int, v: int)
    requires SortedDesc(s, key)
    ensures WithKey(Insert(x, s, key), key, v) == (if key(x) == v then [x] else []) + WithKey(s, key, v)
  {
    if |s| == 0 || key(s[0]) <= key(x) {
      assert ([x] + s)[1..] == s;
    } else {
      var t := Insert(x, s[1..], key);
      InsertKeepsTies(x, s[1..], key, v);
      assert Insert(x, s, key) == [s[0]] + t;
      assert ([s[0]] + t)[1..] == t;
      var head := if key(s[0]) == v then [s[0]] else [];
      var mid := if key(x) == v then [x] else [];
      assert WithKey([s[0]] + t, key, v) == head + (mid + WithKey(s[1..], key, v));
      assert WithKey(s, key, v) == head + WithKey(s[1..], key, v);
      assert head == [] || mid == [];
    }
  }

  /** Sorting is stable: the elements that share a key come out in their
      input order. */
  lemma {:induction false} SortDescStable<T>(s: seq<T>, key: T -> int, v: int)
    ensures WithKey(SortDesc(s, key), key, v) == WithKey(s, key, v)
  {
    if |s| > 0 {
      SortDescStable(s[1..], key, v);
      InsertKeepsTies(s[0], SortDesc(s[1..], key), key, v);
    }
  }

  /** The first `k` elements of a sorted list are its top `k`: every
      element left after them has a key no greater than any of theirs. */
  lemma PrefixIsTop<T>(sorted: seq<T>, key: T -> int, k: nat)
    requires SortedDesc(sorted, key) && k <= |sorted|
    ensures multiset(sorted[..k]) <= multiset(sorted)
    ensures forall x, i :: x in multiset(sorted) - multiset(sorted[..k]) && 0 <= i < k ==>
              key(x) <= key(sorted[..k][i])
  {
    var page := sorted[..k];
    var rest := sorted[k..];
    assert sorted == page + rest;
    assert multiset(sorted) == multiset(page) + multiset(rest);
    forall x, i | x in multiset(sorted) - multiset(page) && 0 <= i < k
      ensures key(x) <= key(page[i])
    {
      assert x in multiset(rest);
      var j :| 0 <= j < |rest| && rest[j] == x;
      assert sorted[k + j] == x && sorted[i] == page[i];
    }
  }

  /** Sorting a list that is already in order leaves it unchanged. */
  lemma {:induction false} SortOfSorted<T>(s: seq<T>, key: T -> int)
    requires SortedDesc(s, key)
    ensures SortDesc(s, key) == s
  {
    if |s| > 0 {
      SortOfSorted(s[1..], key);
    }
  }

  /** Position at which `Insert` places `x` in a sorted list: the index of
      the first element whose key does not exceed `key(x)`. */
  function InsertionPoint<T>(x: T, s: seq<T>, key: T -> int): (k: nat)
    ensures k <= |s|
    ensures forall i :: 0 <= i < k ==> key(s[i]) > key(x)
    ensures k < |s| ==> key(s[k]) <= key(x)
  {
    if |s| == 0 || key(s[0]) <= key(x) then 0
    else 1 + InsertionPoint(x, s[1..], key)
  }

  /** Inserting splits the list at the insertion point and keeps both
      halves in order. */
  lemma {:induction false} InsertSplits<T>(x: T, s: seq<T>, key: T -> int)
    requires SortedDesc(s, key)
    ensures var k := InsertionPoint(x, s, key);
            Insert(x, s, key) == s[..k] + [x] + s[k..]
  {
    if |s| > 0 && key(s[0]) > key(x) {
      InsertSplits(x, s[1..], key);
      InsertStep(x, s, key);
      ConsSplit(s, InsertionPoint(x, s[1..], key), x);
    }
  }

  /** One step of `Insert` past a larger head. */
  lemma InsertStep<T>(x: T, s: seq<T>, key: T -> int)
    requires SortedDesc(s, key) && |s| > 0 && key(s[0]) > key(x)
    ensures Insert(x, s, key) == [s[0]] + Insert(x, s[1..], key)
    ensures InsertionPoint(x, s, key) == InsertionPoint(x, s[1..], key) + 1
  {
  }

  lemma ConsSplit<T>(s: seq<T>, k: nat, x: T)
    requires 0 < |s| && k < |s|
    ensures [s[0]] + (s[1..][..k] + [x] + s[1..][k..]) == s[..k + 1] + [x] + s[k + 1..]
  {
    assert s[..k + 1] == [s[0]] + s[1..][..k];
    assert s[k + 1..] == s[1..][k..];
  }
}

=== FILE: tally.dfy ===
/** Counting by key in first-appearance order: what Python's
    `d[k] = d.get(k, 0) + 1` loop and JavaScript's
    `reduce((acc, x) => { acc[k] = (acc[k] || 0) + 1 ... }, {})` build. */
module Tally {

  datatype Entry<K> = Entry(key: K, count: nat)

  /** How many times `k` occurs in `keys`. */
  function Occurrences<K(==,!new)>(keys: seq<K>, k: K): nat {
    if |keys| == 0 then 0
    else Occurrences(keys[..|keys| - 1], k) + (if keys[|keys| - 1] == k then 1 else 0)
  }

  function Keys<K>(t: seq<Entry<K>>): seq<K> {
    seq(|t|, i requires 0 <= i < |t| => t[i].key)
  }

  predicate DistinctKeys<K(==,!new)>(t: seq<Entry<K>>) {
    forall i, j :: 0 <= i < j < |t| ==> t[i].key != t[j].key
  }

  function Sum<K>(t: seq<Entry<K>>): nat {
    if |t| == 0 then 0 else Sum(t[..|t| - 1]) + t[|t| - 1].count
  }

  /** The count stored for `k`, or 0 when `k` has no entry
      (`d.get(k, 0)`). */
  function Lookup<K(==,!new)>(t: seq<Entry<K>>, k: K): nat {
    if |t| == 0 then 0
    else if t[0].key == k then t[0].count
    else Lookup(t[1..], k)
  }

  /** Adds one to the entry of `k`, appending a new entry when `k` is not
      yet present. */
  function Bump<K(==,!new)>(t: seq<Entry<K>>, k: K): (r: seq<Entry<K>>)
    requires DistinctKeys(t)
    ensures DistinctKeys(r)
    ensures Sum(r) == Sum(t) + 1
    ensures forall x :: Lookup(r, x) == Lookup(t, x) + (if x == k then 1 else 0)
    ensures k in Keys(r)
    ensures forall x :: x in Keys(r) <==> x in Keys(t) || x == k
  {
    if |t| == 0 then
      assert Keys([Entry(k, 1)]) == [k];
      [Entry(k, 1)]
    else if t[0].key == k then
      BumpHead(t, k);
      [Entry(k, t[0].count + 1)] + t[1..]
    else
      var rest := Bump(t[1..], k);
      BumpTail(t, k, rest);
      [t[0]] + rest
  }

  /** The properties of `Bump` (in the requires of `BumpTail`, for the
      tail). */
  ghost predicate Bumped<K(!new)>(t: seq<Entry<K>>, k: K, r: seq<Entry<K>>) {
    && DistinctKeys(r)
    && Sum(r) == Sum(t) + 1
    && (forall x :: Lookup(r, x) == Lookup(t, x) + (if x == k then 1 else 0))
    && k in Keys(r)
    && (forall x :: x in Keys(r) <==> x in Keys(t) || x == k)
  }

  lemma BumpHead<K(!new)>(t: seq<Entry<K>>, k: K)
    requires DistinctKeys(t) && |t| > 0 && t[0].key == k
    ensures Bumped(t, k, [Entry(k, t[0].count + 1)] + t[1..])
  {
    var r := [Entry(k, t[0].count + 1)] + t[1..];
    SumFront(t);
    SumFront(r);
    assert r[1..] == t[1..];
    LookupAbsent(t[1..], k);
    assert Keys(t) == [k] + Keys(t[1..]);
    assert Keys(r) == [k] + Keys(t[1..]);
  }

  lemma BumpTail<K(!new)>(t: seq<Entry<K>>, k: K, rest: seq<Entry<K>>)
    requires DistinctKeys(t) && |t| > 0 && t[0].key != k
    requires Bumped(t[1..], k, rest)
    ensures Bumped(t, k, [t[0]] + rest)
  {
    var r := [t[0]] + rest;
    SumFront(t);
    SumFront(r);
    assert r[1..] == rest;
    assert Keys(t) == [t[0].key] + Keys(t[1..]);
    assert Keys(r) == [t[0].key] + Keys(rest);
    RestAvoidsHead(t, k, rest);
  }

  /** After bumping the tail, the tail's keys still avoid the head's. */
  lemma RestAvoidsHead<K(!new)>(t: seq<Entry<K>>, k: K, rest: seq<Entry<K>>)
    requires DistinctKeys(t) && |t| > 0 && t[0].key != k
    requires forall x :: x in Keys(rest) <==> x in Keys(t[1..]) || x == k
    ensures forall j :: 0 <= j < |rest| ==> rest[j].key != t[0].key
  {
    forall j | 0 <= j < |rest| ensures rest[j].key != t[0].key {
      assert Keys(rest)[j] == rest[j].key;
      if rest[j].key != k {
        assert rest[j].key in Keys(t[1..]);
        var m :| 0 <= m < |t[1..]| && Keys(t[1..])[m] == rest[j].key;
        assert t[m + 1].key == rest[j].key;
      }
    }
  }

  lemma {:induction false} SumFront<K>(t: seq<Entry<K>>)
    requires |t| > 0
    ensures Sum(t) == t[0].count + Sum(t[1..])
    decreases |t|
  {
    if |t| > 1 {
      SumFront(t[..|t| - 1]);
      assert t[..|t| - 1][1..] == t[1..][..|t[1..]| - 1];
    }
  }

  lemma {:induction false} LookupAbsent<K(!new)>(t: seq<Entry<K>>, k: K)
    requires k !in Keys(t)
    ensures Lookup(t, k) == 0
  {
    if |t| > 0 {
      assert Keys(t) == [t[0].key] + Keys(t[1..]);
      LookupAbsent(t[1..], k);
    }
  }

  /** The tally of `keys`: one entry per distinct key, in order of first
      appearance, each holding how often its key occurs. */
  function Count<K(==,!new)>(keys: seq<K>): (r: seq<Entry<K>>)
    ensures DistinctKeys(r)
    ensures Sum(r) == |keys|
    ensures forall x :: Lookup(r, x) == Occurrences(keys, x)
    ensures forall x :: x in Keys(r) <==> x in keys
  {
    if |keys| == 0 then []
    else
      var r := Bump(Count(keys[..|keys| - 1]), keys[|keys| - 1]);
      assert keys == keys[..|keys| - 1] + [keys[|keys| - 1]];
      r
  }

  /** A tally entry's count is the number of occurrences of its key and is
      never zero. */
  lemma {:induction false} EntryCounts<K(!new)>(keys: seq<K>, i: int)
    requires 0 <= i < |Count(keys)|
    ensures Count(keys)[i].count == Occurrences(keys, Count(keys)[i].key) > 0
  {
    var t := Count(keys);
    LookupAt(t, i);
    assert Keys(t)[i] == t[i].key;
    OccursPositive(keys, t[i].key);
  }

  lemma {:induction false} LookupAt<K(!new)>(t: seq<Entry<K>>, i: int)
    requires DistinctKeys(t)
    requires 0 <= i < |t|
    ensures Lookup(t, t[i].key) == t[i].count
  {
    if i > 0 {
      LookupAt(t[1..], i - 1);
    }
  }

  lemma {:induction false} OccursPositive<K(!new)>(keys: seq<K>, k: K)
    requires k in keys
    ensures Occurrences(keys, k) > 0
  {
    if keys[|keys| - 1] != k {
      assert keys == keys[..|keys| - 1] + [keys[|keys| - 1]];
      OccursPositive(keys[..|keys| - 1], k);
    }
  }

  lemma {:induction false} SumConcat<K>(a: seq<Entry<K>>, b: seq<Entry<K>>)
    ensures Sum(a + b) == Sum(a) + Sum(b)
    decreases |b|
  {
    if |b| == 0 {
      assert a + b == a;
    } else {
      assert (a + b)[..|a + b| - 1] == a + b[..|b| - 1];
      SumConcat(a, b[..|b| - 1]);
    }
  }

  /** Reordering the entries does not change the total, so a tally sorted
      by count still sums to the number of keys counted. */
  lemma {:induction false} SumPermutation<K(!new)>(a: seq<Entry<K>>, b: seq<Entry<K>>)
    requires multiset(a) == multiset(b)
    ensures Sum(a) == Sum(b)
    decreases |a|
  {
    if |a| == 0 {
      assert |b| == |multiset(b)| == 0;
    } else {
      var x := a[0];
      assert x in multiset(b);
      var i :| 0 <= i < |b| && b[i] == x;
      var rest := b[..i] + b[i + 1..];
      RemoveAt(b, i);
      assert a == [x] + a[1..];
      assert multiset(a[1..]) == multiset(rest);
      SumPermutation(a[1..], rest);
      SumFront(a);
    }
  }

  /** Taking out the entry at `i` takes its count off the sum and the
      entry off the multiset. */
  lemma RemoveAt<K>(b: seq<Entry<K>>, i: nat)
    requires i < |b|
    ensures multiset(b[..i] + b[i + 1..]) == multiset(b) - multiset{b[i]}
    ensures Sum(b) == b[i].count + Sum(b[..i] + b[i + 1..])
  {
    RemoveAtMultiset(b, i);
    RemoveAtSum(b, i);
  }

  lemma RemoveAtMultiset<K>(b: seq<Entry<K>>, i: nat)
    requires i < |b|
    ensures multiset(b[..i] + b[i + 1..]) == multiset(b) - multiset{b[i]}
  {
    assert b == b[..i] + [b[i]] + b[i + 1..];
  }

  lemma RemoveAtSum<K>(b: seq<Entry<K>>, i: nat)
    requires i < |b|
    ensures Sum(b) == b[i].count + Sum(b[..i] + b[i + 1..])
  {
    var front, back := b[..i], b[i..];
    assert front + back == b;
    SumConcat(front, back);
    SumFront(back);
    assert back[1..] == b[i + 1..];
    SumConcat(front, b[i + 1..]);
  }
}

=== FILE: task_cache.dfy ===
/** The task service's in-memory caches: user and project entries kept for
    `CACHE_TTL` seconds, a batch user fetch that consults the cache first,
    and the enrichment of a task with owner and collaborator names. The
    `user` table is a sequence of rows, `fault` a query that raises, and
    `now` the clock reading in seconds. */
module TaskCache {
  import opened Common
  import Json

  /** The name shown for a cached user row without one. */
  const UNKNOWN_USER := "Unknown User"

  type Row = Json.Row

  /** Seconds an entry stays fresh. */
  const CACHE_TTL: real := 300.0

  /** The columns every user query selects. */
  const USER_COLUMNS: seq<string> := ["user_id", "name", "email", "department"]

  /** A cached row with the time it was stored. */
  datatype Entry = Entry(data: Row, stored: real)

  /** Both caches are dicts keyed by "user_<id>" or "project_<id>". */
  type Cache = map<string, Entry>

  function UserKey(id: string): string { "user_" + id }

  function ProjectKey(id: string): string { "project_" + id }

  /** An entry is served only while it is younger than the TTL. */
  predicate Fresh(cache: Cache, key: string, now: real) {
    key in cache && now - cache[key].stored < CACHE_TTL
  }

  /** Whether a user row has the given id, compared as the query's text
      parameter. */
  predicate HasUserId(row: Row, id: string) {
    Json.PyStr(Json.Get(row, "user_id")) == id
  }

  /** The first user row with the id, as selected. */
  function FirstUser(table: seq<Row>, id: string): (r: Option<Row>)
    ensures r.None? <==> forall i :: 0 <= i < |table| ==> !HasUserId(table[i], id)
    ensures r.Some? ==> exists i :: 0 <= i < |table| && HasUserId(table[i], id) && r.value == Json.Project(table[i], USER_COLUMNS)
  {
    if |table| == 0 then None
    else if HasUserId(table[0], id) then Some(Json.Project(table[0], USER_COLUMNS))
    else
      var r := FirstUser(table[1..], id);
      assert forall i :: 1 <= i < |table| ==> table[i] == table[1..][i - 1];
      r
  }

  /** `get_cached_user`: a fresh entry is returned as is; otherwise the
      table is queried, a found row is cached with the current time, and a
      missing user or a failing query gives None with the cache
      untouched. */
  function GetCachedUser(cache: Cache, id: string, now: real, table: seq<Row>, fault: bool): (r: (Option<Row>, Cache))
    ensures Fresh(cache, UserKey(id), now) ==> r == (Some(cache[UserKey(id)].data), cache)
    ensures !Fresh(cache, UserKey(id), now) && (fault || FirstUser(table, id).None?) ==> r == (None, cache)
    ensures !Fresh(cache, UserKey(id), now) && !fault && FirstUser(table, id).Some? ==>
              r.0 == FirstUser(table, id) && r.1 == cache[UserKey(id) := Entry(r.0.value, now)]
  {
    var key := UserKey(id);
    if Fresh(cache, key, now) then (Some(cache[key].data), cache)
    else if fault then (None, cache)
    else match FirstUser(table, id)
      case None => (None, cache)
      case Some(row) => (Some(row), cache[key := Entry(row, now)])
  }

  /** A fresh hit does not depend on the database: any table and any
      failure give the same answer and leave the cache as it was. */
  lemma HitIgnoresDatabase(cache: Cache, id: string, now: real, t1: seq<Row>, f1: bool, t2: seq<Row>, f2: bool)
    requires Fresh(cache, UserKey(id), now)
    ensures GetCachedUser(cache, id, now, t1, f1) == GetCachedUser(cache, id, now, t2, f2)
    ensures GetCachedUser(cache, id, now, t1, f1).1 == cache
  {
  }

  /** A user fetched at `now` is served from the cache by any call made
      less than `CACHE_TTL` seconds later, whatever the database then
      holds. */
  lemma FetchedUserServedWhileFresh(cache: Cache, id: string, now: real, table: seq<Row>, later: real,
                                    table2: seq<Row>, fault2: bool)
    requires !Fresh(cache, UserKey(id), now) && GetCachedUser(cache, id, now, table, false).0.Some?
    requires now <= later < now + CACHE_TTL
    ensures var (u, c) := GetCachedUser(cache, id, now, table, false);
            GetCachedUser(c, id, later, table2, fault2) == (u, c)
  {
    var (u, c) := GetCachedUser(cache, id, now, table, false);
    assert c[UserKey(id)] == Entry(u.value, now);
  }

  /** `get_cached_project`: only a fresh entry; a miss never reaches a
      database. */
  function GetCachedProject(cache: Cache, id: string, now: real): (r: Option<Row>)
    ensures r.Some? <==> Fresh(cache, ProjectKey(id), now)
    ensures r.Some? ==> r.value == cache[ProjectKey(id)].data
  {
    var key := ProjectKey(id);
    if Fresh(cache, key, now) then Some(cache[key].data) else None
  }

  // ----- batch fetch -----

  /** The requested ids with no fresh entry, in request order. */
  function Missing(cache: Cache, ids: seq<string>, now: real): (r: seq<string>)
    ensures forall id :: id in r <==> id in ids && !Fresh(cache, UserKey(id), now)
    ensures Subsequence(r, ids)
  {
    if |ids| == 0 then []
    else
      var rest := Missing(cache, ids[1..], now);
      assert forall id :: id in ids <==> id == ids[0] || id in ids[1..];
      if Fresh(cache, UserKey(ids[0]), now) then rest
      else
        assert ([ids[0]] + rest)[1..] == rest;
        [ids[0]] + rest
  }

  /** The users the cache answers: each requested id with a fresh entry,
      keyed by the id. */
  function Hits(cache: Cache, ids: seq<string>, now: real): (r: map<Json.Value, Row>)
    ensures forall k :: k in r <==> k.Str? && k.s in ids && Fresh(cache, UserKey(k.s), now)
    ensures forall k :: k in r ==> k.Str? && UserKey(k.s) in cache && r[k] == cache[UserKey(k.s)].data
  {
    map k | k in (set id | id in ids :: Json.Str(id)) && Fresh(cache, UserKey(k.s), now) :: cache[UserKey(k.s)].data
  }

  /** The selected rows of the users whose id is among `missing`, in table
      order: what the `in_` query returns. */
  function QueryUsers(table: seq<Row>, missing: seq<string>): (r: seq<Row>)
    ensures |r| <= |table|
    ensures forall row :: row in r ==> "user_id" in row && Json.PyStr(row["user_id"]) in missing
    ensures forall row :: row in r ==> exists j :: 0 <= j < |table| && row == Json.Project(table[j], USER_COLUMNS)
    ensures forall i :: 0 <= i < |table| && Json.PyStr(Json.Get(table[i], "user_id")) in missing
              ==> Json.Project(table[i], USER_COLUMNS) in r
  {
    if |table| == 0 then []
    else
      var rest := QueryUsers(table[1..], missing);
      assert forall i :: 1 <= i < |table| ==> table[i] == table[1..][i - 1];
      TailRowsSelected(table, rest);
      SelectsUserId(table[0]);
      if Json.PyStr(Json.Get(table[0], "user_id")) in missing then [Json.Project(table[0], USER_COLUMNS)] + rest
      else rest
  }

  /** A row selected from the table's tail is selected from the table. */
  lemma TailRowsSelected(table: seq<Row>, rest: seq<Row>)
    requires |table| > 0
    requires forall row :: row in rest ==> exists j :: 0 <= j < |table[1..]| && row == Json.Project(table[1..][j], USER_COLUMNS)
    ensures forall row :: row in rest ==> exists j :: 0 <= j < |table| && row == Json.Project(table[j], USER_COLUMNS)
  {
    forall row | row in rest
      ensures exists j :: 0 <= j < |table| && row == Json.Project(table[j], USER_COLUMNS)
    {
      var j :| 0 <= j < |table[1..]| && row == Json.Project(table[1..][j], USER_COLUMNS);
      assert row == Json.Project(table[j + 1], USER_COLUMNS);
    }
  }

  /** The selected columns include the user id, unchanged. */
  lemma SelectsUserId(row: Row)
    ensures var p := Json.Project(row, USER_COLUMNS);
            "user_id" in p && p["user_id"] == Json.Get(row, "user_id")
  {
    assert USER_COLUMNS[0] == "user_id";
  }

  /** Stores each fetched row under its `user_id` in the result and in the
      cache, in order, so a later row with the same id wins. */
  function StoreFetched(rows: seq<Row>, users: map<Json.Value, Row>, cache: Cache, now: real)
    : (r: (map<Json.Value, Row>, Cache))
    requires forall row :: row in rows ==> "user_id" in row
    ensures forall k :: k in r.0 <==> k in users || exists row :: row in rows && row["user_id"] == k
    ensures forall k :: k in r.0 ==> (k in users && r.0[k] == users[k]) || (r.0[k] in rows && r.0[k]["user_id"] == k)
    ensures forall k :: k in users && (forall row :: row in rows ==> row["user_id"] != k) ==> r.0[k] == users[k]
    ensures forall key :: key in r.1 <==> key in cache || exists row :: row in rows && UserKey(Json.PyStr(row["user_id"])) == key
    ensures forall row :: row in rows ==> r.1[UserKey(Json.PyStr(row["user_id"]))].stored == now
    ensures forall key :: key in cache && (forall row :: row in rows ==> UserKey(Json.PyStr(row["user_id"])) != key)
              ==> r.1[key] == cache[key]
    decreases |rows|
  {
    if |rows| == 0 then (users, cache)
    else
      var row := rows[0];
      assert forall x :: x in rows <==> x == row || x in rows[1..];
      StoreFetched(rows[1..], users[row["user_id"] := row], cache[UserKey(Json.PyStr(row["user_id"])) := Entry(row, now)], now)
  }

  /** A table row that answers a requested id with no fresh entry: the
      rows the batch query fetches. */
  predicate Requested(row: Row, cache: Cache, ids: seq<string>, now: real) {
    var id := Json.PyStr(Json.Get(row, "user_id"));
    id in ids && !Fresh(cache, UserKey(id), now)
  }

  /** `v` is the selected form of a table row whose `user_id` is `k`. */
  predicate FetchedAs(k: Json.Value, v: Row, table: seq<Row>) {
    "user_id" in v && v["user_id"] == k && exists j :: 0 <= j < |table| && v == Json.Project(table[j], USER_COLUMNS)
  }

  /** Some table row that the batch asks for is cached under `key`. */
  predicate Refetched(key: string, cache: Cache, ids: seq<string>, now: real, table: seq<Row>) {
    exists j :: 0 <= j < |table| && Requested(table[j], cache, ids, now)
                && UserKey(Json.PyStr(Json.Get(table[j], "user_id"))) == key
  }

  /** `batch_fetch_users`: an empty request is {} with nothing fetched.
      Otherwise fresh entries answer their ids, and the others are fetched
      in one query; the fetched rows are added to the result and cached
      with the current time. A failing query leaves just the cache hits. */
  function BatchFetchUsers(cache: Cache, ids: seq<string>, now: real, table: seq<Row>, fault: bool)
    : (r: (map<Json.Value, Row>, Cache))
    ensures |ids| == 0 ==> r == (map[], cache)
    ensures fault || |Missing(cache, ids, now)| == 0 ==> r == (Hits(cache, ids, now), cache)
    ensures forall id :: id in ids && Fresh(cache, UserKey(id), now) ==>
              Json.Str(id) in r.0 && r.0[Json.Str(id)] == cache[UserKey(id)].data
    ensures !fault ==> forall i :: 0 <= i < |table| && Requested(table[i], cache, ids, now) ==>
              && Json.Get(table[i], "user_id") in r.0
              && UserKey(Json.PyStr(Json.Get(table[i], "user_id"))) in r.1
              && r.1[UserKey(Json.PyStr(Json.Get(table[i], "user_id")))].stored == now
    ensures forall k :: k in r.0 ==> k in Hits(cache, ids, now) || FetchedAs(k, r.0[k], table)
    ensures forall key :: key in r.1 <==> key in cache || (!fault && Refetched(key, cache, ids, now, table))
    ensures forall key :: key in cache && !Refetched(key, cache, ids, now, table) ==> r.1[key] == cache[key]
  {
    if |ids| == 0 then (map[], cache)
    else
      var hits := Hits(cache, ids, now);
      var missing := Missing(cache, ids, now);
      if |missing| == 0 || fault then (hits, cache)
      else
        var rows := QueryUsers(table, missing);
        var r := StoreFetched(rows, hits, cache, now);
        BatchHitsKept(cache, ids, now, rows, missing);
        RequestedRowsFetched(cache, ids, now, table, rows);
        FetchedRowsRequested(cache, ids, now, table, rows);
        r
  }

  /** Every requested table row is among the fetched rows, under its own
      `user_id`. */
  lemma RequestedRowsFetched(cache: Cache, ids: seq<string>, now: real, table: seq<Row>, rows: seq<Row>)
    requires rows == QueryUsers(table, Missing(cache, ids, now))
    ensures forall i :: 0 <= i < |table| && Requested(table[i], cache, ids, now) ==>
              exists row :: row in rows && row["user_id"] == Json.Get(table[i], "user_id")
  {
    forall i | 0 <= i < |table| && Requested(table[i], cache, ids, now)
      ensures exists row :: row in rows && row["user_id"] == Json.Get(table[i], "user_id")
    {
      var p := Json.Project(table[i], USER_COLUMNS);
      assert p in rows && p["user_id"] == Json.Get(table[i], "user_id");
    }
  }

  /** Every fetched row is cached under the key of a requested table row. */
  lemma FetchedRowsRequested(cache: Cache, ids: seq<string>, now: real, table: seq<Row>, rows: seq<Row>)
    requires rows == QueryUsers(table, Missing(cache, ids, now))
    ensures forall row :: row in rows ==> Refetched(UserKey(Json.PyStr(row["user_id"])), cache, ids, now, table)
  {
    forall row | row in rows
      ensures Refetched(UserKey(Json.PyStr(row["user_id"])), cache, ids, now, table)
    {
      var j :| 0 <= j < |table| && row == Json.Project(table[j], USER_COLUMNS);
      assert row["user_id"] == Json.Get(table[j], "user_id");
    }
  }

  /** No fetched row overwrites a cache hit: every fetched row belongs to
      a missing id, and a missing id has no fresh entry. */
  lemma BatchHitsKept(cache: Cache, ids: seq<string>, now: real, rows: seq<Row>, missing: seq<string>)
    requires missing == Missing(cache, ids, now)
    requires forall row :: row in rows ==> "user_id" in row && Json.PyStr(row["user_id"]) in missing
    ensures forall k :: k in Hits(cache, ids, now) ==> forall row :: row in rows ==> row["user_id"] != k
  {
    forall k, row | k in Hits(cache, ids, now) && row in rows
      ensures row["user_id"] != k
    {
      assert Json.PyStr(row["user_id"]) in missing;
    }
  }

  /** As written the module never binds its database client, so every
      query raises and is swallowed (`fault` always holds): a stale or
      missing entry gives None even for a user the table holds, and a batch
      answers only its cache hits. The rest of the model takes the client
      to be bound, as `BatchAgreesWithSingle` and
      `FetchedUserServedWhileFresh` do. */
  lemma UnboundClientAnswersHits(cache: Cache, ids: seq<string>, now: real, table: seq<Row>, id: string)
    requires id in ids && !Fresh(cache, UserKey(id), now) && FirstUser(table, id).Some?
    ensures GetCachedUser(cache, id, now, table, true) == (None, cache)
    ensures GetCachedUser(cache, id, now, table, false).0.Some?
    ensures BatchFetchUsers(cache, ids, now, table, true) == (Hits(cache, ids, now), cache)
    ensures Json.Str(id) !in BatchFetchUsers(cache, ids, now, table, true).0
  {
  }

  /** With user ids unique strings in the table, the batch answer for a
      requested id is what a single cached lookup gives. */
  lemma BatchAgreesWithSingle(cache: Cache, ids: seq<string>, now: real, table: seq<Row>, id: string)
    requires id in ids
    requires forall i, j :: 0 <= i < j < |table| ==> Json.Get(table[i], "user_id") != Json.Get(table[j], "user_id")
    requires forall i :: 0 <= i < |table| ==> Json.Get(table[i], "user_id").Str?
    ensures var single := GetCachedUser(cache, id, now, table, false).0;
            var batch := BatchFetchUsers(cache, ids, now, table, false).0;
            (single.Some? <==> Json.Str(id) in batch) && (single.Some? ==> batch[Json.Str(id)] == single.value)
  {
    if !Fresh(cache, UserKey(id), now) {
      if GetCachedUser(cache, id, now, table, false).0.Some? {
        StaleFound(cache, ids, now, table, id);
      } else {
        StaleAbsent(cache, ids, now, table, id);
      }
    }
  }

  lemma StaleFound(cache: Cache, ids: seq<string>, now: real, table: seq<Row>, id: string)
    requires id in ids && !Fresh(cache, UserKey(id), now)
    requires forall i, j :: 0 <= i < j < |table| ==> Json.Get(table[i], "user_id") != Json.Get(table[j], "user_id")
    requires forall i :: 0 <= i < |table| ==> Json.Get(table[i], "user_id").Str?
    requires GetCachedUser(cache, id, now, table, false).0.Some?
    ensures var single := GetCachedUser(cache, id, now, table, false).0;
            var batch := BatchFetchUsers(cache, ids, now, table, false).0;
            Json.Str(id) in batch && batch[Json.Str(id)] == single.value
  {
    var single := GetCachedUser(cache, id, now, table, false).0;
    var i :| 0 <= i < |table| && HasUserId(table[i], id) && single.value == Json.Project(table[i], USER_COLUMNS);
    assert Json.Get(table[i], "user_id") == Json.Str(id);
    BatchHasRequested(cache, ids, now, table, i);
    assert Json.Str(id) !in Hits(cache, ids, now);
    FetchedIsUnique(table, i, BatchFetchUsers(cache, ids, now, table, false).0[Json.Str(id)]);
  }

  lemma BatchHasRequested(cache: Cache, ids: seq<string>, now: real, table: seq<Row>, i: nat)
    requires i < |table| && Requested(table[i], cache, ids, now)
    ensures Json.Get(table[i], "user_id") in BatchFetchUsers(cache, ids, now, table, false).0
  {
  }

  /** With unique ids, a row fetched for a row's id is that row's
      selection. */
  lemma FetchedIsUnique(table: seq<Row>, i: nat, v: Row)
    requires i < |table|
    requires forall a, b :: 0 <= a < b < |table| ==> Json.Get(table[a], "user_id") != Json.Get(table[b], "user_id")
    requires FetchedAs(Json.Get(table[i], "user_id"), v, table)
    ensures v == Json.Project(table[i], USER_COLUMNS)
  {
    var j :| 0 <= j < |table| && v == Json.Project(table[j], USER_COLUMNS);
    assert Json.Get(table[j], "user_id") == Json.Get(table[i], "user_id");
  }

  lemma StaleAbsent(cache: Cache, ids: seq<string>, now: real, table: seq<Row>, id: string)
    requires id in ids && !Fresh(cache, UserKey(id), now)
    requires forall i :: 0 <= i < |table| ==> Json.Get(table[i], "user_id").Str?
    requires GetCachedUser(cache, id, now, table, false).0.None?
    ensures Json.Str(id) !in BatchFetchUsers(cache, ids, now, table, false).0
  {
    assert Json.Str(id) !in Hits(cache, ids, now);
    forall j | 0 <= j < |table|
      ensures Json.Get(table[j], "user_id") != Json.Str(id)
    {
      assert !HasUserId(table[j], id);
    }
  }

  // ----- enrichment -----

  /** A value Python can use as a dict key. */
  predicate Hashable(v: Json.Value) {
    !v.Arr? && !v.Obj?
  }

  /** `user_cache.get(key)` on an optional, possibly empty cache; None
      stands for a lookup with an unhashable key, which raises. */
  function CacheGet(userCache: map<Json.Value, Row>, key: Json.Value): (r: Option<Option<Row>>)
    ensures r.None? <==> !Hashable(key)
    ensures r.Some? ==> (r.value.Some? <==> key in userCache) && (key in userCache ==> r.value.value == userCache[key])
  {
    if !Hashable(key) then None
    else if key in userCache then Some(Some(userCache[key]))
    else Some(None)
  }

  /** The collaborator ids a task carries: the `collaborators` value, a
      JSON string being decoded first (`decode` gives None for bad JSON,
      which reads as []). */
  function Collaborators(task: Row, decode: string -> Option<Json.Value>): (r: Json.Value)
    ensures "collaborators" !in task ==> r == Json.Arr([])
    ensures "collaborators" in task && task["collaborators"].Str? ==>
              r == decode(task["collaborators"].s).GetOr(Json.Arr([]))
    ensures "collaborators" in task && !task["collaborators"].Str? ==> r == task["collaborators"]
  {
    var c := Json.GetOr(task, "collaborators", Json.Arr([]));
    if c.Str? then decode(c.s).GetOr(Json.Arr([])) else c
  }

  /** The details of the collaborators found in the cache, in order; None
      when an id is unhashable. */
  function CollaboratorDetails(ids: seq<Json.Value>, userCache: map<Json.Value, Row>): (r: Option<seq<Json.Value>>)
    ensures r.Some? <==> forall i :: 0 <= i < |ids| ==> Hashable(ids[i])
    ensures r.Some? ==> |r.value| == |CachedIds(ids, userCache)|
    ensures r.Some? ==> forall i :: 0 <= i < |r.value| ==> r.value[i] == Detail(CachedIds(ids, userCache)[i], userCache)
  {
    if |ids| == 0 then Some([])
    else
      var rest := CollaboratorDetails(ids[1..], userCache);
      assert forall i :: 1 <= i < |ids| ==> ids[i] == ids[1..][i - 1];
      match CacheGet(userCache, ids[0])
      case None => None
      case Some(found) =>
        if rest.None? then None
        else if found.Some? && found.value != map[] then
          assert CachedIds(ids, userCache) == [ids[0]] + CachedIds(ids[1..], userCache);
          Some([Detail(ids[0], userCache)] + rest.value)
        else
          assert CachedIds(ids, userCache) == CachedIds(ids[1..], userCache);
          Some(rest.value)
  }

  /** The ids whose cached data is a non-empty row, in order. */
  function CachedIds(ids: seq<Json.Value>, userCache: map<Json.Value, Row>): (r: seq<Json.Value>)
    ensures Subsequence(r, ids)
    ensures forall v :: v in r <==> v in ids && v in userCache && userCache[v] != map[]
  {
    if |ids| == 0 then []
    else
      var rest := CachedIds(ids[1..], userCache);
      assert forall v :: v in ids <==> v == ids[0] || v in ids[1..];
      if ids[0] in userCache && userCache[ids[0]] != map[] then
        assert ([ids[0]] + rest)[1..] == rest;
        [ids[0]] + rest
      else rest
  }

  /** One entry of `collaborator_details`. */
  function Detail(id: Json.Value, userCache: map<Json.Value, Row>): (r: Json.Value)
    requires id in userCache
    ensures r.Obj? && r.fields.Keys == {"user_id", "name", "email"}
    ensures r.fields["user_id"] == id
    ensures r.fields["name"] == Json.GetOr(userCache[id], "name", Json.Str(UNKNOWN_USER))
    ensures r.fields["email"] == Json.GetOr(userCache[id], "email", Json.Str(""))
  {
    Json.Obj(map["user_id" := id,
                 "name" := Json.GetOr(userCache[id], "name", Json.Str(UNKNOWN_USER)),
                 "email" := Json.GetOr(userCache[id], "email", Json.Str(""))])
  }

  /** The collaborator shapes the model follows: a list of ids, or a
      falsy value, which is skipped. */
  predicate KnownCollaborators(c: Json.Value) {
    c.Arr? || !Json.Truthy(c)
  }

  /** The keys the enrichment may add to a task. */
  const ENRICHED_KEYS: set<string> := {"owner_name", "owner_email", "collaborator_details"}

  /** `optimize_task_with_metadata`: a copy of the task, plus the owner's
      name and email when the owner is in a non-empty cache with a
      non-empty row, plus `collaborator_details` when there are
      collaborators and a non-empty cache. None stands for a lookup that
      raises, and for collaborator shapes other than a list. */
  function OptimizeTaskWithMetadata(task: Row, userCache: Option<map<Json.Value, Row>>,
                                    decode: string -> Option<Json.Value>): (r: Option<Row>)
    ensures var cache := userCache.GetOr(map[]);
            var owner := Json.Get(task, "owner_id");
            var c := Collaborators(task, decode);
            r.Some? ==>
              && (forall k :: k in task && k !in ENRICHED_KEYS ==> k in r.value && r.value[k] == task[k])
              && (forall k :: k in r.value ==> k in task || k in ENRICHED_KEYS)
              && ("owner_name" in r.value && "owner_name" !in task <==> Json.Truthy(owner) && cache != map[] && owner in cache && cache[owner] != map[] && "owner_name" !in task)
              && (Json.Truthy(owner) && cache != map[] && owner in cache && cache[owner] != map[] ==>
                    "owner_name" in r.value && "owner_email" in r.value
                    && r.value["owner_name"] == Json.GetOr(cache[owner], "name", Json.Str(UNKNOWN_USER))
                    && r.value["owner_email"] == Json.GetOr(cache[owner], "email", Json.Str("")))
              && (Json.Truthy(c) && cache != map[] ==>
                    c.Arr? && CollaboratorDetails(c.items, cache).Some?
                    && "collaborator_details" in r.value && r.value["collaborator_details"] == Json.Arr(CollaboratorDetails(c.items, cache).value))
    ensures var cache := userCache.GetOr(map[]);
            var c := Collaborators(task, decode);
            r.None? <==> (Json.Truthy(Json.Get(task, "owner_id")) && cache != map[] && !Hashable(Json.Get(task, "owner_id")))
                         || !KnownCollaborators(c)
                         || (Json.Truthy(c) && cache != map[] && CollaboratorDetails(c.items, cache).None?)
  {
    var cache := userCache.GetOr(map[]);
    var owner := Json.Get(task, "owner_id");
    var ownerStep: Option<Row> :=
      if Json.Truthy(owner) && cache != map[] then
        match CacheGet(cache, owner)
        case None => None
        case Some(found) =>
          if found.Some? && found.value != map[] then
            Some(task["owner_name" := Json.GetOr(found.value, "name", Json.Str(UNKNOWN_USER))]
                     ["owner_email" := Json.GetOr(found.value, "email", Json.Str(""))])
          else Some(task)
      else Some(task);
    var c := Collaborators(task, decode);
    if ownerStep.None? || !KnownCollaborators(c) then None
    else if Json.Truthy(c) && cache != map[] then
      match CollaboratorDetails(c.items, cache)
      case None => None
      case Some(details) => Some(ownerStep.value["collaborator_details" := Json.Arr(details)])
    else ownerStep
  }
}

=== FILE: task_service.dfy ===
/** The task service's payload rules: the API form of a task row, task-id
    validation, the request models for create and update, and the 400-
    before-404 order of the single-task endpoints. The `task` table is a
    sequence of rows; `fault` stands for a database call that raises. */
module TaskService {
  import opened Common
  import Json
  import Text

  /** Texts the service answers with. */
  const MSG_CREATE_FAILED := "Failed to create task"
  const MSG_DELETE_FAILED := "Failed to delete task"
  const MSG_UPDATE_FAILED := "Failed to update task"
  const MSG_INVALID_DATA := "Invalid request data"
  const MSG_INVALID_ID := "Invalid task ID"
  const NO_DESCRIPTION := "No description available"
  const MSG_CREATED := "Task created successfully"
  const MSG_DELETED := "Task deleted successfully"
  const MSG_NOT_FOUND := "Task not found"
  const MSG_UPDATED := "Task updated successfully"

  type Row = Json.Row

  /** The columns every single-task query selects. */
  const TASK_COLUMNS: seq<string> := ["task_id", "title", "due_date", "status", "created_at", "owner_id"]

  const API_KEYS: set<string> :=
    {"id", "title", "description", "dueDate", "status", "owner_id", "created_at", "updated_at"}

  /** A task row in API form. `id` is `task_id` when that is truthy and
      the row's `id` otherwise; `description` and `updated_at` fall back to
      a fixed text and to `created_at` only when their keys are absent. */
  function MapDbRowToApi(row: Row): (r: Row)
    ensures r.Keys == API_KEYS
    ensures r["id"] == (if Json.Truthy(Json.Get(row, "task_id")) then Json.Get(row, "task_id") else Json.Get(row, "id"))
    ensures r["dueDate"] == Json.Get(row, "due_date")
    ensures r["title"] == Json.Get(row, "title") && r["status"] == Json.Get(row, "status")
    ensures r["owner_id"] == Json.Get(row, "owner_id") && r["created_at"] == Json.Get(row, "created_at")
    ensures "description" in row ==> r["description"] == row["description"]
    ensures "description" !in row ==> r["description"] == Json.Str(NO_DESCRIPTION)
    ensures "updated_at" in row ==> r["updated_at"] == row["updated_at"]
    ensures "updated_at" !in row ==> r["updated_at"] == Json.Get(row, "created_at")
  {
    map["id" := Json.Or(Json.Get(row, "task_id"), Json.Get(row, "id")),
        "title" := Json.Get(row, "title"),
        "description" := Json.GetOr(row, "description", Json.Str(NO_DESCRIPTION)),
        "dueDate" := Json.Get(row, "due_date"),
        "status" := Json.Get(row, "status"),
        "owner_id" := Json.Get(row, "owner_id"),
        "created_at" := Json.Get(row, "created_at"),
        "updated_at" := Json.GetOr(row, "updated_at", Json.Get(row, "created_at"))]
  }

  /** `validate_task_id`: truthy exactly when the id has a character
      other than whitespace. */
  predicate ValidTaskId(id: string) {
    Text.PyStrip(id) != ""
  }

  /** A valid id is one that is not all whitespace (the empty id
      included). */
  lemma ValidTaskIdIffNotBlank(id: string)
    ensures ValidTaskId(id) <==> !Text.AllSpace(id, Text.IsPySpace)
  {
    Text.StripEmptyIffAllSpace(id, Text.IsPySpace);
  }

  /** Index of the first row whose `task_id` is `id`, or -1. */
  function FindTask(db: seq<Row>, id: string): (i: int)
    ensures -1 <= i < |db|
    ensures i >= 0 ==> Json.Get(db[i], "task_id") == Json.Str(id)
    ensures i == -1 ==> forall j :: 0 <= j < |db| ==> Json.Get(db[j], "task_id") != Json.Str(id)
  {
    FirstIndex(db, (row: Row) => Json.Get(row, "task_id") == Json.Str(id))
  }

  /** `get_task_by_id`: the selected columns of the first matching row; a
      database error is swallowed and reads as not found. */
  function GetTaskById(db: seq<Row>, id: string, fault: bool): (r: Option<Row>)
    ensures r.None? <==> fault || FindTask(db, id) == -1
    ensures r.Some? ==> r.value.Keys == set k | k in TASK_COLUMNS
                        && Json.Get(r.value, "task_id") == Json.Str(id)
  {
    if fault then None
    else
      var i := FindTask(db, id);
      if i == -1 then None else Some(Json.Project(db[i], TASK_COLUMNS))
  }

  datatype Reply = Reply(status: Status, body: Row, db: seq<Row>)

  /** GET /tasks/<id>: 400 for a blank id before any lookup, 404 when no
      row matches, else 200 with the task in API form. */
  function GetTask(db: seq<Row>, id: string, fault: bool): (r: Reply)
    ensures !ValidTaskId(id) ==> r.status == BAD_REQUEST
    ensures ValidTaskId(id) && GetTaskById(db, id, fault).None? ==> r.status == NOT_FOUND
    ensures r.status == OK <==> ValidTaskId(id) && GetTaskById(db, id, fault).Some?
    ensures r.status == OK ==> "task" in r.body && r.body["task"].Obj? && r.body["task"].fields.Keys == API_KEYS
    ensures r.db == db
  {
    if !ValidTaskId(id) then Reply(BAD_REQUEST, map["error" := Json.Str(MSG_INVALID_ID)], db)
    else match GetTaskById(db, id, fault)
      case None => Reply(NOT_FOUND, map["error" := Json.Str(MSG_NOT_FOUND)], db)
      case Some(row) => Reply(OK, map["task" := Json.Obj(MapDbRowToApi(row))], db)
  }

  /** Because the query selects neither `description` nor `updated_at`, a
      fetched task always shows the default description and an
      `updated_at` equal to its `created_at`. */
  lemma FetchedTaskUsesDefaults(db: seq<Row>, id: string, fault: bool)
    requires GetTask(db, id, fault).status == OK
    ensures var t := GetTask(db, id, fault).body["task"].fields;
            t["description"] == Json.Str(NO_DESCRIPTION) && t["updated_at"] == t["created_at"]
  {
    var row := GetTaskById(db, id, fault).value;
    UnselectedColumns();
    assert "description" !in row && "updated_at" !in row;
    assert GetTask(db, id, fault).body["task"].fields == MapDbRowToApi(row);
  }

  lemma UnselectedColumns()
    ensures "description" !in TASK_COLUMNS && "updated_at" !in TASK_COLUMNS
  {
  }

  // ----- request models -----

  /** A field declared `Optional[str]`: absent, None or a string. */
  predicate OptionalStr(body: Row, key: string) {
    key !in body || body[key].Null? || body[key].Str?
  }

  /** `TaskCreate`: `title` is a required string; `due_date`, `status` and
      `owner_id` are optional strings, `status` defaulting to "Unassigned"
      and the others to None. Other keys are ignored. None is a
      validation error. */
  function TaskCreate(body: Row): (r: Option<Row>)
    ensures r.Some? <==> "title" in body && body["title"].Str?
                         && OptionalStr(body, "due_date") && OptionalStr(body, "status") && OptionalStr(body, "owner_id")
    ensures r.Some? ==> r.value.Keys == {"title", "due_date", "status", "owner_id"}
                        && r.value["title"] == body["title"]
                        && r.value["status"] == Json.GetOr(body, "status", Json.Str("Unassigned"))
                        && r.value["due_date"] == Json.Get(body, "due_date")
                        && r.value["owner_id"] == Json.Get(body, "owner_id")
  {
    if "title" in body && body["title"].Str?
       && OptionalStr(body, "due_date") && OptionalStr(body, "status") && OptionalStr(body, "owner_id")
    then
      Some(map["title" := body["title"], "due_date" := Json.Get(body, "due_date"),
               "status" := Json.GetOr(body, "status", Json.Str("Unassigned")),
               "owner_id" := Json.Get(body, "owner_id")])
    else None
  }

  /** `TaskUpdate`: `title`, `due_date` and `status`, all optional
      strings. */
  predicate TaskUpdateValid(body: Row) {
    OptionalStr(body, "title") && OptionalStr(body, "due_date") && OptionalStr(body, "status")
  }

  const UPDATE_FIELDS: set<string> := {"title", "due_date", "status"}

  /** The update payload: the `TaskUpdate` fields whose value is not None,
      so an absent field and an explicit null both leave the column
      alone. */
  function UpdateData(body: Row): (r: Row)
    ensures forall k :: k in r <==> k in UPDATE_FIELDS && k in body && !body[k].Null?
    ensures forall k :: k in r ==> r[k] == body[k]
  {
    map k | k in UPDATE_FIELDS && k in body && !body[k].Null? :: body[k]
  }

  /** Applies an update payload to every row whose `task_id` is `id`; the
      other rows are untouched. */
  function ApplyUpdate(db: seq<Row>, id: string, data: Row): (r: seq<Row>)
    ensures |r| == |db|
    ensures forall i :: 0 <= i < |db| && Json.Get(db[i], "task_id") != Json.Str(id) ==> r[i] == db[i]
    ensures forall i :: 0 <= i < |db| && Json.Get(db[i], "task_id") == Json.Str(id) ==> r[i] == db[i] + data
  {
    seq(|db|, i requires 0 <= i < |db| =>
      if Json.Get(db[i], "task_id") == Json.Str(id) then db[i] + data else db[i])
  }

  /** The inserted row: the validated fields with `created_at` and the
      assigned `task_id` added. */
  function StoredRow(fields: Row, now: string, newId: string): (row: Row)
    requires "created_at" !in fields && "task_id" !in fields
    ensures row.Keys == fields.Keys + {"created_at", "task_id"}
    ensures row["task_id"] == Json.Str(newId) && row["created_at"] == Json.Str(now)
    ensures forall k :: k in fields ==> row[k] == fields[k]
  {
    fields["created_at" := Json.Str(now)]["task_id" := Json.Str(newId)]
  }

  /** POST /tasks. A body that fails validation is 400 with nothing
      written; otherwise the validated fields and `created_at` are inserted
      with the id the database assigns, and the stored row is returned in
      API form with 201. */
  function CreateTask(db: seq<Row>, body: Json.Value, now: string, newId: string, fault: bool): (r: Reply)
    ensures Json.RequestDict(body).None? ==> r.status == SERVER_ERROR && r.db == db
    ensures Json.RequestDict(body).Some? && TaskCreate(Json.RequestDict(body).value).None? ==> r.status == BAD_REQUEST && r.db == db
    ensures r.status == CREATED <==> Json.RequestDict(body).Some? && TaskCreate(Json.RequestDict(body).value).Some? && !fault
    ensures r.status == CREATED ==>
              var fields := TaskCreate(Json.RequestDict(body).value).value;
              && |r.db| == |db| + 1 && r.db[..|db|] == db
              && r.db[|db|].Keys == fields.Keys + {"created_at", "task_id"}
              && r.db[|db|]["task_id"] == Json.Str(newId)
              && r.db[|db|]["created_at"] == Json.Str(now)
              && forall k :: k in fields ==> r.db[|db|][k] == fields[k]
    ensures r.status != CREATED ==> r.db == db
  {
    match Json.RequestDict(body)
    case None => Reply(SERVER_ERROR, map["error" := Json.Str(MSG_CREATE_FAILED)], db)
    case Some(dict) =>
      match TaskCreate(dict)
      case None => Reply(BAD_REQUEST, map["error" := Json.Str(MSG_INVALID_DATA)], db)
      case Some(fields) =>
        if fault then Reply(SERVER_ERROR, map["error" := Json.Str(MSG_CREATE_FAILED)], db)
        else
          var row := StoredRow(fields, now, newId);
          var db1 := db + [row];
          assert db1[..|db|] == db;
          Reply(CREATED, map["task" := Json.Obj(MapDbRowToApi(row)),
                              "message" := Json.Str(MSG_CREATED)], db1)
  }

  /** PUT /tasks/<id>: 400 for a blank id, then 404 when the task is not
      found, then 400 for a body that fails `TaskUpdate`; otherwise only the
      non-None fields are written. `fault` is a failing lookup, which reads
      as not found; `writeFault` a failing update, which is 500. */
  function UpdateTask(db: seq<Row>, id: string, body: Json.Value, fault: bool, writeFault: bool): (r: Reply)
    ensures !ValidTaskId(id) ==> r.status == BAD_REQUEST && r.db == db
    ensures ValidTaskId(id) && FindTask(db, id) == -1 ==> r.status == NOT_FOUND && r.db == db
    ensures ValidTaskId(id) && FindTask(db, id) >= 0 && !fault
            && Json.RequestDict(body).Some? && !TaskUpdateValid(Json.RequestDict(body).value) ==>
              r.status == BAD_REQUEST && r.db == db
    ensures r.status == OK <==>
              && ValidTaskId(id) && FindTask(db, id) >= 0 && !fault && !writeFault
              && Json.RequestDict(body).Some? && TaskUpdateValid(Json.RequestDict(body).value)
    ensures r.status == OK ==>
              && r.db == ApplyUpdate(db, id, UpdateData(Json.RequestDict(body).value))
              && "task" in r.body && r.body["task"] == Json.Obj(MapDbRowToApi(r.db[FindTask(db, id)]))
    ensures r.status != OK ==> r.db == db
  {
    if !ValidTaskId(id) then Reply(BAD_REQUEST, map["error" := Json.Str(MSG_INVALID_ID)], db)
    else if GetTaskById(db, id, fault).None? then Reply(NOT_FOUND, map["error" := Json.Str(MSG_NOT_FOUND)], db)
    else match Json.RequestDict(body)
      case None => Reply(SERVER_ERROR, map["error" := Json.Str(MSG_UPDATE_FAILED)], db)
      case Some(dict) =>
        if !TaskUpdateValid(dict) then Reply(BAD_REQUEST, map["error" := Json.Str(MSG_INVALID_DATA)], db)
        else if writeFault then Reply(SERVER_ERROR, map["error" := Json.Str(MSG_UPDATE_FAILED)], db)
        else
          var db1 := ApplyUpdate(db, id, UpdateData(dict));
          var k := FindTask(db, id);
          Reply(OK, map["task" := Json.Obj(MapDbRowToApi(db1[k])),
                        "message" := Json.Str(MSG_UPDATED)], db1)
  }

  /** An update of an existing task with a valid body succeeds, and it
      changes only the fields it names with a non-None value: every other
      column of the task keeps its value. */
  lemma UpdateTouchesOnlyGivenFields(db: seq<Row>, id: string, body: Json.Value, k: string)
    requires ValidTaskId(id) && FindTask(db, id) >= 0
    requires Json.RequestDict(body).Some? && TaskUpdateValid(Json.RequestDict(body).value)
    requires k in db[FindTask(db, id)]
    requires k !in UPDATE_FIELDS || k !in Json.RequestDict(body).value || Json.RequestDict(body).value[k].Null?
    ensures var r := UpdateTask(db, id, body, false, false);
            r.status == OK && r.db[FindTask(db, id)][k] == db[FindTask(db, id)][k]
  {
  }

  /** Removes every row whose `task_id` is `id`. */
  function DeleteRows(db: seq<Row>, id: string): (r: seq<Row>)
    ensures Subsequence(r, db)
    ensures forall row :: row in r <==> row in db && Json.Get(row, "task_id") != Json.Str(id)
  {
    if |db| == 0 then []
    else
      var rest := DeleteRows(db[1..], id);
      assert forall row :: row in db <==> row == db[0] || row in db[1..];
      if Json.Get(db[0], "task_id") == Json.Str(id) then rest
      else
        assert ([db[0]] + rest)[1..] == rest;
        [db[0]] + rest
  }

  /** DELETE /tasks/<id>: 400 for a blank id, 404 when not found, else
      the task's rows are removed and 200 names the id; a failing delete
      (`writeFault`) is 500. */
  function DeleteTask(db: seq<Row>, id: string, fault: bool, writeFault: bool): (r: Reply)
    ensures !ValidTaskId(id) ==> r.status == BAD_REQUEST && r.db == db
    ensures ValidTaskId(id) && FindTask(db, id) == -1 ==> r.status == NOT_FOUND && r.db == db
    ensures r.status == OK <==> ValidTaskId(id) && FindTask(db, id) >= 0 && !fault && !writeFault
    ensures r.status == OK ==>
              && "task_id" in r.body && r.body["task_id"] == Json.Str(id)
              && |r.db| < |db|
              && forall row :: row in r.db <==> row in db && Json.Get(row, "task_id") != Json.Str(id)
    ensures r.status != OK ==> r.db == db
  {
    if !ValidTaskId(id) then Reply(BAD_REQUEST, map["error" := Json.Str(MSG_INVALID_ID)], db)
    else if GetTaskById(db, id, fault).None? then Reply(NOT_FOUND, map["error" := Json.Str(MSG_NOT_FOUND)], db)
    else if writeFault then Reply(SERVER_ERROR, map["error" := Json.Str(MSG_DELETE_FAILED)], db)
    else
      var db1 := DeleteRows(db, id);
      DeleteShrinks(db, id, FindTask(db, id));
      Reply(OK, map["message" := Json.Str(MSG_DELETED), "task_id" := Json.Str(id)], db1)
  }

  lemma {:induction false} DeleteShrinks(db: seq<Row>, id: string, i: int)
    requires 0 <= i < |db| && Json.Get(db[i], "task_id") == Json.Str(id)
    ensures |DeleteRows(db, id)| < |db|
  {
    if Json.Get(db[0], "task_id") != Json.Str(id) {
      DeleteShrinks(db[1..], id, i - 1);
    } else {
      DeleteNoLonger(db[1..], id);
    }
  }

  lemma {:induction false} DeleteNoLonger(db: seq<Row>, id: string)
    ensures |DeleteRows(db, id)| <= |db|
  {
    if |db| > 0 {
      DeleteNoLonger(db[1..], id);
    }
  }
}

=== FILE: task_timeline.dfy ===
/** The weekly task timeline: week navigation, the Sunday-to-Saturday range
    a week offset selects, the week's open tasks, their per-day counts and
    the week summary. Dates are day numbers in Singapore time (day 0 is
    Thursday 1 January 1970); `dayOf` gives the Singapore day of a
    `dueDate` value, None when `new Date` cannot read it. */
module TaskTimeline {
  import opened Common
  import Json
  import Tally
  import Counting

  datatype Task = Task(status: Json.Value, dueDate: Json.Value)

  /** `getDay()`: 0 for Sunday through 6 for Saturday. */
  function DayOfWeek(d: int): (w: int)
    ensures 0 <= w < 7
  {
    (d + 4) % 7
  }

  /** `getWeekStart`: the Sunday on or before the day. */
  function WeekStart(d: int): (r: int)
    ensures DayOfWeek(r) == 0
    ensures d - 6 <= r <= d
    ensures r == d - DayOfWeek(d)
  {
    d - DayOfWeek(d)
  }

  /** The only Sunday in the six days before a day, or the day itself, is
      its week start. */
  lemma WeekStartUnique(d: int, s: int)
    requires d - 6 <= s <= d && DayOfWeek(s) == 0
    ensures s == WeekStart(d)
  {
  }

  /** Days in the same week share their week start. */
  lemma WeekStartOfWeekDay(start: int, i: int)
    requires DayOfWeek(start) == 0 && 0 <= i < 7
    ensures WeekStart(start + i) == start
  {
    assert (start + i + 4) % 7 == i;
  }

  datatype Range = Range(start: int, end: int, dates: seq<int>)

  /** `currentWeekRange`: the Sunday of today's week moved by whole weeks,
      through the Saturday after it, and the seven days in between. */
  function WeekRange(today: int, offset: int): (r: Range)
    ensures DayOfWeek(r.start) == 0
    ensures r.end == r.start + 6
    ensures |r.dates| == 7 && forall i :: 0 <= i < 7 ==> r.dates[i] == r.start + i
    ensures r.start == WeekStart(today) + 7 * offset
    ensures offset == 0 ==> r.start <= today <= r.end
  {
    var start := WeekStart(today) + 7 * offset;
    assert DayOfWeek(start) == 0 by {
      assert (start + 4) % 7 == (WeekStart(today) + 4 + 7 * offset) % 7;
    }
    Range(start, start + 6, seq(7, i requires 0 <= i < 7 => start + i))
  }

  /** The next week's range begins the Sunday after this week's end. */
  lemma NextWeekFollows(today: int, offset: int)
    ensures WeekRange(today, offset + 1).start == WeekRange(today, offset).end + 1
  {
  }

  // ----- navigation -----

  function GoToPreviousWeek(offset: int): int { offset - 1 }

  function GoToNextWeek(offset: int): int { offset + 1 }

  function GoToCurrentWeek(offset: int): int { 0 }

  predicate IsCurrentWeek(offset: int) { offset == 0 }

  /** Going back and then forward (or forward and then back) returns to
      the same week, and "current" always shows today's week. */
  lemma NavigationRoundTrip(offset: int, today: int)
    ensures GoToNextWeek(GoToPreviousWeek(offset)) == offset
    ensures GoToPreviousWeek(GoToNextWeek(offset)) == offset
    ensures IsCurrentWeek(GoToCurrentWeek(offset))
    ensures var r := WeekRange(today, GoToCurrentWeek(offset)); r.start <= today <= r.end
    ensures IsCurrentWeek(offset) <==> WeekRange(today, offset).start == WeekStart(today)
  {
  }

  // ----- weekly tasks -----

  /** A task the week shows: not 'Completed', with a truthy `dueDate` whose
      day lies in the range. */
  predicate InWeek(t: Task, r: Range, dayOf: Json.Value -> Option<int>) {
    && t.status != Json.Str("Completed")
    && Json.JsTruthy(t.dueDate)
    && dayOf(t.dueDate).Some?
    && r.start <= dayOf(t.dueDate).value <= r.end
  }

  /** `weeklyTasks`: [] unless `tasks` holds an array, else the tasks in
      the week, in order. */
  function WeeklyTasks(tasks: Option<seq<Task>>, r: Range, dayOf: Json.Value -> Option<int>): (w: seq<Task>)
    ensures tasks.None? ==> w == []
    ensures tasks.Some? ==> Subsequence(w, tasks.value)
    ensures forall t :: t in w <==> tasks.Some? && t in tasks.value && InWeek(t, r, dayOf)
  {
    if tasks.None? then [] else KeepInWeek(tasks.value, r, dayOf)
  }

  function KeepInWeek(ts: seq<Task>, r: Range, dayOf: Json.Value -> Option<int>): (w: seq<Task>)
    ensures Subsequence(w, ts)
    ensures forall t :: t in w <==> t in ts && InWeek(t, r, dayOf)
  {
    if |ts| == 0 then []
    else
      var rest := KeepInWeek(ts[1..], r, dayOf);
      assert forall t :: t in ts <==> t == ts[0] || t in ts[1..];
      if InWeek(ts[0], r, dayOf) then
        assert ([ts[0]] + rest)[1..] == rest;
        [ts[0]] + rest
      else rest
  }

  // ----- per-day buckets -----

  /** The tasks whose due day is the key, in order: one bucket of
      `tasksByDate`. */
  function Bucket(ts: seq<Task>, key: int, dayOf: Json.Value -> Option<int>): (b: seq<Task>)
    ensures Subsequence(b, ts)
    ensures forall t :: t in b <==> t in ts && dayOf(t.dueDate) == Some(key)
  {
    if |ts| == 0 then []
    else
      var rest := Bucket(ts[1..], key, dayOf);
      assert forall t :: t in ts <==> t == ts[0] || t in ts[1..];
      if dayOf(ts[0].dueDate) == Some(key) then
        assert ([ts[0]] + rest)[1..] == rest;
        [ts[0]] + rest
      else rest
  }

  /** The keys of the week's seven dates. `formatDateKey` converts dates
      that are already Singapore wall-clock times into Singapore time once
      more, so in a browser on another clock the keys can move by whole
      days: `shift` is that move, 0 on Singapore time. */
  function DateKeys(r: Range, shift: int): (ks: seq<int>)
    ensures |ks| == |r.dates|
    ensures forall i :: 0 <= i < |ks| ==> ks[i] == r.dates[i] + shift
  {
    seq(|r.dates|, i requires 0 <= i < |r.dates| => r.dates[i] + shift)
  }

  datatype Timeline = Timeline(dates: seq<int>, taskCounts: seq<nat>, tasksByDate: map<int, seq<Task>>, maxCount: nat)

  function Counts(weekly: seq<Task>, keys: seq<int>, dayOf: Json.Value -> Option<int>): (cs: seq<nat>)
    ensures |cs| == |keys|
    ensures forall i :: 0 <= i < |keys| ==> cs[i] == |Bucket(weekly, keys[i], dayOf)|
  {
    seq(|keys|, i requires 0 <= i < |keys| => |Bucket(weekly, keys[i], dayOf)|)
  }

  /** `Math.max(...counts, 1)`. */
  function MaxCount(cs: seq<nat>): (m: nat)
    ensures m >= 1
    ensures forall i :: 0 <= i < |cs| ==> cs[i] <= m
    ensures m == 1 || exists i :: 0 <= i < |cs| && cs[i] == m
  {
    if |cs| == 0 then 1
    else
      var rest := MaxCount(cs[1..]);
      assert forall i :: 1 <= i < |cs| ==> cs[i] == cs[1..][i - 1];
      if cs[0] >= rest then cs[0] else rest
  }

  /** `timelineData`: one bucket per date key, its count, and the peak. A
      task whose key is not among the seven is dropped. */
  function TimelineData(weekly: seq<Task>, r: Range, shift: int, dayOf: Json.Value -> Option<int>): (tl: Timeline)
    ensures tl.dates == DateKeys(r, shift)
    ensures |tl.taskCounts| == |tl.dates|
    ensures forall i :: 0 <= i < |tl.dates| ==> tl.taskCounts[i] == |Bucket(weekly, tl.dates[i], dayOf)|
    ensures tl.tasksByDate.Keys == set k | k in tl.dates
    ensures forall k :: k in tl.tasksByDate ==> tl.tasksByDate[k] == Bucket(weekly, k, dayOf)
    ensures tl.maxCount >= 1 && forall i :: 0 <= i < |tl.taskCounts| ==> tl.taskCounts[i] <= tl.maxCount
  {
    var keys := DateKeys(r, shift);
    var cs := Counts(weekly, keys, dayOf);
    Timeline(keys, cs, map k | k in keys :: Bucket(weekly, k, dayOf), MaxCount(cs))
  }

  /** `getTasksForDate`: the bucket of a key of the week, [] for any other
      key. */
  function GetTasksForDate(tl: Timeline, key: int): (ts: seq<Task>)
    ensures key !in tl.tasksByDate ==> ts == []
    ensures key in tl.tasksByDate ==> ts == tl.tasksByDate[key]
  {
    if key in tl.tasksByDate then tl.tasksByDate[key] else []
  }

  // ----- counting lemmas -----

  function SumCounts(cs: seq<nat>): nat {
    if |cs| == 0 then 0 else cs[0] + SumCounts(cs[1..])
  }

  predicate Distinct(ks: seq<int>) {
    forall i, j :: 0 <= i < j < |ks| ==> ks[i] != ks[j]
  }

  /** The tasks whose due day is one of the keys. */
  function OnKeys(ts: seq<Task>, ks: seq<int>, dayOf: Json.Value -> Option<int>): nat {
    if |ts| == 0 then 0
    else (if dayOf(ts[0].dueDate).Some? && dayOf(ts[0].dueDate).value in ks then 1 else 0) + OnKeys(ts[1..], ks, dayOf)
  }

  function SumBuckets(ts: seq<Task>, ks: seq<int>, dayOf: Json.Value -> Option<int>): nat {
    if |ks| == 0 then 0 else |Bucket(ts, ks[0], dayOf)| + SumBuckets(ts, ks[1..], dayOf)
  }

  lemma {:induction false} SumOfCounts(cs: seq<nat>, ts: seq<Task>, ks: seq<int>, dayOf: Json.Value -> Option<int>)
    requires |cs| == |ks| && forall i :: 0 <= i < |ks| ==> cs[i] == |Bucket(ts, ks[i], dayOf)|
    ensures SumCounts(cs) == SumBuckets(ts, ks, dayOf)
  {
    if |ks| > 0 {
      SumOfCounts(cs[1..], ts, ks[1..], dayOf);
    }
  }

  /** Bucket sizes over distinct keys add up to the number of tasks on
      those keys: each task sits in at most one bucket. */
  lemma {:induction false} BucketsPartition(ts: seq<Task>, ks: seq<int>, dayOf: Json.Value -> Option<int>)
    requires Distinct(ks)
    ensures SumBuckets(ts, ks, dayOf) == OnKeys(ts, ks, dayOf)
  {
    if |ts| > 0 {
      BucketsPartition(ts[1..], ks, dayOf);
      PeelFirstTask(ts, ks, dayOf);
    } else {
      NoTasksNoBuckets(ts, ks, dayOf);
    }
  }

  lemma {:induction false} NoTasksNoBuckets(ts: seq<Task>, ks: seq<int>, dayOf: Json.Value -> Option<int>)
    requires |ts| == 0
    ensures SumBuckets(ts, ks, dayOf) == 0
  {
    if |ks| > 0 {
      NoTasksNoBuckets(ts, ks[1..], dayOf);
    }
  }

  /** Removing the first task lowers the bucket sum by one exactly when its
      day is one of the (distinct) keys. */
  lemma {:induction false} PeelFirstTask(ts: seq<Task>, ks: seq<int>, dayOf: Json.Value -> Option<int>)
    requires |ts| > 0 && Distinct(ks)
    ensures SumBuckets(ts, ks, dayOf) == SumBuckets(ts[1..], ks, dayOf)
              + (if dayOf(ts[0].dueDate).Some? && dayOf(ts[0].dueDate).value in ks then 1 else 0)
  {
    if |ks| > 0 {
      assert Distinct(ks[1..]) by {
        forall i, j | 0 <= i < j < |ks[1..]| ensures ks[1..][i] != ks[1..][j] {
          assert ks[1..][i] == ks[i + 1] && ks[1..][j] == ks[j + 1];
        }
      }
      PeelFirstTask(ts, ks[1..], dayOf);
      var d := dayOf(ts[0].dueDate);
      assert d.Some? && d.value in ks <==> d == Some(ks[0]) || (d.Some? && d.value in ks[1..]) by {
        assert ks == [ks[0]] + ks[1..];
      }
      if d == Some(ks[0]) {
        assert ks[0] !in ks[1..] by {
          forall j | 0 <= j < |ks[1..]| ensures ks[1..][j] != ks[0] {
            assert ks[1..][j] == ks[j + 1];
          }
        }
      }
    }
  }

  lemma {:induction false} OnKeysAtMost(ts: seq<Task>, ks: seq<int>, dayOf: Json.Value -> Option<int>)
    ensures OnKeys(ts, ks, dayOf) <= |ts|
  {
    if |ts| > 0 {
      OnKeysAtMost(ts[1..], ks, dayOf);
    }
  }

  lemma {:induction false} OnKeysAll(ts: seq<Task>, ks: seq<int>, dayOf: Json.Value -> Option<int>)
    requires forall t :: t in ts ==> dayOf(t.dueDate).Some? && dayOf(t.dueDate).value in ks
    ensures OnKeys(ts, ks, dayOf) == |ts|
  {
    if |ts| > 0 {
      assert ts[0] in ts;
      assert forall t :: t in ts[1..] ==> t in ts;
      OnKeysAll(ts[1..], ks, dayOf);
    }
  }

  /** The keys of a week are seven distinct days. */
  lemma DateKeysDistinct(r: Range, shift: int)
    requires |r.dates| == 7 && forall i :: 0 <= i < 7 ==> r.dates[i] == r.start + i
    ensures Distinct(DateKeys(r, shift))
  {
  }

  /** Unshifted, every task of the week has its due day among the keys. */
  lemma WeeklyOnKeys(weekly: seq<Task>, r: Range, dayOf: Json.Value -> Option<int>)
    requires r.end == r.start + 6
    requires |r.dates| == 7 && forall i :: 0 <= i < 7 ==> r.dates[i] == r.start + i
    requires forall t :: t in weekly ==> InWeek(t, r, dayOf)
    ensures forall t :: t in weekly ==> dayOf(t.dueDate).Some? && dayOf(t.dueDate).value in DateKeys(r, 0)
  {
    var ks := DateKeys(r, 0);
    forall t | t in weekly
      ensures dayOf(t.dueDate).Some? && dayOf(t.dueDate).value in ks
    {
      var d := dayOf(t.dueDate).value;
      assert ks[d - r.start] == d;
    }
  }

  /** The per-day counts never exceed the week's task count, and match it
      when the keys are not shifted. */
  lemma TimelineCountsWeekly(tasks: Option<seq<Task>>, today: int, offset: int, shift: int,
                             dayOf: Json.Value -> Option<int>)
    ensures var r := WeekRange(today, offset);
            var weekly := WeeklyTasks(tasks, r, dayOf);
            var tl := TimelineData(weekly, r, shift, dayOf);
            && SumCounts(tl.taskCounts) <= |weekly|
            && (shift == 0 ==> SumCounts(tl.taskCounts) == |weekly|)
  {
    var r := WeekRange(today, offset);
    var weekly := WeeklyTasks(tasks, r, dayOf);
    var tl := TimelineData(weekly, r, shift, dayOf);
    var ks := tl.dates;
    DateKeysDistinct(r, shift);
    SumOfCounts(tl.taskCounts, weekly, ks, dayOf);
    BucketsPartition(weekly, ks, dayOf);
    OnKeysAtMost(weekly, ks, dayOf);
    if shift == 0 {
      WeeklyOnKeys(weekly, r, dayOf);
      OnKeysAll(weekly, ks, dayOf);
    }
  }

  // ----- summary -----

  datatype Summary = Summary(total: nat, byStatus: seq<Tally.Entry<string>>, peakDay: nat, daysWithTasks: nat)

  /** The property names `acc[task.status]` files the tasks under. */
  function Statuses(ts: seq<Task>): (ss: seq<string>)
    ensures |ss| == |ts| && forall i :: 0 <= i < |ts| ==> ss[i] == Json.JsPropertyKey(ts[i].status)
  {
    seq(|ts|, i requires 0 <= i < |ts| => Json.JsPropertyKey(ts[i].status))
  }

  predicate IsPositive(c: nat) { c > 0 }

  /** `filter(count => count > 0).length`. */
  function CountPositive(cs: seq<nat>): (n: nat)
    ensures n == |set i | 0 <= i < |cs| && cs[i] > 0|
    ensures n <= |cs|
  {
    assert Counting.Positions(cs, IsPositive) == set i | 0 <= i < |cs| && cs[i] > 0;
    Counting.Count(cs, IsPositive)
  }

  /** `weekSummary`: the week's task count, a tally by status property name
      that adds up to it, the peak day count, and how many of the days have
      tasks. */
  function WeekSummary(weekly: seq<Task>, tl: Timeline): (s: Summary)
    ensures s.total == |weekly|
    ensures Tally.Sum(s.byStatus) == s.total
    ensures forall k :: Tally.Lookup(s.byStatus, k) == Tally.Occurrences(Statuses(weekly), k)
    ensures s.peakDay == tl.maxCount
    ensures s.daysWithTasks == |set i | 0 <= i < |tl.taskCounts| && tl.taskCounts[i] > 0|
  {
    Summary(|weekly|, Tally.Count(Statuses(weekly)), tl.maxCount, CountPositive(tl.taskCounts))
  }

  /** No more days have tasks than there are tasks: each day with tasks
      holds at least one of them. */
  lemma {:induction false} PositiveAtMostSum(cs: seq<nat>)
    ensures CountPositive(cs) <= SumCounts(cs)
  {
    if |cs| > 0 {
      PositiveAtMostSum(cs[1..]);
      Counting.CountFront(cs, IsPositive);
    }
  }

  /** In the summary of any week, the days with tasks number at most seven
      and at most the week's tasks. */
  lemma DaysWithTasksAtMostTasks(tasks: Option<seq<Task>>, today: int, offset: int, shift: int,
                                 dayOf: Json.Value -> Option<int>)
    ensures var r := WeekRange(today, offset);
            var weekly := WeeklyTasks(tasks, r, dayOf);
            var s := WeekSummary(weekly, TimelineData(weekly, r, shift, dayOf));
            s.daysWithTasks <= 7 && s.daysWithTasks <= s.total
  {
    var r := WeekRange(today, offset);
    var weekly := WeeklyTasks(tasks, r, dayOf);
    var tl := TimelineData(weekly, r, shift, dayOf);
    TimelineCountsWeekly(tasks, today, offset, shift, dayOf);
    PositiveAtMostSum(tl.taskCounts);
  }
}

=== FILE: text.dfy ===
/** Text primitives shared by the JavaScript utilities and the Python
    services: the two languages' whitespace classes and trimming, ASCII case
    mapping, substring search, splitting and decimal rendering. */
module Text {

  /** ECMAScript WhiteSpace and LineTerminator code points: what `\s`
      matches and what `String.prototype.trim` removes. */
  predicate IsJsSpace(c: char) {
    || c == ' ' || c == '\t' || c == '\n' || c == '\r' || c == '\U{000B}' || c == '\U{000C}'
    || c == '\U{00A0}' || c == '\U{1680}' || ('\U{2000}' <= c <= '\U{200A}')
    || c == '\U{2028}' || c == '\U{2029}' || c == '\U{202F}' || c == '\U{205F}'
    || c == '\U{3000}' || c == '\U{FEFF}'
  }

  /** Python's `str.isspace()` code points: what `str.strip()` removes. */
  predicate IsPySpace(c: char) {
    || c == ' ' || c == '\t' || c == '\n' || c == '\r' || c == '\U{000B}' || c == '\U{000C}'
    || ('\U{001C}' <= c <= '\U{001F}') || c == '\U{0085}'
    || c == '\U{00A0}' || c == '\U{1680}' || ('\U{2000}' <= c <= '\U{200A}')
    || c == '\U{2028}' || c == '\U{2029}' || c == '\U{202F}' || c == '\U{205F}'
    || c == '\U{3000}'
  }

  /** The ECMAScript line terminators, which a regular-expression `.` does
      not match. */
  predicate IsLineTerminator(c: char) {
    c == '\n' || c == '\r' || c == '\U{2028}' || c == '\U{2029}'
  }

  predicate AllSpace(s: string, sp: char -> bool) {
    forall i :: 0 <= i < |s| ==> sp(s[i])
  }

  /** Drops the leading characters that satisfy `sp`. */
  function DropLeading(s: string, sp: char -> bool): (r: string)
    ensures |r| <= |s| && r == s[|s| - |r|..]
    ensures |r| > 0 ==> !sp(s[|s| - |r|])
    ensures forall i :: 0 <= i < |s| - |r| ==> sp(s[i])
  {
    if |s| > 0 && sp(s[0]) then DropLeading(s[1..], sp) else s
  }

  /** Drops the trailing characters that satisfy `sp`. */
  function DropTrailing(s: string, sp: char -> bool): (r: string)
    ensures |r| <= |s| && r == s[..|r|]
    ensures |r| > 0 ==> !sp(s[|r| - 1])
    ensures forall i :: |r| <= i < |s| ==> sp(s[i])
  {
    if |s| > 0 && sp(s[|s| - 1]) then DropTrailing(s[..|s| - 1], sp) else s
  }

  /** `r` occurs in `s` at `i` with nothing but `sp` characters around it. */
  predicate PaddedAt(s: string, r: string, i: int, sp: char -> bool) {
    OccursAt(s, r, i) && AllSpace(s[..i], sp) && AllSpace(s[i + |r|..], sp)
  }

  /** Removes whitespace (as classified by `sp`) from both ends: what is
      left is `s` less a run of whitespace on either side, and nothing is
      left exactly when `s` is all whitespace. */
  function Strip(s: string, sp: char -> bool): (r: string)
    ensures |r| <= |s|
    ensures exists i :: OccursAt(s, r, i)
    ensures exists i :: PaddedAt(s, r, i, sp)
    ensures |r| > 0 ==> !sp(r[0]) && !sp(r[|r| - 1])
    ensures |r| == 0 <==> AllSpace(s, sp)
  {
    var a := DropLeading(s, sp);
    var r := DropTrailing(a, sp);
    PadOfParts(s, a, r, sp);
    assert OccursAt(s, r, |s| - |a|);
    r
  }

  /** Dropping the leading and then the trailing whitespace (`a`, then
      `r`) leaves `s` less a whitespace run on either side, and nothing
      exactly when `s` is all whitespace. */
  lemma {:induction false} PadOfParts(s: string, a: string, r: string, sp: char -> bool)
    requires |a| <= |s| && a == s[|s| - |a|..]
    requires |a| > 0 ==> !sp(s[|s| - |a|])
    requires forall j :: 0 <= j < |s| - |a| ==> sp(s[j])
    requires |r| <= |a| && r == a[..|r|]
    requires forall j :: |r| <= j < |a| ==> sp(a[j])
    requires |r| > 0 ==> !sp(a[|r| - 1])
    ensures PaddedAt(s, r, |s| - |a|, sp) && (|r| == 0 <==> AllSpace(s, sp))
    ensures |r| > 0 ==> !sp(r[0]) && !sp(r[|r| - 1])
  {
    var i := |s| - |a|;
    assert forall j :: i <= j < |s| ==> s[j] == a[j - i];
    assert s[i..i + |r|] == r;
    assert forall j :: 0 <= j < i ==> s[..i][j] == s[j];
    var tail := s[i + |r|..];
    assert forall j :: 0 <= j < |tail| ==> tail[j] == a[|r| + j];
    if |r| > 0 {
      assert !sp(s[i]) && r[|r| - 1] == a[|r| - 1];
    }
  }

  /** `String.prototype.trim`. */
  function JsTrim(s: string): string {
    Strip(s, IsJsSpace)
  }

  /** Python `str.strip()` with no argument. */
  function PyStrip(s: string): string {
    Strip(s, IsPySpace)
  }

  /** Stripping is idempotent: a stripped string has no whitespace left at
      either end. */
  lemma StripIdempotent(s: string, sp: char -> bool)
    ensures Strip(Strip(s, sp), sp) == Strip(s, sp)
  {
    var r := Strip(s, sp);
    if |r| > 0 {
      assert DropLeading(r, sp) == r;
      assert DropTrailing(r, sp) == r;
    }
  }

  /** A string strips to the empty string exactly when all of it is
      whitespace. */
  lemma {:induction false} StripEmptyIffAllSpace(s: string, sp: char -> bool)
    ensures Strip(s, sp) == "" <==> AllSpace(s, sp)
  {
    var a := DropLeading(s, sp);
    var r := DropTrailing(a, sp);
    assert |a| > 0 ==> s[|s| - |a|] == a[0];
    if r == "" {
      assert a[|r|..] == a;
      assert s == s[..|s| - |a|] + a;
    }
  }

  // ----- case mapping -----

  /** ASCII upper-case letters map to lower case; every other character is
      kept. */
  function LowerChar(c: char): char {
    if 'A' <= c <= 'Z' then (c as int + 32) as char else c
  }

  /** `lower()` / `toLowerCase()` on ASCII letters. */
  function Lower(s: string): (r: string)
    ensures |r| == |s|
  {
    if |s| == 0 then "" else [LowerChar(s[0])] + Lower(s[1..])
  }

  /** Lower-casing works character by character. */
  lemma {:induction false} LowerAt(s: string)
    ensures forall i :: 0 <= i < |s| ==> Lower(s)[i] == LowerChar(s[i])
  {
    if |s| > 0 {
      LowerAt(s[1..]);
    }
  }

  // ----- character classes -----

  predicate IsAsciiDigit(c: char) { '0' <= c <= '9' }
  predicate IsAsciiUpper(c: char) { 'A' <= c <= 'Z' }
  predicate IsAsciiLower(c: char) { 'a' <= c <= 'z' }

  /** A regular-expression word character, `\w` = `[A-Za-z0-9_]`. */
  predicate IsWordChar(c: char) {
    IsAsciiUpper(c) || IsAsciiLower(c) || IsAsciiDigit(c) || c == '_'
  }

  predicate AllDigits(s: string) {
    forall i :: 0 <= i < |s| ==> IsAsciiDigit(s[i])
  }

  /** Whether some character of `s` belongs to the class `p`
      (`/[...]/.test(s)` for a one-class pattern). */
  predicate HasChar(s: string, p: char -> bool) {
    exists i :: 0 <= i < |s| && p(s[i])
  }

  // ----- substrings -----

  predicate StartsWith(s: string, prefix: string) {
    |prefix| <= |s| && s[..|prefix|] == prefix
  }

  /** Whether `needle` occurs in `s` at index `i`. */
  predicate OccursAt(s: string, needle: string, i: int) {
    0 <= i <= |s| - |needle| && s[i..i + |needle|] == needle
  }

  /** Substring search (`in` in Python, `includes` in JavaScript). */
  function Contains(s: string, needle: string): (b: bool)
    ensures b <==> exists i :: OccursAt(s, needle, i)
  {
    if StartsWith(s, needle) then
      assert OccursAt(s, needle, 0);
      true
    else if |s| == 0 then
      assert forall i :: !OccursAt(s, needle, i);
      false
    else
      var b := Contains(s[1..], needle);
      assert forall i :: OccursAt(s[1..], needle, i) <==> OccursAt(s, needle, i + 1) by {
        forall i ensures OccursAt(s[1..], needle, i) <==> OccursAt(s, needle, i + 1) {
          if 0 <= i <= |s[1..]| - |needle| {
            assert s[1..][i..i + |needle|] == s[i + 1..i + 1 + |needle|];
          }
        }
      }
      assert forall i :: OccursAt(s, needle, i) ==> i == 0 || OccursAt(s[1..], needle, i - 1);
      b
  }

  /** A text lacking one of the needle's characters does not contain the
      needle. */
  lemma MissingCharNotContained(s: string, needle: string, c: char)
    requires c in needle && c !in s
    ensures !Contains(s, needle)
  {
    var k :| 0 <= k < |needle| && needle[k] == c;
    forall i ensures !OccursAt(s, needle, i) {
      if 0 <= i <= |s| - |needle| {
        assert s[i..i + |needle|][k] == s[i + k];
      }
    }
  }

  /** Index of the first occurrence of character `c`, if any. */
  function IndexOf(s: string, c: char): (r: int)
    ensures -1 <= r < |s|
    ensures r >= 0 ==> s[r] == c && c !in s[..r]
    ensures r == -1 ==> c !in s
  {
    if |s| == 0 then -1
    else if s[0] == c then 0
    else
      var k := IndexOf(s[1..], c);
      if k == -1 then -1
      else
        assert s[..k + 1] == [s[0]] + s[1..][..k];
        k + 1
  }

  /** The first occurrence of `c` in `a + b`, when `a` lacks `c` and `b`
      starts with it, is where `b` begins. */
  lemma {:induction false} IndexOfAfter(a: string, b: string, c: char)
    requires c !in a && |b| > 0 && b[0] == c
    ensures IndexOf(a + b, c) == |a|
  {
    if |a| > 0 {
      assert (a + b)[1..] == a[1..] + b;
      IndexOfAfter(a[1..], b, c);
    }
  }

  /** `String.prototype.lastIndexOf` for a one-character argument. */
  function LastIndexOf(s: string, c: char): (r: int)
    ensures -1 <= r < |s|
    ensures r >= 0 ==> s[r] == c && c !in s[r + 1..]
    ensures r == -1 ==> c !in s
  {
    if |s| == 0 then -1
    else if s[|s| - 1] == c then |s| - 1
    else
      var p := s[..|s| - 1];
      var r := LastIndexOf(p, c);
      assert s == p + [s[|s| - 1]];
      assert r >= 0 ==> s[r + 1..] == p[r + 1..] + [s[|s| - 1]];
      r
  }

  /** Python `s.split(sep)` for a one-character separator: the pieces
      between separators, empty pieces included. */
  function Split(s: string, sep: char): (r: seq<string>)
    ensures |r| >= 1
    ensures forall k :: 0 <= k < |r| ==> sep !in r[k]
    decreases |s|
  {
    var i := IndexOf(s, sep);
    if i == -1 then [s] else [s[..i]] + Split(s[i + 1..], sep)
  }

  /** Splitting at the first separator: a piece without the separator,
      the separator, then the rest splits into that piece and the rest's
      pieces. */
  lemma SplitAt(a: string, b: string, sep: char)
    requires sep !in a
    ensures Split(a + [sep] + b, sep) == [a] + Split(b, sep)
  {
    var s := a + [sep] + b;
    assert s == a + ([sep] + b);
    IndexOfAfter(a, [sep] + b, sep);
    assert s[..|a|] == a && s[|a| + 1..] == b;
  }

  /** `sep.join(parts)`. */
  function Join(parts: seq<string>, sep: string): string {
    if |parts| == 0 then ""
    else if |parts| == 1 then parts[0]
    else parts[0] + sep + Join(parts[1..], sep)
  }

  /** Splitting and re-joining with the same separator gives back the
      original text. */
  lemma {:induction false} JoinSplit(s: string, sep: char)
    ensures Join(Split(s, sep), [sep]) == s
    decreases |s|
  {
    var i := IndexOf(s, sep);
    if i != -1 {
      JoinSplit(s[i + 1..], sep);
      JoinSplitStep(s, sep, i);
    }
  }

  lemma JoinSplitStep(s: string, sep: char, i: int)
    requires i == IndexOf(s, sep) && i != -1
    requires Join(Split(s[i + 1..], sep), [sep]) == s[i + 1..]
    ensures Join(Split(s, sep), [sep]) == s
  {
    var a, b := s[..i], s[i + 1..];
    assert s == a + [sep] + b;
    SplitAt(a, b, sep);
    JoinCons(a, Split(b, sep), [sep]);
  }

  lemma JoinCons(a: string, rest: seq<string>, sep: string)
    requires |rest| >= 1
    ensures Join([a] + rest, sep) == a + sep + Join(rest, sep)
  {
    assert ([a] + rest)[1..] == rest;
  }

  /** When the separator occurs, the split has at least two pieces and the
      first is the text before its first occurrence. */
  lemma SplitHasSecond(s: string, sep: char)
    requires sep in s
    ensures |Split(s, sep)| >= 2
    ensures Split(s, sep)[0] == s[..IndexOf(s, sep)]
  {
  }

  // ----- UTF-16 length -----

  /** The number of UTF-16 code units of one character: JavaScript's
      `length` counts these. */
  function Utf16Units(c: char): nat {
    if c as int > 0xFFFF then 2 else 1
  }

  /** JavaScript's `s.length`. */
  function JsLength(s: string): (n: nat)
    ensures n >= |s|
    ensures n <= 2 * |s|
  {
    if |s| == 0 then 0 else JsLength(s[..|s| - 1]) + Utf16Units(s[|s| - 1])
  }

  /** On text without astral-plane characters, `length` counts characters. */
  lemma {:induction false} JsLengthOfBmp(s: string)
    requires forall i :: 0 <= i < |s| ==> s[i] as int <= 0xFFFF
    ensures JsLength(s) == |s|
  {
    if |s| > 0 {
      JsLengthOfBmp(s[..|s| - 1]);
    }
  }

  // ----- decimal rendering -----

  function DigitChar(d: nat): char
    requires d < 10
  {
    ('0' as int + d) as char
  }

  function DigitValue(c: char): nat
    requires IsAsciiDigit(c)
  {
    c as int - '0' as int
  }

  /** Decimal digits of a natural number, without leading zeros. */
  function NatToString(n: nat): (s: string)
    ensures |s| >= 1 && AllDigits(s)
    ensures |s| > 1 ==> s[0] != '0'
  {
    if n < 10 then [DigitChar(n)]
    else NatToString(n / 10) + [DigitChar(n % 10)]
  }

  /** `str(i)` / template rendering of an integer. */
  function IntToString(i: int): string {
    if i < 0 then "-" + NatToString(-i) else NatToString(i)
  }

  /** Python `int(s)` on a string of ASCII digits (leading zeros allowed). */
  function ParseNat(s: string): nat
    requires AllDigits(s)
  {
    if |s| == 0 then 0 else 10 * ParseNat(s[..|s| - 1]) + DigitValue(s[|s| - 1])
  }

  /** Rendering a natural number and parsing it back gives the number. */
  lemma {:induction false} ParseNatToString(n: nat)
    ensures ParseNat(NatToString(n)) == n
  {
    if n >= 10 {
      var s := NatToString(n);
      assert s[..|s| - 1] == NatToString(n / 10);
      ParseNatToString(n / 10);
    }
  }
}

=== FILE: theme.dfy ===
/** The colour theme: the shared dark-mode flag, the preference kept in
    local storage under THEME_KEY, and whether the document root carries
    the `dark` class. The system preference arrives as a parameter. */
module Theme {
  import opened Common

  const THEME_KEY := "smart-task-manager-theme"
  const DARK := "dark"
  const LIGHT := "light"

  /** `stored` is what `localStorage.getItem(THEME_KEY)` returns, None for
      null. */
  datatype State = State(isDarkMode: bool, stored: Option<string>, documentDark: bool)

  /** Module load: light, with whatever storage and document there are. */
  function Initial(stored: Option<string>, documentDark: bool): (s: State)
    ensures !s.isDarkMode && s.stored == stored
  {
    State(false, stored, documentDark)
  }

  /** A stored preference counts only when it is a non-empty string. */
  predicate HasPreference(s: State) {
    s.stored.Some? && s.stored.value != ""
  }

  /** The document shows the theme in force. */
  predicate Applied(s: State) {
    s.documentDark == s.isDarkMode
  }

  /** `applyTheme`. */
  function ApplyTheme(s: State): (r: State)
    ensures Applied(r)
    ensures r.isDarkMode == s.isDarkMode && r.stored == s.stored
  {
    s.(documentDark := s.isDarkMode)
  }

  /** `initializeTheme`: a stored preference decides (dark exactly when it
      is "dark"); without one the system preference does. */
  function InitializeTheme(s: State, systemDark: bool): (r: State)
    ensures Applied(r) && r.stored == s.stored
    ensures HasPreference(s) ==> (r.isDarkMode <==> s.stored.value == DARK)
    ensures !HasPreference(s) ==> r.isDarkMode == systemDark
  {
    var dark := if HasPreference(s) then s.stored.value == DARK else systemDark;
    ApplyTheme(s.(isDarkMode := dark))
  }

  /** `toggleTheme`: flips the mode and stores the name of the new one. */
  function ToggleTheme(s: State): (r: State)
    ensures Applied(r)
    ensures r.isDarkMode == !s.isDarkMode
    ensures r.stored == Some(if r.isDarkMode then DARK else LIGHT)
  {
    var dark := !s.isDarkMode;
    ApplyTheme(State(dark, Some(if dark then DARK else LIGHT), s.documentDark))
  }

  /** `setTheme`: dark exactly for "dark"; the name is stored as given. */
  function SetTheme(s: State, theme: string): (r: State)
    ensures Applied(r)
    ensures r.isDarkMode <==> theme == DARK
    ensures r.stored == Some(theme)
  {
    ApplyTheme(State(theme == DARK, Some(theme), s.documentDark))
  }

  /** The system-theme listener: follows the system only while no
      preference is stored. */
  function SystemThemeChanged(s: State, matches: bool): (r: State)
    ensures HasPreference(s) ==> r == s
    ensures !HasPreference(s) ==> Applied(r) && r.isDarkMode == matches && r.stored == s.stored
  {
    if HasPreference(s) then s else ApplyTheme(s.(isDarkMode := matches))
  }

  /** A toggled theme survives a reload: initialising from what was stored
      gives the same mode, whatever the system prefers. */
  lemma ToggleSurvivesReload(s: State, systemDark: bool)
    ensures InitializeTheme(ToggleTheme(s), systemDark).isDarkMode == ToggleTheme(s).isDarkMode
  {
  }

  /** After `setTheme(t)` a reload gives the mode `t` named, unless `t` is
      the empty string, which is no preference at all and leaves the system
      in charge. */
  lemma SetThemeSurvivesReload(s: State, theme: string, systemDark: bool)
    ensures InitializeTheme(SetTheme(s, theme), systemDark).isDarkMode
            == if theme != "" then theme == DARK else systemDark
  {
  }

  /** Every operation leaves the document showing the mode in force, and
      the system listener keeps that once it holds. */
  lemma AppliedPreserved(s: State, systemDark: bool, theme: string)
    requires Applied(s)
    ensures Applied(SystemThemeChanged(s, systemDark))
    ensures Applied(InitializeTheme(s, systemDark)) && Applied(ToggleTheme(s)) && Applied(SetTheme(s, theme))
  {
  }
}

=== FILE: user_authentication.dfy ===
/** The authentication service: account lockout after repeated wrong
    passwords, the order of checks at login, server-side sessions with an
    absolute expiry and an inactivity timeout, bearer-token extraction, the
    audit log and registration. The `user` and `user_sessions` tables are
    sequences of rows (a select takes the first match, an update or delete
    touches every match); the clock is integer milliseconds; password
    hashing and verification, token generation and the database-assigned
    ids are parameters. */
module UserAuthentication {
  import opened Common
  import Json
  import Text

  const MAX_FAILED_ATTEMPTS: int := 5
  /** Fifteen minutes, in milliseconds. */
  const ACCOUNT_LOCK_DURATION: int := 15 * 60 * 1000
  const SESSION_TIMEOUT: int := 15 * 60 * 1000

  /** The error texts the endpoints answer with. */
  const MSG_LOCKED := "Account temporarily locked due to multiple failed login attempts. Please try again later."
  const MSG_CREDENTIALS_REQUIRED := "Email and password are required"
  const MSG_INVALID_CREDENTIALS := "Invalid email or password"
  const MSG_DEACTIVATED := "Account is deactivated"
  const MSG_LOGIN_ERROR := "An error occurred during login"
  const MSG_REGISTRATION_FIELDS := "Email, password, and name are required"
  const MSG_REGISTRATION_ERROR := "An error occurred during registration"

  /** A row of the `user` table. `isActive` and `failedAttempts` are None
      when the column holds NULL; `lockedUntil` is None when it holds NULL
      or an empty string. */
  datatype UserRow = UserRow(
    userId: string,
    email: string,
    password: string,
    name: Json.Value,
    role: Json.Value,
    department: Json.Value,
    superior: Json.Value,
    isActive: Option<bool>,
    isLocked: bool,
    lockedUntil: Option<int>,
    failedAttempts: Option<int>,
    lastLogin: Option<int>)

  /** A row of the `user_sessions` table. */
  datatype SessionRow = SessionRow(
    sessionId: Json.Value,
    userId: string,
    token: string,
    expiresAt: int,
    lastActivity: int)

  /** A row of the `audit_logs` table (client address and agent left out). */
  datatype AuditRow = AuditRow(
    userId: string,
    sessionId: Json.Value,
    eventType: Json.Value,
    description: Json.Value,
    metadata: Json.Value)

  datatype Db = Db(users: seq<UserRow>, sessions: seq<SessionRow>, audit: seq<AuditRow>)

  /** The column updates the service issues against one user id. */
  datatype Patch =
    | SetFailed(attempts: int)
    | LockUntil(attempts: int, until: int)
    | Unlock
    | LoginSucceeded(at: int)

  function Apply(u: UserRow, p: Patch): UserRow {
    match p
    case SetFailed(n) => u.(failedAttempts := Some(n))
    case LockUntil(n, t) => u.(failedAttempts := Some(n), isLocked := true, lockedUntil := Some(t))
    case Unlock => u.(isLocked := false, lockedUntil := None)
    case LoginSucceeded(t) =>
      u.(failedAttempts := Some(0), isLocked := false, lockedUntil := None, lastLogin := Some(t))
  }

  /** `update(...).eq("user_id", id)`: patches every row with that id and no
      other. */
  function UpdateUser(users: seq<UserRow>, id: string, p: Patch): (r: seq<UserRow>)
    ensures |r| == |users|
    ensures forall i :: 0 <= i < |users| ==>
              r[i] == if users[i].userId == id then Apply(users[i], p) else users[i]
  {
    seq(|users|, i requires 0 <= i < |users| =>
      if users[i].userId == id then Apply(users[i], p) else users[i])
  }

  /** Index of the first row satisfying a column equality, or -1. */
  function FindUserByEmail(users: seq<UserRow>, email: string): (i: int)
    ensures -1 <= i < |users|
    ensures i >= 0 ==> users[i].email == email
    ensures forall j :: 0 <= j < |users| && (i == -1 || j < i) ==> users[j].email != email
  {
    FirstIndex(users, (u: UserRow) => u.email == email)
  }

  function FindUserById(users: seq<UserRow>, id: string): (i: int)
    ensures -1 <= i < |users|
    ensures i >= 0 ==> users[i].userId == id
    ensures i == -1 ==> forall j :: 0 <= j < |users| ==> users[j].userId != id
  {
    FirstIndex(users, (u: UserRow) => u.userId == id)
  }

  function FindSession(sessions: seq<SessionRow>, token: string): (i: int)
    ensures -1 <= i < |sessions|
    ensures i >= 0 ==> sessions[i].token == token
    ensures i == -1 ==> forall j :: 0 <= j < |sessions| ==> sessions[j].token != token
  {
    FirstIndex(sessions, (r: SessionRow) => r.token == token)
  }

  /** `delete().eq("session_token", token)`. */
  function DeleteSessions(sessions: seq<SessionRow>, token: string): (r: seq<SessionRow>)
    ensures forall j :: 0 <= j < |r| ==> r[j].token != token
    ensures forall s :: s in sessions && s.token != token ==> s in r
    ensures forall s :: s in r ==> s in sessions
  {
    if |sessions| == 0 then []
    else
      var rest := DeleteSessions(sessions[1..], token);
      assert sessions == [sessions[0]] + sessions[1..];
      if sessions[0].token == token then rest else [sessions[0]] + rest
  }

  /** `update({"last_activity": now}).eq("session_token", token)`. */
  function TouchSessions(sessions: seq<SessionRow>, token: string, now: int): (r: seq<SessionRow>)
    ensures |r| == |sessions|
    ensures forall j :: 0 <= j < |sessions| ==>
              r[j] == if sessions[j].token == token then sessions[j].(lastActivity := now) else sessions[j]
  {
    seq(|sessions|, j requires 0 <= j < |sessions| =>
      if sessions[j].token == token then sessions[j].(lastActivity := now) else sessions[j])
  }

  // ----- lockout -----

  /** Whether the account is locked at `now`. A lock whose time has passed
      is lifted in the table (flag cleared, time set to NULL) and reported as
      not locked; a set flag without a lock time stays locked. */
  function IsAccountLocked(db: Db, u: UserRow, now: int): (res: (bool, Db))
    ensures u.isLocked && u.lockedUntil.Some? && now < u.lockedUntil.value ==> res == (true, db)
    ensures u.isLocked && u.lockedUntil.Some? && now >= u.lockedUntil.value ==>
              res == (false, db.(users := UpdateUser(db.users, u.userId, Unlock)))
    ensures !(u.isLocked && u.lockedUntil.Some?) ==> res == (u.isLocked, db)
  {
    if u.isLocked && u.lockedUntil.Some? then
      if now < u.lockedUntil.value then (true, db)
      else (false, db.(users := UpdateUser(db.users, u.userId, Unlock)))
    else (u.isLocked, db)
  }

  /** One more failed attempt; reaching MAX_FAILED_ATTEMPTS locks the
      account for ACCOUNT_LOCK_DURATION from `now`. */
  function FailedAttemptPatch(current: int, now: int): (p: Patch)
    ensures current + 1 >= MAX_FAILED_ATTEMPTS ==>
              p == LockUntil(current + 1, now + ACCOUNT_LOCK_DURATION)
    ensures current + 1 < MAX_FAILED_ATTEMPTS ==> p == SetFailed(current + 1)
  {
    var attempts := current + 1;
    if attempts >= MAX_FAILED_ATTEMPTS then LockUntil(attempts, now + ACCOUNT_LOCK_DURATION)
    else SetFailed(attempts)
  }

  function IncrementFailedAttempts(db: Db, userId: string, current: int, now: int): (r: Db)
    ensures r.sessions == db.sessions && r.audit == db.audit
    ensures |r.users| == |db.users|
    ensures forall i :: 0 <= i < |db.users| && db.users[i].userId == userId ==>
              && r.users[i].failedAttempts == Some(current + 1)
              && (r.users[i].isLocked <==> db.users[i].isLocked || current + 1 >= MAX_FAILED_ATTEMPTS)
              && (current + 1 >= MAX_FAILED_ATTEMPTS ==>
                    r.users[i].lockedUntil == Some(now + ACCOUNT_LOCK_DURATION))
    ensures forall i :: 0 <= i < |db.users| && db.users[i].userId != userId ==>
              r.users[i] == db.users[i]
  {
    db.(users := UpdateUser(db.users, userId, FailedAttemptPatch(current, now)))
  }

  function ResetFailedAttempts(db: Db, userId: string, now: int): (r: Db)
    ensures r.sessions == db.sessions && r.audit == db.audit
    ensures |r.users| == |db.users|
    ensures forall i :: 0 <= i < |db.users| && db.users[i].userId == userId ==>
              var v := r.users[i];
              v.failedAttempts == Some(0) && !v.isLocked && v.lockedUntil.None? && v.lastLogin == Some(now)
    ensures forall i :: 0 <= i < |db.users| && db.users[i].userId != userId ==>
              r.users[i] == db.users[i]
  {
    db.(users := UpdateUser(db.users, userId, LoginSucceeded(now)))
  }

  // ----- sessions -----

  /** A session row is usable at `now` when its absolute expiry has not
      passed and it has not been idle longer than SESSION_TIMEOUT. */
  predicate Live(s: SessionRow, now: int) {
    now <= s.expiresAt && now - s.lastActivity <= SESSION_TIMEOUT
  }

  /** Stores a new session for the user, expiring SESSION_TIMEOUT after
      `now`. `token` and `sessionId` stand for the generated token and the id
      the table assigns. */
  function CreateSession(db: Db, userId: string, token: string, sessionId: Json.Value, now: int): (r: Db)
    ensures r.users == db.users && r.audit == db.audit
    ensures |r.sessions| == |db.sessions| + 1 && r.sessions[..|db.sessions|] == db.sessions
    ensures var row := r.sessions[|db.sessions|];
            && row.sessionId == sessionId && row.userId == userId && row.token == token
            && row.expiresAt - row.lastActivity == SESSION_TIMEOUT && row.lastActivity == now
  {
    db.(sessions := db.sessions + [SessionRow(sessionId, userId, token, now + SESSION_TIMEOUT, now)])
  }

  /** The user a valid session belongs to, with the session's id attached. */
  datatype SessionUser = SessionUser(user: UserRow, sessionId: Json.Value)

  /** Looks the token up. An unknown token gives None; an expired session is
      deleted and gives None; a live one has its activity time refreshed and
      gives its user, if that user still exists. */
  function ValidateSession(db: Db, token: string, now: int): (res: (Option<SessionUser>, Db))
    ensures FindSession(db.sessions, token) == -1 ==> res == (None, db)
    ensures var i := FindSession(db.sessions, token);
            i >= 0 && !Live(db.sessions[i], now) ==>
              res.0.None? && res.1 == db.(sessions := DeleteSessions(db.sessions, token))
    ensures var i := FindSession(db.sessions, token);
            res.0.Some? ==>
              && i >= 0 && Live(db.sessions[i], now)
              && res.0.value.user.userId == db.sessions[i].userId
              && res.0.value.user in db.users
              && res.0.value.sessionId == db.sessions[i].sessionId
    ensures var i := FindSession(db.sessions, token);
            i >= 0 && Live(db.sessions[i], now) ==>
              res.1 == db.(sessions := TouchSessions(db.sessions, token, now))
    ensures var i := FindSession(db.sessions, token);
            i >= 0 && Live(db.sessions[i], now) && FindUserById(db.users, db.sessions[i].userId) >= 0 ==>
              res.0 == Some(SessionUser(db.users[FindUserById(db.users, db.sessions[i].userId)],
                                        db.sessions[i].sessionId))
  {
    var i := FindSession(db.sessions, token);
    if i == -1 then (None, db)
    else
      var s := db.sessions[i];
      if !Live(s, now) then (None, db.(sessions := DeleteSessions(db.sessions, token)))
      else
        var touched := db.(sessions := TouchSessions(db.sessions, token, now));
        var k := FindUserById(db.users, s.userId);
        if k == -1 then (None, touched)
        else (Some(SessionUser(db.users[k], s.sessionId)), touched)
  }

  /** A session just created for an existing user validates to that user,
      with the new session's id, up to SESSION_TIMEOUT after its creation
      and not later, provided no earlier row holds the same token. */
  lemma CreateThenValidate(db: Db, userId: string, token: string, sessionId: Json.Value, created: int, now: int)
    requires FindSession(db.sessions, token) == -1
    requires FindUserById(db.users, userId) >= 0
    ensures var r := ValidateSession(CreateSession(db, userId, token, sessionId, created), token, now).0;
            && (r.Some? <==> now <= created + SESSION_TIMEOUT)
            && (r.Some? ==> r.value == SessionUser(db.users[FindUserById(db.users, userId)], sessionId))
  {
    var row := SessionRow(sessionId, userId, token, created + SESSION_TIMEOUT, created);
    FindSessionAppended(db.sessions, row);
  }

  lemma {:induction false} FindSessionAppended(sessions: seq<SessionRow>, row: SessionRow)
    requires FindSession(sessions, row.token) == -1
    ensures FindSession(sessions + [row], row.token) == |sessions|
  {
    if |sessions| > 0 {
      assert (sessions + [row])[1..] == sessions[1..] + [row];
      FindSessionAppended(sessions[1..], row);
    }
  }

  /** When a session's activity time never precedes its creation (so it is
      at least `expiresAt - SESSION_TIMEOUT`), the inactivity clause adds
      nothing: the session is live exactly until its absolute expiry, however
      often it is used. */
  lemma InactivityNeverDecides(s: SessionRow, now: int)
    requires s.lastActivity >= s.expiresAt - SESSION_TIMEOUT
    ensures Live(s, now) <==> now <= s.expiresAt
  {
  }

  /** With a clock that never runs backwards, validation keeps the bound
      `InactivityNeverDecides` needs on every row: a refresh moves the
      activity time forward to `now`, and a delete only removes rows. */
  lemma {:induction false} ValidationKeepsActivityBound(db: Db, token: string, now: int)
    requires forall s :: s in db.sessions ==> s.expiresAt - SESSION_TIMEOUT <= s.lastActivity <= now
    ensures forall s :: s in ValidateSession(db, token, now).1.sessions ==>
              s.expiresAt - SESSION_TIMEOUT <= s.lastActivity <= now
  {
    var r := ValidateSession(db, token, now).1;
    var i := FindSession(db.sessions, token);
    if i >= 0 && Live(db.sessions[i], now) {
      forall s | s in r.sessions ensures s.expiresAt - SESSION_TIMEOUT <= s.lastActivity <= now {
        var j :| 0 <= j < |r.sessions| && r.sessions[j] == s;
        assert db.sessions[j] in db.sessions;
      }
    }
  }

  // ----- bearer tokens -----

  /** The token in an `Authorization` header: what follows a leading
      "Bearer " (seven characters). */
  function BearerToken(header: Option<string>): (t: Option<string>)
    ensures t.Some? <==> header.Some? && Text.StartsWith(header.value, "Bearer ")
  {
    if header.Some? && Text.StartsWith(header.value, "Bearer ") then Some(header.value[7..])
    else None
  }

  /** Extraction undoes "Bearer " + token, and a header yields a token only
      if it is exactly that. */
  lemma BearerRoundTrip(header: Option<string>, token: string)
    ensures BearerToken(Some("Bearer " + token)) == Some(token)
    ensures BearerToken(header) == Some(token) ==> header == Some("Bearer " + token)
  {
    if BearerToken(header) == Some(token) {
      assert header.value == header.value[..7] + header.value[7..];
    }
    assert ("Bearer " + token)[..7] == "Bearer ";
  }

  // ----- endpoints -----

  datatype Reply = Reply(status: Status, error: string, db: Db)

  /** The outcome of a login: the reply, and on success the new token and
      the public part of the user. */
  datatype LoginReply = LoginReply(status: Status, error: string, db: Db, token: Option<string>)

  /** The email as it is looked up and stored: lower-cased, then stripped.
      The key holds no upper-case ASCII letter and neither starts nor ends
      with whitespace; it is the lower-cased input less the whitespace at
      either end, and empty exactly when the input is all whitespace. */
  function NormalizeEmail(e: string): (r: string)
    ensures |r| <= |e|
    ensures forall k :: 0 <= k < |r| ==> !Text.IsAsciiUpper(r[k])
    ensures |r| > 0 ==> !Text.IsPySpace(r[0]) && !Text.IsPySpace(r[|r| - 1])
    ensures exists i :: Text.OccursAt(Text.Lower(e), r, i)
    ensures exists i :: Text.PaddedAt(Text.Lower(e), r, i, Text.IsPySpace)
    ensures r == "" <==> Text.AllSpace(e, Text.IsPySpace)
  {
    NormalizedHasNoUpper(e);
    LowerKeepsSpace(e);
    Text.PyStrip(Text.Lower(e))
  }

  /** Lower-casing turns no character into whitespace and no whitespace
      into anything else. */
  lemma LowerKeepsSpace(e: string)
    ensures Text.AllSpace(Text.Lower(e), Text.IsPySpace) <==> Text.AllSpace(e, Text.IsPySpace)
  {
    Text.LowerAt(e);
    assert forall k :: 0 <= k < |e| ==> (Text.IsPySpace(Text.Lower(e)[k]) <==> Text.IsPySpace(e[k]));
  }

  lemma NormalizedHasNoUpper(e: string)
    ensures forall k :: 0 <= k < |Text.PyStrip(Text.Lower(e))| ==>
              !Text.IsAsciiUpper(Text.PyStrip(Text.Lower(e))[k])
  {
    var l := Text.Lower(e);
    var r := Text.PyStrip(l);
    LowerHasNoUpper(e);
    var i :| Text.OccursAt(l, r, i);
    PieceHasNoUpper(l, r, i);
  }

  /** Lower-casing leaves no upper-case ASCII letter. */
  lemma LowerHasNoUpper(e: string)
    ensures forall k :: 0 <= k < |Text.Lower(e)| ==> !Text.IsAsciiUpper(Text.Lower(e)[k])
  {
    Text.LowerAt(e);
  }

  lemma PieceHasNoUpper(l: string, r: string, i: int)
    requires Text.OccursAt(l, r, i)
    requires forall k :: 0 <= k < |l| ==> !Text.IsAsciiUpper(l[k])
    ensures forall k :: 0 <= k < |r| ==> !Text.IsAsciiUpper(r[k])
  {
    assert forall k :: 0 <= k < |r| ==> r[k] == l[i + k];
  }

  /** An email that is already lower case and stripped is its own key. */
  lemma NormalizeEmailKeepsNormal(e: string)
    requires forall k :: 0 <= k < |e| ==> !Text.IsAsciiUpper(e[k])
    requires |e| > 0 ==> !Text.IsPySpace(e[0]) && !Text.IsPySpace(e[|e| - 1])
    ensures NormalizeEmail(e) == e
  {
    Text.LowerAt(e);
    assert Text.Lower(e) == e;
  }

  /** Normalising an already normalised email changes nothing. */
  lemma NormalizeEmailIdempotent(e: string)
    ensures NormalizeEmail(NormalizeEmail(e)) == NormalizeEmail(e)
  {
    var l := Text.Lower(e);
    var r := Text.PyStrip(l);
    var i :| Text.OccursAt(l, r, i);
    LowerOfSlice(e, r, i);
    Text.StripIdempotent(l, Text.IsPySpace);
  }

  /** A piece cut out of a lower-cased string is already lower case. */
  lemma LowerOfSlice(e: string, r: string, i: int)
    requires Text.OccursAt(Text.Lower(e), r, i)
    ensures Text.Lower(r) == r
  {
    var l := Text.Lower(e);
    Text.LowerAt(e);
    Text.LowerAt(r);
    assert forall k :: 0 <= k < |r| ==> r[k] == l[i + k] == Text.LowerChar(e[i + k]);
  }

  /** POST /auth/login. In order: a missing email or password is 400; an
      unknown email 401; a locked account 423 whatever the password; a
      deactivated account 401; a wrong password counts a failed attempt, then
      401; otherwise the counters are reset, a session is created and 200 is
      returned. `verify` stands for bcrypt's check of a password against a
      hash; `freshToken` and `sessionId` for the generated token and the
      id the table assigns. A failure while handling the request (a
      non-string email or password, a NULL attempt counter) gives 500 and
      keeps the writes already made. */
  function Login(db: Db, body: Option<Json.Row>, now: int, verify: (string, string) -> bool,
                 freshToken: string, sessionId: Json.Value): (r: LoginReply)
    ensures body.None? || !Json.Truthy(Json.Get(body.value, "email"))
            || !Json.Truthy(Json.Get(body.value, "password")) ==>
              r == LoginReply(BAD_REQUEST, MSG_CREDENTIALS_REQUIRED, db, None)
    ensures body.Some? && Json.Truthy(Json.Get(body.value, "password"))
            && Json.Get(body.value, "email").Str? && Json.Get(body.value, "email").s != ""
            && FindUserByEmail(db.users, NormalizeEmail(Json.Get(body.value, "email").s)) == -1 ==>
              r == LoginReply(UNAUTHORIZED, MSG_INVALID_CREDENTIALS, db, None)
    ensures body.Some? && Json.Truthy(Json.Get(body.value, "password"))
            && Json.Get(body.value, "email").Str? && Json.Get(body.value, "email").s != ""
            && FindUserByEmail(db.users, NormalizeEmail(Json.Get(body.value, "email").s)) >= 0 ==>
              r == CheckCredentials(db, db.users[FindUserByEmail(db.users, NormalizeEmail(Json.Get(body.value, "email").s))],
                                    Json.Get(body.value, "password"), now, verify, freshToken, sessionId)
    ensures r.status in {OK, BAD_REQUEST, UNAUTHORIZED, LOCKED, SERVER_ERROR}
    ensures r.status == OK <==> r.token == Some(freshToken)
    ensures r.status != OK ==> r.db.sessions == db.sessions
    ensures r.db.audit == db.audit
  {
    if body.None? || !Json.Truthy(Json.Get(body.value, "email"))
       || !Json.Truthy(Json.Get(body.value, "password")) then
      LoginReply(BAD_REQUEST, MSG_CREDENTIALS_REQUIRED, db, None)
    else match Json.Get(body.value, "email")
      case Str(e) =>
        var email := NormalizeEmail(e);
        var k := FindUserByEmail(db.users, email);
        if k == -1 then LoginReply(UNAUTHORIZED, MSG_INVALID_CREDENTIALS, db, None)
        else CheckCredentials(db, db.users[k], Json.Get(body.value, "password"), now, verify,
                              freshToken, sessionId)
      case _ => LoginReply(SERVER_ERROR, MSG_LOGIN_ERROR, db, None)
  }

  /** Login from the point where the user row `u` has been found. */
  function CheckCredentials(db: Db, u: UserRow, password: Json.Value, now: int,
                            verify: (string, string) -> bool,
                            freshToken: string, sessionId: Json.Value): (r: LoginReply)
    ensures u.isLocked && u.lockedUntil.Some? && now < u.lockedUntil.value ==>
              r == LoginReply(LOCKED, MSG_LOCKED, db, None)
    ensures r.status in {OK, UNAUTHORIZED, LOCKED, SERVER_ERROR}
    ensures r.status == OK <==> r.token == Some(freshToken)
    ensures r.status != OK ==> r.db.sessions == db.sessions
    ensures r.db.audit == db.audit
    ensures (!u.isLocked || (u.lockedUntil.Some? && u.lockedUntil.value <= now)) && u.isActive != Some(true) ==>
              && r.status == UNAUTHORIZED && r.error == MSG_DEACTIVATED
              && r.db.sessions == db.sessions && |r.db.users| == |db.users|
              && forall i :: 0 <= i < |db.users| ==>
                   r.db.users[i].failedAttempts == db.users[i].failedAttempts
                   && r.db.users[i].isActive == db.users[i].isActive
    ensures r.status == OK <==>
              && (!u.isLocked || (u.lockedUntil.Some? && u.lockedUntil.value <= now))
              && u.isActive == Some(true)
              && password.Str? && verify(password.s, u.password)
    ensures r.status == OK ==>
              r.db.sessions == db.sessions + [SessionRow(sessionId, u.userId, freshToken, now + SESSION_TIMEOUT, now)]
  {
    var (locked, db1) := IsAccountLocked(db, u, now);
    if locked then
      LoginReply(LOCKED, MSG_LOCKED, db, None)
    else if u.isActive != Some(true) then
      LoginReply(UNAUTHORIZED, MSG_DEACTIVATED, db1, None)
    else match password
      case Str(pw) =>
        if !verify(pw, u.password) then
          match u.failedAttempts
          case Some(n) =>
            LoginReply(UNAUTHORIZED, MSG_INVALID_CREDENTIALS,
                       IncrementFailedAttempts(db1, u.userId, n, now), None)
          case None => LoginReply(SERVER_ERROR, MSG_LOGIN_ERROR, db1, None)
        else
          var db2 := ResetFailedAttempts(db1, u.userId, now);
          LoginReply(OK, "", CreateSession(db2, u.userId, freshToken, sessionId, now), Some(freshToken))
      case _ => LoginReply(SERVER_ERROR, MSG_LOGIN_ERROR, db1, None)
  }

  /** A locked account is refused with 423 for every password, right or
      wrong, and nothing is written. */
  lemma LockedRefusesAnyPassword(db: Db, body: Json.Row, now: int, verify: (string, string) -> bool,
                                 freshToken: string, sessionId: Json.Value, e: string, k: int)
    requires Json.Get(body, "email") == Json.Str(e) && e != ""
    requires Json.Truthy(Json.Get(body, "password"))
    requires k == FindUserByEmail(db.users, NormalizeEmail(e)) && k >= 0
    requires db.users[k].isLocked && db.users[k].lockedUntil.Some? && now < db.users[k].lockedUntil.value
    ensures Login(db, Some(body), now, verify, freshToken, sessionId).status == LOCKED
    ensures Login(db, Some(body), now, verify, freshToken, sessionId).db == db
  {
    var r := CheckCredentials(db, db.users[k], Json.Get(body, "password"), now, verify, freshToken, sessionId);
    assert r.status == LOCKED && r.db == db;
    assert Login(db, Some(body), now, verify, freshToken, sessionId) == r;
  }

  /** A wrong password on an unlocked, active account counts one failed
      attempt and answers 401; the fifth consecutive one locks the account
      until fifteen minutes from now. */
  lemma WrongPasswordCounts(db: Db, u: UserRow, pw: string, now: int, verify: (string, string) -> bool,
                            freshToken: string, sessionId: Json.Value, n: int, i: int)
    requires !u.isLocked && u.isActive == Some(true) && u.failedAttempts == Some(n)
    requires !verify(pw, u.password)
    requires 0 <= i < |db.users| && db.users[i].userId == u.userId
    ensures var r := CheckCredentials(db, u, Json.Str(pw), now, verify, freshToken, sessionId);
            && r.status == UNAUTHORIZED
            && r.db.users[i].failedAttempts == Some(n + 1)
            && (r.db.users[i].isLocked <==> db.users[i].isLocked || n + 1 >= MAX_FAILED_ATTEMPTS)
            && (n + 1 >= MAX_FAILED_ATTEMPTS ==> r.db.users[i].lockedUntil == Some(now + ACCOUNT_LOCK_DURATION))
  {
  }

  /** The lock is lifted when it runs out, but the attempt counter is not
      reset: the first wrong password after the lock expires locks the
      account again for a full period. */
  lemma RelockAfterExpiry(db: Db, u: UserRow, pw: string, now: int, verify: (string, string) -> bool,
                          freshToken: string, sessionId: Json.Value, i: int)
    requires u.isLocked && u.lockedUntil.Some? && u.lockedUntil.value <= now
    requires u.isActive == Some(true) && u.failedAttempts.Some?
    requires u.failedAttempts.value >= MAX_FAILED_ATTEMPTS - 1
    requires !verify(pw, u.password)
    requires 0 <= i < |db.users| && db.users[i] == u
    ensures var r := CheckCredentials(db, u, Json.Str(pw), now, verify, freshToken, sessionId);
            && r.status == UNAUTHORIZED
            && r.db.users[i].isLocked
            && r.db.users[i].lockedUntil == Some(now + ACCOUNT_LOCK_DURATION)
  {
  }

  /** A successful login leaves the user's row with no failed attempts, no
      lock and the login time recorded. */
  lemma SuccessResetsCounters(db: Db, u: UserRow, pw: string, now: int, verify: (string, string) -> bool,
                              freshToken: string, sessionId: Json.Value, i: int)
    requires 0 <= i < |db.users| && db.users[i].userId == u.userId
    requires CheckCredentials(db, u, Json.Str(pw), now, verify, freshToken, sessionId).status == OK
    ensures var v := CheckCredentials(db, u, Json.Str(pw), now, verify, freshToken, sessionId).db.users[i];
            v.failedAttempts == Some(0) && !v.isLocked && v.lockedUntil.None? && v.lastLogin == Some(now)
  {
    var (locked, db1) := IsAccountLocked(db, u, now);
    assert |db1.users| == |db.users| && db1.users[i].userId == u.userId;
  }

  /** A successful login hands out a token that then validates, to the
      user the email names and the new session, until SESSION_TIMEOUT after
      the login. */
  lemma LoginThenValidate(db: Db, body: Json.Row, now: int, verify: (string, string) -> bool,
                          freshToken: string, sessionId: Json.Value, later: int)
    requires FindSession(db.sessions, freshToken) == -1
    requires Login(db, Some(body), now, verify, freshToken, sessionId).status == OK
    ensures Json.Get(body, "email").Str?
    ensures var k := FindUserByEmail(db.users, NormalizeEmail(Json.Get(body, "email").s));
            var r := Login(db, Some(body), now, verify, freshToken, sessionId);
            var v := ValidateSession(r.db, freshToken, later).0;
            && k >= 0
            && (v.Some? <==> later <= now + SESSION_TIMEOUT)
            && (v.Some? ==> v.value.user.userId == db.users[k].userId && v.value.sessionId == sessionId)
  {
    var e := Json.Get(body, "email").s;
    var k := FindUserByEmail(db.users, NormalizeEmail(e));
    CheckedThenValidate(db, k, Json.Get(body, "password"), now, verify, freshToken, sessionId, later);
  }

  /** The credential check's part of `LoginThenValidate`: a session created
      by a successful check validates to the checked user. */
  lemma CheckedThenValidate(db: Db, k: int, password: Json.Value, now: int, verify: (string, string) -> bool,
                            freshToken: string, sessionId: Json.Value, later: int)
    requires 0 <= k < |db.users|
    requires FindSession(db.sessions, freshToken) == -1
    requires CheckCredentials(db, db.users[k], password, now, verify, freshToken, sessionId).status == OK
    ensures var r := CheckCredentials(db, db.users[k], password, now, verify, freshToken, sessionId);
            var v := ValidateSession(r.db, freshToken, later).0;
            && (v.Some? <==> later <= now + SESSION_TIMEOUT)
            && (v.Some? ==> v.value.user.userId == db.users[k].userId && v.value.sessionId == sessionId)
  {
    var u := db.users[k];
    var (locked, db1) := IsAccountLocked(db, u, now);
    var db2 := ResetFailedAttempts(db1, u.userId, now);
    assert |db1.users| == |db.users| && db1.users[k].userId == u.userId;
    assert db2.users[k].userId == u.userId;
    CreateThenValidate(db2, u.userId, freshToken, sessionId, now, later);
  }

  /** POST /auth/logout: with a bearer token, the sessions holding it are
      deleted; 200 either way. `fault` stands for the delete raising a
      database error, which is caught and answered with 500 and no write. */
  function Logout(db: Db, header: Option<string>, fault: bool): (r: Reply)
    ensures r.status in {OK, SERVER_ERROR}
    ensures r.status == SERVER_ERROR <==> BearerToken(header).Some? && fault
    ensures r.status == SERVER_ERROR ==> r.db == db
    ensures BearerToken(header).None? ==> r.db == db
    ensures r.status == OK && BearerToken(header).Some? ==>
              forall s :: s in r.db.sessions ==> s.token != BearerToken(header).value
    ensures forall s :: s in db.sessions && (r.status != OK || BearerToken(header).None? || s.token != BearerToken(header).value)
              ==> s in r.db.sessions
    ensures forall s :: s in r.db.sessions ==> s in db.sessions
  {
    match BearerToken(header)
    case Some(t) =>
      if fault then Reply(SERVER_ERROR, "An error occurred during logout", db)
      else Reply(OK, "", db.(sessions := DeleteSessions(db.sessions, t)))
    case None => Reply(OK, "", db)
  }

  /** The user data returned by the validate endpoint. */
  function UserInfo(su: SessionUser): (r: Json.Row)
    ensures r.Keys == {"user_id", "email", "name", "role", "department", "superior", "session_id"}
    ensures r["user_id"] == Json.Str(su.user.userId) && r["session_id"] == su.sessionId
  {
    map["user_id" := Json.Str(su.user.userId), "email" := Json.Str(su.user.email),
        "name" := su.user.name, "role" := su.user.role, "department" := su.user.department,
        "superior" := su.user.superior, "session_id" := su.sessionId]
  }

  datatype ValidateReply = ValidateReply(status: Status, user: Option<Json.Row>, db: Db)

  /** GET /auth/validate: 401 without a bearer token or for an invalid
      session; otherwise 200 with the user's public data. */
  function ValidateEndpoint(db: Db, header: Option<string>, now: int): (r: ValidateReply)
    ensures BearerToken(header).None? ==> r == ValidateReply(UNAUTHORIZED, None, db)
    ensures r.status == OK <==> r.user.Some?
    ensures r.status in {OK, UNAUTHORIZED}
    ensures BearerToken(header).Some? ==>
              var i := FindSession(db.sessions, BearerToken(header).value);
              (r.status == OK <==>
                 i >= 0 && Live(db.sessions[i], now) && FindUserById(db.users, db.sessions[i].userId) >= 0)
    ensures r.status == OK ==>
              var i := FindSession(db.sessions, BearerToken(header).value);
              var k := FindUserById(db.users, db.sessions[i].userId);
              r.user == Some(UserInfo(SessionUser(db.users[k], db.sessions[i].sessionId)))
  {
    match BearerToken(header)
    case None => ValidateReply(UNAUTHORIZED, None, db)
    case Some(t) =>
      var (su, db1) := ValidateSession(db, t, now);
      match su
      case None => ValidateReply(UNAUTHORIZED, None, db1)
      case Some(x) => ValidateReply(OK, Some(UserInfo(x)), db1)
  }

  /** POST /auth/audit-log: 401 without a bearer token or for an invalid
      session (checked before the body, so the session is refreshed even when
      the body is then refused); 400 without a truthy `event_type`; otherwise
      one audit row is appended and 201 returned. */
  function AuditLog(db: Db, header: Option<string>, body: Option<Json.Row>, now: int): (r: Reply)
    ensures BearerToken(header).None? ==> r.status == UNAUTHORIZED && r.db == db
    ensures r.status in {CREATED, BAD_REQUEST, UNAUTHORIZED}
    ensures r.status == CREATED <==>
              && BearerToken(header).Some?
              && ValidateSession(db, BearerToken(header).value, now).0.Some?
              && body.Some? && Json.Truthy(Json.Get(body.value, "event_type"))
    ensures r.status == CREATED ==>
              && |r.db.audit| == |db.audit| + 1
              && r.db.audit[..|db.audit|] == db.audit
              && r.db.audit[|db.audit|].eventType == Json.Get(body.value, "event_type")
    ensures r.status != CREATED ==> r.db.audit == db.audit
  {
    match BearerToken(header)
    case None => Reply(UNAUTHORIZED, "No valid session token provided", db)
    case Some(t) =>
      var (su, db1) := ValidateSession(db, t, now);
      if su.None? then Reply(UNAUTHORIZED, "Invalid or expired session", db1)
      else if body.None? || !Json.Truthy(Json.Get(body.value, "event_type")) then
        Reply(BAD_REQUEST, "event_type is required", db1)
      else
        var row := body.value;
        var entry := AuditRow(su.value.user.userId, su.value.sessionId, Json.Get(row, "event_type"),
                              Json.GetOr(row, "event_description", Json.Str("")),
                              Json.GetOr(row, "metadata", Json.Obj(map[])));
        assert (db1.audit + [entry])[..|db.audit|] == db.audit;
        Reply(CREATED, "", db1.(audit := db1.audit + [entry]))
  }

  /** Each of email, password and name is present and truthy. */
  predicate HasRequiredFields(row: Json.Row) {
    Json.Truthy(Json.Get(row, "email")) && Json.Truthy(Json.Get(row, "password"))
    && Json.Truthy(Json.Get(row, "name"))
  }

  /** POST /auth/register: a missing body is a server error; each of
      email, password and name must be present and truthy (400); a taken
      normalised email is 409; otherwise the user is stored active, with
      role `user` unless one is given, and 201 returned. `hash` stands for
      bcrypt hashing and `newId` for the id the table assigns; the columns
      the insert leaves out are taken as an unlocked account with no failed
      attempts. */
  function Register(db: Db, body: Option<Json.Row>, hash: string -> string, newId: string): (r: Reply)
    ensures body.None? ==> r.status == SERVER_ERROR && r.db == db
    ensures body.Some? && !HasRequiredFields(body.value) ==> r == Reply(BAD_REQUEST, MSG_REGISTRATION_FIELDS, db)
    ensures r.status == CREATED ==>
              && |r.db.users| == |db.users| + 1
              && var u := r.db.users[|db.users|];
                 && u.isActive == Some(true)
                 && Json.Get(body.value, "email").Str?
                 && u.email == NormalizeEmail(Json.Get(body.value, "email").s)
                 && FindUserByEmail(db.users, u.email) == -1
                 && u.role == Json.GetOr(body.value, "role", Json.Str("user"))
    ensures r.status == CONFLICT <==>
              && body.Some? && HasRequiredFields(body.value) && Json.Get(body.value, "email").Str?
              && FindUserByEmail(db.users, NormalizeEmail(Json.Get(body.value, "email").s)) != -1
    ensures r.status == CREATED <==>
              && body.Some? && HasRequiredFields(body.value)
              && Json.Get(body.value, "email").Str? && Json.Get(body.value, "password").Str?
              && FindUserByEmail(db.users, NormalizeEmail(Json.Get(body.value, "email").s)) == -1
    ensures r.status != CREATED ==> r.db == db
    ensures r.status in {CREATED, BAD_REQUEST, CONFLICT, SERVER_ERROR}
  {
    if body.None? then Reply(SERVER_ERROR, MSG_REGISTRATION_ERROR, db)
    else
      var row := body.value;
      if !HasRequiredFields(row) then
        Reply(BAD_REQUEST, MSG_REGISTRATION_FIELDS, db)
      else match Json.Get(row, "email")
        case Str(e) =>
          var email := NormalizeEmail(e);
          if FindUserByEmail(db.users, email) != -1 then Reply(CONFLICT, "User already exists", db)
          else if !Json.Get(row, "password").Str? then Reply(SERVER_ERROR, MSG_REGISTRATION_ERROR, db)
          else
            var u := UserRow(newId, email, hash(Json.Get(row, "password").s), Json.Get(row, "name"),
                             Json.GetOr(row, "role", Json.Str("user")), Json.Get(row, "department"),
                             Json.Get(row, "superior"), Some(true), false, None, Some(0), None);
            Reply(CREATED, "", db.(users := db.users + [u]))
        case _ => Reply(SERVER_ERROR, MSG_REGISTRATION_ERROR, db)
  }

  /** Registering an email no row claims yet succeeds, and logging in
      afterwards with the same credentials (any capitalisation or
      surrounding whitespace of the email) succeeds when the stored hash
      verifies. */
  lemma RegisterThenLogin(db: Db, body: Json.Row, e: string, pw: string, verify: (string, string) -> bool,
                          hash: string -> string, newId: string, now: int, freshToken: string, sessionId: Json.Value)
    requires Json.Get(body, "email") == Json.Str(e) && Json.Get(body, "password") == Json.Str(pw)
    requires e != "" && pw != "" && Json.Truthy(Json.Get(body, "name"))
    requires verify(pw, hash(pw))
    requires FindUserByEmail(db.users, NormalizeEmail(e)) == -1
    ensures Register(db, Some(body), hash, newId).status == CREATED
    ensures Login(Register(db, Some(body), hash, newId).db, Some(body), now, verify, freshToken, sessionId).status == OK
  {
    var db1 := Register(db, Some(body), hash, newId).db;
    var email := NormalizeEmail(e);
    assert db1.users == db.users + [db1.users[|db.users|]];
    FindAppended(db.users, db1.users[|db.users|], email);
  }

  lemma {:induction false} FindAppended(users: seq<UserRow>, u: UserRow, email: string)
    requires FindUserByEmail(users, email) == -1 && u.email == email
    ensures FindUserByEmail(users + [u], email) == |users|
  {
    if |users| > 0 {
      assert (users + [u])[1..] == users[1..] + [u];
      FindAppended(users[1..], u, email);
    }
  }
}

=== FILE: user_service.dfy ===
/** The user service: the current user's profile, found through the session
    token or, without one, through a configured fallback user id. It applies
    the same session rule as the authentication service (absolute expiry
    and inactivity timeout, both fifteen minutes, so `UserAuthentication.Live`
    is reused) to the shared `user_sessions` table; its `user` table rows are
    plain dicts. */
module UserService {
  import opened Common
  import Json
  import UserAuthentication

  type SessionRow = UserAuthentication.SessionRow

  datatype Db = Db(users: seq<Json.Row>, sessions: seq<SessionRow>)

  /** The keys of a user in the API. */
  const USER_KEYS: seq<string> :=
    ["user_id", "name", "email", "role", "department", "is_active", "created_at", "updated_at"]

  /** A user row in API form: exactly the eight API keys, each taken from
      the row with absent columns as None. */
  function MapDbRowToApi(row: Json.Row): (r: Json.Row)
    ensures r.Keys == {"user_id", "name", "email", "role", "department", "is_active", "created_at", "updated_at"}
    ensures forall k :: k in r ==> r[k] == Json.Get(row, k)
  {
    Json.Project(row, USER_KEYS)
  }

  /** Index of the first user row whose `user_id` is `id`, or -1. */
  function FindUser(users: seq<Json.Row>, id: string): (i: int)
    ensures -1 <= i < |users|
    ensures i >= 0 ==> Json.Get(users[i], "user_id") == Json.Str(id)
    ensures i == -1 ==> forall j :: 0 <= j < |users| ==> Json.Get(users[j], "user_id") != Json.Str(id)
  {
    FirstIndex(users, (row: Json.Row) => Json.Get(row, "user_id") == Json.Str(id))
  }

  /** Looks the token up and returns the session's user row. An unknown
      token gives None; an expired or idle session is deleted and gives None;
      a live one has its activity time refreshed. `fault` stands for a
      database or timestamp-parsing error, which is caught and also gives
      None, with nothing written. */
  function ValidateSession(db: Db, token: string, now: int, fault: bool): (res: (Option<Json.Row>, Db))
    ensures fault ==> res == (None, db)
    ensures UserAuthentication.FindSession(db.sessions, token) == -1 ==> res == (None, db)
    ensures var i := UserAuthentication.FindSession(db.sessions, token);
            !fault && i >= 0 && !UserAuthentication.Live(db.sessions[i], now) ==>
              && res.0.None?
              && res.1.users == db.users
              && (forall s :: s in res.1.sessions ==> s.token != token)
              && (forall s :: s in db.sessions && s.token != token ==> s in res.1.sessions)
    ensures res.0.Some? ==>
              var i := UserAuthentication.FindSession(db.sessions, token);
              && i >= 0 && UserAuthentication.Live(db.sessions[i], now)
              && res.0.value in db.users
              && Json.Get(res.0.value, "user_id") == Json.Str(db.sessions[i].userId)
    ensures var i := UserAuthentication.FindSession(db.sessions, token);
            !fault && i >= 0 && UserAuthentication.Live(db.sessions[i], now) ==>
              && res.1.users == db.users
              && |res.1.sessions| == |db.sessions|
              && (forall j :: 0 <= j < |db.sessions| ==>
                    res.1.sessions[j] == if db.sessions[j].token == token
                                         then db.sessions[j].(lastActivity := now) else db.sessions[j])
              && (FindUser(db.users, db.sessions[i].userId) >= 0 ==>
                    res.0 == Some(db.users[FindUser(db.users, db.sessions[i].userId)]))
  {
    if fault then (None, db)
    else
      var i := UserAuthentication.FindSession(db.sessions, token);
      if i == -1 then (None, db)
      else
        var s := db.sessions[i];
        if !UserAuthentication.Live(s, now) then
          (None, db.(sessions := UserAuthentication.DeleteSessions(db.sessions, token)))
        else
          var touched := db.(sessions := UserAuthentication.TouchSessions(db.sessions, token, now));
          var k := FindUser(db.users, s.userId);
          if k == -1 then (None, touched) else (Some(db.users[k]), touched)
  }

  /** A session the authentication service has just stored for an existing
      user is accepted here too, for that user, until SESSION_TIMEOUT after
      its creation and not later: both services apply the same rule to the
      shared table. */
  lemma SessionFromLoginValidates(users: seq<Json.Row>, sessions: seq<SessionRow>, userId: string,
                                  token: string, sessionId: Json.Value, created: int, now: int)
    requires UserAuthentication.FindSession(sessions, token) == -1
    requires FindUser(users, userId) >= 0
    ensures var authDb := UserAuthentication.Db([], sessions, []);
            var stored := UserAuthentication.CreateSession(authDb, userId, token, sessionId, created).sessions;
            var r := ValidateSession(Db(users, stored), token, now, false).0;
            (r.Some? <==> now <= created + UserAuthentication.SESSION_TIMEOUT)
            && (r.Some? ==> r.value == users[FindUser(users, userId)])
  {
    var row := UserAuthentication.SessionRow(sessionId, userId, token, created + UserAuthentication.SESSION_TIMEOUT, created);
    UserAuthentication.FindSessionAppended(sessions, row);
  }

  datatype Reply = Reply(status: Status, body: Json.Row, db: Db)

  /** GET /user. Without a bearer token: the configured fallback user (404
      when that row is missing), or 401 when no fallback is configured. With
      one: 401 for an invalid session, otherwise the session's user. `fault`
      stands for a database error: inside session validation it is caught
      and reads as an invalid session, while on the fallback query it
      reaches the handler's own `except` and gives 500. */
  function GetCurrentUser(db: Db, header: Option<string>, currentUserId: Option<string>,
                          now: int, fault: bool): (r: Reply)
    ensures UserAuthentication.BearerToken(header).None? && (currentUserId.None? || currentUserId.value == "") ==>
              r.status == UNAUTHORIZED
    ensures UserAuthentication.BearerToken(header).None? && currentUserId.Some? && currentUserId.value != "" ==>
              && (r.status == SERVER_ERROR <==> fault)
              && (r.status == NOT_FOUND <==> !fault && FindUser(db.users, currentUserId.value) == -1)
              && (r.status == OK ==>
                    "user" in r.body && r.body["user"] == Json.Obj(MapDbRowToApi(db.users[FindUser(db.users, currentUserId.value)])))
    ensures UserAuthentication.BearerToken(header).Some? ==>
              var t := UserAuthentication.BearerToken(header).value;
              var i := UserAuthentication.FindSession(db.sessions, t);
              (r.status == OK <==>
                 && !fault && i >= 0 && UserAuthentication.Live(db.sessions[i], now)
                 && FindUser(db.users, db.sessions[i].userId) >= 0
                 && |db.users[FindUser(db.users, db.sessions[i].userId)]| > 0)
              && (r.status == OK ==>
                    "user" in r.body
                    && r.body["user"] == Json.Obj(MapDbRowToApi(db.users[FindUser(db.users, db.sessions[i].userId)])))
    ensures UserAuthentication.BearerToken(header).Some? ==> r.status in {OK, UNAUTHORIZED}
    ensures r.status in {OK, UNAUTHORIZED, NOT_FOUND, SERVER_ERROR}
    ensures r.status == OK ==>
              "user" in r.body && r.body["user"].Obj?
              && r.body["user"].fields.Keys == {"user_id", "name", "email", "role", "department", "is_active", "created_at", "updated_at"}
    ensures UserAuthentication.BearerToken(header).None? ==> r.db == db
  {
    match UserAuthentication.BearerToken(header)
    case None =>
      if currentUserId.Some? && currentUserId.value != "" then
        var k := FindUser(db.users, currentUserId.value);
        if fault then Reply(SERVER_ERROR, map["error" := Json.Str("database error")], db)
        else if k == -1 then
          Reply(NOT_FOUND, map["error" := Json.Str("User not found"), "user_id" := Json.Str(currentUserId.value)], db)
        else Reply(OK, map["user" := Json.Obj(MapDbRowToApi(db.users[k]))], db)
      else Reply(UNAUTHORIZED, map["error" := Json.Str("No valid session token provided")], db)
    case Some(t) =>
      var (row, db1) := ValidateSession(db, t, now, fault);
      if row.None? || |row.value| == 0 then
        Reply(UNAUTHORIZED, map["error" := Json.Str("Invalid or expired session")], db1)
      else Reply(OK, map["user" := Json.Obj(MapDbRowToApi(row.value))], db1)
  }
}
